=== FILE: README.md ===
# ArxRiver source generators, modelled in Dafny

ArxRiver.SourceGenerator is a set of Roslyn incremental source generators.
A C# type carrying a marker attribute gets a generated companion:

- a fluent builder class (`AutoClassBuilder`);
- fluent `With{Name}` setters with a validation rule (`FluentClass`);
- a `Deconstruct` extension method;
- four clone methods (`Cloneable`);
- a task manager (`AutoTaskManager`);
- an NLog logger (`PsLogger`).

The repository's build script also holds a version-number bump.

This project models the deterministic core of those generators. Compiler
symbols become plain datatypes (`Symbols`). The models the generators pass
between stages become records (`Models`). A generator run becomes list
processing over those records (`Pipelines` and one module per generator).
The generated text becomes a sequence of `(indent, text)` lines (`TextWriter`,
`Emission`).

For each emitter the model states two things:

- which members it writes, and in what order;
- what the emitted code does when it runs: the builder's `Build`, the fluent
  `Validate`, the deconstruct null guard and assignment, and the clone
  reference chain (`ClassBuilderRuntime`, `FluentRuntime`, `Deconstruct.Exec`,
  `CloneRuntime`).

An exception the source throws is an `Err` of the `Result` type in `Wrappers`.
Integers are unbounded. Where the source uses 32-bit `int` arithmetic
(`int.TryParse`, the version bump's increments), the model reduces explicitly
with `Numbers.Wrap32`.

The logger text emitters, the Json extension emitter and the task-manager
emitter are written around NLog and task code that is not part of this model.
They are parameters of the functions that call them.

The model follows the code in three places where a reader might expect otherwise:

- `DeepClone` and `DeepCloneSafe` clone a nested object with its shallow `Clone`
  or `SafeClone`, so deep cloning goes one level down, not recursively.
- `ContainingNamespace` is recorded as `ContainingNamespace.ToString()`. That is
  never null for a declared type; a type in the global namespace prints
  "<global namespace>". So every generator writes the `using`/`namespace`
  preamble. The null branch of the emitters is modelled (`Emission.FileScopedNamespace`)
  but no generator reaches it.
- The `ExcludeProperty` flag of a property model is computed from the
  attribute's full display name. `HasExcludeAttribute` uses the short name.
  The two tests can disagree (`PropertyModelExtensions.ExcludeTestsDisagree`).

## Model

| member | source | states |
|---|---|---|
| StringExtensions.ToCamelCase | src/ArxRiver.SourceGenerator/Extensions/StringExtensions.cs:14-18 | the empty string stays empty, and the result is never longer than the input |
| StringExtensions.CamelPlainName | src/ArxRiver.SourceGenerator/Extensions/StringExtensions.cs:16-17 | a non-empty name with no `_` and no space only has its first character lower-cased |
| StringExtensions.CamelUnderscore | src/ArxRiver.SourceGenerator/Extensions/StringExtensions.cs:16 | an `_` followed by a character other than a line feed is dropped and that character upper-cased |
| StringExtensions.CamelSpaces | src/ArxRiver.SourceGenerator/Extensions/StringExtensions.cs:16 | a run of spaces followed by a character is dropped and that character upper-cased |
| StringExtensions.CamelCopiesPlainPrefix | src/ArxRiver.SourceGenerator/Extensions/StringExtensions.cs:16 | away from the start, characters that are neither `_` nor space are copied unchanged |
| StringExtensions.CamelFirstName | src/ArxRiver.SourceGenerator/Extensions/StringExtensions.cs:14-18 | "FirstName" becomes "firstName" |
| StringExtensions.CamelSnakeCase | src/ArxRiver.SourceGenerator/Extensions/StringExtensions.cs:14-18 | "first_name" becomes "firstName" |
| StringExtensions.TrimStartBy | src/ArxRiver.SourceGenerator/Extensions/StringExtensions.cs:29 | the result is a suffix of the input; everything dropped is in the set; the first kept character is not |
| StringExtensions.TrimEndBy | src/ArxRiver.SourceGenerator/Extensions/StringExtensions.cs:41 | the result is a prefix of the input; everything dropped is in the set; the last kept character is not |
| StringExtensions.RemoveLeadingCharacters | src/ArxRiver.SourceGenerator/Extensions/StringExtensions.cs:26-29 | null or empty input comes back unchanged; otherwise the trimmed input with its leading run of the given characters removed |
| StringExtensions.RemoveTrailingCharacters | src/ArxRiver.SourceGenerator/Extensions/StringExtensions.cs:38-41 | null or empty input comes back unchanged; otherwise the trimmed input with its trailing run of the given characters removed |
| StringExtensions.RemoveLeadingRun | src/ArxRiver.SourceGenerator/Extensions/StringExtensions.cs:22-29 | a run of the given characters before a trimmed text is removed exactly, e.g. ",..Hello" to "Hello" |
| StringExtensions.RemoveTrailingRun | src/ArxRiver.SourceGenerator/Extensions/StringExtensions.cs:38-41 | a run of the given characters after a trimmed text is removed exactly |
| StringExtensions.TrimStartByStopsAt | src/ArxRiver.SourceGenerator/Extensions/StringExtensions.cs:29 | stripping a leading run stops at the first character outside the set |
| StringExtensions.TrimEndByStopsAt | src/ArxRiver.SourceGenerator/Extensions/StringExtensions.cs:41 | stripping a trailing run stops at the last character outside the set |
| StringExtensions.TrimUntouched | src/ArxRiver.SourceGenerator/Extensions/StringExtensions.cs:29 | a string with no white space at either end is its own trim |
| StringExtensions.ToSafeClassName | src/ArxRiver.SourceGenerator/Extensions/StringExtensions.cs:44 | same length; each of `,` `<` `>` becomes `_`; every other character is kept; none of the three is left |
| StringExtensions.SafeClassNameIdempotent | src/ArxRiver.SourceGenerator/Extensions/StringExtensions.cs:44 | applying it twice gives the same as once |
| NamingContext.Create | src/ArxRiver.SourceGenerator/Generators/VariableNamingContext.cs:17-18 | a fresh context holds the parameter names and no variables |
| NamingContext.Candidate | src/ArxRiver.SourceGenerator/Generators/VariableNamingContext.cs:26-32 | attempt 0 is the name itself, attempt k > 0 is the name followed by k |
| NamingContext.CandidateInjective | src/ArxRiver.SourceGenerator/Generators/VariableNamingContext.cs:32 | different attempts give different names |
| NamingContext.TriedStep | src/ArxRiver.SourceGenerator/Generators/VariableNamingContext.cs:30-33 | each attempt adds one name not tried before |
| NamingContext.TryingShrinks | src/ArxRiver.SourceGenerator/Generators/VariableNamingContext.cs:30-33 | a colliding attempt leaves fewer colliding names untried, so the probing loop terminates |
| NamingContext.FreeIndex | src/ArxRiver.SourceGenerator/Generators/VariableNamingContext.cs:30-33 | the first attempt from k on that collides with no parameter and no earlier requested name |
| NamingContext.Lookup | src/ArxRiver.SourceGenerator/Generators/VariableNamingContext.cs:20-39 | a remembered name comes back unchanged; otherwise the first free attempt is stored and returned; a name that collides with nothing is returned as is; the result is never a parameter name |
| NamingContext.Get | src/ArxRiver.SourceGenerator/Generators/VariableNamingContext.cs:24-37 | the probing loop computes exactly the lookup's answer and new state |
| NamingContext.FirstFreeIsFreeIndex | src/ArxRiver.SourceGenerator/Generators/VariableNamingContext.cs:30-33 | the smallest non-colliding suffix is the one chosen |
| NamingContext.LookupMemoised | src/ArxRiver.SourceGenerator/Generators/VariableNamingContext.cs:24-35 | asking again for the same name gives the same answer and changes nothing |
| NamingContext.LookupAll | src/ArxRiver.SourceGenerator/Generators/VariableNamingContext.cs:20-39 | from a valid context, no sequence of lookups hands out a parameter name |
| NamingContext.FreshIsValid | src/ArxRiver.SourceGenerator/Generators/VariableNamingContext.cs:17-18 | a fresh context has handed out no parameter name |
| NamingContext.KeysOnlyCollision | src/ArxRiver.SourceGenerator/Generators/VariableNamingContext.cs:30 | the collision test reads requested names, not generated ones: with parameter "x", asking for "x" then "x1" hands out "x1" twice |
| TextWriter.Create | src/ArxRiver.SourceGenerator/Extensions/IndentedTextWriterExtensions.cs:10-14 | a new writer has no lines, indent 0 and the given tab string |
| TextWriter.WriteLine | src/ArxRiver.SourceGenerator/Extensions/IndentedTextWriterExtensions.cs:45 | appends one line at the current indent and changes nothing else |
| TextWriter.SetIndent | src/ArxRiver.SourceGenerator/Extensions/IndentedTextWriterExtensions.cs:20-23 | a negative level becomes 0; the lines are kept |
| TextWriter.RenderLine | src/ArxRiver.SourceGenerator/Extensions/IndentedTextWriterExtensions.cs:45 | the written text is one tab string per level, the text and a newline |
| TextWriter.StripTemplate | src/ArxRiver.SourceGenerator/Extensions/IndentedTextWriterExtensions.cs:31-37 | counts the leading repetitions of the template indentation, compared ignoring case, and leaves a rest that does not start with one |
| TextWriter.StripRepeat | src/ArxRiver.SourceGenerator/Extensions/IndentedTextWriterExtensions.cs:33-37 | n copies of the template followed by a non-template rest strip to (n, rest) |
| TextWriter.ReindentCount | src/ArxRiver.SourceGenerator/Extensions/IndentedTextWriterExtensions.cs:29-42 | n copies of the template indentation become n copies of the tab string; the rest is kept |
| TextWriter.StripVariants | src/ArxRiver.SourceGenerator/Extensions/IndentedTextWriterExtensions.cs:33-37 | copies of the template in any mix of upper and lower case, followed by a rest that does not start with the template, strip to (their count, rest) |
| TextWriter.ReindentVariants | src/ArxRiver.SourceGenerator/Extensions/IndentedTextWriterExtensions.cs:29-42 | copies of the template in any case become that many tab strings; the rest is kept |
| TextWriter.WriteLines | src/ArxRiver.SourceGenerator/Extensions/IndentedTextWriterExtensions.cs:16-52 | one line per newline-separated piece, empty pieces included, in order, each re-indented, at the indent raised by a positive indentation; the writer's indent is restored |
| TextWriter.ReindentAll | src/ArxRiver.SourceGenerator/Extensions/IndentedTextWriterExtensions.cs:25-43 | re-indents every piece; with the template equal to the tab string, every piece is kept |
| TextWriter.WriteLinesVerbatim | src/ArxRiver.SourceGenerator/Extensions/IndentedTextWriterExtensions.cs:29 | with the template equal to the tab string, the lines are the split content unchanged |
| TextWriter.ArrayItem | src/ArxRiver.SourceGenerator/Extensions/IndentedTextWriterExtensions.cs:62-64 | every element but the last gets a trailing comma; the last is unchanged |
| TextWriter.WriteArray | src/ArxRiver.SourceGenerator/Extensions/IndentedTextWriterExtensions.cs:55-66 | null or empty writes nothing; otherwise one line per element, in order, commas after all but the last |
| TextWriter.ArrayItemsJoin | src/ArxRiver.SourceGenerator/Extensions/IndentedTextWriterExtensions.cs:60-65 | the lines run together are the elements joined by commas |
| StringBuilder.SpaceString | src/ArxRiver.SourceGenerator/Extensions/StringBuilderExtensions.cs:8 | throws for a negative count; otherwise exactly that many spaces |
| StringBuilder.AppendIndented | src/ArxRiver.SourceGenerator/Extensions/StringBuilderExtensions.cs:7-10 | appends exactly the spaces, the value and one newline, or throws for a negative count |
| StringBuilder.AppendLines | src/ArxRiver.SourceGenerator/Extensions/StringBuilderExtensions.cs:17-20 | an empty sequence appends one newline; the buffer is kept as a prefix and the text ends with a newline |
| StringBuilder.AppendLinesSplits | src/ArxRiver.SourceGenerator/Extensions/StringBuilderExtensions.cs:17-20 | the appended block splits back into the values at the postfix and line break: the separator goes only between items |
| StringBuilder.Indented | src/ArxRiver.SourceGenerator/Extensions/StringBuilderExtensions.cs:14 | every value behind the same number of spaces |
| StringBuilder.AppendIndentedLines | src/ArxRiver.SourceGenerator/Extensions/StringBuilderExtensions.cs:12-15 | throws exactly for a negative count with values; otherwise the indented values appended as by `AppendLines` |
| StringBuilder.AppendWithPrefixedTab | src/ArxRiver.SourceGenerator/Extensions/StringBuilderExtensions.cs:22-25 | appends a tab, the value and a newline, nothing else |
| StringBuilder.AppendWithSuffixedTab | src/ArxRiver.SourceGenerator/Extensions/StringBuilderExtensions.cs:27-30 | appends the value, a tab and a newline, nothing else |
| BuilderHelpers.UsingDirectives | src/ArxRiver.SourceGenerator/Extensions/ClassbuilderHelpers.cs:11 | one `using X;` per namespace, in order |
| BuilderHelpers.UsingDirectiveInjective | src/ArxRiver.SourceGenerator/Extensions/ClassbuilderHelpers.cs:11 | different namespaces give different directives |
| BuilderHelpers.WriteUsings | src/ArxRiver.SourceGenerator/Extensions/ClassbuilderHelpers.cs:10-11 | writes exactly one line at the current indent and keeps the earlier lines |
| BuilderHelpers.UsingsAreDistinct | src/ArxRiver.SourceGenerator/Extensions/ClassbuilderHelpers.cs:10-11 | read back at its line breaks, the text holds one directive per distinct namespace, in first-occurrence order, none twice |
| BuilderHelpers.WriteNullableOptions | src/ArxRiver.SourceGenerator/Extensions/ClassbuilderHelpers.cs:23-27 | appends `#nullable enable` and one empty line, nothing else |
| BuilderHelpers.WriteStartBracket | src/ArxRiver.SourceGenerator/Extensions/ClassbuilderHelpers.cs:18-21 | appends exactly one line, `{` |
| BuilderHelpers.WriteEndBracket | src/ArxRiver.SourceGenerator/Extensions/ClassbuilderHelpers.cs:13-16 | appends exactly one line, `}` |
| Namespaces.GetName | src/ArxRiver.SourceGenerator/Extensions/NamespaceSymbolExtensions.cs:12-13 | null gives the empty string, otherwise the display name |
| Namespaces.ContainsReflexive | src/ArxRiver.SourceGenerator/Extensions/NamespaceSymbolExtensions.cs:9-10 | every namespace contains itself |
| Namespaces.ContainsTransitive | src/ArxRiver.SourceGenerator/Extensions/NamespaceSymbolExtensions.cs:9-10 | containment chains |
| Namespaces.ContainsNull | src/ArxRiver.SourceGenerator/Extensions/NamespaceSymbolExtensions.cs:9-13 | every namespace contains the null namespace |
| Namespaces.ContainsIsTextual | src/ArxRiver.SourceGenerator/Extensions/NamespaceSymbolExtensions.cs:9-10 | containment is substring search, not hierarchy: "FooBar" contains "Bar", "Foo" does not contain "Foo.Bar" |
| Models.ExcludeDefaultsToFalse | src/ArxRiver.SourceGenerator/Models/PropertySymbolModel.cs:5 | `ExcludeProperty` defaults to false and is part of the record's equality |
| Models.TypeModelIdentity | src/ArxRiver.SourceGenerator/Models/TypeSymbolModel.cs:7-16 | partiality and the property list are part of a type model's identity |
| Constants.MarkersAreConsistent | src/ArxRiver.SourceGenerator/Configuration/GeneratorConstants.cs:10-47 | the short names and full paths, written as separate literals, agree: every short name ends in "Attribute", every full path is the attributes namespace, a dot and the short name, and no two markers share a short name |
| Constants.FormatMessage | src/ArxRiver.SourceGenerator/Configuration/GeneratorConstants.cs:56 | a format without a brace is its own message |
| Constants.MessageIgnoresName | src/ArxRiver.SourceGenerator/Configuration/GeneratorConstants.cs:53-59 | the GEN001 message is "Class '0' must be partial to work with this Clonable generator." whatever type name is passed |
| Symbols.AccessibilityKeyword | src/ArxRiver.SourceGenerator/Generators/Cloneable/ClonableBuilder.cs:196-197 | each accessibility prints as its lower-cased enum name; the result is a C# modifier exactly for public, internal, private and protected, and not for the compound levels or `NotApplicable` |
| NamedTypeExtensions.GetGenericParameters | src/ArxRiver.SourceGenerator/Extensions/NamedTypeSymbolExtensions.cs:12-14 | "" exactly for a non-generic type; otherwise "<", the parameter names joined by ", ", ">" |
| NamedTypeExtensions.GenericParametersReadBack | src/ArxRiver.SourceGenerator/Extensions/NamedTypeSymbolExtensions.cs:12-14 | the parameter names can be read back from the list, in declaration order |
| NamedTypeExtensions.Accessible | src/ArxRiver.SourceGenerator/Extensions/NamedTypeSymbolExtensions.cs:25-26 | keeps exactly the non-indexer properties with a public getter |
| NamedTypeExtensions.AccessibleIsWhere | src/ArxRiver.SourceGenerator/Extensions/NamedTypeSymbolExtensions.cs:25-26 | the accessible properties are the declared ones filtered, so declaration order is kept |
| NamedTypeExtensions.AccessibleConcat | src/ArxRiver.SourceGenerator/Extensions/NamedTypeSymbolExtensions.cs:25-26 | filtering two runs of properties one after the other gives the two filtered runs one after the other |
| NamedTypeExtensions.ToModel | src/ArxRiver.SourceGenerator/Extensions/NamedTypeSymbolExtensions.cs:27-30 | the model records the symbol, name, namespace and type name; `ExcludeProperty` holds exactly when an attribute displays as the exclude path |
| NamedTypeExtensions.LevelModels | src/ArxRiver.SourceGenerator/Extensions/NamedTypeSymbolExtensions.cs:23-31 | one model per accessible property of a level; throws exactly when there is one and the namespace has no parent |
| NamedTypeExtensions.ChainModelsAccessible | src/ArxRiver.SourceGenerator/Extensions/NamedTypeSymbolExtensions.cs:21-32 | the chain fails exactly when some level fails; otherwise every level contributes its accessible properties |
| NamedTypeExtensions.GetAccessibleProperties | src/ArxRiver.SourceGenerator/Extensions/NamedTypeSymbolExtensions.cs:16-33 | fails, with a null reference, exactly when some level fails; otherwise every property returned is accessible, the count is the sum over the levels, and each level's models sit in one block, in level order, at the offset of the levels before it |
| NamedTypeExtensions.ChainModelsLevel | src/ArxRiver.SourceGenerator/Extensions/NamedTypeSymbolExtensions.cs:21-32 | level k's models occupy the result right after the accessible properties of the levels before k |
| NamedTypeExtensions.DerivedFirst | src/ArxRiver.SourceGenerator/Extensions/NamedTypeSymbolExtensions.cs:21-32 | the type's own properties come first, then those of its base types |
| NamedTypeExtensions.NoDeduplication | src/ArxRiver.SourceGenerator/Extensions/NamedTypeSymbolExtensions.cs:23-31 | a property declared on two levels appears once per level |
| NamedTypeExtensions.PrimaryConstraint | src/ArxRiver.SourceGenerator/Extensions/NamedTypeSymbolExtensions.cs:87-103 | at most one of unmanaged, notnull, class, struct, in that priority; `class?` for an annotated reference constraint |
| NamedTypeExtensions.ConstraintTypesOfKind | src/ArxRiver.SourceGenerator/Extensions/NamedTypeSymbolExtensions.cs:105-110 | the constraint types of one kind, in order; empty exactly when there is none |
| NamedTypeExtensions.ConstraintTypesAreWhere | src/ArxRiver.SourceGenerator/Extensions/NamedTypeSymbolExtensions.cs:105-110 | the names are those of exactly the constraint types of that kind, one each, in declaration order |
| NamedTypeExtensions.ConstraintParts | src/ArxRiver.SourceGenerator/Extensions/NamedTypeSymbolExtensions.cs:87-116 | the primary constraint first, `new()` last, empty exactly when there is no constraint |
| NamedTypeExtensions.ConstraintPartsInOrder | src/ArxRiver.SourceGenerator/Extensions/NamedTypeSymbolExtensions.cs:87-116 | the primary constraint, then every class type, every interface type and every type-parameter type, each group complete and in order, then `new()` exactly when requested |
| NamedTypeExtensions.ClassBeforeInterface | src/ArxRiver.SourceGenerator/Extensions/NamedTypeSymbolExtensions.cs:105-114 | a parameter constrained by an interface and a base class lists the class first |
| NamedTypeExtensions.ParameterConstraintsReadBack | src/ArxRiver.SourceGenerator/Extensions/NamedTypeSymbolExtensions.cs:87-116 | a constrained parameter's clause starts with `where T : ` and its rest splits at ", " back into the constraint parts |
| NamedTypeExtensions.NonEmptyClauses | src/ArxRiver.SourceGenerator/Extensions/NamedTypeSymbolExtensions.cs:40-58 | the non-empty clauses; none exactly when every parameter is unconstrained |
| NamedTypeExtensions.NonEmptyClausesAreWhere | src/ArxRiver.SourceGenerator/Extensions/NamedTypeSymbolExtensions.cs:40-58 | the kept clauses are the parameters' clauses with the empty ones filtered out, in parameter order |
| NamedTypeExtensions.GetConstraints | src/ArxRiver.SourceGenerator/Extensions/NamedTypeSymbolExtensions.cs:38-59 | "" exactly when no parameter is constrained; otherwise the non-empty clauses joined by one space |
| NamedTypeExtensions.GetConstraintsIsJoin | src/ArxRiver.SourceGenerator/Extensions/NamedTypeSymbolExtensions.cs:38-59 | the result is the parameters' clauses, empty ones dropped, joined by one space |
| NamedTypeExtensions.GetConstraintsSkipsUnconstrained | src/ArxRiver.SourceGenerator/Extensions/NamedTypeSymbolExtensions.cs:40-58 | an unconstrained parameter between two constrained ones leaves no gap: the two clauses are one space apart |
| NamedTypeExtensions.PartialRecordNotPartial | src/ArxRiver.SourceGenerator/Extensions/NamedTypeSymbolExtensions.cs:62-69 | a type with no class declaration is never partial |
| TypeExtensions.BuilderClassName | src/ArxRiver.SourceGenerator/Extensions/TypeSymbolExtensions.cs:17-18 | the safe class name of the type's name: same length, no `,` `<` `>` |
| TypeExtensions.ReferenceRecordIsCloneable | src/ArxRiver.SourceGenerator/Extensions/TypeSymbolExtensions.cs:22-28 | by C# precedence any reference record is cloneable, abstract or sealed as it may be |
| TypeExtensions.NonRecordCloneable | src/ArxRiver.SourceGenerator/Extensions/TypeSymbolExtensions.cs:22-28 | a non-record is cloneable exactly when it is a plain nameable class, neither abstract nor sealed nor special |
| TypeExtensions.IsGenericWithClassArgument | src/ArxRiver.SourceGenerator/Extensions/TypeSymbolExtensions.cs:31-37 | throws an invalid cast exactly for a type that is not a named type; otherwise true exactly for a generic type with one class-kind argument |
| TypeExtensions.MatchesAnyNamespace | src/ArxRiver.SourceGenerator/Extensions/TypeSymbolExtensions.cs:40-41 | an attribute with the right short name matches whatever its namespace |
| TypeExtensions.UnresolvedNeverMatches | src/ArxRiver.SourceGenerator/Extensions/TypeSymbolExtensions.cs:40-41 | an attribute with no class never changes the answer |
| PropertyExtensions.ClonableIgnoresSetterAccess | src/ArxRiver.SourceGenerator/Extensions/PropertySymbolExtensions.cs:8-11 | a get-only property is never clonable; with a setter of any accessibility it is clonable exactly when not read-only |
| PropertyExtensions.IsGenericWithClassArgument | src/ArxRiver.SourceGenerator/Extensions/PropertySymbolExtensions.cs:13-19 | agrees with the type-level test on the property's type, cast failure included |
| PropertyModelExtensions.OnlyOwnMarker | src/ArxRiver.SourceGenerator/Extensions/PropertySymbolModelExtensions.cs:33-37 | a property with one attribute answers yes for its short name and no for every other |
| PropertyModelExtensions.MarkersIndependent | src/ArxRiver.SourceGenerator/Extensions/PropertySymbolModelExtensions.cs:9-31 | a skip marker for one strategy says nothing about another |
| PropertyModelExtensions.ExcludeTestsDisagree | src/ArxRiver.SourceGenerator/Extensions/PropertySymbolModelExtensions.cs:18-19 | the short-name and the full-path tests for the exclude marker can each hold without the other |
| Sequences.Filter | src/ArxRiver.SourceGenerator/Generators/Classbuilder/ClassBuilderBuilder.cs:143-158 | `Where` keeps exactly the passing elements |
| Sequences.FilterConcat | src/ArxRiver.SourceGenerator/Generators/Classbuilder/ClassBuilderBuilder.cs:143-158 | filtering keeps input order |
| Text.SplitJoin | build/Build.cs:297 | joining the pieces of a split with the same separator gives the input back |
| Text.JoinSplit | build/Build.cs:297 | splitting a join of separator-free pieces gives the pieces back |
| Text.Distinct | src/ArxRiver.SourceGenerator/Generators/Cloneable/ClonableGenerator.cs:122 | the elements of the input, each once, in first-occurrence order |
| Emission.NullableHeader | src/ArxRiver.SourceGenerator/Generators/Cloneable/ClonableBuilder.cs:13-14 | writing it is exactly `WriteNullableOptions` |
| Emission.FileScopedNamespace | src/ArxRiver.SourceGenerator/Generators/Cloneable/ClonableBuilder.cs:16-25 | empty exactly for a type in no namespace; otherwise the `using` line of the type's namespace then `namespace X;` |
| Emission.BlankIffWhiteSpace | src/ArxRiver.SourceGenerator/Generators/NLogger/PsNLogGenerator.cs:105 | with white-space tab and newline, the written text is all white space exactly when every line's text is |
| Emission.EmitConcat | src/ArxRiver.SourceGenerator/Generators/Cloneable/ClonableBuilder.cs:11-51 | writing two documents in turn is writing their concatenation |
| ClassBuilder.GetAccessibleProperties | src/ArxRiver.SourceGenerator/Generators/Classbuilder/ClassBuilderBuilder.cs:143-158 | keeps exactly the properties with no skip marker and a public setter that are not read-only |
| ClassBuilder.EligibleInOrder | src/ArxRiver.SourceGenerator/Generators/Classbuilder/ClassBuilderBuilder.cs:143-158 | the selection keeps input order |
| ClassBuilder.UserDefinedClassCases | src/ArxRiver.SourceGenerator/Generators/Classbuilder/ClassBuilderBuilder.cs:161-184 | false for System and System.* types, special types, arrays and non-named types; true for every other named type |
| ClassBuilder.NestedNames | src/ArxRiver.SourceGenerator/Generators/Classbuilder/ClassBuilderBuilder.cs:51-60 | the names of the properties whose type is a user-defined class marked `AutoClassBuilder` |
| ClassBuilder.SetterMembers | src/ArxRiver.SourceGenerator/Generators/Classbuilder/ClassBuilderBuilder.cs:83-107 | the direct setter last, preceded by an action setter exactly for a nested-builder property |
| ClassBuilder.Members | src/ArxRiver.SourceGenerator/Generators/Classbuilder/ClassBuilderBuilder.cs:17-141 | the instance field first and `Build` with the nested names last |
| ClassBuilder.Head | src/ArxRiver.SourceGenerator/Generators/Classbuilder/ClassBuilderBuilder.cs:40-80 | no setter before the setters section; a nested builder field exactly for each nested name |
| ClassBuilder.DirectSettersInOrder | src/ArxRiver.SourceGenerator/Generators/Classbuilder/ClassBuilderBuilder.cs:100-107 | exactly one direct setter per eligible property, in input order |
| ClassBuilder.ActionSetterIff | src/ArxRiver.SourceGenerator/Generators/Classbuilder/ClassBuilderBuilder.cs:83-98 | an action setter exists for a name exactly when an eligible property with a nested builder has it |
| ClassBuilder.NestedFieldIff | src/ArxRiver.SourceGenerator/Generators/Classbuilder/ClassBuilderBuilder.cs:51-60 | a nested builder field exists for a name exactly when an eligible property with a nested builder has it |
| ClassBuilder.NestedNamesOfInput | src/ArxRiver.SourceGenerator/Generators/Classbuilder/ClassBuilderBuilder.cs:51-60 | the nested names are those of eligible input properties with a nested builder |
| ClassBuilder.Build | src/ArxRiver.SourceGenerator/Generators/Classbuilder/ClassBuilderBuilder.cs:17-141 | appends to the writer and keeps its earlier lines and indent |
| ClassBuilder.SetterAssignsDraft | src/ArxRiver.SourceGenerator/Generators/Classbuilder/ClassBuilderBuilder.cs:100-107 | every eligible property's setter assigns into the draft in the written file |
| ClassBuilder.DirectSetterPresent | src/ArxRiver.SourceGenerator/Generators/Classbuilder/ClassBuilderBuilder.cs:100-107 | every eligible property has its direct setter among the members |
| ClassBuilderRuntime.Create | src/ArxRiver.SourceGenerator/Generators/Classbuilder/ClassBuilderBuilder.cs:62-70 | an empty draft, no rule, and one nested builder per nested name |
| ClassBuilderRuntime.With | src/ArxRiver.SourceGenerator/Generators/Classbuilder/ClassBuilderBuilder.cs:100-107 | stores the value into the draft, same draft identity |
| ClassBuilderRuntime.WithValidationRule | src/ArxRiver.SourceGenerator/Generators/Classbuilder/ClassBuilderBuilder.cs:74-79 | replaces the stored rule and keeps the draft |
| ClassBuilderRuntime.WithNested | src/ArxRiver.SourceGenerator/Generators/Classbuilder/ClassBuilderBuilder.cs:83-98 | runs the action on the nested builder of that name only |
| ClassBuilderRuntime.Build | src/ArxRiver.SourceGenerator/Generators/Classbuilder/ClassBuilderBuilder.cs:111-134 | the result, when there is one, is the builder's own draft instance |
| ClassBuilderRuntime.BuildValidates | src/ArxRiver.SourceGenerator/Generators/Classbuilder/ClassBuilderBuilder.cs:126-134 | when the nested builders succeed, `Build` throws an argument exception exactly when the effective rule rejects the populated draft |
| ClassBuilderRuntime.RulePersists | src/ArxRiver.SourceGenerator/Generators/Classbuilder/ClassBuilderBuilder.cs:126 | a rule passed to `Build` replaces the stored one and stays for the next `Build` |
| ClassBuilderRuntime.NestedOverwrites | src/ArxRiver.SourceGenerator/Generators/Classbuilder/ClassBuilderBuilder.cs:114-123 | each nested builder's result overwrites the draft property of that name; every other property is kept |
| ClassBuilderRuntime.AddressExample | src/ArxRiver.SourceGenerator.XUnitTest/ClassBuilderUnitTest.cs:11-22 | the Address builder returns the same draft holding the four values set |
| FluentClass.GetAccessibleProperties | src/ArxRiver.SourceGenerator/Generators/FluentClass/FluentClassBuilder.cs:90-105 | keeps exactly the properties with no skip marker and a public setter that are not read-only |
| FluentClass.Members | src/ArxRiver.SourceGenerator/Generators/FluentClass/FluentClassBuilder.cs:21-88 | the rule field and the two constructors first, `Validate` last, one setter per eligible property between |
| FluentClass.SettersInOrder | src/ArxRiver.SourceGenerator/Generators/FluentClass/FluentClassBuilder.cs:66-76 | exactly one setter per eligible property, in input order |
| FluentClass.SetterIff | src/ArxRiver.SourceGenerator/Generators/FluentClass/FluentClassBuilder.cs:66-105 | a property gets a setter exactly when an eligible input property has its name and type; a skipped one gets none |
| FluentClass.Build | src/ArxRiver.SourceGenerator/Generators/FluentClass/FluentClassBuilder.cs:21-88 | appends to the writer and keeps its earlier lines and indent |
| FluentClass.SetterAssignsSelf | src/ArxRiver.SourceGenerator/Generators/FluentClass/FluentClassBuilder.cs:66-76 | every eligible property's setter assigns the receiver's own property in the written file |
| FluentRuntime.New | src/ArxRiver.SourceGenerator/Generators/FluentClass/FluentClassBuilder.cs:52-63 | a new object with no property set and the rule given to the constructor |
| FluentRuntime.With | src/ArxRiver.SourceGenerator/Generators/FluentClass/FluentClassBuilder.cs:66-76 | sets only the named property and returns the same object with the same rule |
| FluentRuntime.Validate | src/ArxRiver.SourceGenerator/Generators/FluentClass/FluentClassBuilder.cs:79-84 | true when there is no rule |
| FluentRuntime.ChainLastWriteWins | src/ArxRiver.SourceGenerator/Generators/FluentClass/FluentClassBuilder.cs:66-76 | after a chain of setters each property holds the last value written to it; identity and rule never change |
| FluentRuntime.ValidateAfterChain | src/ArxRiver.SourceGenerator/Generators/FluentClass/FluentClassBuilder.cs:52-84 | after any chain, `Validate` is true without a rule and otherwise the rule's verdict on the final values |
| FluentRuntime.JsonLogExample | src/ArxRiver.SourceGenerator.XUnitTest/TestModels/FluentClass/JsonLog.cs:13-14 | with a rule requiring a message, the object fails before and passes after the message is set |
| Deconstruct.Included | src/ArxRiver.SourceGenerator/Generators/Deconstruct/DeconstructBuilder.cs:17 | keeps exactly the properties marked `IncludeInDeconstruct` |
| Deconstruct.ReceiverName | src/ArxRiver.SourceGenerator/Generators/Deconstruct/DeconstructBuilder.cs:50-53 | never an out-parameter name; "input" when that is free |
| Deconstruct.Statements | src/ArxRiver.SourceGenerator/Generators/Deconstruct/DeconstructBuilder.cs:67-82 | a null guard exactly for reference types, then the assignment |
| Deconstruct.Document | src/ArxRiver.SourceGenerator/Generators/Deconstruct/DeconstructBuilder.cs:15-94 | empty exactly when no property is included |
| Deconstruct.ClassBlockLayout | src/ArxRiver.SourceGenerator/Generators/Deconstruct/DeconstructBuilder.cs:39-64 | the class header, brace and signature come first; the next line is the constraint clause, one level deeper, exactly when the type has constraints |
| Deconstruct.DocumentLayout | src/ArxRiver.SourceGenerator/Generators/Deconstruct/DeconstructBuilder.cs:20-93 | after the header, a namespace block holding the class one level deeper is present exactly when the type has a namespace; otherwise the class follows directly |
| Deconstruct.Build | src/ArxRiver.SourceGenerator/Generators/Deconstruct/DeconstructBuilder.cs:15-94 | leaves the writer unchanged exactly when no property is included; otherwise appends |
| Deconstruct.AssignAllValues | src/ArxRiver.SourceGenerator/Generators/Deconstruct/DeconstructBuilder.cs:72-82 | with distinct targets each out parameter receives its own property's value |
| Deconstruct.UntouchedKept | src/ArxRiver.SourceGenerator/Generators/Deconstruct/DeconstructBuilder.cs:72-82 | a name no assignment targets keeps its value |
| Deconstruct.DeconstructAssignsIncluded | src/ArxRiver.SourceGenerator/Generators/Deconstruct/DeconstructBuilder.cs:67-82 | a null receiver throws `ArgumentNullException`; otherwise every included property's value reaches its out parameter and no other out parameter is written |
| Deconstruct.AssignmentFills | src/ArxRiver.SourceGenerator/Generators/Deconstruct/DeconstructBuilder.cs:72-82 | the single and the tuple form both fill every out parameter and write no other name |
| Deconstruct.GuardOnlyForReferenceTypes | src/ArxRiver.SourceGenerator/Generators/Deconstruct/DeconstructBuilder.cs:67-70 | the first statement is a null guard exactly for reference types |
| Deconstruct.ReceiverNameFresh | src/ArxRiver.SourceGenerator/Generators/Deconstruct/DeconstructBuilder.cs:48-53 | the receiver's name differs from every out parameter's name |
| Deconstruct.PersonExample | src/ArxRiver.SourceGenerator.XUnitTest/DeconstructClassExtensionUnitTest.cs:12-22 | Person deconstructs to ("Visual", "Studio") and has no age out parameter |
| Cloneable.CopiedProperties | src/ArxRiver.SourceGenerator/Generators/Cloneable/ClonableBuilder.cs:27 | keeps exactly the properties not marked `SkipCloneable` |
| Cloneable.DeepFlag | src/ArxRiver.SourceGenerator/Generators/Cloneable/ClonableBuilder.cs:200-211 | the Clone marker, the generic test on the property's own type, the cloneable-type test and settability, left to right; the cast throws only for a marked property of an unnamed type |
| Cloneable.GetCloneableProperties | src/ArxRiver.SourceGenerator/Generators/Cloneable/ClonableBuilder.cs:200-211 | one `Name = this.Name` line with its flag per property, in order, or the invalid cast of some property |
| Cloneable.Initializer | src/ArxRiver.SourceGenerator/Generators/Cloneable/ClonableBuilder.cs:60-117 | shallow methods copy the line; deep methods append `?.Clone()` or `?.SafeClone(referenceChain)` to flagged lines only |
| Cloneable.DeepExtendsShallow | src/ArxRiver.SourceGenerator/Generators/Cloneable/ClonableBuilder.cs:60-194 | `Clone` and `SafeClone` ignore the flags; each deep line extends the shallow one and differs exactly on flagged lines |
| Cloneable.MethodsInOrder | src/ArxRiver.SourceGenerator/Generators/Cloneable/ClonableBuilder.cs:32-47 | the four signatures appear in the order Clone, SafeClone, DeepClone, DeepCloneSafe |
| Cloneable.CopyLinesFollowProperties | src/ArxRiver.SourceGenerator/Generators/Cloneable/ClonableBuilder.cs:200-211 | one copy line per property that is not skipped, in order |
| Cloneable.Document | src/ArxRiver.SourceGenerator/Generators/Cloneable/ClonableBuilder.cs:11-51 | throws exactly when a copy line's flag cannot be computed |
| Cloneable.DocumentLayout | src/ArxRiver.SourceGenerator/Generators/Cloneable/ClonableBuilder.cs:11-51 | a built file is the nullable header and namespace line, then `<access> partial class <Name>` and `{`, the four methods one level deeper, and a closing `}` |
| Cloneable.SignatureAfterComment | src/ArxRiver.SourceGenerator/Generators/Cloneable/ClonableBuilder.cs:179-180 | each method's signature line comes right after its doc comment: line 4 for DeepClone, whose comment has four lines, line 3 for the others |
| Cloneable.SignaturesAt | src/ArxRiver.SourceGenerator/Generators/Cloneable/ClonableBuilder.cs:32-47 | each method's signature sits right after its doc comment, Clone first, at positions fixed by the lengths of the methods before it |
| Cloneable.SignaturesShifted | src/ArxRiver.SourceGenerator/Generators/Cloneable/ClonableBuilder.cs:32-47 | the class body moved one level deeper keeps the four signatures at the same positions, at indent 1 |
| Cloneable.MethodsInDocument | src/ArxRiver.SourceGenerator/Generators/Cloneable/ClonableBuilder.cs:32-47 | inside the built class the four signatures stand one level deep, in the order Clone, SafeClone, DeepClone, DeepCloneSafe |
| Cloneable.RenderMethodItems | src/ArxRiver.SourceGenerator/Generators/Cloneable/ClonableBuilder.cs:60-194 | every generated method holds each copy line's initializer two levels deep |
| Cloneable.InitializerInBody | src/ArxRiver.SourceGenerator/Generators/Cloneable/ClonableBuilder.cs:32-47 | every method of the body holds each copy line's initializer |
| Cloneable.InitializerInDocument | src/ArxRiver.SourceGenerator/Generators/Cloneable/ClonableBuilder.cs:32-47 | for every copied property and every method, the built class holds `Name = this.Name` (with the method's deep suffix when flagged) three levels deep |
| Cloneable.PlanOf | src/ArxRiver.SourceGenerator/Generators/Cloneable/ClonableBuilder.cs:200-211 | the copy plan names each copied property in order with its deep flag, and fails exactly when the copy lines fail |
| Cloneable.InitializerCarriesPlan | src/ArxRiver.SourceGenerator/Generators/Cloneable/ClonableBuilder.cs:174-194 | each emitted initializer assigns its plan entry's property from `this` and a deep method clones it exactly when the entry is deep |
| Cloneable.Build | src/ArxRiver.SourceGenerator/Generators/Cloneable/ClonableBuilder.cs:11-51 | on success appends to the writer and keeps its earlier lines and indent |
| CloneRuntime.Copy | src/ArxRiver.SourceGenerator/Generators/Cloneable/ClonableBuilder.cs:174-194 | each planned property gets the source's value; any other property is left unset (class defaults are not modelled) |
| CloneRuntime.Clone | src/ArxRiver.SourceGenerator/Generators/Cloneable/ClonableBuilder.cs:174-194 | a new object with the planned values; the heap is only extended |
| CloneRuntime.SafeClone | src/ArxRiver.SourceGenerator/Generators/Cloneable/ClonableBuilder.cs:131-165 | on the chain, `this` itself and no allocation; otherwise a new copy; the caller's chain is the same on exit |
| CloneRuntime.DeepClone | src/ArxRiver.SourceGenerator/Generators/Cloneable/ClonableBuilder.cs:60-80 | a new object; the heap is only extended and stays closed |
| CloneRuntime.DeepCloneSafe | src/ArxRiver.SourceGenerator/Generators/Cloneable/ClonableBuilder.cs:89-123 | `this` itself exactly when on the chain; otherwise a new object with the same plan; the caller's chain is the same on exit |
| CloneRuntime.DeepFieldsValues | src/ArxRiver.SourceGenerator/Generators/Cloneable/ClonableBuilder.cs:92-117 | each planned property of the deep copy holds its value or a clone of the object it refers to |
| CloneRuntime.DeepFieldsKeep | src/ArxRiver.SourceGenerator/Generators/Cloneable/ClonableBuilder.cs:110 | a property outside the plan keeps its value |
| CloneRuntime.DeepCloneSafeValues | src/ArxRiver.SourceGenerator/Generators/Cloneable/ClonableBuilder.cs:89-123 | off the chain, deep properties hold safe clones made with `this` pushed |
| CloneRuntime.DeepCloneValues | src/ArxRiver.SourceGenerator/Generators/Cloneable/ClonableBuilder.cs:60-80 | deep references are replaced by new shallow copies |
| CloneRuntime.LoopExample | src/ArxRiver.SourceGenerator/Generators/Cloneable/ClonableBuilder.cs:100-101 | on a self-referencing node the safe deep clone stops at the chain and refers back to the original |
| Pipelines.ToModel | src/ArxRiver.SourceGenerator/Generators/Cloneable/ClonableGenerator.cs:46-53 | the model records the symbol, name, properties and partiality, and always a namespace |
| Pipelines.SelectMarked | src/ArxRiver.SourceGenerator/Generators/Cloneable/ClonableGenerator.cs:31-44 | selected exactly when marked, with accessible properties, and with no instance override taking one out parameter per property |
| Pipelines.SelectPlain | src/ArxRiver.SourceGenerator/Generators/TaskManager/TaskManagerGenerator.cs:31-44 | selected exactly when marked; the model has no properties |
| Pipelines.SelectExcluded | src/ArxRiver.SourceGenerator/Generators/Cloneable/ClonableGenerator.cs:62-88 | a method covers a type exactly when it is a static extension method with every other parameter `out`, its receiver is a named type, and the receiver has one accessible property per out parameter; the covered model is the receiver's |
| Pipelines.Collect | src/ArxRiver.SourceGenerator/Generators/Cloneable/ClonableGenerator.cs:58 | exactly the models some transform produced, no more than there were results; fails exactly when some transform threw |
| Pipelines.CollectIsSomes | src/ArxRiver.SourceGenerator/Generators/Cloneable/ClonableGenerator.cs:58 | the collected models are those of a reference definition: every produced model, in the order of its result, repeats kept |
| Pipelines.PartialWarningsSpec | src/ArxRiver.SourceGenerator/Generators/Cloneable/ClonableGenerator.cs:97-109 | one GEN001 per non-partial selected model and no other, with the fixed message; none when all are partial |
| Pipelines.AddSource | src/ArxRiver.SourceGenerator/Generators/Cloneable/ClonableGenerator.cs:129 | a repeated hint name throws an argument exception; otherwise the file is appended |
| Pipelines.EmitLoopResult | src/ArxRiver.SourceGenerator/Generators/Cloneable/ClonableGenerator.cs:122-133 | when the loop succeeds, every uncovered type was built and got its own file holding only its text |
| Pipelines.EmitLoopSucceeds | src/ArxRiver.SourceGenerator/Generators/Cloneable/ClonableGenerator.cs:122-133 | the loop succeeds when every uncovered type builds and no hint name repeats |
| Pipelines.CreateOutputSpec | src/ArxRiver.SourceGenerator/Generators/Cloneable/ClonableGenerator.cs:115-135 | no selection, no files; otherwise one file per distinct uncovered selected type, in first-occurrence order |
| Pipelines.PlannedMembers | src/ArxRiver.SourceGenerator/Generators/Cloneable/ClonableGenerator.cs:122-126 | a type gets a file exactly when it was selected and is not covered |
| Pipelines.PlainModelsBare | src/ArxRiver.SourceGenerator/Generators/TaskManager/TaskManagerGenerator.cs:31-44 | a plain selection never fails and every model it collects has no properties |
| Pipelines.CoveredModelsHaveProperties | src/ArxRiver.SourceGenerator/Generators/Cloneable/ClonableGenerator.cs:60-91 | every model the exclusion collects has at least one property |
| Pipelines.CoveredIsExcluded | src/ArxRiver.SourceGenerator/Generators/Cloneable/ClonableGenerator.cs:60-91 | the receiver of a covering method is among the collected covered models |
| Pipelines.Run | src/ArxRiver.SourceGenerator/Generators/Cloneable/ClonableGenerator.cs:94-112 | the warnings for the selected models, then exactly the files the output step writes for the selected and covered models |
| CloneableGenerator.GenerateSpec | src/ArxRiver.SourceGenerator/Generators/Cloneable/ClonableGenerator.cs:94-135 | warnings per non-partial selected model; one file per uncovered distinct type under "ArxRiver.Cloneable.{SafeName}.g.cs" with its cloneable half |
| CloneableGenerator.CoveredTypeGetsNoFile | src/ArxRiver.SourceGenerator/Generators/Cloneable/ClonableGenerator.cs:60-91 | a type covered by a `Clonable` extension method gets no file, and the run writes one file per other distinct selected type |
| FluentClassGenerator.GenerateSpec | src/ArxRiver.SourceGenerator/Generators/FluentClass/FluentClassGenerator.cs:94-135 | warnings per non-partial selected model; one file per uncovered distinct type under "ArxRiver.Fluent.{SafeName}.g.cs" with its fluent half |
| FluentClassGenerator.CoveredTypeGetsNoFile | src/ArxRiver.SourceGenerator/Generators/FluentClass/FluentClassGenerator.cs:60-91 | a type covered by a `FluentClass` extension method gets no file, and the run writes one file per other distinct selected type |
| TaskManagerGenerator.ExclusionNeverMatches | src/ArxRiver.SourceGenerator/Generators/TaskManager/TaskManagerGenerator.cs:31-82 | selected models have no properties and covered ones have some, so no selected model is excluded |
| TaskManagerGenerator.EveryMarkedTypeWritten | src/ArxRiver.SourceGenerator/Generators/TaskManager/TaskManagerGenerator.cs:88-128 | a successful run warns per non-partial model and writes one file per distinct marked type under "ArxRiver.{SafeName}.g.cs" |
| PsNLogBuilder.KindValue | src/ArxRiver.SourceGenerator/Attributes/PsLoggerAttribute.cs:9 | each logger kind's value is in 0..3 and maps back to that kind |
| PsNLogBuilder.KindOf | src/ArxRiver.SourceGenerator/Generators/NLogger/PsNLogBuilder.cs:15-34 | a named kind exactly for 0..3: Json exactly for 0, File for 1, Console for 2, ColoredConsole for 3 |
| PsNLogBuilder.FindFrom | src/ArxRiver.SourceGenerator/Generators/NLogger/PsNLogBuilder.cs:41-44 | the first attribute named "PsLoggerAttribute" ignoring case; none when all are passed over; a null class reached first throws |
| PsNLogBuilder.GetAttributeType | src/ArxRiver.SourceGenerator/Generators/NLogger/PsNLogBuilder.cs:38-48 | 0 when no attribute matches; otherwise the first matching attribute's first constructor argument; the errors are a null class or a missing argument |
| PsNLogBuilder.Document | src/ArxRiver.SourceGenerator/Generators/NLogger/PsNLogBuilder.cs:12-36 | succeeds exactly for a value in 0..3, with that kind's emitter; any other value throws `ArgumentOutOfRangeException` |
| PsNLogBuilder.Build | src/ArxRiver.SourceGenerator/Generators/NLogger/PsNLogBuilder.cs:12-36 | writes the dispatched text exactly when the dispatch succeeds |
| PsNLogBuilder.DispatchExactlyOne | src/ArxRiver.SourceGenerator/Generators/NLogger/PsNLogBuilder.cs:15-31 | each kind reaches its own emitter and no other |
| PsNLogBuilder.MissingAttributeIsJson | src/ArxRiver.SourceGenerator/Generators/NLogger/PsNLogBuilder.cs:46 | a type without the attribute gets the Json logger |
| PsNLogBuilder.CaseIgnoredExample | src/ArxRiver.SourceGenerator/Generators/NLogger/PsNLogBuilder.cs:44 | "psloggerATTRIBUTE" with argument 2 gives the Console logger |
| PsNLogGenerator.ExtensionText | src/ArxRiver.SourceGenerator/Generators/NLogger/PsNLogGenerator.cs:110-112 | nothing for a logger that is not Json |
| PsNLogGenerator.StepSpec | src/ArxRiver.SourceGenerator/Generators/NLogger/PsNLogGenerator.cs:103-119 | the logger file only when its text is not blank, the extension file only for non-blank Json extension text under the fixed hint, and the errors |
| PsNLogGenerator.LoopSound | src/ArxRiver.SourceGenerator/Generators/NLogger/PsNLogGenerator.cs:97-120 | every file the loop adds belongs to an uncovered type |
| PsNLogGenerator.LoopComplete | src/ArxRiver.SourceGenerator/Generators/NLogger/PsNLogGenerator.cs:97-120 | every uncovered type with non-blank logger text has its file |
| PsNLogGenerator.TwoJsonLoggersFail | src/ArxRiver.SourceGenerator/Generators/NLogger/PsNLogGenerator.cs:110-115 | as written, two uncovered Json loggers with non-blank extension text make the loop throw an argument exception |
| PsNLogGenerator.OnceSucceeds | src/ArxRiver.SourceGenerator/Generators/NLogger/PsNLogGenerator.cs:97-120 | with the extension file added once, the loop succeeds when each type dispatches and hint names are distinct |
| PsNLogGenerator.Assemble | src/ArxRiver.SourceGenerator/Generators/NLogger/PsNLogGenerator.cs:86-87 | no partial-modifier diagnostic is reported |
| PsNLogGenerator.ExclusionNeverMatches | src/ArxRiver.SourceGenerator/Generators/NLogger/PsNLogGenerator.cs:33-84 | selected models have no properties and covered ones have some, so no selected model is excluded |
| PsNLogGenerator.AsWrittenTwoJsonLoggersFail | src/ArxRiver.SourceGenerator/Generators/NLogger/PsNLogGenerator.cs:110-115 | as written, two different selected Json loggers with non-blank extension text fail the run |
| PsNLogGenerator.GenerateSucceeds | src/ArxRiver.SourceGenerator/Generators/NLogger/PsNLogGenerator.cs:90-122 | corrected, the run succeeds when every selected type dispatches and their hint names are distinct |
| PsNLogGenerator.GenerateFiles | src/ArxRiver.SourceGenerator/Generators/NLogger/PsNLogGenerator.cs:90-122 | every file belongs to a selected type, and each selected type with non-blank logger text has its file |
| Numbers.Wrap32 | build/Build.cs:311-328 | the result is a 32-bit value congruent to the input, and a 32-bit input is unchanged |
| Numbers.ParseRendered | build/Build.cs:307-312 | parsing the rendering of a 32-bit integer gives it back |
| Numbers.IntToStringInjective | build/Build.cs:312 | distinct integers render differently |
| Numbers.TryParseInt32 | build/Build.cs:307 | a parsed value is always a 32-bit integer |
| Numbers.TrailingNulIgnored | build/Build.cs:307 | a `'\0'` appended to the input leaves the parse unchanged, as .NET's parser accepts trailing NULs |
| Numbers.NulExamples | build/Build.cs:307 | "5\0" parses as 5, and a NUL before the digits fails the parse |
| VersionBump.Normalize | build/Build.cs:301-305 | the parts the method works on have at least three elements |
| VersionBump.BuildIncreased | build/Build.cs:307-313 | a build part below 9999 is increased by one, every other part kept |
| VersionBump.MinorIncreasedBuildKept | build/Build.cs:317-323 | as written, a build part of 9999 or more with minor below 99 increases the minor and keeps the build |
| VersionBump.MajorFromMinor | build/Build.cs:327-329 | as written, when both roll over the result is the minor plus one followed by ".0.0" |
| VersionBump.NonNumericUnchanged | build/Build.cs:307-335 | a non-numeric build part returns the input unchanged |
| VersionBump.ShortVersionsPrefixed | build/Build.cs:301-305 | "x.y" is bumped as "1.x.y" and "x" as "1.0.x" |
| VersionBump.IncreaseParts | build/Build.cs:295-336 | on three or more parts the method bumps exactly those parts, extra parts kept |
| VersionBump.IncreaseRendered | build/Build.cs:307-335 | as written, on a rendered 32-bit version: build + 1, or minor + 1 with the build kept, or minor + 1 as the major |
| VersionBump.IncreaseRenderedBuild | build/Build.cs:307-313 | on a rendered version with build below 9999, only the build is increased |
| VersionBump.IncreaseRenderedMinor | build/Build.cs:317-323 | as written, on a rendered version with build 9999 or more and minor below 99, the minor is increased and the build kept |
| VersionBump.IncreaseRenderedMajor | build/Build.cs:327-329 | as written, on a rendered version where both roll over, the result is the wrapped minor plus one followed by ".0.0" |
| VersionBump.IntendedRendered | build/Build.cs:307-335 | corrected, on a rendered 32-bit version: build + 1, or minor + 1 with build 0, or major + 1 with zeros |
| VersionBump.IntendedIsSuccessor | build/Build.cs:295-336 | corrected, a canonical version bumps to the canonical version of the next rank |
| VersionBump.AsWrittenSkipsVersions | build/Build.cs:317-329 | as written, "1.5.9999" becomes "1.6.9999", ten thousand ranks ahead, and "1.99.9999" becomes "100.0.0" |

## Left out

- The NLog logger emitters (BaseLogger and the Json, File, Console and ColoredConsole builders) and the Json extension emitter are parameters. Their text is fixed template text around NLog configuration objects.
- The task-manager emitter is a parameter, and the task-manager runtime is not modelled. It is async code with events and concurrency.
- The retry and delay helpers of the resiliency generator are not modelled. They wrap Polly pipelines and use floating point, `Random` and `TimeSpan` inside a text template.
- Roslyn itself is not modelled: semantic models, syntax providers, incremental caching, `SourceText` and its encoding, and `SymbolDisplayFormat`. Fully qualified names are given strings. `EquatableArray` is sequence equality. The tab string read by reflection (`GetTabString`) is a field of the writer.
- Pipelines.AddSource: compares hint names exactly. The compiler also rejects a name that differs from an earlier one only in case; the model does not.
- StringExtensions.ToCamelCase: upper- and lower-casing cover ASCII letters only. Culture- and Unicode-specific casing is not modelled; the same holds for the case-insensitive comparisons in `TextWriter` and `PsNLogBuilder`.
- PsNLogBuilder.GetAttributeType: a constructor argument whose value is null (the `?? 0` fallback on a present attribute) is not representable, because arguments are integers. The null-attribute case is modelled.
- CloneRuntime.SafeClone: `Stack.Contains` compares by reference. A record that overrides `Equals` would compare by value; that is not modelled.
- CloneRuntime.DeepCloneSafe: relies on the same chain test (`referenceChain.Contains(this)`, src/ArxRiver.SourceGenerator/Generators/Cloneable/ClonableBuilder.cs:100-101), compared by reference. Value equality of records is not modelled here either.
- Numbers.TryParseInt32: the sign characters are fixed to ASCII `-` and `+`. The source calls the overload that reads the current culture (build/Build.cs:307, 317 and 327), whose negative and positive signs can differ; culture data is not modelled.
- CloneRuntime.DeepFields: an object's copy plan is taken to be that of the property's declared class. The generated clone methods are not virtual, so `P?.Clone()` runs the Clone of P's declared type. For a derived cloneable object held in a property of a cloneable base type, the source copies with the base plan and builds a base object; the model copies with the object's own plan (the same holds for `DeepValue`).
- CloneRuntime.Copy: a property outside the copy plan is left unset in the model, and so reads as null. In the source, `new T { ... }` leaves it at whatever the constructor or the property's initializer gives it (an `int Age` would be 0). Class defaults are not modelled.
- CloneRuntime.AllocateValues: states null for a property outside the plan for the same reason. The source promises only the constructor's or the initializer's value there.
- Symbols.AccessibilityKeyword: the compound levels print `protectedandinternal` and `protectedorinternal`, and `NotApplicable` prints `notapplicable`. These are lower-cased enum names, not C# modifiers, so a clone method built for such a nested type would not compile (src/ArxRiver.SourceGenerator/Generators/Cloneable/ClonableBuilder.cs:196-197). The model prints what the source prints and states which results are modifiers; it does not repair them.
- TextWriter.WriteLines: requires a non-empty template whenever the template differs from the tab string. With an empty template the source's stripping loop (src/ArxRiver.SourceGenerator/Extensions/IndentedTextWriterExtensions.cs:33-37) removes nothing and never ends, so that case has no result to model.
- The writer's state after an exception is not modelled. A throwing emitter yields `Err` and no writer.
- The emitted text is modelled as lines of (indent, text). Exact white space beyond what the contracts state, such as blank lines inside raw string templates, is not claimed.
- In the version bump, the branch for zero parts (build/Build.cs:297-299) is not modelled: splitting a string always yields at least one part, so it cannot run.
- The rest of build/Build.cs is not modelled: build targets, the dotnet command line, file-system and XML I/O.
- Attribute declarations and test model classes are used only as examples.

## Findings

| source | as written | input that shows it | evidently intended | confidence | as-written member | corrected member |
|---|---|---|---|---|---|---|
| src/ArxRiver.SourceGenerator/Generators/NLogger/PsNLogGenerator.cs:110-115 | the Json extension class is added for every Json logger under the fixed hint "ArxRiver.NLogger.NLoggerExtensions.g.cs" | two types marked `PsLogger` with the default Json kind: the second `AddSource` with the same hint throws an argument exception | add the shared extension class once per run | not executed | PsNLogGenerator.AsWrittenTwoJsonLoggersFail | PsNLogGenerator.GenerateSucceeds |
| build/Build.cs:317-323 | on a minor rollover the build part is left at its old value | "1.5.9999" becomes "1.6.9999" | "1.6.0", the next version | not executed | VersionBump.AsWrittenSkipsVersions | VersionBump.IntendedIsSuccessor |
| build/Build.cs:327-329 | on a major rollover the new major is parsed from the minor part | "1.99.9999" becomes "100.0.0" | "2.0.0", the major part plus one | not executed | VersionBump.AsWrittenSkipsVersions | VersionBump.IntendedIsSuccessor |

=== FILE: builder_helpers.dfy ===
/** The small writers the emitters share: the block of `using` directives,
    the `#nullable enable` header and the opening and closing braces. */
module BuilderHelpers {
  import opened Text
  import opened TextWriter

  /** `using X;` for one namespace. */
  function UsingDirective(ns: string): (r: string)
    ensures r == "using " + ns + ";"
  {
    "using " + ns + ";"
  }

  function UsingDirectives(namespaces: seq<string>): (r: seq<string>)
    ensures |r| == |namespaces| && forall i :: 0 <= i < |namespaces| ==> r[i] == UsingDirective(namespaces[i])
  {
    seq(|namespaces|, i requires 0 <= i < |namespaces| => UsingDirective(namespaces[i]))
  }

  /** Different namespaces give different directives. */
  lemma UsingDirectiveInjective(a: string, b: string)
    requires UsingDirective(a) == UsingDirective(b)
    ensures a == b
  {
    assert a == UsingDirective(a)[6..|UsingDirective(a)| - 1];
    assert b == UsingDirective(b)[6..|UsingDirective(b)| - 1];
  }

  /** `WriteUsings(usings)`: ONE `WriteLine` whose text is the directives for
      the distinct namespaces, first occurrences in order, joined by CR LF. */
  function WriteUsings(w: Writer, usings: seq<string>): (w': Writer)
    ensures w'.indent == w.indent && w'.tab == w.tab && w'.newLine == w.newLine
    ensures |w'.lines| == |w.lines| + 1 && w'.lines[..|w.lines|] == w.lines
    ensures w'.lines[|w.lines|].indent == w.indent
  {
    WriteLine(w, Join(UsingDirectives(Distinct(usings)), "\r\n"))
  }

  /** Reading the written text back line by line gives one directive per
      distinct namespace, and no directive twice. */
  lemma UsingsAreDistinct(w: Writer, usings: seq<string>)
    requires |usings| > 0
    requires forall i :: 0 <= i < |usings| ==> '\r' !in usings[i]
    ensures var text := WriteUsings(w, usings).lines[|w.lines|].text;
            var directives := SplitOn(text, "\r\n");
            && directives == UsingDirectives(Distinct(usings))
            && (forall i :: 0 <= i < |usings| ==> UsingDirective(usings[i]) in directives)
            && (forall i, j :: 0 <= i < j < |directives| ==> directives[i] != directives[j])
  {
    var ds := Distinct(usings);
    var directives := UsingDirectives(ds);
    assert |ds| > 0 by { assert usings[0] in ds; }
    forall i | 0 <= i < |directives|
      ensures '\r' !in directives[i]
    {
      assert ds[i] in usings;
      var k :| 0 <= k < |usings| && usings[k] == ds[i];
      assert directives[i] == "using " + ds[i] + ";";
    }
    JoinSplit(directives, "\r\n");
    forall i | 0 <= i < |usings|
      ensures UsingDirective(usings[i]) in directives
    {
      var k :| 0 <= k < |ds| && ds[k] == usings[i];
      assert directives[k] == UsingDirective(usings[i]);
    }
    forall i, j | 0 <= i < j < |directives|
      ensures directives[i] != directives[j]
    {
      if directives[i] == directives[j] {
        UsingDirectiveInjective(ds[i], ds[j]);
      }
    }
  }

  /** `WriteNullableOptions`: `#nullable enable` and an empty line. */
  function WriteNullableOptions(w: Writer): (w': Writer)
    ensures w'.lines == w.lines + [Line(w.indent, "#nullable enable"), Line(w.indent, "")]
    ensures w'.indent == w.indent && w'.tab == w.tab && w'.newLine == w.newLine
  {
    WriteLine(WriteLine(w, "#nullable enable"), "")
  }

  /** `WriteStartBraket`: exactly one line, `{`. */
  function WriteStartBracket(w: Writer): (w': Writer)
    ensures w'.lines == w.lines + [Line(w.indent, "{")]
    ensures w'.indent == w.indent && w'.tab == w.tab && w'.newLine == w.newLine
  {
    WriteLine(w, "{")
  }

  /** `WriteEndBraket`: exactly one line, `}`. */
  function WriteEndBracket(w: Writer): (w': Writer)
    ensures w'.lines == w.lines + [Line(w.indent, "}")]
    ensures w'.indent == w.indent && w'.tab == w.tab && w'.newLine == w.newLine
  {
    WriteLine(w, "}")
  }
}

=== FILE: class_builder.dfy ===
/** The class-builder emitter: for a type marked `AutoClassBuilder`, a
    `{Name}Builder` class with a draft instance, one nested builder per
    property whose type is itself a user-defined builder class, a validation
    rule, fluent setters and `Build`. */
module ClassBuilder {
  import opened Wrappers
  import opened Text
  import opened TextWriter
  import opened Symbols
  import opened Models
  import opened Sequences
  import opened Emission
  import StringExtensions
  import TypeExtensions
  import PropertyModelExtensions
  import Constants

  const SystemUsings: seq<string> := ["System"]

  /** A property gets setters when it has no skip marker and a public,
      writable setter. */
  predicate IsEligible(p: PropertySymbolModel)
  {
    !PropertyModelExtensions.HasSkipClassBuilderAttribute(p)
    && p.property.setMethod == Some(Public) && !p.property.isReadOnly
  }

  /** `GetAccessibleProperties` of the builder: the eligible properties, in
      input order. */
  function GetAccessibleProperties(props: seq<PropertySymbolModel>): (r: seq<PropertySymbolModel>)
    ensures forall p :: p in r <==> p in props && IsEligible(p)
    ensures |r| <= |props|
    ensures (forall i :: 0 <= i < |props| ==> IsEligible(props[i])) ==> r == props
  {
    FilterAllOrNothing(props, IsEligible);
    Filter(props, IsEligible)
  }

  /** The selection keeps input order: selecting from a concatenation is
      concatenating the selections. */
  lemma EligibleInOrder(a: seq<PropertySymbolModel>, b: seq<PropertySymbolModel>)
    ensures GetAccessibleProperties(a + b) == GetAccessibleProperties(a) + GetAccessibleProperties(b)
  {
    FilterConcat(a, b, IsEligible);
  }

  /** `IsUserDefinedClass`. */
  predicate IsUserDefinedClass(t: TypeRef)
  {
    if !t.isNamedType then false
    else if t.isValueType && t.specialType != NoSpecialType then false
    else if t.containingNamespace.Some? && InSystemNamespace(t.containingNamespace.value) then false
    else t.kind != ArrayKind
  }

  /** `System` itself or a namespace under it, by plain text. */
  predicate InSystemNamespace(ns: string)
  {
    ns == "System" || "System." <= ns
  }

  /** Types in `System` and below, built-in value types, arrays and
      non-named types are not user-defined; every other named type is,
      including one in a namespace that merely starts with "System" such as
      `Systems`. */
  lemma UserDefinedClassCases(t: TypeRef, suffix: string)
    ensures (t.isNamedType && t.kind != ArrayKind && t.specialType == NoSpecialType
             && t.containingNamespace == Some("Systems" + suffix)) ==> IsUserDefinedClass(t)
    ensures t.containingNamespace == Some("System." + suffix) ==> !IsUserDefinedClass(t)
    ensures t.containingNamespace.None? ==> (IsUserDefinedClass(t) <==>
              t.isNamedType && t.kind != ArrayKind && !(t.isValueType && t.specialType != NoSpecialType))
    ensures !t.isNamedType || t.kind == ArrayKind ==> !IsUserDefinedClass(t)
  {
    if t.containingNamespace == Some("Systems" + suffix) {
      var ns := "Systems" + suffix;
      assert ns[6] == 's' && "System."[6] == '.';
      assert |ns| != |"System"|;
    }
  }

  /** A property whose type gets a nested builder: a user-defined class
      carrying the builder marker (by short name). */
  predicate HasNestedBuilder(p: PropertySymbolModel)
  {
    var t := p.property.propertyType;
    t.kind == ClassKind && IsUserDefinedClass(t) && TypeExtensions.HasAttribute(t, Constants.AutoClassBuilderAttributeName)
  }

  /** The members of the builder class, in the order they are written. */
  datatype Member =
    | InstanceField
    | NestedBuilderField(propertyName: string)
    | RuleField
    | Constructor
    | CreateMethod
    | RuleSetter
    | ActionSetter(propertyName: string)
    | DirectSetter(propertyName: string, typeDisplay: string)
    | BuildMethod(nested: seq<string>)

  function PropertyName(p: PropertySymbolModel): string { p.name }

  /** The names of the properties with a nested builder, in order. */
  function NestedNames(ps: seq<PropertySymbolModel>): (r: seq<string>)
    ensures forall n :: n in r <==> exists p :: p in ps && HasNestedBuilder(p) && p.name == n
  {
    var nested := Filter(ps, HasNestedBuilder);
    var r := Map(nested, PropertyName);
    assert forall p :: p in nested ==> p.name in r by {
      forall p | p in nested ensures p.name in r {
        var i :| 0 <= i < |nested| && nested[i] == p;
        assert r[i] == p.name;
      }
    }
    r
  }

  function NestedField(n: string): Member { NestedBuilderField(n) }

  function DirectSetterOf(p: PropertySymbolModel): Member
  {
    DirectSetter(p.name, p.property.propertyType.displayString)
  }

  /** The setters of one property: the action setter first when it has a
      nested builder, then the direct setter. */
  function SetterMembers(p: PropertySymbolModel): (r: seq<Member>)
    ensures |r| >= 1 && r[|r| - 1] == DirectSetterOf(p)
    ensures forall n :: ActionSetter(n) in r <==> HasNestedBuilder(p) && n == p.name
  {
    (if HasNestedBuilder(p) then [ActionSetter(p.name)] else []) + [DirectSetterOf(p)]
  }

  /** The builder's members for the given input properties. */
  function Members(props: seq<PropertySymbolModel>): (r: seq<Member>)
    ensures |r| >= 6 && r[0] == InstanceField
    ensures r[|r| - 1] == BuildMethod(NestedNames(GetAccessibleProperties(props)))
  {
    var ps := GetAccessibleProperties(props);
    Head(ps) + Flatten(Map(ps, SetterMembers)) + [BuildMethod(NestedNames(ps))]
  }

  /** The members before the setters: the fields, the constructor, `Create`
      and `WithValidationRule`. */
  function Head(ps: seq<PropertySymbolModel>): (r: seq<Member>)
    ensures |r| >= 5 && r[0] == InstanceField
    ensures forall m :: m in r && m.DirectSetter? ==> false
    ensures forall n :: ActionSetter(n) !in r
    ensures forall n :: NestedBuilderField(n) in r <==> n in NestedNames(ps)
  {
    [InstanceField] + NestedFields(NestedNames(ps)) + [RuleField, Constructor, CreateMethod, RuleSetter]
  }

  /** One builder field per nested name, and nothing else. */
  function NestedFields(names: seq<string>): (r: seq<Member>)
    ensures forall m :: m in r ==> m.NestedBuilderField?
    ensures forall n :: NestedBuilderField(n) in r <==> n in names
  {
    var fields := Map(names, NestedField);
    assert forall n :: n in names ==> NestedBuilderField(n) in fields by {
      forall n | n in names ensures NestedBuilderField(n) in fields {
        var i :| 0 <= i < |names| && names[i] == n;
        assert fields[i] == NestedBuilderField(n);
      }
    }
    fields
  }

  predicate IsDirectSetter(m: Member) { m.DirectSetter? }

  lemma SetterMembersDirect(p: PropertySymbolModel)
    ensures Filter(SetterMembers(p), IsDirectSetter) == [DirectSetterOf(p)]
  {
    var d := [DirectSetterOf(p)];
    assert Filter(d, IsDirectSetter) == d by { assert d[1..] == []; }
    if HasNestedBuilder(p) {
      var a := [ActionSetter(p.name)];
      FilterConcat(a, d, IsDirectSetter);
      assert Filter(a, IsDirectSetter) == [] by { assert a[1..] == []; }
    } else {
      assert SetterMembers(p) == d;
    }
  }

  /** Exactly one direct setter per eligible property, in input order, and
      no other. */
  lemma DirectSettersInOrder(props: seq<PropertySymbolModel>)
    ensures Filter(Members(props), IsDirectSetter) == Map(GetAccessibleProperties(props), DirectSetterOf)
  {
    var ps := GetAccessibleProperties(props);
    var head := Head(ps);
    var section := Flatten(Map(ps, SetterMembers));
    var tail := [BuildMethod(NestedNames(ps))];
    FilterConcat(head + section, tail, IsDirectSetter);
    FilterConcat(head, section, IsDirectSetter);
    FilterAllOrNothing(head, IsDirectSetter);
    FilterAllOrNothing(tail, IsDirectSetter);
    forall q ensures Filter(SetterMembers(q), IsDirectSetter) == [DirectSetterOf(q)] {
      SetterMembersDirect(q);
    }
    FilterFlattenMap(ps, SetterMembers, IsDirectSetter, DirectSetterOf);
  }

  /** An action setter exists for a name exactly when an eligible property
      of that name has a nested builder. */
  lemma ActionSetterIff(props: seq<PropertySymbolModel>, n: string)
    ensures ActionSetter(n) in Members(props) <==> n in NestedNames(GetAccessibleProperties(props))
  {
    var ps := GetAccessibleProperties(props);
    assert Members(props) == Head(ps) + Flatten(Map(ps, SetterMembers)) + [BuildMethod(NestedNames(ps))];
    SectionActionIff(ps, n);
  }

  lemma SectionActionIff(ps: seq<PropertySymbolModel>, n: string)
    ensures ActionSetter(n) in Flatten(Map(ps, SetterMembers)) <==> n in NestedNames(ps)
  {
    var section := Flatten(Map(ps, SetterMembers));
    FlattenMapMember(ps, SetterMembers, ActionSetter(n));
    if ActionSetter(n) in section {
      var i :| 0 <= i < |ps| && ActionSetter(n) in SetterMembers(ps[i]);
      assert HasNestedBuilder(ps[i]) && ps[i].name == n && ps[i] in ps;
    }
    if n in NestedNames(ps) {
      var p :| p in ps && HasNestedBuilder(p) && p.name == n;
      var i :| 0 <= i < |ps| && ps[i] == p;
      assert ActionSetter(n) in SetterMembers(ps[i]);
    }
  }

  /** A nested builder field exists for a name exactly when an eligible
      property of that name has a nested builder. */
  lemma NestedFieldIff(props: seq<PropertySymbolModel>, n: string)
    ensures NestedBuilderField(n) in Members(props) <==> n in NestedNames(GetAccessibleProperties(props))
  {
    var ps := GetAccessibleProperties(props);
    var section := Flatten(Map(ps, SetterMembers));
    assert Members(props) == Head(ps) + section + [BuildMethod(NestedNames(ps))];
    FlattenMapMember(ps, SetterMembers, NestedBuilderField(n));
  }

  /** The nested names are those of the input properties that are eligible
      and have a nested builder. */
  lemma NestedNamesOfInput(props: seq<PropertySymbolModel>, n: string)
    ensures n in NestedNames(GetAccessibleProperties(props)) <==>
            exists p :: p in props && IsEligible(p) && HasNestedBuilder(p) && p.name == n
  {
  }

  /** The text of each member, indented relative to the class body. `cls`
      is the type's safe class name. */
  function Render(cls: string, m: Member): (r: Document)
    ensures |r| > 0
  {
    match m
    case InstanceField =>
      LinesAt(0, ["", "private readonly " + cls + " _instance = new " + cls + "();"])
    case NestedBuilderField(n) =>
      var safe := StringExtensions.ToSafeClassName(n);
      LinesAt(0, ["private readonly " + safe + "Builder _" + Camel(n) + "Builder = " + safe + "Builder.Create();"])
    case RuleField =>
      LinesAt(0, ["private Func<" + cls + ", bool>? _validationRule = null;", ""])
    case Constructor =>
      LinesAt(0, ["private " + cls + "Builder() {}", ""])
    case CreateMethod =>
      LinesAt(0, ["public static " + cls + "Builder Create() => new " + cls + "Builder();", ""])
    case RuleSetter =>
      MethodBlock("public " + cls + "Builder WithValidationRule(Func<" + cls + ", bool>? validationRule)",
                  ["_validationRule = validationRule;", "return this;"])
    case ActionSetter(n) =>
      var safe := StringExtensions.ToSafeClassName(n);
      MethodBlock("public " + cls + "Builder With" + n + "(Action<" + safe + "Builder> " + Camel(safe) + "BuilderAction)",
                  [Camel(n) + "BuilderAction(_" + Camel(n) + "Builder);", "return this;"])
    case DirectSetter(n, display) =>
      MethodBlock("public " + cls + "Builder With" + n + "(" + display + " " + Camel(n) + ")",
                  [DraftAssignment(n), "return this;"])
    case BuildMethod(nested) =>
      LinesAt(0, ["", "public " + cls + " Build(Func<" + cls + ", bool>?  validationRule = null)", "{"])
      + LinesAt(1, Map(nested, NestedAssignment))
      + LinesAt(1, ["", "_validationRule = validationRule ?? _validationRule;",
                    "if (_validationRule != null && !_validationRule(_instance))", "{"])
      + LinesAt(2, ["throw new ArgumentException(\"Validation failed for " + cls + ".\");"])
      + LinesAt(1, ["}", "return _instance;"])
      + LinesAt(0, ["}", ""])
  }

  /** The statement the direct setter of `n` runs. */
  function DraftAssignment(n: string): string
  {
    "_instance." + n + " = " + Camel(n) + ";"
  }

  /** The statement `Build` runs for the nested builder of `n`. */
  function NestedAssignment(n: string): string
  {
    "_instance." + StringExtensions.ToSafeClassName(n) + " = _" + Camel(n) + "Builder.Build();"
  }

  /** Rendering with a fixed class name. */
  function Renderer(cls: string): (f: Member -> Document)
    ensures forall m :: f(m) == Render(cls, m)
  {
    m => Render(cls, m)
  }

  function RenderAll(cls: string, ms: seq<Member>): Document
  {
    Flatten(Map(ms, Renderer(cls)))
  }

  /** Everything before the class body: the nullable header, the `using`
      line, the namespace block and the class header with its brace. */
  function Preamble(t: TypeSymbolModel): Document
  {
    NullableHeader() + UsingsLine(SystemUsings) + FileScopedNamespace(t)
      + LinesAt(0, [AccessibilityKeyword(t.typeSymbol.declaredAccessibility) + " class "
                    + StringExtensions.ToSafeClassName(t.name) + "Builder", "{"])
  }

  /** The whole builder file. */
  function Document(t: TypeSymbolModel, props: seq<PropertySymbolModel>): Document
  {
    Preamble(t) + Shift(1, RenderAll(StringExtensions.ToSafeClassName(t.name), Members(props))) + [Line(0, "}")]
  }

  /** `Build(writer, type, properties)`. */
  function Build(w: Writer, t: TypeSymbolModel, props: seq<PropertySymbolModel>): (w': Writer)
    ensures w'.indent == w.indent && |w.lines| <= |w'.lines| && w'.lines[..|w.lines|] == w.lines
  {
    Emit(w, Document(t, props))
  }

  /** Every eligible property has its direct setter among the members. */
  lemma DirectSetterPresent(props: seq<PropertySymbolModel>, p: PropertySymbolModel)
    requires p in props && IsEligible(p)
    ensures DirectSetterOf(p) in Members(props)
  {
    var ps := GetAccessibleProperties(props);
    DirectSettersInOrder(props);
    var i :| 0 <= i < |ps| && ps[i] == p;
    assert Map(ps, DirectSetterOf)[i] == DirectSetterOf(p);
    assert DirectSetterOf(p) in Filter(Members(props), IsDirectSetter);
  }

  /** A direct setter among the members puts its draft assignment into the
      class body, one level in. */
  lemma RenderedAssignment(cls: string, ms: seq<Member>, n: string, display: string)
    requires DirectSetter(n, display) in ms
    ensures Line(1, DraftAssignment(n)) in RenderAll(cls, ms)
  {
    var k :| 0 <= k < |ms| && ms[k] == DirectSetter(n, display);
    assert Render(cls, ms[k])[2] == Line(1, DraftAssignment(n));
    FlattenMapMember(ms, Renderer(cls), Line(1, DraftAssignment(n)));
  }

  /** Every eligible property's direct setter is in the file, with the
      statement that stores the argument into the draft two levels inside
      the class. */
  lemma SetterAssignsDraft(t: TypeSymbolModel, props: seq<PropertySymbolModel>, p: PropertySymbolModel)
    requires p in props && IsEligible(p)
    ensures Line(2, DraftAssignment(p.name)) in Document(t, props)
  {
    var cls := StringExtensions.ToSafeClassName(t.name);
    var body := RenderAll(cls, Members(props));
    DirectSetterPresent(props, p);
    RenderedAssignment(cls, Members(props), p.name, p.property.propertyType.displayString);
    var j :| 0 <= j < |body| && body[j] == Line(1, DraftAssignment(p.name));
    assert Shift(1, body)[j] == Line(2, DraftAssignment(p.name));
  }
}

=== FILE: class_builder_runtime.dfy ===
/** What the generated builder does when it runs. A builder owns one draft
    instance, created with the builder and never replaced, a stored
    validation rule (initially none) and one nested builder per property
    with a nested builder, in member order. */
module ClassBuilderRuntime {
  import opened Wrappers
  import opened Objects
  import opened Sequences
  import opened Models
  import ClassBuilder

  /** A validation rule: a test on the draft's property values. */
  type Rule = Fields -> bool

  datatype Builder = Builder(draft: Instance, rule: Option<Rule>, nested: seq<Slot>)

  /** A nested builder and the property its result is stored into. */
  datatype Slot = Slot(name: string, builder: Builder)

  /** `{Name}Builder.Create()`: an empty draft with the given identity, no
      rule, and the nested builders for the type's nested properties. */
  function Create(id: nat, props: seq<PropertySymbolModel>, nestedBuilder: string -> Builder): (b: Builder)
    ensures b.draft == Instance(id, map[]) && b.rule == None
    ensures |b.nested| == |ClassBuilder.NestedNames(ClassBuilder.GetAccessibleProperties(props))|
    ensures forall i :: 0 <= i < |b.nested| ==>
      b.nested[i].name == ClassBuilder.NestedNames(ClassBuilder.GetAccessibleProperties(props))[i]
  {
    var names := ClassBuilder.NestedNames(ClassBuilder.GetAccessibleProperties(props));
    Builder(Instance(id, map[]), None, seq(|names|, i requires 0 <= i < |names| => Slot(names[i], nestedBuilder(names[i]))))
  }

  /** `With{Name}(value)`: stores the value into the draft and returns the
      same builder. */
  function With(b: Builder, name: string, v: Value): (b': Builder)
    ensures b'.draft.id == b.draft.id && b'.draft.fields == b.draft.fields[name := v]
    ensures b'.nested == b.nested
  {
    b.(draft := b.draft.(fields := b.draft.fields[name := v]))
  }

  /** `WithValidationRule(rule)`: replaces the stored rule, clearing it when
      given null. */
  function WithValidationRule(b: Builder, rule: Option<Rule>): (b': Builder)
    ensures b'.draft == b.draft && b'.nested == b.nested
  {
    b.(rule := rule)
  }

  /** `With{Name}(action)`: runs the action on the nested builder of that
      property (the first one, should a name repeat). */
  function WithNested(b: Builder, name: string, action: Builder -> Builder): (b': Builder)
    ensures b'.draft == b.draft && |b'.nested| == |b.nested|
  {
    b.(nested := ApplyTo(b.nested, name, action))
  }

  function ApplyTo(slots: seq<Slot>, name: string, action: Builder -> Builder): (r: seq<Slot>)
    ensures |r| == |slots|
    decreases |slots|
  {
    if |slots| == 0 then []
    else if slots[0].name == name then [Slot(name, action(slots[0].builder))] + slots[1..]
    else [slots[0]] + ApplyTo(slots[1..], name, action)
  }

  /** The outcome of `Build`: the builder's state afterwards and either the
      draft or the exception thrown. */
  datatype Outcome = Outcome(after: Builder, result: Result<Instance>)

  /** The nested assignments: each nested builder is built in order and its
      instance stored into the draft. The first failure stops the run;
      assignments made before it stay. */
  datatype NestedRun = NestedRun(slots: seq<Slot>, fields: Fields, failure: Option<Exception>)

  /** `Build(validationRule)`. The nested assignments run first; then the
      given rule, when not null, replaces the stored one; then the draft is
      returned unless the stored rule rejects it. */
  function Build(b: Builder, rule: Option<Rule>): (o: Outcome)
    ensures o.after.draft.id == b.draft.id
    ensures o.result.Ok? ==> o.result.value == o.after.draft
    decreases b, 1
  {
    var run := BuildNested(b.nested, b.draft.fields);
    var b1 := b.(nested := run.slots, draft := b.draft.(fields := run.fields));
    if run.failure.Some? then Outcome(b1, Err(run.failure.value))
    else
      var b2 := b1.(rule := if rule.Some? then rule else b.rule);
      if b2.rule.Some? && !b2.rule.value(b2.draft.fields) then Outcome(b2, Err(ArgumentException))
      else Outcome(b2, Ok(b2.draft))
  }

  function BuildNested(slots: seq<Slot>, fields: Fields): (run: NestedRun)
    ensures |run.slots| == |slots|
    ensures forall i :: 0 <= i < |slots| ==> run.slots[i].name == slots[i].name
    decreases slots, 0
  {
    if |slots| == 0 then NestedRun([], fields, None)
    else
      var o := Build(slots[0].builder, None);
      var done := Slot(slots[0].name, o.after);
      if o.result.Err? then NestedRun([done] + slots[1..], fields, Some(o.result.error))
      else
        var rest := BuildNested(slots[1..], fields[slots[0].name := Ref(o.result.value.id)]);
        NestedRun([done] + rest.slots, rest.fields, rest.failure)
  }

  /** The rule `Build` applies: the one given, or else the stored one. */
  function EffectiveRule(b: Builder, rule: Option<Rule>): Option<Rule>
  {
    if rule.Some? then rule else b.rule
  }

  /** When every nested builder succeeds, `Build` throws exactly when the
      effective rule rejects the populated draft, stores the effective rule
      for later calls, and otherwise returns the draft. A nested failure is
      rethrown before the rule is looked at, leaving the stored rule alone. */
  lemma BuildValidates(b: Builder, rule: Option<Rule>)
    ensures var o := Build(b, rule);
            var run := BuildNested(b.nested, b.draft.fields);
            && (run.failure.Some? ==> o.result == Err(run.failure.value) && o.after.rule == b.rule)
            && (run.failure.None? ==>
                  && o.after.rule == EffectiveRule(b, rule)
                  && o.after.draft.fields == run.fields
                  && (o.result.Err? <==> EffectiveRule(b, rule).Some? && !EffectiveRule(b, rule).value(run.fields))
                  && (o.result.Err? ==> o.result.error == ArgumentException))
  {
  }

  /** A rule passed to `Build` stays: the next `Build` without a rule
      applies it again. */
  lemma RulePersists(b: Builder, r: Rule)
    requires BuildNested(b.nested, b.draft.fields).failure.None?
    ensures Build(b, Some(r)).after.rule == Some(r)
    ensures EffectiveRule(Build(b, Some(r)).after, None) == Some(r)
  {
  }

  predicate DistinctNames(slots: seq<Slot>)
  {
    forall i, j :: 0 <= i < j < |slots| ==> slots[i].name != slots[j].name
  }

  /** When the nested builders all succeed and their names are distinct,
      each nested property ends up holding the instance its builder built,
      whatever a direct setter stored there before, and every other
      property keeps its value. */
  lemma {:induction false} NestedOverwrites(slots: seq<Slot>, fields: Fields)
    requires DistinctNames(slots)
    requires BuildNested(slots, fields).failure.None?
    ensures var run := BuildNested(slots, fields);
            && (forall i :: 0 <= i < |slots| ==>
                  slots[i].name in run.fields && run.fields[slots[i].name] == Ref(slots[i].builder.draft.id))
            && (forall n :: n in fields && (forall i :: 0 <= i < |slots| ==> slots[i].name != n) ==>
                  n in run.fields && run.fields[n] == fields[n])
            && (forall n :: n in run.fields ==> n in fields || exists i :: 0 <= i < |slots| && slots[i].name == n)
    decreases |slots|
  {
    if |slots| > 0 {
      var o := Build(slots[0].builder, None);
      var f1 := fields[slots[0].name := Ref(o.result.value.id)];
      assert DistinctNames(slots[1..]) by {
        forall i, j | 0 <= i < j < |slots[1..]| ensures slots[1..][i].name != slots[1..][j].name {
          assert slots[1..][i] == slots[i + 1] && slots[1..][j] == slots[j + 1];
        }
      }
      NestedOverwrites(slots[1..], f1);
      var run := BuildNested(slots, fields);
      assert run.fields == BuildNested(slots[1..], f1).fields;
      forall i | 0 <= i < |slots|
        ensures slots[i].name in run.fields && run.fields[slots[i].name] == Ref(slots[i].builder.draft.id)
      {
        if i == 0 {
          assert forall k :: 0 <= k < |slots[1..]| ==> slots[1..][k].name != slots[0].name by {
            forall k | 0 <= k < |slots[1..]| ensures slots[1..][k].name != slots[0].name {
              assert slots[1..][k] == slots[k + 1];
            }
          }
        } else {
          assert slots[1..][i - 1] == slots[i];
        }
      }
      forall n | n in run.fields
        ensures n in fields || exists i :: 0 <= i < |slots| && slots[i].name == n
      {
        if n !in fields && n != slots[0].name {
          var k :| 0 <= k < |slots[1..]| && slots[1..][k].name == n;
          assert slots[k + 1].name == n;
        }
      }
      forall n | n in fields && (forall i :: 0 <= i < |slots| ==> slots[i].name != n)
        ensures n in run.fields && run.fields[n] == fields[n]
      {
        assert slots[0].name != n;
        assert forall k :: 0 <= k < |slots[1..]| ==> slots[1..][k].name != n by {
          forall k | 0 <= k < |slots[1..]| ensures slots[1..][k].name != n {
            assert slots[1..][k] == slots[k + 1];
          }
        }
      }
    }
  }

  /** The `Address` builder of the tests: four direct setters, no nested
      builder and no rule, so `Build()` returns the draft holding the four
      values given. */
  lemma AddressExample(id: nat)
    ensures var b := With(With(With(With(Builder(Instance(id, map[]), None, []),
                        "City", Str("Burbank")), "State", Str("CA")),
                        "Street", Str("874 Glenoaks blvd")), "ZipCode", Str("91502"));
            var o := Build(b, None);
            && o.result.Ok? && o.result.value.id == id
            && Get(o.result.value.fields, "City") == Str("Burbank")
            && Get(o.result.value.fields, "State") == Str("CA")
            && Get(o.result.value.fields, "Street") == Str("874 Glenoaks blvd")
            && Get(o.result.value.fields, "ZipCode") == Str("91502")
  {
  }
}

=== FILE: clone_runtime.dfy ===
/** What the generated clone methods do when they run, on a heap of objects
    addressed by position. Each object carries the copy plan its class was
    generated with: the copied properties in order and which of them are
    cloned deeply. `new T { ... }` allocates the result first and then
    evaluates the initializers left to right. A property outside the plan
    keeps whatever the constructor or its own initializer gave it; class
    defaults are not part of this model, which leaves such a property
    unset and so reads it as null. The reference chain is the caller's
    stack of objects being cloned, compared by identity. A nested copy uses
    the plan stored in the referenced object, which stands for the plan of
    the property's declared class: the generated methods are not virtual,
    and objects of a derived class are not told apart here. */
module CloneRuntime {
  import opened Wrappers
  import opened Objects

  /** One copy line: the property and whether it is cloned deeply. */
  datatype Entry = Entry(name: string, deep: bool)

  datatype Obj = Obj(fields: Fields, plan: seq<Entry>)

  type Heap = seq<Obj>

  predicate RefBelow(v: Value, n: nat)
  {
    v.Ref? ==> v.id < n
  }

  predicate FieldsBelow(fields: Fields, n: nat)
  {
    forall k :: k in fields ==> RefBelow(fields[k], n)
  }

  /** No reference points outside the heap. */
  predicate Valid(h: Heap)
  {
    forall i :: 0 <= i < |h| ==> FieldsBelow(h[i].fields, |h|)
  }

  predicate InPlan(plan: seq<Entry>, n: string)
  {
    exists e :: e in plan && e.name == n
  }

  /** The values a shallow copy receives: each planned property's value;
      every other property is left unset (read as null, in place of the
      class's own default). */
  function Copy(fields: Fields, plan: seq<Entry>): (r: Fields)
    ensures forall n :: Get(r, n) == if InPlan(plan, n) then Get(fields, n) else Null
  {
    map n | n in fields && InPlan(plan, n) :: fields[n]
  }

  lemma CopyBelow(fields: Fields, plan: seq<Entry>, n: nat)
    ensures FieldsBelow(fields, n) ==> FieldsBelow(Copy(fields, plan), n)
  {
  }

  /** A heap after a call, the object the call returned, and the caller's
      reference chain afterwards (`None` when it passed null). */
  datatype Run = Run(heap: Heap, result: nat, chain: Option<seq<nat>>)

  /** The chain a call works with: the caller's, or a new empty one. */
  function Stack(chain: Option<seq<nat>>): seq<nat>
  {
    if chain.Some? then chain.value else []
  }

  predicate OnChain(chain: Option<seq<nat>>, self: nat)
  {
    chain.Some? && self in chain.value
  }

  /** The chain after `Pop()`, as the caller sees it: a new chain is not
      visible to the caller. */
  function Popped(chain: Option<seq<nat>>, stack: seq<nat>): Option<seq<nat>>
    requires |stack| > 0
  {
    if chain.Some? then Some(stack[..|stack| - 1]) else None
  }

  /** `Clone()`: a new object holding the planned values of `self`. */
  function Clone(h: Heap, self: nat): (r: Run)
    requires self < |h|
    ensures |r.heap| == |h| + 1 && r.heap[..|h|] == h && r.result == |h| && r.chain == None
    ensures r.heap[r.result] == Obj(Copy(h[self].fields, h[self].plan), h[self].plan)
    ensures Valid(h) ==> Valid(r.heap)
  {
    var o := Obj(Copy(h[self].fields, h[self].plan), h[self].plan);
    CopyBelow(h[self].fields, h[self].plan, |h|);
    Run(h + [o], |h|, None)
  }

  /** `SafeClone(referenceChain)`: `self` itself when it is on the chain;
      otherwise push it, make the shallow copy, pop it. */
  function SafeClone(h: Heap, self: nat, chain: Option<seq<nat>>): (r: Run)
    requires self < |h|
    ensures r.chain == chain
    ensures |h| <= |r.heap| && r.heap[..|h|] == h && r.result < |r.heap|
    ensures OnChain(chain, self) ==> r.heap == h && r.result == self
    ensures !OnChain(chain, self) ==> r.heap[r.result] == Obj(Copy(h[self].fields, h[self].plan), h[self].plan)
                                       && r.result == |h| && |r.heap| == |h| + 1
    ensures Valid(h) ==> Valid(r.heap)
  {
    if OnChain(chain, self) then Run(h, self, chain)
    else
      var stack := Stack(chain) + [self];
      var c := Clone(h, self);
      Run(c.heap, c.result, Popped(chain, stack))
  }

  /** The initializers of a deep clone, evaluated left to right into
      `acc`. A deep property holding a reference gets that object's shallow
      clone: `Clone()` when `chain` is `None` (`DeepClone`), or
      `SafeClone` on the chain when it is `Some` (`DeepCloneSafe`); `?.`
      leaves null alone. Each nested call hands the chain back as it found
      it. */
  datatype Threaded = Threaded(heap: Heap, fields: Fields, chain: Option<seq<nat>>)

  function DeepFields(h: Heap, src: Fields, plan: seq<Entry>, chain: Option<seq<nat>>, acc: Fields): (r: Threaded)
    requires FieldsBelow(src, |h|)
    ensures r.chain == chain
    ensures |h| <= |r.heap| && r.heap[..|h|] == h
    ensures Valid(h) && FieldsBelow(acc, |h|) ==> Valid(r.heap) && FieldsBelow(r.fields, |r.heap|)
    decreases |plan|
  {
    if |plan| == 0 then Threaded(h, acc, chain)
    else
      var v := Get(src, plan[0].name);
      if plan[0].deep && v.Ref? then
        var nested := if chain.Some? then SafeClone(h, v.id, chain) else Clone(h, v.id);
        var rest := DeepFields(nested.heap, src, plan[1..], chain, acc[plan[0].name := Ref(nested.result)]);
        rest
      else
        DeepFields(h, src, plan[1..], chain, acc[plan[0].name := v])
  }

  /** The body of the deep clones after the chain test: allocate the
      result, evaluate the initializers with the given nested chain, store
      them. The run's chain is the nested chain as handed back. */
  function Allocate(h: Heap, self: nat, nestedChain: Option<seq<nat>>): (r: Run)
    requires Valid(h) && self < |h|
    ensures r.chain == nestedChain && r.result == |h|
    ensures |h| < |r.heap| && r.heap[..|h|] == h
    ensures r.heap[r.result].plan == h[self].plan
    ensures Valid(r.heap)
  {
    var plan := h[self].plan;
    var h1 := h + [Obj(map[], plan)];
    assert Valid(h1) by {
      forall i | 0 <= i < |h1| ensures FieldsBelow(h1[i].fields, |h1|) {
        if i < |h| {
          assert h1[i] == h[i];
        }
      }
    }
    assert h1[self] == h[self];
    var d := DeepFields(h1, h[self].fields, plan, nestedChain, map[]);
    assert d.heap[|h|] == h1[|h|];
    Run(d.heap[|h| := Obj(d.fields, plan)], |h|, d.chain)
  }

  /** `DeepClone()`: the planned values, deep properties replaced by their
      objects' shallow clones. No chain is kept. */
  function DeepClone(h: Heap, self: nat): (r: Run)
    requires Valid(h) && self < |h|
    ensures r.chain == None && r.result == |h| < |r.heap| && r.heap[..|h|] == h
    ensures Valid(r.heap)
  {
    Allocate(h, self, None)
  }

  /** `DeepCloneSafe(referenceChain)`: `self` itself when it is on the
      chain; otherwise push it, clone with the deep properties going
      through `SafeClone` on the chain, and pop it. */
  function DeepCloneSafe(h: Heap, self: nat, chain: Option<seq<nat>>): (r: Run)
    requires Valid(h) && self < |h|
    ensures |h| <= |r.heap| && r.heap[..|h|] == h && r.result < |r.heap|
    ensures Valid(r.heap)
    ensures r.chain == chain
    ensures r.result == self <==> OnChain(chain, self)
    ensures !OnChain(chain, self) ==> r.result == |h| && r.heap[r.result].plan == h[self].plan
  {
    if OnChain(chain, self) then Run(h, self, chain)
    else
      var stack := Stack(chain) + [self];
      var a := Allocate(h, self, Some(stack));
      Run(a.heap, a.result, Popped(chain, a.chain.value))
  }

  /** Property names are unique within a class. */
  predicate DistinctPlan(plan: seq<Entry>)
  {
    forall i, j :: 0 <= i < j < |plan| ==> plan[i].name != plan[j].name
  }

  /** What a property of the deep clone holds, given the value `v` it had
      in the original: `v` itself unless the property is deep and `v` a
      reference to an object off the chain, in which case a new object
      holding that object's shallow copy. */
  predicate DeepValue(h: Heap, h': Heap, e: Entry, v: Value, got: Value, chain: Option<seq<nat>>)
    requires v.Ref? ==> v.id < |h|
  {
    if e.deep && v.Ref? && !OnChain(chain, v.id) then
      got.Ref? && |h| <= got.id < |h'| && h'[got.id] == Obj(Copy(h[v.id].fields, h[v.id].plan), h[v.id].plan)
    else got == v
  }

  lemma DistinctTail(plan: seq<Entry>)
    requires |plan| > 0 && DistinctPlan(plan)
    ensures DistinctPlan(plan[1..])
    ensures forall k :: 0 <= k < |plan[1..]| ==> plan[1..][k].name != plan[0].name
  {
    forall k | 0 <= k < |plan[1..]| ensures plan[1..][k].name != plan[0].name {
      assert plan[1..][k] == plan[k + 1];
    }
  }

  /** A property outside the plan keeps the value it had in `acc`. */
  lemma {:induction false} DeepFieldsKeep(h: Heap, src: Fields, plan: seq<Entry>, chain: Option<seq<nat>>, acc: Fields, n: string)
    requires FieldsBelow(src, |h|)
    requires forall i :: 0 <= i < |plan| ==> plan[i].name != n
    ensures Get(DeepFields(h, src, plan, chain, acc).fields, n) == Get(acc, n)
    decreases |plan|
  {
    if |plan| > 0 {
      assert forall k :: 0 <= k < |plan[1..]| ==> plan[1..][k].name != n by {
        forall k | 0 <= k < |plan[1..]| ensures plan[1..][k].name != n {
          assert plan[1..][k] == plan[k + 1];
        }
      }
      var v := Get(src, plan[0].name);
      if plan[0].deep && v.Ref? {
        var nested := if chain.Some? then SafeClone(h, v.id, chain) else Clone(h, v.id);
        DeepFieldsKeep(nested.heap, src, plan[1..], chain, acc[plan[0].name := Ref(nested.result)], n);
      } else {
        DeepFieldsKeep(h, src, plan[1..], chain, acc[plan[0].name := v], n);
      }
    }
  }

  /** Each planned property of the deep clone holds its `DeepValue`. */
  lemma {:induction false} DeepFieldsValues(h: Heap, src: Fields, plan: seq<Entry>, chain: Option<seq<nat>>, acc: Fields)
    requires FieldsBelow(src, |h|) && DistinctPlan(plan)
    ensures var r := DeepFields(h, src, plan, chain, acc);
            forall i :: 0 <= i < |plan| ==>
              DeepValue(h, r.heap, plan[i], Get(src, plan[i].name), Get(r.fields, plan[i].name), chain)
    decreases |plan|
  {
    if |plan| > 0 {
      DistinctTail(plan);
      var v := Get(src, plan[0].name);
      var r := DeepFields(h, src, plan, chain, acc);
      if plan[0].deep && v.Ref? {
        var nested := if chain.Some? then SafeClone(h, v.id, chain) else Clone(h, v.id);
        var acc' := acc[plan[0].name := Ref(nested.result)];
        DeepFieldsValues(nested.heap, src, plan[1..], chain, acc');
        DeepFieldsKeep(nested.heap, src, plan[1..], chain, acc', plan[0].name);
        assert r == DeepFields(nested.heap, src, plan[1..], chain, acc');
        forall i | 1 <= i < |plan|
          ensures DeepValue(h, r.heap, plan[i], Get(src, plan[i].name), Get(r.fields, plan[i].name), chain)
        {
          assert plan[1..][i - 1] == plan[i];
          var w := Get(src, plan[i].name);
          if plan[i].deep && w.Ref? && !OnChain(chain, w.id) {
            assert nested.heap[w.id] == h[w.id];
          }
        }
        if !OnChain(chain, v.id) {
          assert r.heap[nested.result] == nested.heap[nested.result];
        }
      } else {
        var acc' := acc[plan[0].name := v];
        DeepFieldsValues(h, src, plan[1..], chain, acc');
        DeepFieldsKeep(h, src, plan[1..], chain, acc', plan[0].name);
        forall i | 1 <= i < |plan|
          ensures DeepValue(h, r.heap, plan[i], Get(src, plan[i].name), Get(r.fields, plan[i].name), chain)
        {
          assert plan[1..][i - 1] == plan[i];
        }
      }
    }
  }

  /** The object `Allocate` returns: each planned property holds its
      `DeepValue` for the nested chain, every other property is unset
      (read as null, in place of the class's own default). */
  lemma AllocateValues(h: Heap, self: nat, nestedChain: Option<seq<nat>>)
    requires Valid(h) && self < |h| && DistinctPlan(h[self].plan)
    ensures var r := Allocate(h, self, nestedChain);
            var o := h[self];
            && (forall i :: 0 <= i < |o.plan| ==>
                  DeepValue(h, r.heap, o.plan[i], Get(o.fields, o.plan[i].name),
                            Get(r.heap[r.result].fields, o.plan[i].name), nestedChain))
            && (forall n :: !InPlan(o.plan, n) ==> Get(r.heap[r.result].fields, n) == Null)
  {
    var o := h[self];
    var h1 := h + [Obj(map[], o.plan)];
    assert h1[self] == o;
    var d := DeepFields(h1, o.fields, o.plan, nestedChain, map[]);
    var r := Allocate(h, self, nestedChain);
    assert r.heap == d.heap[|h| := Obj(d.fields, o.plan)];
    DeepFieldsValues(h1, o.fields, o.plan, nestedChain, map[]);
    forall i | 0 <= i < |o.plan|
      ensures DeepValue(h, r.heap, o.plan[i], Get(o.fields, o.plan[i].name),
                        Get(r.heap[r.result].fields, o.plan[i].name), nestedChain)
    {
      var v := Get(o.fields, o.plan[i].name);
      var got := Get(d.fields, o.plan[i].name);
      if o.plan[i].deep && v.Ref? && !OnChain(nestedChain, v.id) {
        assert h1[v.id] == h[v.id];
        assert |h1| <= got.id;
        assert r.heap[got.id] == d.heap[got.id];
      }
    }
    forall n | !InPlan(o.plan, n)
      ensures Get(r.heap[r.result].fields, n) == Null
    {
      forall i | 0 <= i < |o.plan| ensures o.plan[i].name != n {
        assert o.plan[i] in o.plan;
      }
      DeepFieldsKeep(h1, o.fields, o.plan, nestedChain, map[], n);
    }
  }

  /** `DeepCloneSafe` off the chain: a new object whose deep properties hold
      new shallow copies, except those referring back to `self` or to an
      object on the caller's chain, which keep the original reference. */
  lemma DeepCloneSafeValues(h: Heap, self: nat, chain: Option<seq<nat>>)
    requires Valid(h) && self < |h| && DistinctPlan(h[self].plan) && !OnChain(chain, self)
    ensures var r := DeepCloneSafe(h, self, chain);
            var o := h[self];
            forall i :: 0 <= i < |o.plan| ==>
              DeepValue(h, r.heap, o.plan[i], Get(o.fields, o.plan[i].name),
                        Get(r.heap[r.result].fields, o.plan[i].name), Some(Stack(chain) + [self]))
  {
    AllocateValues(h, self, Some(Stack(chain) + [self]));
  }

  /** `DeepClone`: every deep reference is replaced by a new shallow copy,
      with no chain to stop it. */
  lemma DeepCloneValues(h: Heap, self: nat)
    requires Valid(h) && self < |h| && DistinctPlan(h[self].plan)
    ensures var r := DeepClone(h, self);
            var o := h[self];
            forall i :: 0 <= i < |o.plan| ==>
              DeepValue(h, r.heap, o.plan[i], Get(o.fields, o.plan[i].name),
                        Get(r.heap[r.result].fields, o.plan[i].name), None)
  {
    AllocateValues(h, self, None);
  }

  /** A node whose deep `Next` property refers to itself. */
  function Loop(): Heap
  {
    [Obj(map["Next" := Ref(0)], [Entry("Next", true)])]
  }

  /** On the self-referencing node `DeepCloneSafe` stops at the chain: the
      clone's `Next` is the original node. `DeepClone` has no chain and
      goes one level deep: the clone's `Next` is a new shallow copy, whose
      own `Next` is the original node again. */
  lemma LoopExample()
    ensures Valid(Loop())
    ensures var r := DeepCloneSafe(Loop(), 0, None);
            r.result == 1 && Get(r.heap[1].fields, "Next") == Ref(0)
    ensures var r := DeepClone(Loop(), 0);
            && Get(r.heap[1].fields, "Next").Ref?
            && var k := Get(r.heap[1].fields, "Next").id;
               k != 0 && k < |r.heap| && Get(r.heap[k].fields, "Next") == Ref(0)
  {
    var h := Loop();
    assert DistinctPlan(h[0].plan);
    assert h[0].plan[0] == Entry("Next", true);
    assert Get(h[0].fields, "Next") == Ref(0);
    DeepCloneSafeValues(h, 0, None);
    DeepCloneValues(h, 0);
    assert InPlan(h[0].plan, "Next") by {
      assert h[0].plan[0] in h[0].plan;
    }
  }
}

=== FILE: cloneable.dfy ===
/** The cloneable emitter: for a partial type marked `Cloneable`, the other
    half of that type with four methods, in this order: `Clone` and
    `SafeClone`, which copy every property that is not skipped, and
    `DeepClone` and `DeepCloneSafe`, which in addition clone the properties
    flagged for deep cloning. The safe variants carry a reference chain that
    stops them at an object already being cloned. */
module Cloneable {
  import opened Wrappers
  import opened Text
  import opened TextWriter
  import opened Symbols
  import opened Models
  import opened Sequences
  import opened Emission
  import TypeExtensions
  import PropertyExtensions
  import PropertyModelExtensions
  import CloneRuntime

  /** A property is copied unless it is marked `SkipCloneable`. */
  predicate IsCopied(p: PropertySymbolModel)
  {
    !PropertyModelExtensions.HasSkipCloneableAttribute(p)
  }

  function CopiedProperties(props: seq<PropertySymbolModel>): (r: seq<PropertySymbolModel>)
    ensures forall p :: p in r <==> p in props && IsCopied(p)
  {
    Filter(props, IsCopied)
  }

  /** `{Name} = this.{Name}`. */
  function CopyText(p: PropertySymbolModel): string
  {
    p.name + " = this." + p.name
  }

  /** The deep flag of a property: the `Clone` marker, a generic type with
      one class argument, a cloneable type and a settable property, evaluated
      left to right. The generic test casts the type to a named type and
      throws when it is none; it is reached only for marked properties. */
  function DeepFlag(p: PropertySymbolModel): (r: Result<bool>)
    ensures r.Err? <==> PropertyModelExtensions.HasCloneAttribute(p) && !p.property.propertyType.isNamedType
    ensures r.Err? ==> r.error == InvalidCastException
    ensures r.Ok? ==> (r.value <==>
      && PropertyModelExtensions.HasCloneAttribute(p)
      && TypeExtensions.IsGenericWithClassArgument(p.property.propertyType) == Ok(true)
      && TypeExtensions.IsCloneableType(p.property.propertyType)
      && PropertyExtensions.IsPropertyClonable(p.property))
  {
    if !PropertyModelExtensions.HasCloneAttribute(p) then Ok(false)
    else
      var generic := TypeExtensions.IsGenericWithClassArgument(p.property.propertyType);
      if generic.Err? then Err(generic.error)
      else Ok(generic.value && TypeExtensions.IsCloneableType(p.property.propertyType)
              && PropertyExtensions.IsPropertyClonable(p.property))
  }

  /** A copy line and its deep flag. */
  datatype CloneLine = CloneLine(text: string, deep: bool)

  /** `GetCloneableProperties`: one copy line per property, in order, or
      the exception of the first property whose flag cannot be computed. */
  function GetCloneableProperties(ps: seq<PropertySymbolModel>): (r: Result<seq<CloneLine>>)
    ensures r.Err? <==> exists i :: 0 <= i < |ps| && DeepFlag(ps[i]).Err?
    ensures r.Err? ==> r.error == InvalidCastException
    ensures r.Ok? ==> |r.value| == |ps| && forall i :: 0 <= i < |ps| ==>
                        r.value[i] == CloneLine(CopyText(ps[i]), DeepFlag(ps[i]).value)
    decreases |ps|
  {
    if |ps| == 0 then Ok([])
    else
      var flag := DeepFlag(ps[0]);
      if flag.Err? then Err(flag.error)
      else
        var rest := GetCloneableProperties(ps[1..]);
        if rest.Err? then
          assert exists i :: 0 <= i < |ps[1..]| && DeepFlag(ps[1..][i]).Err?;
          var i :| 0 <= i < |ps[1..]| && DeepFlag(ps[1..][i]).Err?;
          assert ps[1..][i] == ps[i + 1];
          Err(rest.error)
        else
          assert forall i :: 1 <= i < |ps| ==> ps[i] == ps[1..][i - 1];
          Ok([CloneLine(CopyText(ps[0]), flag.value)] + rest.value)
  }

  /** The copy plan the runtime executes for the emitted methods: per
      copied property, in order, its name and its deep flag. */
  function PlanOf(props: seq<PropertySymbolModel>): (r: Result<seq<CloneRuntime.Entry>>)
    ensures r.Err? <==> GetCloneableProperties(CopiedProperties(props)).Err?
    ensures r.Ok? ==> |r.value| == |CopiedProperties(props)|
    ensures r.Ok? ==> forall i :: 0 <= i < |r.value| ==>
              r.value[i].name == CopiedProperties(props)[i].name
              && r.value[i].deep == GetCloneableProperties(CopiedProperties(props)).value[i].deep
  {
    var ps := CopiedProperties(props);
    var lines := GetCloneableProperties(ps);
    if lines.Err? then Err(lines.error)
    else Ok(seq(|ps|, i requires 0 <= i < |ps| => CloneRuntime.Entry(ps[i].name, lines.value[i].deep)))
  }

  /** The four generated methods. */
  datatype Method = CloneMethod | SafeCloneMethod | DeepCloneMethod | DeepCloneSafeMethod

  predicate IsSafe(m: Method) { m == SafeCloneMethod || m == DeepCloneSafeMethod }

  function MethodName(m: Method): string
  {
    match m
    case CloneMethod => "Clone"
    case SafeCloneMethod => "SafeClone"
    case DeepCloneMethod => "DeepClone"
    case DeepCloneSafeMethod => "DeepCloneSafe"
  }

  /** What a deep method appends to a flagged line: the nested object's
      shallow clone, or its safe clone on the same chain. */
  function DeepSuffix(m: Method): string
  {
    match m
    case DeepCloneMethod => "?.Clone()"
    case DeepCloneSafeMethod => "?.SafeClone(referenceChain)"
    case _ => ""
  }

  /** The initializer of a copy line in method `m`. */
  function Initializer(m: Method, l: CloneLine): (r: string)
    ensures (m == CloneMethod || m == SafeCloneMethod || !l.deep) ==> r == l.text
    ensures (m == DeepCloneMethod || m == DeepCloneSafeMethod) && l.deep ==> r == l.text + DeepSuffix(m)
  {
    if (m == DeepCloneMethod || m == DeepCloneSafeMethod) && l.deep then l.text + DeepSuffix(m) else l.text
  }

  function Initializers(m: Method, lines: seq<CloneLine>): (r: seq<string>)
    ensures |r| == |lines| && forall i :: 0 <= i < |lines| ==> r[i] == Initializer(m, lines[i])
  {
    seq(|lines|, i requires 0 <= i < |lines| => Initializer(m, lines[i]))
  }

  /** Every initializer of a deep method starts with the shallow one: the
      deep variants differ from the shallow ones only by the suffixes on
      flagged lines, and the shallow variants ignore the flags. */
  lemma DeepExtendsShallow(lines: seq<CloneLine>, i: nat)
    requires i < |lines|
    ensures Initializers(CloneMethod, lines)[i] == lines[i].text == Initializers(SafeCloneMethod, lines)[i]
    ensures forall m :: (m == DeepCloneMethod || m == DeepCloneSafeMethod) ==>
              |lines[i].text| <= |Initializers(m, lines)[i]|
              && Initializers(m, lines)[i][..|lines[i].text|] == lines[i].text
              && (Initializers(m, lines)[i] == lines[i].text <==> !lines[i].deep)
  {
  }

  /** The doc comment before each method. Only the `DeepClone` one has four
      lines, the third holding "/// " alone. */
  function DocComment(m: Method, name: string): (r: seq<string>)
    ensures |r| == if m == DeepCloneMethod then 4 else 3
  {
    match m
    case CloneMethod =>
      ["/// <summary>", "/// Creates a simple clone of " + name + " with NO circular reference check.", "/// </summary>"]
    case SafeCloneMethod =>
      ["/// <summary>", "/// Creates a simple cone of " + name + " with circular reference check.", "/// </summary>"]
    case DeepCloneMethod =>
      ["/// <summary>", "/// Creates a simple Deep Clone of " + name + " with NO circular reference check.", "/// ", "/// </summary>"]
    case DeepCloneSafeMethod =>
      ["/// <summary>", "/// Creates a safe deep clone of " + name + " with circular reference checking.", "/// </summary>"]
  }

  function Signature(m: Method, name: string): string
  {
    if IsSafe(m) then "public " + name + " " + MethodName(m) + "(Stack<object>? referenceChain = null)"
    else "public " + name + " " + MethodName(m) + "()"
  }

  /** The chain discipline of the safe variants up to the initializer. */
  function ChainPrologue(name: string): seq<string>
  {
    ["if (referenceChain is not null && referenceChain.Contains(this))",
     "    return this;",
     "",
     "referenceChain ??= new Stack<object>();",
     "referenceChain.Push(this);",
     "",
     "var result = new " + name]
  }

  const ChainEpilogue: seq<string> := ["};", "", "referenceChain.Pop();", "return result;"]

  /** The lines of a method before its initializers: the doc comment, the
      signature and `{`, then either the chain prologue and `{` or
      `return new T` and `{`. */
  function MethodOpen(name: string, m: Method): (r: Document)
    ensures |DocComment(m, name)| < |r| && r[|DocComment(m, name)|] == Line(0, Signature(m, name))
  {
    LinesAt(0, DocComment(m, name) + [Signature(m, name), "{"])
    + (if IsSafe(m) then LinesAt(1, ChainPrologue(name) + ["{"]) else LinesAt(1, ["return new " + name, "{"]))
  }

  /** The lines of a method after its initializers. */
  function MethodClose(m: Method): Document
  {
    if IsSafe(m) then LinesAt(1, ChainEpilogue) + LinesAt(0, if m == SafeCloneMethod then ["}", ""] else ["}"])
    else LinesAt(1, ["};"]) + LinesAt(0, ["}", "", ""])
  }

  /** The text of one method, relative to the class body. */
  function RenderMethod(name: string, m: Method, lines: seq<CloneLine>): (r: Document)
    ensures |DocComment(m, name)| < |r| && r[|DocComment(m, name)|] == Line(0, Signature(m, name))
  {
    MethodOpen(name, m) + LinesAt(2, ArrayTexts(Initializers(m, lines))) + MethodClose(m)
  }

  /** The class body: the four methods one after the other. */
  function Body(name: string, lines: seq<CloneLine>): Document
  {
    RenderMethod(name, CloneMethod, lines) + RenderMethod(name, SafeCloneMethod, lines)
    + RenderMethod(name, DeepCloneMethod, lines) + RenderMethod(name, DeepCloneSafeMethod, lines)
  }

  /** The whole file, or the exception `GetCloneableProperties` throws. The
      class is declared with the type's own name. */
  function Document(t: TypeSymbolModel, props: seq<PropertySymbolModel>): (r: Result<Document>)
    ensures r.Err? <==> GetCloneableProperties(CopiedProperties(props)).Err?
  {
    var lines := GetCloneableProperties(CopiedProperties(props));
    if lines.Err? then Err(lines.error)
    else
      Ok(NullableHeader() + FileScopedNamespace(t)
         + LinesAt(0, [AccessibilityKeyword(t.typeSymbol.declaredAccessibility) + " partial class " + t.name, "{"])
         + Shift(1, Body(t.name, lines.value))
         + [Line(0, "}")])
  }

  /** `Build(writer, type, properties)`. */
  function Build(w: Writer, t: TypeSymbolModel, props: seq<PropertySymbolModel>): (r: Result<Writer>)
    ensures r.Ok? ==> r.value.indent == w.indent && |w.lines| <= |r.value.lines| && r.value.lines[..|w.lines|] == w.lines
  {
    var doc := Document(t, props);
    if doc.Err? then Err(doc.error) else Ok(Emit(w, doc.value))
  }

  /** The copy lines cover exactly the properties not skipped, in order,
      whatever their flags. */
  lemma CopyLinesFollowProperties(props: seq<PropertySymbolModel>)
    requires GetCloneableProperties(CopiedProperties(props)).Ok?
    ensures var lines := GetCloneableProperties(CopiedProperties(props)).value;
            |lines| == |CopiedProperties(props)|
            && forall i :: 0 <= i < |lines| ==> lines[i].text == CopyText(CopiedProperties(props)[i])
  {
  }

  /** Indexing into four runs one after the other. */
  lemma QuadAt<T>(a: seq<T>, b: seq<T>, c: seq<T>, d: seq<T>, x: nat)
    ensures x < |a| ==> (a + b + c + d)[x] == a[x]
    ensures x < |b| ==> (a + b + c + d)[|a| + x] == b[x]
    ensures x < |c| ==> (a + b + c + d)[|a| + |b| + x] == c[x]
    ensures x < |d| ==> (a + b + c + d)[|a| + |b| + |c| + x] == d[x]
  {
  }

  /** One position in each of four runs one after the other. */
  lemma FourAt<T>(a: seq<T>, b: seq<T>, c: seq<T>, d: seq<T>, xa: nat, xb: nat, xc: nat, xd: nat)
    requires xa < |a| && xb < |b| && xc < |c| && xd < |d|
    ensures var s := a + b + c + d;
            && |a| + |b| + |c| + xd < |s|
            && s[xa] == a[xa] && s[|a| + xb] == b[xb]
            && s[|a| + |b| + xc] == c[xc] && s[|a| + |b| + |c| + xd] == d[xd]
  {
    QuadAt(a, b, c, d, xa);
    QuadAt(a, b, c, d, xb);
    QuadAt(a, b, c, d, xc);
    QuadAt(a, b, c, d, xd);
  }

  /** A method's signature follows its doc comment: at line 4 for
      `DeepClone`, at line 3 for the others. */
  lemma SignatureAfterComment(name: string, m: Method, lines: seq<CloneLine>)
    ensures var x := if m == DeepCloneMethod then 4 else 3;
            x < |RenderMethod(name, m, lines)| && RenderMethod(name, m, lines)[x] == Line(0, Signature(m, name))
  {
    assert |DocComment(m, name)| == if m == DeepCloneMethod then 4 else 3;
  }

  /** `doc` holds the four signatures at `indent`, in the order Clone,
      SafeClone, DeepClone, DeepCloneSafe, each right after its method's doc
      comment when the methods follow one another from the start of `doc`. */
  predicate SignaturesIn(doc: Document, indent: nat, name: string, lines: seq<CloneLine>)
  {
    var a := |RenderMethod(name, CloneMethod, lines)|;
    var b := |RenderMethod(name, SafeCloneMethod, lines)|;
    var c := |RenderMethod(name, DeepCloneMethod, lines)|;
    && 3 < a + 3 < a + b + 4 < a + b + c + 3 < |doc|
    && doc[3] == Line(indent, Signature(CloneMethod, name))
    && doc[a + 3] == Line(indent, Signature(SafeCloneMethod, name))
    && doc[a + b + 4] == Line(indent, Signature(DeepCloneMethod, name))
    && doc[a + b + c + 3] == Line(indent, Signature(DeepCloneSafeMethod, name))
  }

  /** Each signature sits right after its method's doc comment, the
      methods following one another in the body. */
  lemma SignaturesAt(name: string, lines: seq<CloneLine>)
    ensures SignaturesIn(Body(name, lines), 0, name, lines)
  {
    var a := RenderMethod(name, CloneMethod, lines);
    var b := RenderMethod(name, SafeCloneMethod, lines);
    var c := RenderMethod(name, DeepCloneMethod, lines);
    var d := RenderMethod(name, DeepCloneSafeMethod, lines);
    SignatureAfterComment(name, CloneMethod, lines);
    SignatureAfterComment(name, SafeCloneMethod, lines);
    SignatureAfterComment(name, DeepCloneMethod, lines);
    SignatureAfterComment(name, DeepCloneSafeMethod, lines);
    assert Body(name, lines) == a + b + c + d;
    FourAt(a, b, c, d, 3, 3, 4, 3);
  }

  /** The four methods appear in the fixed order, each signature right
      after its doc comment. */
  lemma MethodsInOrder(name: string, lines: seq<CloneLine>)
    ensures exists i0, i1, i2, i3 ::
      0 <= i0 < i1 < i2 < i3 < |Body(name, lines)|
      && Body(name, lines)[i0] == Line(0, Signature(CloneMethod, name))
      && Body(name, lines)[i1] == Line(0, Signature(SafeCloneMethod, name))
      && Body(name, lines)[i2] == Line(0, Signature(DeepCloneMethod, name))
      && Body(name, lines)[i3] == Line(0, Signature(DeepCloneSafeMethod, name))
  {
    var a := RenderMethod(name, CloneMethod, lines);
    var b := RenderMethod(name, SafeCloneMethod, lines);
    var c := RenderMethod(name, DeepCloneMethod, lines);
    var d := RenderMethod(name, DeepCloneSafeMethod, lines);
    SignaturesAt(name, lines);
    assert Body(name, lines)[|a| + |b| + |c| + 3] == d[3];
  }

  /** A method holds, two levels deep, the initializer of every copy line:
      its copy text with the method's deep suffix when flagged, and a comma
      unless it is the last. */
  lemma RenderMethodItems(name: string, m: Method, lines: seq<CloneLine>, i: nat)
    requires i < |lines|
    ensures Line(2, ArrayItem(Initializers(m, lines), i)) in RenderMethod(name, m, lines)
  {
    var items := LinesAt(2, ArrayTexts(Initializers(m, lines)));
    assert items[i] == Line(2, ArrayItem(Initializers(m, lines), i));
    assert RenderMethod(name, m, lines) == MethodOpen(name, m) + items + MethodClose(m);
  }

  /** A partial class around a body: the header, the declaration and `{`,
      the body one level deeper, and `}`. */
  lemma ClassShape(head: Document, decl: string, body: Document)
    ensures var d := head + LinesAt(0, [decl, "{"]) + Shift(1, body) + [Line(0, "}")];
            && |d| == |head| + 3 + |body|
            && d[..|head|] == head
            && d[|head|] == Line(0, decl) && d[|head| + 1] == Line(0, "{")
            && d[|head| + 2..|d| - 1] == Shift(1, body)
            && d[|d| - 1] == Line(0, "}")
  {
    var d := head + LinesAt(0, [decl, "{"]) + Shift(1, body) + [Line(0, "}")];
    assert d == (head + LinesAt(0, [decl, "{"])) + Shift(1, body) + [Line(0, "}")];
  }

  /** A line of a body, shifted, is a line of the shifted body. */
  lemma ShiftedIn(body: Document, v: Line)
    requires v in body
    ensures Line(v.indent + 1, v.text) in Shift(1, body)
  {
    var x :| 0 <= x < |body| && body[x] == v;
    assert Shift(1, body)[x] == Line(v.indent + 1, v.text);
  }

  /** The class body shifted one level deeper holds the four signatures
      at the positions `SignaturesAt` gives, at indent 1. */
  lemma SignaturesShifted(name: string, lines: seq<CloneLine>, inner: Document)
    requires inner == Shift(1, Body(name, lines))
    ensures SignaturesIn(inner, 1, name, lines)
  {
    SignaturesAt(name, lines);
  }

  /** The file, when the copy lines can be computed: the header, then
      `<access> partial class <Name>` and `{`, the four methods one level
      deeper, and the closing `}`. */
  lemma DocumentLayout(t: TypeSymbolModel, props: seq<PropertySymbolModel>)
    requires Document(t, props).Ok?
    ensures var d := Document(t, props).value;
            var head := NullableHeader() + FileScopedNamespace(t);
            var lines := GetCloneableProperties(CopiedProperties(props)).value;
            var k := |head|;
            && |d| == k + 3 + |Body(t.name, lines)|
            && d[..k] == head
            && d[k] == Line(0, AccessibilityKeyword(t.typeSymbol.declaredAccessibility) + " partial class " + t.name)
            && d[k + 1] == Line(0, "{")
            && d[k + 2..|d| - 1] == Shift(1, Body(t.name, lines))
            && d[|d| - 1] == Line(0, "}")
  {
    var lines := GetCloneableProperties(CopiedProperties(props)).value;
    ClassShape(NullableHeader() + FileScopedNamespace(t),
               AccessibilityKeyword(t.typeSymbol.declaredAccessibility) + " partial class " + t.name,
               Body(t.name, lines));
  }

  /** Every method of the body holds the initializer of every copy line. */
  lemma InitializerInBody(name: string, m: Method, lines: seq<CloneLine>, i: nat)
    requires i < |lines|
    ensures Line(2, ArrayItem(Initializers(m, lines), i)) in Body(name, lines)
  {
    var v := Line(2, ArrayItem(Initializers(m, lines), i));
    RenderMethodItems(name, m, lines, i);
    var a := RenderMethod(name, CloneMethod, lines);
    var b := RenderMethod(name, SafeCloneMethod, lines);
    var c := RenderMethod(name, DeepCloneMethod, lines);
    var d := RenderMethod(name, DeepCloneSafeMethod, lines);
    assert Body(name, lines) == a + b + c + d;
    if m == CloneMethod {
      assert v in a;
    } else if m == SafeCloneMethod {
      assert v in b;
    } else if m == DeepCloneMethod {
      assert v in c;
    } else {
      assert v in d;
    }
  }

  /** Inside the class the four signatures follow one level deep, each
      right after its method's doc comment: Clone at line 3, SafeClone,
      DeepClone (after a four-line comment) and DeepCloneSafe after the
      methods before them. */
  lemma MethodsInDocument(t: TypeSymbolModel, props: seq<PropertySymbolModel>)
    requires Document(t, props).Ok?
    ensures var d := Document(t, props).value;
            var k := |NullableHeader() + FileScopedNamespace(t)|;
            k + 2 <= |d| - 1
            && SignaturesIn(d[k + 2..|d| - 1], 1, t.name, GetCloneableProperties(CopiedProperties(props)).value)
  {
    var lines := GetCloneableProperties(CopiedProperties(props)).value;
    var d := Document(t, props).value;
    var k := |NullableHeader() + FileScopedNamespace(t)|;
    DocumentLayout(t, props);
    SignaturesShifted(t.name, lines, d[k + 2..|d| - 1]);
  }

  /** Every copied property has, in every method, its initializer line
      three levels deep inside the class: `Name = this.Name`, with the
      method's deep suffix when the property is flagged, and a comma unless
      it is the last. */
  lemma InitializerInDocument(t: TypeSymbolModel, props: seq<PropertySymbolModel>, m: Method, i: nat)
    requires Document(t, props).Ok?
    requires i < |CopiedProperties(props)|
    ensures var d := Document(t, props).value;
            var k := |NullableHeader() + FileScopedNamespace(t)|;
            var lines := GetCloneableProperties(CopiedProperties(props)).value;
            && i < |lines| && lines[i].text == CopyText(CopiedProperties(props)[i])
            && Line(3, ArrayItem(Initializers(m, lines), i)) in d[k + 2..|d| - 1]
  {
    var lines := GetCloneableProperties(CopiedProperties(props)).value;
    DocumentLayout(t, props);
    InitializerInBody(t.name, m, lines, i);
    ShiftedIn(Body(t.name, lines), Line(2, ArrayItem(Initializers(m, lines), i)));
  }

  /** Each emitted initializer carries out its entry of the copy plan: it
      assigns the entry's property from the same property of `this`, and a
      deep method clones it exactly when the entry is deep. */
  lemma InitializerCarriesPlan(props: seq<PropertySymbolModel>, m: Method, i: nat)
    requires GetCloneableProperties(CopiedProperties(props)).Ok?
    requires i < |CopiedProperties(props)|
    ensures var lines := GetCloneableProperties(CopiedProperties(props)).value;
            var e := PlanOf(props).value[i];
            && i < |lines|
            && Initializers(m, lines)[i]
                 == e.name + " = this." + e.name
                    + (if e.deep && (m == DeepCloneMethod || m == DeepCloneSafeMethod) then DeepSuffix(m) else "")
  {
  }
}

=== FILE: cloneable_generator.dfy ===
/** The cloneable generator: the shared pipeline with the `Cloneable`
    marker, the `Clonable` override name and the cloneable emitter. */
module CloneableGenerator {
  import opened Wrappers
  import opened Text
  import opened Symbols
  import opened Models
  import opened Sequences
  import opened Emission
  import opened Pipelines
  import Constants
  import Cloneable
  import StringExtensions
  import NamedTypeExtensions

  const OverrideName: string := "Clonable"
  const HintPrefix: string := "ArxRiver.Cloneable."

  function Selector(): (f: Option<NamedTypeSymbol> -> Result<Option<TypeSymbolModel>>)
    ensures forall s :: f(s) == SelectMarked(s, Constants.CloneableAttributeFullPath, OverrideName)
  {
    s => SelectMarked(s, Constants.CloneableAttributeFullPath, OverrideName)
  }

  function Excluder(): (f: MethodDeclaration -> Result<Option<TypeSymbolModel>>)
    ensures forall m :: f(m) == SelectExcluded(m, OverrideName)
  {
    m => SelectExcluded(m, OverrideName)
  }

  /** `ClonableBuilder.Build` on a model's own property list. */
  function Emitter(): (f: TypeSymbolModel -> Result<Document>)
    ensures forall t :: f(t) == Cloneable.Document(t, t.accessibleProperties)
  {
    (t: TypeSymbolModel) => Cloneable.Document(t, t.accessibleProperties)
  }

  /** One generator run over the type declarations and the method
      declarations of a compilation. */
  function Generate(types: seq<Option<NamedTypeSymbol>>, methods: seq<MethodDeclaration>): (r: Result<Output>)
  {
    var selected := Collect(Map(types, Selector()));
    var excluded := Collect(Map(methods, Excluder()));
    if selected.Err? then Err(selected.error)
    else if excluded.Err? then Err(excluded.error)
    else Run(selected.value, excluded.value, HintPrefix, Emitter())
  }

  /** A successful run warns once per non-partial selected model, covered
      or not, and writes one file per distinct selected model no extension
      method covers, named after the type and holding its cloneable half. */
  lemma GenerateSpec(types: seq<Option<NamedTypeSymbol>>, methods: seq<MethodDeclaration>)
    requires Generate(types, methods).Ok?
    ensures var selected := Collect(Map(types, Selector())).value;
            var excluded := Collect(Map(methods, Excluder())).value;
            var out := Generate(types, methods).value;
            && out.diagnostics == PartialWarnings(selected)
            && |out.artifacts| == |Filter(Distinct(selected), NotIn(excluded))|
            && forall i :: 0 <= i < |out.artifacts| ==>
                 var t := Filter(Distinct(selected), NotIn(excluded))[i];
                 && t in selected && t !in excluded
                 && out.artifacts[i].hintName == HintPrefix + StringExtensions.ToSafeClassName(t.name) + ".g.cs"
                 && Cloneable.Document(t, t.accessibleProperties) == Ok(out.artifacts[i].text)
  {
    var selected := Collect(Map(types, Selector())).value;
    var excluded := Collect(Map(methods, Excluder())).value;
    CreateOutputSpec(selected, excluded, HintPrefix, Emitter());
  }

  /** A static `Clonable(this T, out …)` with one `out` parameter per
      accessible property of `T` covers `T`: its model is excluded, no file
      is planned for it, and the files are exactly the planned ones. */
  lemma CoveredTypeGetsNoFile(types: seq<Option<NamedTypeSymbol>>, methods: seq<MethodDeclaration>, i: nat)
    requires Generate(types, methods).Ok?
    requires i < |methods| && ExtensionShape(methods[i], OverrideName) && methods[i].receiverType.Some?
    requires NamedTypeExtensions.GetAccessibleProperties(methods[i].receiverType.value).Ok?
    requires |NamedTypeExtensions.GetAccessibleProperties(methods[i].receiverType.value).value| == |methods[i].parameters| - 1
    ensures var t := ToModel(methods[i].receiverType.value, NamedTypeExtensions.GetAccessibleProperties(methods[i].receiverType.value).value);
            var selected := Collect(Map(types, Selector())).value;
            var excluded := Collect(Map(methods, Excluder())).value;
            var planned := Filter(Distinct(selected), NotIn(excluded));
            && t in excluded && t !in planned
            && |Generate(types, methods).value.artifacts| == |planned|
  {
    CoveredIsExcluded(methods, OverrideName, Excluder(), i);
    GenerateSpec(types, methods);
  }
}

=== FILE: constants.dfy ===
/** The marker attribute names the generators look for, by short name and
    by full path, and the descriptor of the one diagnostic they report. */
module Constants {
  import opened Text

  const AttributesNamespace: string := "ArxRiver.SourceGenerator.Attributes"

  /** A marker's full path: its short name inside the attributes namespace. */
  function MarkerPath(name: string): string
  {
    AttributesNamespace + "." + name
  }

  /** A path that reads as the namespace, a dot and the name is the name's
      marker path. */
  lemma PathFromParts(path: string, name: string)
    requires |AttributesNamespace| < |path|
    requires path[..|AttributesNamespace|] == AttributesNamespace
    requires path[|AttributesNamespace|] == '.'
    requires path[|AttributesNamespace| + 1..] == name
    ensures path == MarkerPath(name)
  {
    var k := |AttributesNamespace|;
    assert path == path[..k] + [path[k]] + path[k + 1..];
  }

  const DeconstructAttributeName: string := "DeconstructAttribute"
  const IncludeInDeconstructAttributeName: string := "IncludeInDeconstructAttribute"
  const ExcludeAttributeName: string := "ExcludeAttribute"
  const CloneableAttributeName: string := "CloneableAttribute"
  const CloneAttributeName: string := "CloneAttribute"
  const DeepCloneAttributeName: string := "DeepCloneAttribute"
  const SkipCloneableAttributeName: string := "SkipCloneableAttribute"
  const AutoClassBuilderAttributeName: string := "AutoClassBuilderAttribute"
  const SkipClassBuilderAttributeName: string := "SkipClassBuilderAttribute"
  const FluentClassAttributeName: string := "FluentClassAttribute"
  const SkipFluentClassAttributeName: string := "SkipFluentClassAttribute"
  const AutoTaskManagerAttributeName: string := "AutoTaskManagerAttribute"
  const RetryResiliencyAttributeName: string := "RetryResiliencyAttribute"
  const PsLoggerAttributeName: string := "PsLoggerAttribute"

  const DeconstructAttributeFullPath: string := "ArxRiver.SourceGenerator.Attributes.DeconstructAttribute"
  const IncludeInDeconstructAttributeFullPath: string := "ArxRiver.SourceGenerator.Attributes.IncludeInDeconstructAttribute"
  const ExcludeAttributeFullPath: string := "ArxRiver.SourceGenerator.Attributes.ExcludeAttribute"
  const CloneableAttributeFullPath: string := "ArxRiver.SourceGenerator.Attributes.CloneableAttribute"
  const CloneAttributeFullPath: string := "ArxRiver.SourceGenerator.Attributes.CloneAttribute"
  const DeepCloneAttributeFullPath: string := "ArxRiver.SourceGenerator.Attributes.DeepCloneAttribute"
  const SkipCloneableAttributeFullPath: string := "ArxRiver.SourceGenerator.Attributes.SkipCloneableAttribute"
  const AutoClassBuilderAttributeFullPath: string := "ArxRiver.SourceGenerator.Attributes.AutoClassBuilderAttribute"
  const SkipClassBuilderAttributeFullPath: string := "ArxRiver.SourceGenerator.Attributes.SkipClassBuilderAttribute"
  const FluentClassAttributeFullPath: string := "ArxRiver.SourceGenerator.Attributes.FluentClassAttribute"
  const SkipFluentClassAttributeFullPath: string := "ArxRiver.SourceGenerator.Attributes.SkipFluentClassAttribute"
  const AutoTaskManagerAttributeFullPath: string := "ArxRiver.SourceGenerator.Attributes.AutoTaskManagerAttribute"
  const RetryResiliencyAttributeFullPath: string := "ArxRiver.SourceGenerator.Attributes.RetryResiliencyAttribute"
  const PsLoggerAttributeFullPath: string := "ArxRiver.SourceGenerator.Attributes.PsLoggerAttribute"

  /** Every marker as (short name, full path). */
  const Markers: seq<(string, string)> := [
    (DeconstructAttributeName, DeconstructAttributeFullPath),
    (IncludeInDeconstructAttributeName, IncludeInDeconstructAttributeFullPath),
    (ExcludeAttributeName, ExcludeAttributeFullPath),
    (CloneableAttributeName, CloneableAttributeFullPath),
    (CloneAttributeName, CloneAttributeFullPath),
    (DeepCloneAttributeName, DeepCloneAttributeFullPath),
    (SkipCloneableAttributeName, SkipCloneableAttributeFullPath),
    (AutoClassBuilderAttributeName, AutoClassBuilderAttributeFullPath),
    (SkipClassBuilderAttributeName, SkipClassBuilderAttributeFullPath),
    (FluentClassAttributeName, FluentClassAttributeFullPath),
    (SkipFluentClassAttributeName, SkipFluentClassAttributeFullPath),
    (AutoTaskManagerAttributeName, AutoTaskManagerAttributeFullPath),
    (RetryResiliencyAttributeName, RetryResiliencyAttributeFullPath),
    (PsLoggerAttributeName, PsLoggerAttributeFullPath)
  ]

  predicate EndsWith(s: string, suffix: string)
  {
    |suffix| <= |s| && s[|s| - |suffix|..] == suffix
  }

  /** The literals agree with one another: every short name ends in
      "Attribute", every full path is its short name inside the attributes
      namespace, and no two markers share a short name. */
  lemma MarkersAreConsistent()
    ensures forall i :: 0 <= i < |Markers| ==> Markers[i].1 == MarkerPath(Markers[i].0)
    ensures forall i :: 0 <= i < |Markers| ==> EndsWith(Markers[i].0, "Attribute")
    ensures forall i, j :: 0 <= i < j < |Markers| ==> Markers[i].0 != Markers[j].0
  {
    forall i | 0 <= i < |Markers|
      ensures Markers[i].1 == MarkerPath(Markers[i].0) && EndsWith(Markers[i].0, "Attribute")
    {
      MarkerAgrees(i);
    }
    MarkersDistinct();
  }

  /** One marker's two literals agree. */
  lemma MarkerAgrees(i: nat)
    requires i < |Markers|
    ensures Markers[i].1 == MarkerPath(Markers[i].0) && EndsWith(Markers[i].0, "Attribute")
  {
    if i < 3 {
      DeconstructMarkersAgree(i);
    } else if i < 7 {
      CloneMarkersAgree(i);
    } else if i < 11 {
      BuilderMarkersAgree(i);
    } else {
      OtherMarkersAgree(i);
    }
  }

  lemma DeconstructMarkersAgree(i: nat)
    requires 0 <= i < 3
    ensures Markers[i].1 == MarkerPath(Markers[i].0) && EndsWith(Markers[i].0, "Attribute")
  {
    if i == 0 {
      DeconstructAgrees();
    } else if i == 1 {
      IncludeInDeconstructAgrees();
    } else {
      ExcludeAgrees();
    }
  }

  lemma CloneMarkersAgree(i: nat)
    requires 3 <= i < 7
    ensures Markers[i].1 == MarkerPath(Markers[i].0) && EndsWith(Markers[i].0, "Attribute")
  {
    if i == 3 {
      CloneableAgrees();
    } else if i == 4 {
      CloneAgrees();
    } else if i == 5 {
      DeepCloneAgrees();
    } else {
      SkipCloneableAgrees();
    }
  }

  lemma BuilderMarkersAgree(i: nat)
    requires 7 <= i < 11
    ensures Markers[i].1 == MarkerPath(Markers[i].0) && EndsWith(Markers[i].0, "Attribute")
  {
    if i == 7 {
      AutoClassBuilderAgrees();
    } else if i == 8 {
      SkipClassBuilderAgrees();
    } else if i == 9 {
      FluentClassAgrees();
    } else {
      SkipFluentClassAgrees();
    }
  }

  lemma OtherMarkersAgree(i: nat)
    requires 11 <= i < 14
    ensures Markers[i].1 == MarkerPath(Markers[i].0) && EndsWith(Markers[i].0, "Attribute")
  {
    if i == 11 {
      AutoTaskManagerAgrees();
    } else if i == 12 {
      RetryResiliencyAgrees();
    } else {
      PsLoggerAgrees();
    }
  }

  lemma DeconstructAgrees()
    ensures DeconstructAttributeFullPath == MarkerPath(DeconstructAttributeName)
    ensures EndsWith(DeconstructAttributeName, "Attribute")
  {
    assert DeconstructAttributeFullPath[..35] == AttributesNamespace;
    assert DeconstructAttributeFullPath[36..] == DeconstructAttributeName;
    PathFromParts(DeconstructAttributeFullPath, DeconstructAttributeName);
    assert DeconstructAttributeName[|DeconstructAttributeName| - 9..] == "Attribute";
  }

  lemma IncludeInDeconstructAgrees()
    ensures IncludeInDeconstructAttributeFullPath == MarkerPath(IncludeInDeconstructAttributeName)
    ensures EndsWith(IncludeInDeconstructAttributeName, "Attribute")
  {
    assert IncludeInDeconstructAttributeFullPath[..35] == AttributesNamespace;
    assert IncludeInDeconstructAttributeFullPath[36..] == IncludeInDeconstructAttributeName;
    PathFromParts(IncludeInDeconstructAttributeFullPath, IncludeInDeconstructAttributeName);
    IncludeInDeconstructEnds();
  }

  lemma IncludeInDeconstructEnds()
    ensures EndsWith(IncludeInDeconstructAttributeName, "Attribute")
  {
    assert IncludeInDeconstructAttributeName[|IncludeInDeconstructAttributeName| - 9..] == "Attribute";
  }

  lemma ExcludeAgrees()
    ensures ExcludeAttributeFullPath == MarkerPath(ExcludeAttributeName)
    ensures EndsWith(ExcludeAttributeName, "Attribute")
  {
    assert ExcludeAttributeFullPath[..35] == AttributesNamespace;
    assert ExcludeAttributeFullPath[36..] == ExcludeAttributeName;
    PathFromParts(ExcludeAttributeFullPath, ExcludeAttributeName);
    assert ExcludeAttributeName[|ExcludeAttributeName| - 9..] == "Attribute";
  }

  lemma CloneableAgrees()
    ensures CloneableAttributeFullPath == MarkerPath(CloneableAttributeName)
    ensures EndsWith(CloneableAttributeName, "Attribute")
  {
    assert CloneableAttributeFullPath[..35] == AttributesNamespace;
    assert CloneableAttributeFullPath[36..] == CloneableAttributeName;
    PathFromParts(CloneableAttributeFullPath, CloneableAttributeName);
    assert CloneableAttributeName[|CloneableAttributeName| - 9..] == "Attribute";
  }

  lemma CloneAgrees()
    ensures CloneAttributeFullPath == MarkerPath(CloneAttributeName)
    ensures EndsWith(CloneAttributeName, "Attribute")
  {
    assert CloneAttributeFullPath[..35] == AttributesNamespace;
    assert CloneAttributeFullPath[36..] == CloneAttributeName;
    PathFromParts(CloneAttributeFullPath, CloneAttributeName);
    assert CloneAttributeName[|CloneAttributeName| - 9..] == "Attribute";
  }

  lemma DeepCloneAgrees()
    ensures DeepCloneAttributeFullPath == MarkerPath(DeepCloneAttributeName)
    ensures EndsWith(DeepCloneAttributeName, "Attribute")
  {
    assert DeepCloneAttributeFullPath[..35] == AttributesNamespace;
    assert DeepCloneAttributeFullPath[36..] == DeepCloneAttributeName;
    PathFromParts(DeepCloneAttributeFullPath, DeepCloneAttributeName);
    assert DeepCloneAttributeName[|DeepCloneAttributeName| - 9..] == "Attribute";
  }

  lemma SkipCloneableAgrees()
    ensures SkipCloneableAttributeFullPath == MarkerPath(SkipCloneableAttributeName)
    ensures EndsWith(SkipCloneableAttributeName, "Attribute")
  {
    assert SkipCloneableAttributeFullPath[..35] == AttributesNamespace;
    assert SkipCloneableAttributeFullPath[36..] == SkipCloneableAttributeName;
    PathFromParts(SkipCloneableAttributeFullPath, SkipCloneableAttributeName);
    assert SkipCloneableAttributeName[|SkipCloneableAttributeName| - 9..] == "Attribute";
  }

  lemma AutoClassBuilderAgrees()
    ensures AutoClassBuilderAttributeFullPath == MarkerPath(AutoClassBuilderAttributeName)
    ensures EndsWith(AutoClassBuilderAttributeName, "Attribute")
  {
    assert AutoClassBuilderAttributeFullPath[..35] == AttributesNamespace;
    assert AutoClassBuilderAttributeFullPath[36..] == AutoClassBuilderAttributeName;
    PathFromParts(AutoClassBuilderAttributeFullPath, AutoClassBuilderAttributeName);
    assert AutoClassBuilderAttributeName[|AutoClassBuilderAttributeName| - 9..] == "Attribute";
  }

  lemma SkipClassBuilderAgrees()
    ensures SkipClassBuilderAttributeFullPath == MarkerPath(SkipClassBuilderAttributeName)
    ensures EndsWith(SkipClassBuilderAttributeName, "Attribute")
  {
    assert SkipClassBuilderAttributeFullPath[..35] == AttributesNamespace;
    assert SkipClassBuilderAttributeFullPath[36..] == SkipClassBuilderAttributeName;
    PathFromParts(SkipClassBuilderAttributeFullPath, SkipClassBuilderAttributeName);
    assert SkipClassBuilderAttributeName[|SkipClassBuilderAttributeName| - 9..] == "Attribute";
  }

  lemma FluentClassAgrees()
    ensures FluentClassAttributeFullPath == MarkerPath(FluentClassAttributeName)
    ensures EndsWith(FluentClassAttributeName, "Attribute")
  {
    assert FluentClassAttributeFullPath[..35] == AttributesNamespace;
    assert FluentClassAttributeFullPath[36..] == FluentClassAttributeName;
    PathFromParts(FluentClassAttributeFullPath, FluentClassAttributeName);
    assert FluentClassAttributeName[|FluentClassAttributeName| - 9..] == "Attribute";
  }

  lemma SkipFluentClassAgrees()
    ensures SkipFluentClassAttributeFullPath == MarkerPath(SkipFluentClassAttributeName)
    ensures EndsWith(SkipFluentClassAttributeName, "Attribute")
  {
    assert SkipFluentClassAttributeFullPath[..35] == AttributesNamespace;
    assert SkipFluentClassAttributeFullPath[36..] == SkipFluentClassAttributeName;
    PathFromParts(SkipFluentClassAttributeFullPath, SkipFluentClassAttributeName);
    assert SkipFluentClassAttributeName[|SkipFluentClassAttributeName| - 9..] == "Attribute";
  }

  lemma AutoTaskManagerAgrees()
    ensures AutoTaskManagerAttributeFullPath == MarkerPath(AutoTaskManagerAttributeName)
    ensures EndsWith(AutoTaskManagerAttributeName, "Attribute")
  {
    assert AutoTaskManagerAttributeFullPath[..35] == AttributesNamespace;
    assert AutoTaskManagerAttributeFullPath[36..] == AutoTaskManagerAttributeName;
    PathFromParts(AutoTaskManagerAttributeFullPath, AutoTaskManagerAttributeName);
    assert AutoTaskManagerAttributeName[|AutoTaskManagerAttributeName| - 9..] == "Attribute";
  }

  lemma RetryResiliencyAgrees()
    ensures RetryResiliencyAttributeFullPath == MarkerPath(RetryResiliencyAttributeName)
    ensures EndsWith(RetryResiliencyAttributeName, "Attribute")
  {
    assert RetryResiliencyAttributeFullPath[..35] == AttributesNamespace;
    assert RetryResiliencyAttributeFullPath[36..] == RetryResiliencyAttributeName;
    PathFromParts(RetryResiliencyAttributeFullPath, RetryResiliencyAttributeName);
    assert RetryResiliencyAttributeName[|RetryResiliencyAttributeName| - 9..] == "Attribute";
  }

  lemma PsLoggerAgrees()
    ensures PsLoggerAttributeFullPath == MarkerPath(PsLoggerAttributeName)
    ensures EndsWith(PsLoggerAttributeName, "Attribute")
  {
    assert PsLoggerAttributeFullPath[..35] == AttributesNamespace;
    assert PsLoggerAttributeFullPath[36..] == PsLoggerAttributeName;
    PathFromParts(PsLoggerAttributeFullPath, PsLoggerAttributeName);
    assert PsLoggerAttributeName[|PsLoggerAttributeName| - 9..] == "Attribute";
  }

  /** No two markers share a short name. */
  lemma MarkersDistinct()
    ensures forall i, j :: 0 <= i < j < |Markers| ==> Markers[i].0 != Markers[j].0
  {
  }

  datatype Severity = Hidden | Info | Warning | Error

  datatype DiagnosticDescriptor = DiagnosticDescriptor(
    id: string,
    title: string,
    messageFormat: string,
    category: string,
    severity: Severity,
    isEnabledByDefault: bool)

  /** The format is an interpolated string literal, so the `{0}` in it was
      turned into the text `0` when the constant was built. */
  const MissingPartialModifierRule: DiagnosticDescriptor := DiagnosticDescriptor(
    "GEN001",
    "Class should be partial",
    "Class '" + "0" + "' must" + " be" + " partial" + " to" + " work" + " with" + " this" + " Clonable" + " generator.",
    "Usage",
    Warning,
    true)

  /** The message of a diagnostic: every `{0}` of the format replaced by the
      first argument. */
  function FormatMessage(format: string, arg: string): (r: string)
    ensures '{' !in format ==> r == format
  {
    NoPlaceholder(format);
    Replace(format, "{0}", arg)
  }

  lemma NoPlaceholder(format: string)
    ensures '{' !in format ==> SplitOn(format, "{0}") == [format]
  {
    if '{' !in format {
      JoinSplit([format], "{0}");
    }
  }

  /** Whatever the type name passed in, the GEN001 message is always the
      same text: the name is never substituted. */
  lemma MessageIgnoresName(typeName: string)
    ensures FormatMessage(MissingPartialModifierRule.messageFormat, typeName)
         == MissingPartialModifierRule.messageFormat
  {
  }
}

=== FILE: deconstruct.dfy ===
/** The deconstruct emitter: for a type marked `Deconstruct`, a static
    `{Name}Extensions` class holding a `Deconstruct` extension method with
    one `out` parameter per property marked `IncludeInDeconstruct`. The
    method body is modelled twice: as the text written, and as statements
    whose execution on a receiver gives the values the out parameters
    receive. */
module Deconstruct {
  import opened Wrappers
  import opened Text
  import opened TextWriter
  import opened Models
  import opened Objects
  import opened Sequences
  import opened Emission
  import PropertyModelExtensions
  import NamingContext
  import StringExtensions

  const SystemUsings: seq<string> := ["System"]

  /** The requested name of the receiver parameter. */
  const ReceiverRequest: string := "input"

  function IsIncluded(p: PropertySymbolModel): bool
  {
    PropertyModelExtensions.HasIncludeInDeconstructAttribute(p)
  }

  /** The properties deconstructed: the marked ones, in input order. */
  function Included(props: seq<PropertySymbolModel>): (r: seq<PropertySymbolModel>)
    ensures forall p :: p in r <==> p in props && IsIncluded(p)
    ensures |r| <= |props|
  {
    Filter(props, IsIncluded)
  }

  function OutName(p: PropertySymbolModel): string { Camel(p.name) }

  /** `out {TypeFullyQualifiedName} {camelName}`. */
  function OutParameter(p: PropertySymbolModel): string
  {
    "out " + p.typeFullyQualifiedName + " " + Camel(p.name)
  }

  /** The receiver's name: "input", unless an out parameter already has that
      name, in which case the first free "input1", "input2", ... */
  function ReceiverName(props: seq<PropertySymbolModel>): (r: string)
    ensures r !in Map(Included(props), OutName)
    ensures ReceiverRequest !in Map(Included(props), OutName) ==> r == ReceiverRequest
  {
    var ctx := NamingContext.Create(Map(Included(props), OutName));
    NamingContext.FreshIsValid(Map(Included(props), OutName));
    NamingContext.Lookup(ctx, ReceiverRequest).1
  }

  /** The statements of the method body. */
  datatype Statement =
    | NullGuard(receiver: string)
    | SingleAssign(target: string, receiver: string, property: string)
    | TupleAssign(pairs: seq<(string, string)>, receiver: string)

  function Pair(p: PropertySymbolModel): (string, string) { (Camel(p.name), p.name) }

  /** The single-assignment form is used when the type has exactly one
      property and it is not excluded; otherwise the tuple form over the
      included properties. */
  predicate SingleForm(props: seq<PropertySymbolModel>)
  {
    |props| == 1 && !props[0].excludeProperty
  }

  function Statements(t: TypeSymbolModel, props: seq<PropertySymbolModel>): (r: seq<Statement>)
    ensures |r| == if t.isValueType then 1 else 2
    ensures NullGuard(ReceiverName(props)) in r <==> !t.isValueType
    ensures r[|r| - 1] == Assignment(props, ReceiverName(props))
  {
    var input := ReceiverName(props);
    (if t.isValueType then [] else [NullGuard(input)]) + [Assignment(props, input)]
  }

  /** The statement that fills the out parameters. */
  function Assignment(props: seq<PropertySymbolModel>, input: string): (s: Statement)
    ensures !s.NullGuard?
  {
    if SingleForm(props) then SingleAssign(Camel(props[0].name), input, props[0].name)
    else TupleAssign(Map(Included(props), Pair), input)
  }

  function First(pair: (string, string)): string { pair.0 }

  function Access(receiver: string): ((string, string)) -> string
  {
    (pair: (string, string)) => receiver + "." + pair.1
  }

  /** The text of a statement, relative to the method body. */
  function RenderStatement(s: Statement): (r: Document)
    ensures |r| > 0
  {
    match s
    case NullGuard(x) =>
      [Line(0, "global::System.ArgumentNullException.ThrowIfNull(" + x + ");")]
    case SingleAssign(target, x, p) =>
      [Line(0, "@" + target + " = " + x + "." + p + ";")]
    case TupleAssign(pairs, x) =>
      [Line(0, "(" + Join(Map(pairs, First), ", ") + ") ="),
       Line(1, "(" + Join(Map(pairs, Access(x)), ", ") + ");")]
  }

  function Signature(t: TypeSymbolModel, props: seq<PropertySymbolModel>): string
  {
    "public static void Deconstruct" + t.genericParameters + "(this " + t.name + " " + ReceiverName(props)
      + ", " + Join(Map(Included(props), OutParameter), ", ") + ")"
  }

  /** The extensions class, relative to its own level. */
  function ClassBlock(t: TypeSymbolModel, props: seq<PropertySymbolModel>): Document
  {
    LinesAt(0, ["public static partial class " + t.name + "Extensions", "{"])
    + LinesAt(1, [Signature(t, props)])
    + (if |t.constraints| > 0 then LinesAt(2, [t.constraints]) else [])
    + LinesAt(1, ["{"])
    + Shift(2, Flatten(Map(Statements(t, props), RenderStatement)))
    + LinesAt(1, ["}"])
    + LinesAt(0, ["}"])
  }

  /** The whole file: nothing when no property is included; otherwise the
      header, and the class inside a namespace block when the type has a
      namespace. */
  function Document(t: TypeSymbolModel, props: seq<PropertySymbolModel>): (d: Document)
    ensures d == [] <==> |Included(props)| == 0
  {
    if |Included(props)| == 0 then []
    else Wrap(NullableHeader() + UsingsLine(SystemUsings), TypeUsing(t), t.containingNamespace, ClassBlock(t, props))
  }

  /** The header, then the class: directly when there is no namespace,
      otherwise after the type's `using`, a blank line and `namespace N {`,
      one level deeper, and followed by the closing brace. */
  function Wrap(head: Document, using: string, ns: Option<string>, cb: Document): (d: Document)
  {
    head + match ns
           case None => cb
           case Some(n) => LinesAt(0, [using, "", "namespace " + n, "{"]) + Shift(1, cb) + [Line(0, "}")]
  }

  /** The extensions class opens with its header and the signature; the
      line after the signature is the constraint clause, one level deeper,
      exactly when the type has constraints, and otherwise the body's
      opening brace. */
  lemma ClassBlockLayout(t: TypeSymbolModel, props: seq<PropertySymbolModel>)
    ensures var cb := ClassBlock(t, props);
            && |cb| >= 6
            && cb[0] == Line(0, "public static partial class " + t.name + "Extensions")
            && cb[1] == Line(0, "{")
            && cb[2] == Line(1, Signature(t, props))
            && (cb[3] == Line(2, t.constraints) <==> |t.constraints| > 0)
            && (|t.constraints| == 0 ==> cb[3] == Line(1, "{"))
            && cb[|cb| - 1] == Line(0, "}")
  {
    var body := Shift(2, Flatten(Map(Statements(t, props), RenderStatement)));
    BlockShape("public static partial class " + t.name + "Extensions", Signature(t, props), t.constraints, body);
  }

  lemma BlockShape(header: string, signature: string, constraints: string, body: Document)
    ensures var cb := LinesAt(0, [header, "{"]) + LinesAt(1, [signature])
                      + (if |constraints| > 0 then LinesAt(2, [constraints]) else [])
                      + LinesAt(1, ["{"]) + body + LinesAt(1, ["}"]) + LinesAt(0, ["}"]);
            && |cb| >= 6
            && cb[0] == Line(0, header) && cb[1] == Line(0, "{") && cb[2] == Line(1, signature)
            && (cb[3] == Line(2, constraints) <==> |constraints| > 0)
            && (|constraints| == 0 ==> cb[3] == Line(1, "{"))
            && cb[|cb| - 1] == Line(0, "}")
  {
  }

  /** After the header and the usings, a type with a namespace gets its own
      `using`, a blank line and a namespace block holding the class one level
      deeper; a type without one gets the class directly. The namespace block
      is present exactly when the type has a namespace. */
  lemma DocumentLayout(t: TypeSymbolModel, props: seq<PropertySymbolModel>)
    requires |Included(props)| > 0
    ensures var d := Document(t, props);
            var k := |NullableHeader() + UsingsLine(SystemUsings)|;
            var cb := ClassBlock(t, props);
            && k <= |d| && d[..k] == NullableHeader() + UsingsLine(SystemUsings)
            && (|d| == k + |cb| <==> t.containingNamespace.None?)
            && (t.containingNamespace.None? ==> d[k..] == cb)
            && (t.containingNamespace.Some? ==>
                  && |d| == k + |cb| + 5
                  && d[k] == Line(0, TypeUsing(t))
                  && d[k + 2] == Line(0, "namespace " + t.containingNamespace.value)
                  && d[k + 3] == Line(0, "{")
                  && d[k + 4..|d| - 1] == Shift(1, cb)
                  && d[|d| - 1] == Line(0, "}"))
  {
    WrapShape(NullableHeader() + UsingsLine(SystemUsings), TypeUsing(t), t.containingNamespace, ClassBlock(t, props));
  }

  lemma WrapShape(head: Document, using: string, ns: Option<string>, cb: Document)
    ensures var d := Wrap(head, using, ns, cb);
            var k := |head|;
            && k <= |d| && d[..k] == head
            && (|d| == k + |cb| <==> ns.None?)
            && (ns.None? ==> d[k..] == cb)
            && (ns.Some? ==>
                  && |d| == k + |cb| + 5
                  && d[k] == Line(0, using) && d[k + 2] == Line(0, "namespace " + ns.value) && d[k + 3] == Line(0, "{")
                  && d[k + 4..|d| - 1] == Shift(1, cb) && d[|d| - 1] == Line(0, "}"))
  {
    var d := Wrap(head, using, ns, cb);
    if ns.Some? {
      assert d[|head| + 4..|d| - 1] == Shift(1, cb);
    } else {
      assert d == head + cb;
    }
  }

  /** `Build(writer, type, properties)`: leaves the writer untouched when
      nothing is included. */
  function Build(w: Writer, t: TypeSymbolModel, props: seq<PropertySymbolModel>): (w': Writer)
    ensures w'.indent == w.indent && |w.lines| <= |w'.lines| && w'.lines[..|w.lines|] == w.lines
    ensures w' == w <==> |Included(props)| == 0
  {
    Emit(w, Document(t, props))
  }

  /** Running the body on a receiver (`None` for null), starting from the
      given out values. A null receiver fails at the guard when there is
      one, and otherwise at the first property read. */
  function Exec(stmts: seq<Statement>, receiver: Option<Fields>, outs: map<string, Value>): Result<map<string, Value>>
    decreases |stmts|
  {
    if |stmts| == 0 then Ok(outs)
    else if receiver.None? then
      if stmts[0].NullGuard? then Err(ArgumentNullException) else Err(NullReferenceException)
    else
      match stmts[0]
      case NullGuard(_) => Exec(stmts[1..], receiver, outs)
      case SingleAssign(target, _, p) => Exec(stmts[1..], receiver, outs[target := Get(receiver.value, p)])
      case TupleAssign(pairs, _) => Exec(stmts[1..], receiver, AssignAll(outs, pairs, receiver.value))
  }

  /** A tuple assignment: each target receives the named property's value. */
  function AssignAll(outs: map<string, Value>, pairs: seq<(string, string)>, fields: Fields): (r: map<string, Value>)
    ensures forall n :: n in outs ==> n in r
    ensures forall i :: 0 <= i < |pairs| ==> pairs[i].0 in r
    ensures forall n :: n in r ==> n in outs || exists i :: 0 <= i < |pairs| && pairs[i].0 == n
    decreases |pairs|
  {
    if |pairs| == 0 then outs
    else
      var r := AssignAll(outs[pairs[0].0 := Get(fields, pairs[0].1)], pairs[1..], fields);
      assert forall i :: 0 <= i < |pairs[1..]| ==> pairs[1..][i] == pairs[i + 1];
      r
  }

  /** With distinct targets, each target holds the value of its own
      property after a tuple assignment. */
  lemma {:induction false} AssignAllValues(outs: map<string, Value>, pairs: seq<(string, string)>, fields: Fields)
    requires forall i, j :: 0 <= i < j < |pairs| ==> pairs[i].0 != pairs[j].0
    ensures forall i :: 0 <= i < |pairs| ==> AssignAll(outs, pairs, fields)[pairs[i].0] == Get(fields, pairs[i].1)
    decreases |pairs|
  {
    if |pairs| > 0 {
      var outs1 := outs[pairs[0].0 := Get(fields, pairs[0].1)];
      AssignAllValues(outs1, pairs[1..], fields);
      UntouchedKept(outs1, pairs[1..], fields, pairs[0].0);
      forall i | 1 <= i < |pairs|
        ensures AssignAll(outs, pairs, fields)[pairs[i].0] == Get(fields, pairs[i].1)
      {
        assert pairs[1..][i - 1] == pairs[i];
      }
    }
  }

  /** A name no pair targets keeps its value. */
  lemma {:induction false} UntouchedKept(outs: map<string, Value>, pairs: seq<(string, string)>, fields: Fields, n: string)
    requires n in outs && forall i :: 0 <= i < |pairs| ==> pairs[i].0 != n
    ensures AssignAll(outs, pairs, fields)[n] == outs[n]
    decreases |pairs|
  {
    if |pairs| > 0 {
      assert forall i :: 0 <= i < |pairs[1..]| ==> pairs[1..][i].0 != n by {
        forall i | 0 <= i < |pairs[1..]| ensures pairs[1..][i].0 != n {
          assert pairs[1..][i] == pairs[i + 1];
        }
      }
      UntouchedKept(outs[pairs[0].0 := Get(fields, pairs[0].1)], pairs[1..], fields, n);
    }
  }

  /** The out parameter names are pairwise different. */
  predicate DistinctOutNames(props: seq<PropertySymbolModel>)
  {
    var inc := Included(props);
    forall i, j :: 0 <= i < j < |inc| ==> Camel(inc[i].name) != Camel(inc[j].name)
  }

  /** The generated body does what `Deconstruct` promises: a null receiver
      of a reference type is rejected with `ArgumentNullException` before
      any property is read; otherwise every out parameter receives the
      value of its property. (A value-type receiver is never null.) */
  lemma DeconstructAssignsIncluded(t: TypeSymbolModel, props: seq<PropertySymbolModel>, receiver: Option<Fields>)
    requires |Included(props)| > 0 && DistinctOutNames(props)
    requires t.isValueType ==> receiver.Some?
    ensures receiver.None? ==> Exec(Statements(t, props), receiver, map[]) == Err(ArgumentNullException)
    ensures receiver.Some? ==> FillsOuts(Exec(Statements(t, props), receiver, map[]), props, receiver.value)
  {
    var stmts := Statements(t, props);
    var last := Assignment(props, ReceiverName(props));
    if receiver.Some? {
      assert Exec(stmts, receiver, map[]) == Exec([last], receiver, map[]) by {
        if !t.isValueType {
          assert stmts[1..] == [last];
        } else {
          assert stmts == [last];
        }
      }
      AssignmentFills(props, ReceiverName(props), receiver.value);
    }
  }

  /** The outcome promised: success, with each included property's value
      in the out parameter of its camel-case name, and nothing written to
      any other name. */
  predicate FillsOuts(r: Result<map<string, Value>>, props: seq<PropertySymbolModel>, fields: Fields)
  {
    var inc := Included(props);
    && r.Ok?
    && (forall i :: 0 <= i < |inc| ==>
          Camel(inc[i].name) in r.value && r.value[Camel(inc[i].name)] == Get(fields, inc[i].name))
    && forall n :: n in r.value ==> exists i :: 0 <= i < |inc| && Camel(inc[i].name) == n
  }

  /** Either form of the assignment fills every out parameter. */
  lemma AssignmentFills(props: seq<PropertySymbolModel>, input: string, fields: Fields)
    requires |Included(props)| > 0 && DistinctOutNames(props)
    ensures FillsOuts(Exec([Assignment(props, input)], Some(fields), map[]), props, fields)
  {
    assert [Assignment(props, input)][1..] == [];
    if SingleForm(props) {
      SingleFills(props, input, fields);
    } else {
      TupleFills(props, input, fields);
    }
  }

  lemma SingleFills(props: seq<PropertySymbolModel>, input: string, fields: Fields)
    requires |Included(props)| > 0 && SingleForm(props)
    ensures FillsOuts(Ok(map[][Camel(props[0].name) := Get(fields, props[0].name)]), props, fields)
  {
    var inc := Included(props);
    assert inc == props by {
      assert inc[0] in props;
    }
  }

  lemma TupleFills(props: seq<PropertySymbolModel>, input: string, fields: Fields)
    requires DistinctOutNames(props)
    ensures FillsOuts(Ok(AssignAll(map[], Map(Included(props), Pair), fields)), props, fields)
  {
    var inc := Included(props);
    var pairs := Map(inc, Pair);
    assert forall i :: 0 <= i < |pairs| ==> pairs[i].0 == Camel(inc[i].name);
    AssignAllValues(map[], pairs, fields);
  }

  /** The null guard is written exactly for reference types, as the first
      statement of the body. */
  lemma GuardOnlyForReferenceTypes(t: TypeSymbolModel, props: seq<PropertySymbolModel>)
    ensures !t.isValueType <==> Statements(t, props)[0].NullGuard?
  {
  }

  /** The receiver's name never clashes with an out parameter, so the
      method's parameter names are distinct whenever the out names are. */
  lemma ReceiverNameFresh(props: seq<PropertySymbolModel>, p: PropertySymbolModel)
    requires p in props && IsIncluded(p)
    ensures ReceiverName(props) != Camel(p.name)
  {
    var inc := Included(props);
    var i :| 0 <= i < |inc| && inc[i] == p;
    assert Map(inc, OutName)[i] == Camel(p.name);
  }

  /** The `Person` test: `FirstName` and `LastName` are included, `Age` is
      not; deconstructing a person yields the two names. */
  lemma PersonExample(first: PropertySymbolModel, last: PropertySymbolModel, age: PropertySymbolModel, t: TypeSymbolModel)
    requires first.name == "FirstName" && last.name == "LastName" && age.name == "Age"
    requires IsIncluded(first) && IsIncluded(last) && !IsIncluded(age)
    requires !t.isValueType
    ensures var r := Exec(Statements(t, [first, last, age]), Some(PersonFields()), map[]);
            && r.Ok? && "firstName" in r.value && "lastName" in r.value
            && r.value["firstName"] == Str("Visual") && r.value["lastName"] == Str("Studio")
            && "age" !in r.value
  {
    PersonFacts(first, last, age);
    DeconstructAssignsIncluded(t, [first, last, age], Some(PersonFields()));
    assert "age"[0] != "firstName"[0] && "age"[0] != "lastName"[0];
  }

  lemma PersonFacts(first: PropertySymbolModel, last: PropertySymbolModel, age: PropertySymbolModel)
    requires first.name == "FirstName" && last.name == "LastName"
    requires IsIncluded(first) && IsIncluded(last) && !IsIncluded(age)
    ensures var inc := Included([first, last, age]);
            && |inc| == 2 && DistinctOutNames([first, last, age])
            && Camel(inc[0].name) == "firstName" && Camel(inc[1].name) == "lastName"
            && Get(PersonFields(), inc[0].name) == Str("Visual") && Get(PersonFields(), inc[1].name) == Str("Studio")
  {
    PersonIncluded(first, last, age);
    PersonCamel();
    PersonValues();
  }

  lemma PersonCamel()
    ensures Camel("FirstName") == "firstName" && Camel("LastName") == "lastName"
    ensures Camel("FirstName") != Camel("LastName")
  {
    StringExtensions.CamelFirstName();
    CamelLastName();
    assert "firstName"[0] != "lastName"[0];
  }

  lemma CamelLastName()
    ensures Camel("LastName") == "lastName"
  {
    StringExtensions.CamelPlainName("LastName");
  }

  lemma PersonValues()
    ensures Get(PersonFields(), "FirstName") == Str("Visual") && Get(PersonFields(), "LastName") == Str("Studio")
  {
    assert "FirstName" != "LastName" by { assert "FirstName"[0] != "LastName"[0]; }
  }

  /** The values the first two out parameters receive. */
  lemma TwoOuts(t: TypeSymbolModel, props: seq<PropertySymbolModel>, fields: Fields)
    requires |Included(props)| >= 2 && DistinctOutNames(props) && !t.isValueType
    ensures var r := Exec(Statements(t, props), Some(fields), map[]);
            var inc := Included(props);
            && r.Ok?
            && Camel(inc[0].name) in r.value && r.value[Camel(inc[0].name)] == Get(fields, inc[0].name)
            && Camel(inc[1].name) in r.value && r.value[Camel(inc[1].name)] == Get(fields, inc[1].name)
  {
    DeconstructAssignsIncluded(t, props, Some(fields));
  }

  /** The person of the test: "Visual", "Studio", 27. */
  function PersonFields(): Fields
  {
    map["FirstName" := Str("Visual"), "LastName" := Str("Studio"), "Age" := Int(27)]
  }

  lemma PersonIncluded(first: PropertySymbolModel, last: PropertySymbolModel, age: PropertySymbolModel)
    requires IsIncluded(first) && IsIncluded(last) && !IsIncluded(age)
    ensures Included([first, last, age]) == [first, last]
  {
    var props := [first, last, age];
    assert Filter(props, IsIncluded) == [first] + Filter(props[1..], IsIncluded);
    assert Filter(props[1..], IsIncluded) == [last] + Filter(props[2..], IsIncluded);
    assert props[2..] == [age];
    assert Filter([age], IsIncluded) == Filter([age][1..], IsIncluded);
  }
}

=== FILE: emission.dfy ===
/** Generated text as the emitters produce it: a document is a sequence of
    lines whose indent levels count from the writer's level when emission
    starts. The emitters raise and lower the level symmetrically, so
    emitting a document leaves the writer's level where it was. Also the
    preamble that every emitter writes before its class. */
module Emission {
  import opened Wrappers
  import opened Text
  import opened TextWriter
  import opened Models
  import BuilderHelpers
  import StringExtensions

  type Document = seq<Line>

  /** A document moved `k` levels deeper. */
  function Shift(k: nat, doc: Document): (r: Document)
    ensures |r| == |doc| && forall i :: 0 <= i < |doc| ==> r[i] == Line(doc[i].indent + k, doc[i].text)
  {
    seq(|doc|, i requires 0 <= i < |doc| => Line(doc[i].indent + k, doc[i].text))
  }

  lemma ShiftConcat(k: nat, a: Document, b: Document)
    ensures Shift(k, a + b) == Shift(k, a) + Shift(k, b)
  {
  }

  lemma ShiftShift(j: nat, k: nat, doc: Document)
    ensures Shift(j, Shift(k, doc)) == Shift(j + k, doc)
  {
  }

  /** Writing a document at the writer's current level. */
  function Emit(w: Writer, doc: Document): (w': Writer)
    ensures w'.indent == w.indent && w'.tab == w.tab && w'.newLine == w.newLine
    ensures |w'.lines| == |w.lines| + |doc| && w'.lines[..|w.lines|] == w.lines
  {
    w.(lines := w.lines + Shift(w.indent, doc))
  }

  /** Emitting two documents one after the other is emitting their
      concatenation. */
  lemma EmitConcat(w: Writer, a: Document, b: Document)
    ensures Emit(Emit(w, a), b) == Emit(w, a + b)
  {
    ShiftConcat(w.indent, a, b);
  }

  /** A document with no visible character: every line's text is white
      space. */
  predicate Blank(doc: Document)
  {
    forall i :: 0 <= i < |doc| ==> IsAllWhiteSpace(doc[i].text)
  }

  /** `string.IsNullOrWhiteSpace` of a writer's text: with a white-space tab
      string and line terminator, the rendered text is all white space
      exactly when the lines are blank. */
  lemma {:induction false} BlankIffWhiteSpace(ls: seq<Line>, tab: string, newLine: string)
    requires IsAllWhiteSpace(tab) && IsAllWhiteSpace(newLine)
    ensures Blank(ls) <==> IsAllWhiteSpace(RenderLines(ls, tab, newLine))
    decreases |ls|
  {
    if |ls| > 0 {
      var init := ls[..|ls| - 1];
      var last := ls[|ls| - 1];
      BlankIffWhiteSpace(init, tab, newLine);
      WhiteSpaceRepeat(tab, last.indent);
      WhiteSpaceConcat(Repeat(tab, last.indent), last.text);
      WhiteSpaceConcat(Repeat(tab, last.indent) + last.text, newLine);
      WhiteSpaceConcat(RenderLines(init, tab, newLine), RenderLine(last, tab, newLine));
      assert Blank(ls) <==> Blank(init) && IsAllWhiteSpace(last.text) by {
        assert forall i :: 0 <= i < |init| ==> init[i] == ls[i];
      }
    }
  }

  /** `#nullable enable` and an empty line. */
  function NullableHeader(): (r: Document)
    ensures forall w: Writer :: Emit(w, r) == BuilderHelpers.WriteNullableOptions(w)
  {
    [Line(0, "#nullable enable"), Line(0, "")]
  }

  /** The single line of `using` directives for the given namespaces. */
  function UsingsLine(usings: seq<string>): (r: Document)
    ensures forall w: Writer :: Emit(w, r) == TextWriter.WriteLine(w, Join(BuilderHelpers.UsingDirectives(Distinct(usings)), "\r\n"))
  {
    [Line(0, Join(BuilderHelpers.UsingDirectives(Distinct(usings)), "\r\n"))]
  }

  /** The namespace of the type's own `using` line: the fully qualified name
      with every `global::` and every `.{Name}` removed. */
  function TypeUsing(t: TypeSymbolModel): (r: string)
    ensures |r| >= 7 && r[..6] == "using " && r[|r| - 1] == ';'
  {
    BuilderHelpers.UsingDirective(Replace(Replace(t.fullyQualifiedName, "global::", ""), "." + t.name, ""))
  }

  /** Nothing for a type in no namespace; otherwise the type's `using`
      line, a blank line, a file-scoped `namespace` line and a blank line. */
  function FileScopedNamespace(t: TypeSymbolModel): (r: Document)
    ensures t.containingNamespace.None? <==> r == []
    ensures t.containingNamespace.Some? ==>
      Texts(r) == [TypeUsing(t), "", "namespace " + t.containingNamespace.value + ";", ""]
      && forall i :: 0 <= i < |r| ==> r[i].indent == 0
  {
    match t.containingNamespace
    case None => []
    case Some(ns) => LinesAt(0, [TypeUsing(t), "", "namespace " + ns + ";", ""])
  }

  /** A method: its signature, a braced body one level deeper, and a blank
      line after it. */
  function MethodBlock(signature: string, body: seq<string>): (r: Document)
    ensures |r| == |body| + 4 && r[0] == Line(0, signature)
    ensures forall i :: 0 <= i < |body| ==> r[2 + i] == Line(1, body[i])
  {
    LinesAt(0, [signature, "{"]) + LinesAt(1, body) + LinesAt(0, ["}", ""])
  }

  /** A C# identifier derived from a property name, as the emitters spell
      variables: camel case. */
  function Camel(name: string): string
  {
    StringExtensions.ToCamelCase(name)
  }

}

=== FILE: fluent_class.dfy ===
/** The fluent-class emitter: for a partial type marked `FluentClass`, the
    other half of that type with a validation rule fixed at construction,
    one `With{Name}` setter per eligible property that returns the object
    itself, and `Validate`. */
module FluentClass {
  import opened Wrappers
  import opened Text
  import opened TextWriter
  import opened Symbols
  import opened Models
  import opened Sequences
  import opened Emission
  import StringExtensions
  import PropertyModelExtensions

  const SystemUsings: seq<string> :=
    ["System", "System.Collections", "System.Collections.Generic", "System.Linq", "System.Linq.Expressions"]

  /** A property gets a fluent setter when it has no skip marker and a
      public, writable setter. */
  predicate IsEligible(p: PropertySymbolModel)
  {
    !PropertyModelExtensions.HasSkipFluentClassBuilderAttribute(p)
    && p.property.setMethod == Some(Public) && !p.property.isReadOnly
  }

  /** `GetAccessibleProperties`: the eligible properties, in input order. */
  function GetAccessibleProperties(props: seq<PropertySymbolModel>): (r: seq<PropertySymbolModel>)
    ensures forall p :: p in r <==> p in props && IsEligible(p)
    ensures |r| <= |props|
    ensures (forall i :: 0 <= i < |props| ==> IsEligible(props[i])) ==> r == props
  {
    FilterAllOrNothing(props, IsEligible);
    Filter(props, IsEligible)
  }

  /** The members of the fluent half, in the order they are written. */
  datatype Member =
    | RuleField
    | DefaultConstructor
    | RuleConstructor
    | Setter(propertyName: string, typeDisplay: string)
    | ValidateMethod

  function SetterOf(p: PropertySymbolModel): Member
  {
    Setter(p.name, p.property.propertyType.displayString)
  }

  function Members(props: seq<PropertySymbolModel>): (r: seq<Member>)
    ensures |r| == |GetAccessibleProperties(props)| + 4
    ensures r[..3] == [RuleField, DefaultConstructor, RuleConstructor] && r[|r| - 1] == ValidateMethod
  {
    [RuleField, DefaultConstructor, RuleConstructor] + Map(GetAccessibleProperties(props), SetterOf) + [ValidateMethod]
  }

  predicate IsSetter(m: Member) { m.Setter? }

  /** Exactly one setter per eligible property, in input order, and no
      other member is a setter. */
  lemma SettersInOrder(props: seq<PropertySymbolModel>)
    ensures Filter(Members(props), IsSetter) == Map(GetAccessibleProperties(props), SetterOf)
  {
    var head := [RuleField, DefaultConstructor, RuleConstructor];
    var setters := Map(GetAccessibleProperties(props), SetterOf);
    var tail := [ValidateMethod];
    FilterConcat(head + setters, tail, IsSetter);
    FilterConcat(head, setters, IsSetter);
    FilterAllOrNothing(head, IsSetter);
    FilterAllOrNothing(setters, IsSetter);
    FilterAllOrNothing(tail, IsSetter);
  }

  /** A property gets a setter exactly when it is an eligible input
      property; in particular a property marked `SkipFluentClass` never
      does. */
  lemma SetterIff(props: seq<PropertySymbolModel>, p: PropertySymbolModel)
    ensures SetterOf(p) in Members(props) <==>
            exists q :: q in props && IsEligible(q) && SetterOf(q) == SetterOf(p)
  {
    var ps := GetAccessibleProperties(props);
    var setters := Map(ps, SetterOf);
    assert Members(props) == [RuleField, DefaultConstructor, RuleConstructor] + setters + [ValidateMethod];
    assert SetterOf(p) in Members(props) <==> SetterOf(p) in setters;
    SetterAmong(ps, p);
  }

  lemma SetterAmong(ps: seq<PropertySymbolModel>, p: PropertySymbolModel)
    ensures SetterOf(p) in Map(ps, SetterOf) <==> exists q :: q in ps && SetterOf(q) == SetterOf(p)
  {
    var setters := Map(ps, SetterOf);
    if SetterOf(p) in setters {
      var i :| 0 <= i < |setters| && setters[i] == SetterOf(p);
      assert ps[i] in ps;
    }
    if exists q :: q in ps && SetterOf(q) == SetterOf(p) {
      var q :| q in ps && SetterOf(q) == SetterOf(p);
      var i :| 0 <= i < |ps| && ps[i] == q;
      assert setters[i] == SetterOf(p);
    }
  }

  /** The statement the setter of `n` runs on the object itself. */
  function SelfAssignment(n: string): string
  {
    n + " = " + Camel(n) + ";"
  }

  /** The text of each member, indented relative to the class body. */
  function Render(cls: string, m: Member): (r: Document)
    ensures |r| > 0
  {
    match m
    case RuleField =>
      LinesAt(0, ["", "private readonly Func<" + cls + ", bool>? _validationRule;", ""])
    case DefaultConstructor =>
      LinesAt(0, ["public " + cls + "() {}", ""])
    case RuleConstructor =>
      MethodBlock("public " + cls + "(Func<" + cls + ", bool>? validationRule = null)",
                  ["_validationRule = validationRule;"])
    case Setter(n, display) =>
      MethodBlock("public " + cls + " With" + n + "(" + display + " " + Camel(n) + ")",
                  [SelfAssignment(n), "return this;"])
    case ValidateMethod =>
      [Line(0, "")] + MethodBlock("public bool Validate()", ["return _validationRule?.Invoke(this) ?? true;"])
  }

  function Renderer(cls: string): (f: Member -> Document)
    ensures forall m :: f(m) == Render(cls, m)
  {
    m => Render(cls, m)
  }

  function RenderAll(cls: string, ms: seq<Member>): Document
  {
    Flatten(Map(ms, Renderer(cls)))
  }

  /** Everything before the class body: the nullable header, the `using`
      line, the namespace lines and the partial class header with its brace. */
  function Preamble(t: TypeSymbolModel): Document
  {
    NullableHeader() + UsingsLine(SystemUsings) + FileScopedNamespace(t)
      + LinesAt(0, [AccessibilityKeyword(t.typeSymbol.declaredAccessibility) + " partial class "
                    + StringExtensions.ToSafeClassName(t.name), "{"])
  }

  function Document(t: TypeSymbolModel, props: seq<PropertySymbolModel>): Document
  {
    Preamble(t) + Shift(1, RenderAll(StringExtensions.ToSafeClassName(t.name), Members(props))) + [Line(0, "}")]
  }

  /** `Build(writer, type, properties)`. */
  function Build(w: Writer, t: TypeSymbolModel, props: seq<PropertySymbolModel>): (w': Writer)
    ensures w'.indent == w.indent && |w.lines| <= |w'.lines| && w'.lines[..|w.lines|] == w.lines
  {
    Emit(w, Document(t, props))
  }

  /** Every eligible property's setter is in the file, storing its argument
      into the property two levels inside the class. */
  lemma SetterAssignsSelf(t: TypeSymbolModel, props: seq<PropertySymbolModel>, p: PropertySymbolModel)
    requires p in props && IsEligible(p)
    ensures Line(2, SelfAssignment(p.name)) in Document(t, props)
  {
    var cls := StringExtensions.ToSafeClassName(t.name);
    var ms := Members(props);
    SetterIff(props, p);
    var k :| 0 <= k < |ms| && ms[k] == SetterOf(p);
    assert Render(cls, ms[k])[2] == Line(1, SelfAssignment(p.name));
    FlattenMapMember(ms, Renderer(cls), Line(1, SelfAssignment(p.name)));
    var body := RenderAll(cls, ms);
    var j :| 0 <= j < |body| && body[j] == Line(1, SelfAssignment(p.name));
    assert Shift(1, body)[j] == Line(2, SelfAssignment(p.name));
  }
}

=== FILE: fluent_generator.dfy ===
/** The fluent-class generator: the shared pipeline with the `FluentClass`
    marker and override name and the fluent-class emitter, which cannot
    throw. */
module FluentClassGenerator {
  import opened Wrappers
  import opened Text
  import opened Symbols
  import opened Models
  import opened Sequences
  import opened Emission
  import opened Pipelines
  import Constants
  import FluentClass
  import StringExtensions
  import NamedTypeExtensions

  const OverrideName: string := "FluentClass"
  const HintPrefix: string := "ArxRiver.Fluent."

  function Selector(): (f: Option<NamedTypeSymbol> -> Result<Option<TypeSymbolModel>>)
    ensures forall s :: f(s) == SelectMarked(s, Constants.FluentClassAttributeFullPath, OverrideName)
  {
    s => SelectMarked(s, Constants.FluentClassAttributeFullPath, OverrideName)
  }

  function Excluder(): (f: MethodDeclaration -> Result<Option<TypeSymbolModel>>)
    ensures forall m :: f(m) == SelectExcluded(m, OverrideName)
  {
    m => SelectExcluded(m, OverrideName)
  }

  /** `FluentClassBuilder.Build` on a model's own property list. */
  function Emitter(): (f: TypeSymbolModel -> Result<Document>)
    ensures forall t :: f(t) == Ok(FluentClass.Document(t, t.accessibleProperties))
  {
    (t: TypeSymbolModel) => Ok(FluentClass.Document(t, t.accessibleProperties))
  }

  function Generate(types: seq<Option<NamedTypeSymbol>>, methods: seq<MethodDeclaration>): (r: Result<Output>)
  {
    var selected := Collect(Map(types, Selector()));
    var excluded := Collect(Map(methods, Excluder()));
    if selected.Err? then Err(selected.error)
    else if excluded.Err? then Err(excluded.error)
    else Run(selected.value, excluded.value, HintPrefix, Emitter())
  }

  /** Once the models are collected, the run fails only on a repeated hint
      name; otherwise it warns once per non-partial selected model and
      writes one fluent half per distinct uncovered model, in order. */
  lemma GenerateSpec(types: seq<Option<NamedTypeSymbol>>, methods: seq<MethodDeclaration>)
    requires Collect(Map(types, Selector())).Ok? && Collect(Map(methods, Excluder())).Ok?
    ensures var selected := Collect(Map(types, Selector())).value;
            var excluded := Collect(Map(methods, Excluder())).value;
            var planned := Filter(Distinct(selected), NotIn(excluded));
            var r := Generate(types, methods);
            && BuildsOk(Emitter(), planned)
            && (r.Ok? <==> UniqueHints(Artifacts(HintPrefix, Emitter(), planned)))
            && (r.Ok? ==>
                  && r.value.diagnostics == PartialWarnings(selected)
                  && |r.value.artifacts| == |planned|
                  && forall i :: 0 <= i < |planned| ==>
                       && planned[i] in selected && planned[i] !in excluded
                       && r.value.artifacts[i].hintName == HintPrefix + StringExtensions.ToSafeClassName(planned[i].name) + ".g.cs"
                       && r.value.artifacts[i].text == FluentClass.Document(planned[i], planned[i].accessibleProperties))
  {
    var selected := Collect(Map(types, Selector())).value;
    var excluded := Collect(Map(methods, Excluder())).value;
    CreateOutputSpec(selected, excluded, HintPrefix, Emitter());
  }

  /** A static `FluentClass(this T, out …)` with one `out` parameter per
      accessible property of `T` covers `T`: its model is excluded, no file
      is planned for it, and the files are exactly the planned ones. */
  lemma CoveredTypeGetsNoFile(types: seq<Option<NamedTypeSymbol>>, methods: seq<MethodDeclaration>, i: nat)
    requires Generate(types, methods).Ok?
    requires i < |methods| && ExtensionShape(methods[i], OverrideName) && methods[i].receiverType.Some?
    requires NamedTypeExtensions.GetAccessibleProperties(methods[i].receiverType.value).Ok?
    requires |NamedTypeExtensions.GetAccessibleProperties(methods[i].receiverType.value).value| == |methods[i].parameters| - 1
    ensures var t := ToModel(methods[i].receiverType.value, NamedTypeExtensions.GetAccessibleProperties(methods[i].receiverType.value).value);
            var selected := Collect(Map(types, Selector())).value;
            var excluded := Collect(Map(methods, Excluder())).value;
            var planned := Filter(Distinct(selected), NotIn(excluded));
            && t in excluded && t !in planned
            && |Generate(types, methods).value.artifacts| == |planned|
  {
    CoveredIsExcluded(methods, OverrideName, Excluder(), i);
    GenerateSpec(types, methods);
  }
}

=== FILE: fluent_runtime.dfy ===
/** What a fluent class does when it runs: each `With{Name}` stores its
    argument into the object itself and returns that object, and
    `Validate` applies the rule given at construction, answering true when
    there is none. */
module FluentRuntime {
  import opened Wrappers
  import opened Objects

  type Rule = Fields -> bool

  /** The object and the rule its constructor stored. The generated field is
      read-only: nothing after construction changes it. */
  datatype FluentObject = FluentObject(self: Instance, rule: Option<Rule>)

  /** `new C()` and `new C(validationRule)`: no property assigned yet. */
  function New(id: nat, rule: Option<Rule>): (o: FluentObject)
    ensures o.self.id == id && o.self.fields == map[] && o.rule == rule
  {
    FluentObject(Instance(id, map[]), rule)
  }

  /** `With{Name}(value)`. */
  function With(o: FluentObject, name: string, v: Value): (o': FluentObject)
    ensures o'.self.id == o.self.id && o'.rule == o.rule
    ensures Get(o'.self.fields, name) == v
    ensures forall n :: n != name ==> Get(o'.self.fields, n) == Get(o.self.fields, n)
  {
    o.(self := o.self.(fields := o.self.fields[name := v]))
  }

  /** `Validate()`: the stored rule's verdict on the object, or true. */
  function Validate(o: FluentObject): (r: bool)
    ensures o.rule.None? ==> r
  {
    match o.rule
    case None => true
    case Some(rule) => rule(o.self.fields)
  }

  /** A chain of setter calls, applied left to right. */
  function ApplyAll(o: FluentObject, writes: seq<(string, Value)>): FluentObject
    decreases |writes|
  {
    if |writes| == 0 then o
    else With(ApplyAll(o, writes[..|writes| - 1]), writes[|writes| - 1].0, writes[|writes| - 1].1)
  }

  /** The value the last write to `n` stores, or `initial` when none does. */
  function LastWrite(writes: seq<(string, Value)>, n: string, initial: Value): Value
    decreases |writes|
  {
    if |writes| == 0 then initial
    else if writes[|writes| - 1].0 == n then writes[|writes| - 1].1
    else LastWrite(writes[..|writes| - 1], n, initial)
  }

  /** After a chain of setters each property holds the value of the last
      write to it, or its earlier value when none wrote it; the chain
      returns the same object with the same rule throughout. */
  lemma {:induction false} ChainLastWriteWins(o: FluentObject, writes: seq<(string, Value)>, n: string)
    ensures ApplyAll(o, writes).self.id == o.self.id && ApplyAll(o, writes).rule == o.rule
    ensures Get(ApplyAll(o, writes).self.fields, n) == LastWrite(writes, n, Get(o.self.fields, n))
    decreases |writes|
  {
    if |writes| > 0 {
      ChainLastWriteWins(o, writes[..|writes| - 1], n);
    }
  }

  /** `Validate` after any chain of setters: always true without a rule;
      with one, the rule's verdict on the final values. */
  lemma ValidateAfterChain(o: FluentObject, writes: seq<(string, Value)>)
    ensures o.rule.None? ==> Validate(ApplyAll(o, writes))
    ensures o.rule.Some? ==> (Validate(ApplyAll(o, writes)) <==> o.rule.value(ApplyAll(o, writes).self.fields))
  {
    ChainLastWriteWins(o, writes, "");
  }

  /** The `JsonLog` class of the tests with a rule requiring a message: the
      chain that sets one passes, the object without one fails. */
  lemma JsonLogExample(id: nat)
    ensures var rule: Rule := f => Get(f, "Message") != Null;
            var o := New(id, Some(rule));
            && !Validate(o)
            && Validate(ApplyAll(o, [("Source", Str("test")), ("Message", Str("hello"))]))
  {
    var rule: Rule := f => Get(f, "Message") != Null;
    var writes := [("Source", Str("test")), ("Message", Str("hello"))];
    ChainLastWriteWins(New(id, Some(rule)), writes, "Message");
    assert writes[..1] == [("Source", Str("test"))];
  }
}

=== FILE: logger.dfy ===
/** The logger dispatch: the kind of logger a `PsLogger` type asks for is
    read from the first attribute whose class is named "PsLoggerAttribute",
    case ignored, and selects one of four emitters. The emitters themselves
    are parameters. */
module PsNLogBuilder {
  import opened Wrappers
  import opened Text
  import opened TextWriter
  import opened Symbols
  import opened Models
  import opened Emission
  import Constants

  /** `PsLoggerAttribute.LoggerType`. */
  datatype LoggerKind = Json | File | Console | ColoredConsole

  /** The enum's underlying value: the members are numbered from 0 in order. */
  function KindValue(k: LoggerKind): (v: int)
    ensures 0 <= v < 4
    ensures KindOf(v) == Some(k)
  {
    match k
    case Json => 0
    case File => 1
    case Console => 2
    case ColoredConsole => 3
  }

  /** The named member an integer stands for, if any. */
  function KindOf(v: int): (r: Option<LoggerKind>)
    ensures r.Some? <==> 0 <= v < 4
    ensures r.Some? ==> (r.value.Json? <==> v == 0)
    ensures r == Some(File) <==> v == 1
    ensures r == Some(Console) <==> v == 2
    ensures r == Some(ColoredConsole) <==> v == 3
  {
    if v == 0 then Some(Json)
    else if v == 1 then Some(File)
    else if v == 2 then Some(Console)
    else if v == 3 then Some(ColoredConsole)
    else None
  }

  /** An attribute whose class name is "PsLoggerAttribute", case ignored. */
  predicate Matches(a: AttributeData)
  {
    a.attributeClass.Some? && EqualsIgnoreCase(a.attributeClass.value.name, Constants.PsLoggerAttributeName)
  }

  /** An attribute the search looks at and passes over. */
  predicate Passed(a: AttributeData)
  {
    a.attributeClass.Some? && !Matches(a)
  }

  /** `FirstOrDefault` with the name test from position `i` on. The test
      dereferences the attribute class, so an attribute without one throws
      unless a match comes first. */
  function FindFrom(attrs: seq<AttributeData>, i: nat): (r: Result<Option<AttributeData>>)
    requires i <= |attrs|
    ensures r.Err? ==> r.error == NullReferenceException
    ensures r == Ok(None) <==> forall j :: i <= j < |attrs| ==> Passed(attrs[j])
    ensures r.Err? <==> exists j :: i <= j < |attrs| && attrs[j].attributeClass.None?
                                    && forall k :: i <= k < j ==> Passed(attrs[k])
    ensures r.Ok? && r.value.Some? ==>
              exists j :: i <= j < |attrs| && attrs[j] == r.value.value && Matches(attrs[j])
                          && forall k :: i <= k < j ==> Passed(attrs[k])
    decreases |attrs| - i
  {
    if i == |attrs| then Ok(None)
    else if attrs[i].attributeClass.None? then Err(NullReferenceException)
    else if Matches(attrs[i]) then Ok(Some(attrs[i]))
    else FindFrom(attrs, i + 1)
  }

  /** `GetAttributeType`: the first constructor argument of the logger
      attribute, or 0 when the type has none. An attribute without
      arguments makes the indexer throw. */
  function GetAttributeType(t: TypeSymbolModel): (r: Result<int>)
    ensures r.Err? ==> r.error == NullReferenceException || r.error == IndexOutOfRangeException
    ensures (forall j :: 0 <= j < |t.typeSymbol.self.attributes| ==> Passed(t.typeSymbol.self.attributes[j]))
            ==> r == Ok(0)
    ensures forall j :: 0 <= j < |t.typeSymbol.self.attributes|
                        && Matches(t.typeSymbol.self.attributes[j])
                        && (forall k :: 0 <= k < j ==> Passed(t.typeSymbol.self.attributes[k]))
                        ==> if |t.typeSymbol.self.attributes[j].constructorArguments| == 0 then r == Err(IndexOutOfRangeException)
                            else r == Ok(t.typeSymbol.self.attributes[j].constructorArguments[0])
  {
    var attrs := t.typeSymbol.self.attributes;
    var found := FindFrom(attrs, 0);
    if found.Err? then Err(found.error)
    else if found.value.None? then Ok(0)
    else if |found.value.value.constructorArguments| == 0 then Err(IndexOutOfRangeException)
    else Ok(found.value.value.constructorArguments[0])
  }

  /** The four logger emitters, selected by kind. */
  type Emitter = (LoggerKind, TypeSymbolModel, seq<PropertySymbolModel>) -> Document

  /** The text `Build` writes, or the exception it throws. */
  function Document(t: TypeSymbolModel, props: seq<PropertySymbolModel>, emit: Emitter): (r: Result<Document>)
    ensures r.Ok? <==> GetAttributeType(t).Ok? && 0 <= GetAttributeType(t).value < 4
    ensures GetAttributeType(t).Err? ==> r == Err(GetAttributeType(t).error)
    ensures GetAttributeType(t).Ok? && !(0 <= GetAttributeType(t).value < 4) ==> r == Err(ArgumentOutOfRangeException)
    ensures r.Ok? ==> exists k :: KindValue(k) == GetAttributeType(t).value && r.value == emit(k, t, props)
  {
    var v := GetAttributeType(t);
    if v.Err? then Err(v.error)
    else
      match KindOf(v.value)
      case None => Err(ArgumentOutOfRangeException)
      case Some(k) => Ok(emit(k, t, props))
  }

  /** `Build(writer, type, properties)`. */
  function Build(w: Writer, t: TypeSymbolModel, props: seq<PropertySymbolModel>, emit: Emitter): (r: Result<Writer>)
    ensures r.Ok? <==> Document(t, props, emit).Ok?
    ensures r.Ok? ==> r.value == Emit(w, Document(t, props, emit).value)
  {
    var doc := Document(t, props, emit);
    if doc.Err? then Err(doc.error) else Ok(Emit(w, doc.value))
  }

  /** Each kind reaches its own emitter and no other. */
  lemma DispatchExactlyOne(t: TypeSymbolModel, props: seq<PropertySymbolModel>, emit: Emitter, k: LoggerKind)
    requires GetAttributeType(t) == Ok(KindValue(k))
    ensures Document(t, props, emit) == Ok(emit(k, t, props))
    ensures forall k' :: k' != k ==> KindValue(k') != KindValue(k)
  {
    forall k' | k' != k ensures KindValue(k') != KindValue(k) {
      assert KindOf(KindValue(k')) == Some(k');
    }
  }

  /** A type without a logger attribute gets the Json logger. */
  lemma MissingAttributeIsJson(t: TypeSymbolModel, props: seq<PropertySymbolModel>, emit: Emitter)
    requires forall j :: 0 <= j < |t.typeSymbol.self.attributes| ==> Passed(t.typeSymbol.self.attributes[j])
    ensures GetAttributeType(t) == Ok(KindValue(Json))
    ensures Document(t, props, emit) == Ok(emit(Json, t, props))
  {
    DispatchExactlyOne(t, props, emit, Json);
  }

  /** The attribute is found whatever the case of its class name, and an
      earlier unrelated attribute does not hide it. */
  lemma CaseIgnoredExample(t: TypeSymbolModel, props: seq<PropertySymbolModel>, emit: Emitter)
    requires t.typeSymbol.self.attributes ==
               [AttributeData(Some(AttributeClass("SerializableAttribute", "System.SerializableAttribute")), []),
                AttributeData(Some(AttributeClass("psloggerATTRIBUTE", "X.psloggerATTRIBUTE")), [2])]
    ensures Document(t, props, emit) == Ok(emit(Console, t, props))
  {
    var attrs := t.typeSymbol.self.attributes;
    assert Passed(attrs[0]) by {
      assert attrs[0].attributeClass.value.name[0] == 'S' && Constants.PsLoggerAttributeName[0] == 'P';
    }
    assert Matches(attrs[1]);
    DispatchExactlyOne(t, props, emit, Console);
  }
}

=== FILE: models.dfy ===
/** The records the generators pass between their stages. Both are C#
    records, so equality is field by field; they are modelled as datatypes,
    whose equality is structural in the same way. Symbol fields compare as
    values here. */
module Models {
  import opened Wrappers
  import opened Symbols

  /** One accessible property: the symbol, its name, the namespace recorded
      for it, the fully qualified name of its type, and whether it carries
      the exclude marker (false unless given). */
  datatype PropertySymbolModel = PropertySymbolModel(
    property: PropertySymbol,
    name: string,
    nameSpace: string,
    typeFullyQualifiedName: string,
    excludeProperty: bool := false)

  /** A selected type: the key under which the generators cache, compare and
      de-duplicate their work. */
  datatype TypeSymbolModel = TypeSymbolModel(
    typeSymbol: NamedTypeSymbol,
    containingNamespace: Option<string>,
    name: string,
    genericParameters: string,
    fullyQualifiedName: string,
    constraints: string,
    isValueType: bool,
    isPartial: bool,
    accessibleProperties: seq<PropertySymbolModel>)

  /** Leaving `ExcludeProperty` out makes it false, and the flag is part of
      identity: two models that differ only there are different. */
  lemma ExcludeDefaultsToFalse(p: PropertySymbol, name: string, ns: string, fqn: string)
    ensures PropertySymbolModel(p, name, ns, fqn).excludeProperty == false
    ensures PropertySymbolModel(p, name, ns, fqn) != PropertySymbolModel(p, name, ns, fqn, true)
  {
  }

  /** Partiality and the property list are part of a type model's identity. */
  lemma TypeModelIdentity(m: TypeSymbolModel, props: seq<PropertySymbolModel>)
    ensures m.(isPartial := !m.isPartial) != m
    ensures props != m.accessibleProperties ==> m.(accessibleProperties := props) != m
  {
  }
}

=== FILE: named_type_ext.dfy ===
/** What the generators read off a named type: the generic parameter list,
    the accessible properties of the type and its base chain, the
    `where` clauses of its type parameters, and whether it is declared
    `partial`. */
module NamedTypeExtensions {
  import opened Wrappers
  import opened Text
  import opened Symbols
  import opened Models
  import opened Sequences
  import Constants

  function TypeParameterNames(ps: seq<TypeParameter>): (r: seq<string>)
    ensures |r| == |ps| && forall i :: 0 <= i < |ps| ==> r[i] == ps[i].name
  {
    seq(|ps|, i requires 0 <= i < |ps| => ps[i].name)
  }

  /** `GetGenericParameters`: "" for a non-generic type, otherwise the
      parameter names in declaration order between angle brackets. */
  function GetGenericParameters(t: NamedTypeSymbol): (r: string)
    ensures |t.typeParameters| == 0 <==> r == ""
    ensures |t.typeParameters| > 0 ==>
      |r| >= 2 && r[0] == '<' && r[|r| - 1] == '>'
      && r[1..|r| - 1] == Join(TypeParameterNames(t.typeParameters), ", ")
  {
    if |t.typeParameters| > 0 then "<" + Join(TypeParameterNames(t.typeParameters), ", ") + ">" else ""
  }

  /** The parameter names can be read back from the generic parameter list
      when none of them holds a comma. */
  lemma GenericParametersReadBack(t: NamedTypeSymbol)
    requires |t.typeParameters| > 0
    requires forall i :: 0 <= i < |t.typeParameters| ==> ',' !in t.typeParameters[i].name
    ensures var r := GetGenericParameters(t);
            SplitOn(r[1..|r| - 1], ", ") == TypeParameterNames(t.typeParameters)
  {
    JoinSplit(TypeParameterNames(t.typeParameters), ", ");
  }

  /** The property filter of `GetAccessibleProperties`: not an indexer, and a
      getter that is declared public. The setter is not looked at. */
  predicate IsAccessible(p: PropertySymbol)
  {
    !p.isIndexer && p.getMethod == Some(Public)
  }

  /** The exclude flag: some attribute's class displays as the full path of
      the exclude marker. */
  predicate IsExcluded(p: PropertySymbol)
  {
    exists i :: 0 <= i < |p.attributes| && DisplaysAs(p.attributes[i], Constants.ExcludeAttributeFullPath)
  }

  predicate DisplaysAs(a: AttributeData, fullPath: string)
  {
    a.attributeClass.Some? && a.attributeClass.value.displayName == fullPath
  }

  /** The display name of the namespace that contains the namespace at
      `path`: `None` (null) when `path` is the global namespace itself. */
  function ParentNamespaceName(path: seq<string>): (r: Option<string>)
    ensures |path| == 0 <==> r.None?
  {
    if |path| == 0 then None
    else if |path| == 1 then Some("<global namespace>")
    else Some(Join(path[..|path| - 1], "."))
  }

  /** The accessible properties of one level, in member order. */
  function Accessible(ps: seq<PropertySymbol>): (r: seq<PropertySymbol>)
    ensures |r| <= |ps|
    ensures forall i :: 0 <= i < |r| ==> IsAccessible(r[i]) && r[i] in ps
    ensures forall i :: 0 <= i < |ps| && IsAccessible(ps[i]) ==> ps[i] in r
    decreases |ps|
  {
    if |ps| == 0 then []
    else (if IsAccessible(ps[0]) then [ps[0]] else []) + Accessible(ps[1..])
  }

  /** `Where` over the members, so the accessible properties stay in member
      order. */
  lemma {:induction false} AccessibleIsWhere(ps: seq<PropertySymbol>)
    ensures Accessible(ps) == Filter(ps, IsAccessible)
    decreases |ps|
  {
    if |ps| > 0 {
      AccessibleIsWhere(ps[1..]);
    }
  }

  /** The filter keeps member order: properties accessible in two groups of
      members come out as the first group's, then the second's. */
  lemma AccessibleConcat(a: seq<PropertySymbol>, b: seq<PropertySymbol>)
    ensures Accessible(a + b) == Accessible(a) + Accessible(b)
  {
    AccessibleIsWhere(a);
    AccessibleIsWhere(b);
    AccessibleIsWhere(a + b);
    FilterConcat(a, b, IsAccessible);
  }

  function ToModel(p: PropertySymbol, ns: string): (m: PropertySymbolModel)
    ensures m.property == p && m.name == p.name && m.nameSpace == ns
    ensures m.typeFullyQualifiedName == p.propertyType.fullyQualifiedName
    ensures m.excludeProperty <==> IsExcluded(p)
  {
    PropertySymbolModel(p, p.name, ns, p.propertyType.fullyQualifiedName, IsExcluded(p))
  }

  /** The models of one level. Recording the namespace dereferences the
      parent of the level's namespace, which throws for a type declared in
      the global namespace, but only once there is a property to record. */
  function LevelModels(level: Level): (r: Result<seq<PropertySymbolModel>>)
    ensures r.Err? <==> |Accessible(level.properties)| > 0 && |level.namespacePath| == 0
    ensures r.Err? ==> r.error == NullReferenceException
    ensures r.Ok? ==> (|r.value| == |Accessible(level.properties)|
      && forall i :: 0 <= i < |r.value| ==> r.value[i].property == Accessible(level.properties)[i])
  {
    var ps := Accessible(level.properties);
    if |ps| == 0 then Ok([])
    else
      match ParentNamespaceName(level.namespacePath)
      case None => Err(NullReferenceException)
      case Some(ns) => Ok(seq(|ps|, i requires 0 <= i < |ps| => ToModel(ps[i], ns)))
  }

  /** The models of a chain of levels, the derived type first. */
  function ChainModels(levels: seq<Level>): (r: Result<seq<PropertySymbolModel>>)
    ensures r.Err? ==> r.error == NullReferenceException
    decreases |levels|
  {
    if |levels| == 0 then Ok([])
    else
      var first :- LevelModels(levels[0]);
      var rest :- ChainModels(levels[1..]);
      Ok(first + rest)
  }

  /** `GetAccessibleProperties`: every level's accessible properties, the
      type's own first and then those of each base type, with no
      de-duplication across levels. */
  function GetAccessibleProperties(t: NamedTypeSymbol): (r: Result<seq<PropertySymbolModel>>)
    ensures r.Err? ==> r.error == NullReferenceException
    ensures r.Err? <==> exists k :: 0 <= k < |t.levels| && LevelModels(t.levels[k]).Err?
    ensures r.Ok? ==> |r.value| == AccessibleCount(t.levels)
    ensures r.Ok? ==> forall i :: 0 <= i < |r.value| ==> IsAccessible(r.value[i].property)
    ensures r.Ok? ==> forall k :: 0 <= k < |t.levels| ==> LevelSlice(t.levels, k, r.value)
  {
    ChainModelsAccessible(t.levels);
    var c := ChainModels(t.levels);
    if c.Ok? then
      ChainModelsByLevel(t.levels);
      c
    else c
  }

  /** The models of level `k` sit in `models` right after those of the
      levels before it. */
  ghost predicate LevelSlice(levels: seq<Level>, k: nat, models: seq<PropertySymbolModel>)
    requires k < |levels|
  {
    var m := LevelModels(levels[k]);
    var off := AccessibleCount(levels[..k]);
    m.Ok? && off + |m.value| <= |models| && models[off..off + |m.value|] == m.value
  }

  /** A successful chain is the levels' models laid end to end: level `k`'s
      models start after the accessible properties of levels `0..k`. */
  lemma {:induction false} ChainModelsLevel(levels: seq<Level>, k: nat)
    requires k < |levels| && ChainModels(levels).Ok?
    ensures LevelSlice(levels, k, ChainModels(levels).value)
    decreases k
  {
    ChainModelsCons(levels);
    if k > 0 {
      ChainModelsLevel(levels[1..], k - 1);
      LevelSliceShift(levels, k, LevelModels(levels[0]).value, ChainModels(levels[1..]).value);
    } else {
      assert levels[..0] == [];
    }
  }

  /** A successful chain is the first level's models followed by the rest's. */
  lemma ChainModelsCons(levels: seq<Level>)
    requires |levels| > 0 && ChainModels(levels).Ok?
    ensures LevelModels(levels[0]).Ok? && ChainModels(levels[1..]).Ok?
    ensures ChainModels(levels).value == LevelModels(levels[0]).value + ChainModels(levels[1..]).value
  {
  }

  /** Level `k` of the tail sits in the whole chain one first level further on. */
  lemma LevelSliceShift(levels: seq<Level>, k: nat, first: seq<PropertySymbolModel>, rest: seq<PropertySymbolModel>)
    requires 0 < k < |levels|
    requires LevelModels(levels[0]).Ok? && first == LevelModels(levels[0]).value
    requires LevelSlice(levels[1..], k - 1, rest)
    ensures LevelSlice(levels, k, first + rest)
  {
    assert levels[1..][k - 1] == levels[k];
    AccessibleCountStep(levels, k);
    SliceAfter(first, rest, AccessibleCount(levels[1..][..k - 1]), |LevelModels(levels[k]).value|);
  }

  lemma AccessibleCountStep(levels: seq<Level>, k: nat)
    requires 0 < k <= |levels|
    ensures AccessibleCount(levels[..k]) == |Accessible(levels[0].properties)| + AccessibleCount(levels[1..][..k - 1])
  {
    assert levels[..k][0] == levels[0];
    assert levels[..k][1..] == levels[1..][..k - 1];
  }

  lemma SliceAfter<T>(x: seq<T>, y: seq<T>, off: nat, n: nat)
    requires off + n <= |y|
    ensures (x + y)[|x| + off..|x| + off + n] == y[off..off + n]
  {
  }

  lemma ChainModelsByLevel(levels: seq<Level>)
    requires ChainModels(levels).Ok?
    ensures forall k :: 0 <= k < |levels| ==> LevelSlice(levels, k, ChainModels(levels).value)
  {
    forall k | 0 <= k < |levels| ensures LevelSlice(levels, k, ChainModels(levels).value) {
      ChainModelsLevel(levels, k);
    }
  }

  /** How many properties a chain contributes. */
  function AccessibleCount(levels: seq<Level>): nat
    decreases |levels|
  {
    if |levels| == 0 then 0 else |Accessible(levels[0].properties)| + AccessibleCount(levels[1..])
  }

  /** The chain fails exactly when some level with an accessible property is
      declared in the global namespace; otherwise it yields one model per
      accessible property of every level, each kept property accessible. */
  lemma {:induction false} ChainModelsAccessible(levels: seq<Level>)
    ensures ChainModels(levels).Err? <==>
      exists k :: 0 <= k < |levels| && |Accessible(levels[k].properties)| > 0 && |levels[k].namespacePath| == 0
    ensures ChainModels(levels).Ok? ==>
      && |ChainModels(levels).value| == AccessibleCount(levels)
      && forall i :: 0 <= i < |ChainModels(levels).value| ==> IsAccessible(ChainModels(levels).value[i].property)
    decreases |levels|
  {
    if |levels| > 0 {
      ChainModelsAccessible(levels[1..]);
      var first := LevelModels(levels[0]);
      if first.Ok? {
        forall i | 0 <= i < |first.value|
          ensures IsAccessible(first.value[i].property)
        {
          assert first.value[i].property == Accessible(levels[0].properties)[i];
        }
      }
      if exists k :: 0 <= k < |levels[1..]| && |Accessible(levels[1..][k].properties)| > 0 && |levels[1..][k].namespacePath| == 0 {
        var k :| 0 <= k < |levels[1..]| && |Accessible(levels[1..][k].properties)| > 0 && |levels[1..][k].namespacePath| == 0;
        assert levels[k + 1] == levels[1..][k];
      }
      if exists k :: 0 <= k < |levels| && |Accessible(levels[k].properties)| > 0 && |levels[k].namespacePath| == 0 {
        var k :| 0 <= k < |levels| && |Accessible(levels[k].properties)| > 0 && |levels[k].namespacePath| == 0;
        if k > 0 {
          assert levels[1..][k - 1] == levels[k];
        }
      }
    }
  }

  /** The properties of a derived type come before those of its base type. */
  lemma DerivedFirst(t: NamedTypeSymbol)
    requires |t.levels| > 0
    requires GetAccessibleProperties(t).Ok?
    ensures var own := LevelModels(t.levels[0]);
            own.Ok? && GetAccessibleProperties(t).value[..|own.value|] == own.value
  {
  }

  /** No de-duplication: a property declared with the same symbol on a type
      and on its base type is listed twice. */
  lemma NoDeduplication(p: PropertySymbol, ns: seq<string>)
    requires IsAccessible(p) && |ns| > 0
    ensures var t := NamedTypeSymbol(p.propertyType, [], [Level(ns, [p]), Level(ns, [p])], [], [], Public);
            var r := GetAccessibleProperties(t);
            r.Ok? && |r.value| == 2 && r.value[0] == r.value[1]
  {
    var level := Level(ns, [p]);
    assert Accessible([p]) == [p] by {
      assert [p][1..] == [];
    }
    assert ChainModels([level]) == Ok(LevelModels(level).value + []);
    assert [level, level][1..] == [level];
  }

  /** The primary constraint of a type parameter: at most one of
      `unmanaged`, `notnull`, `class` (or `class?`) and `struct`, in that
      priority. */
  function PrimaryConstraint(tp: TypeParameter): (r: seq<string>)
    ensures |r| <= 1
    ensures tp.hasUnmanagedTypeConstraint ==> r == ["unmanaged"]
    ensures !tp.hasUnmanagedTypeConstraint && tp.hasNotNullConstraint ==> r == ["notnull"]
    ensures !tp.hasUnmanagedTypeConstraint && !tp.hasNotNullConstraint && tp.hasReferenceTypeConstraint ==>
      r == (if tp.referenceTypeConstraintAnnotated then ["class?"] else ["class"])
    ensures !tp.hasUnmanagedTypeConstraint && !tp.hasNotNullConstraint && !tp.hasReferenceTypeConstraint && tp.hasValueTypeConstraint
      ==> r == ["struct"]
    ensures |r| == 0 <==> (!tp.hasUnmanagedTypeConstraint && !tp.hasNotNullConstraint
                           && !tp.hasReferenceTypeConstraint && !tp.hasValueTypeConstraint)
  {
    if tp.hasUnmanagedTypeConstraint then ["unmanaged"]
    else if tp.hasNotNullConstraint then ["notnull"]
    else if tp.hasReferenceTypeConstraint then [if tp.referenceTypeConstraintAnnotated then "class?" else "class"]
    else if tp.hasValueTypeConstraint then ["struct"]
    else []
  }

  /** `ConstraintTypes.Where(t => t.TypeKind == kind)`: the constraint types
      of one kind, in declaration order. */
  function OfKind(cs: seq<ConstraintType>, kind: TypeKind): seq<ConstraintType>
    decreases |cs|
  {
    if |cs| == 0 then []
    else (if cs[0].kind == kind then [cs[0]] else []) + OfKind(cs[1..], kind)
  }

  /** The fully qualified names of the constraint types of one kind, in order. */
  function ConstraintTypesOfKind(cs: seq<ConstraintType>, kind: TypeKind): (r: seq<string>)
    ensures |r| <= |cs|
    ensures forall i :: 0 <= i < |r| ==> exists j :: 0 <= j < |cs| && cs[j].kind == kind && cs[j].fullyQualifiedName == r[i]
    ensures (exists j :: 0 <= j < |cs| && cs[j].kind == kind) <==> |r| > 0
    decreases |cs|
  {
    if |cs| == 0 then []
    else
      var rest := ConstraintTypesOfKind(cs[1..], kind);
      if cs[0].kind == kind then [cs[0].fullyQualifiedName] + rest else rest
  }

  /** `Where(kind).Select(FullyQualifiedName)`: the `i`-th name is that of
      the `i`-th constraint type of that kind, so every such type is
      listed, in declaration order. */
  lemma {:induction false} ConstraintTypesAreWhere(cs: seq<ConstraintType>, kind: TypeKind)
    ensures |ConstraintTypesOfKind(cs, kind)| == |OfKind(cs, kind)|
    ensures forall i :: 0 <= i < |OfKind(cs, kind)| ==>
              ConstraintTypesOfKind(cs, kind)[i] == OfKind(cs, kind)[i].fullyQualifiedName
    decreases |cs|
  {
    if |cs| > 0 {
      ConstraintTypesAreWhere(cs[1..], kind);
      var names := ConstraintTypesOfKind(cs, kind);
      var rest := ConstraintTypesOfKind(cs[1..], kind);
      if cs[0].kind == kind {
        assert names == [cs[0].fullyQualifiedName] + rest;
        assert OfKind(cs, kind) == [cs[0]] + OfKind(cs[1..], kind);
      } else {
        assert names == rest;
        assert OfKind(cs, kind) == OfKind(cs[1..], kind);
      }
    }
  }

  /** All constraints of one type parameter in the order they are written:
      the primary constraint, class types, interface types, type parameters,
      and `new()` last. */
  function ConstraintParts(tp: TypeParameter): (r: seq<string>)
    ensures tp.hasConstructorConstraint ==> |r| > 0 && r[|r| - 1] == "new()"
    ensures |r| == 0 <==> (!tp.hasUnmanagedTypeConstraint && !tp.hasNotNullConstraint
                           && !tp.hasReferenceTypeConstraint && !tp.hasValueTypeConstraint
                           && |ConstraintTypesOfKind(tp.constraintTypes, ClassKind)| == 0
                           && |ConstraintTypesOfKind(tp.constraintTypes, InterfaceKind)| == 0
                           && |ConstraintTypesOfKind(tp.constraintTypes, TypeParameterKind)| == 0
                           && !tp.hasConstructorConstraint)
    ensures |PrimaryConstraint(tp)| == 1 ==> r[0] == PrimaryConstraint(tp)[0]
  {
    PrimaryConstraint(tp)
      + ConstraintTypesOfKind(tp.constraintTypes, ClassKind)
      + ConstraintTypesOfKind(tp.constraintTypes, InterfaceKind)
      + ConstraintTypesOfKind(tp.constraintTypes, TypeParameterKind)
      + (if tp.hasConstructorConstraint then ["new()"] else [])
  }

  /** The layout of five consecutive segments when the middle three are the
      names of three lists of constraint types. */
  lemma Layout(r: seq<string>, s0: seq<string>, s1: seq<string>, s2: seq<string>, s3: seq<string>, s4: seq<string>,
               o1: seq<ConstraintType>, o2: seq<ConstraintType>, o3: seq<ConstraintType>)
    requires r == s0 + s1 + s2 + s3 + s4
    requires |s1| == |o1| && forall i :: 0 <= i < |o1| ==> s1[i] == o1[i].fullyQualifiedName
    requires |s2| == |o2| && forall i :: 0 <= i < |o2| ==> s2[i] == o2[i].fullyQualifiedName
    requires |s3| == |o3| && forall i :: 0 <= i < |o3| ==> s3[i] == o3[i].fullyQualifiedName
    ensures var p := |s0|;
            var a := |o1|;
            var b := |o2|;
            var c := |o3|;
            && |r| == p + a + b + c + |s4|
            && r[..p] == s0
            && (forall i :: 0 <= i < a ==> r[p + i] == o1[i].fullyQualifiedName)
            && (forall i :: 0 <= i < b ==> r[p + a + i] == o2[i].fullyQualifiedName)
            && (forall i :: 0 <= i < c ==> r[p + a + b + i] == o3[i].fullyQualifiedName)
            && (|s4| > 0 ==> r[p + a + b + c] == s4[0])
  {
    assert r == s0 + (s1 + (s2 + (s3 + s4)));
  }

  /** The constraint list in its written order: the primary constraint,
      then the `i`-th class type, interface and type parameter of each
      group in declaration order, and `new()` after them. */
  lemma ConstraintPartsInOrder(tp: TypeParameter)
    ensures var r := ConstraintParts(tp);
            var p := |PrimaryConstraint(tp)|;
            var a := |OfKind(tp.constraintTypes, ClassKind)|;
            var b := |OfKind(tp.constraintTypes, InterfaceKind)|;
            var c := |OfKind(tp.constraintTypes, TypeParameterKind)|;
            && |r| == p + a + b + c + (if tp.hasConstructorConstraint then 1 else 0)
            && r[..p] == PrimaryConstraint(tp)
            && (forall i :: 0 <= i < a ==> r[p + i] == OfKind(tp.constraintTypes, ClassKind)[i].fullyQualifiedName)
            && (forall i :: 0 <= i < b ==> r[p + a + i] == OfKind(tp.constraintTypes, InterfaceKind)[i].fullyQualifiedName)
            && (forall i :: 0 <= i < c ==> r[p + a + b + i] == OfKind(tp.constraintTypes, TypeParameterKind)[i].fullyQualifiedName)
            && (tp.hasConstructorConstraint ==> r[p + a + b + c] == "new()")
  {
    var cs := tp.constraintTypes;
    ConstraintTypesAreWhere(cs, ClassKind);
    ConstraintTypesAreWhere(cs, InterfaceKind);
    ConstraintTypesAreWhere(cs, TypeParameterKind);
    Layout(ConstraintParts(tp), PrimaryConstraint(tp),
           ConstraintTypesOfKind(cs, ClassKind), ConstraintTypesOfKind(cs, InterfaceKind),
           ConstraintTypesOfKind(cs, TypeParameterKind), if tp.hasConstructorConstraint then ["new()"] else [],
           OfKind(cs, ClassKind), OfKind(cs, InterfaceKind), OfKind(cs, TypeParameterKind));
  }

  const BaseClass := "global::N.Base"
  const Comparable := "global::System.IComparable"

  /** Class types come before interfaces whatever order they are declared
      in: `where T : IComparable, Base` is written `where T : Base, IComparable`. */
  lemma ClassBeforeInterface(name: string)
    ensures ParameterConstraints(BaseAndComparable(name)) == "where " + name + " : " + BaseClass + ", " + Comparable
  {
    var parts := ConstraintParts(BaseAndComparable(name));
    BaseAndComparableParts(name);
    assert parts == [BaseClass] + [Comparable];
    JoinCons(BaseClass, [Comparable], ", ");
    assert Join([Comparable], ", ") == Comparable;
  }

  /** `T` constrained by an interface declared before a base class. */
  function BaseAndComparable(name: string): TypeParameter
  {
    TypeParameter(name, false, false, false, false, false,
                  [ConstraintType(InterfaceKind, Comparable), ConstraintType(ClassKind, BaseClass)], false)
  }

  lemma BaseAndComparableParts(name: string)
    ensures ConstraintParts(BaseAndComparable(name)) == [BaseClass, Comparable]
  {
    var cs := BaseAndComparable(name).constraintTypes;
    assert cs[1..][1..] == [];
    assert ConstraintTypesOfKind(cs[1..], ClassKind) == [BaseClass];
    assert ConstraintTypesOfKind(cs, ClassKind) == [BaseClass];
    assert ConstraintTypesOfKind(cs[1..], InterfaceKind) == [];
    assert ConstraintTypesOfKind(cs, InterfaceKind) == [Comparable];
    assert ConstraintTypesOfKind(cs, TypeParameterKind) == [];
  }

  /** No part of a constraint list contains a comma when no constraint
      type's name does. */
  lemma PartsAvoidComma(tp: TypeParameter)
    requires forall j :: 0 <= j < |tp.constraintTypes| ==> ',' !in tp.constraintTypes[j].fullyQualifiedName
    ensures forall i :: 0 <= i < |ConstraintParts(tp)| ==> ',' !in ConstraintParts(tp)[i]
  {
    forall i | 0 <= i < |ConstraintParts(tp)| ensures ',' !in ConstraintParts(tp)[i] {
      PartAvoidsComma(tp, i);
    }
  }

  lemma PartAvoidsComma(tp: TypeParameter, i: nat)
    requires forall j :: 0 <= j < |tp.constraintTypes| ==> ',' !in tp.constraintTypes[j].fullyQualifiedName
    requires i < |ConstraintParts(tp)|
    ensures ',' !in ConstraintParts(tp)[i]
  {
    ConstraintPartsInOrder(tp);
    var parts := ConstraintParts(tp);
    var p := |PrimaryConstraint(tp)|;
    var a := |OfKind(tp.constraintTypes, ClassKind)|;
    var b := |OfKind(tp.constraintTypes, InterfaceKind)|;
    var c := |OfKind(tp.constraintTypes, TypeParameterKind)|;
    if i < p {
      assert parts[..p][i] == parts[i];
      assert parts[i] == PrimaryConstraint(tp)[i];
    } else if i < p + a {
      KindNameAvoidsComma(tp.constraintTypes, ClassKind, i - p);
    } else if i < p + a + b {
      KindNameAvoidsComma(tp.constraintTypes, InterfaceKind, i - p - a);
    } else if i < p + a + b + c {
      KindNameAvoidsComma(tp.constraintTypes, TypeParameterKind, i - p - a - b);
    }
  }

  lemma {:induction false} KindNameAvoidsComma(cs: seq<ConstraintType>, kind: TypeKind, i: nat)
    requires forall j :: 0 <= j < |cs| ==> ',' !in cs[j].fullyQualifiedName
    requires i < |OfKind(cs, kind)|
    ensures ',' !in OfKind(cs, kind)[i].fullyQualifiedName
    decreases |cs|
  {
    if cs[0].kind == kind && i == 0 {
      assert OfKind(cs, kind)[0] == cs[0];
    } else {
      var d := if cs[0].kind == kind then 1 else 0;
      assert OfKind(cs, kind)[i] == OfKind(cs[1..], kind)[i - d];
      KindNameAvoidsComma(cs[1..], kind, i - d);
    }
  }

  /** The `where` clause of one type parameter, or "" when it has no constraint. */
  function ParameterConstraints(tp: TypeParameter): (r: string)
    ensures |ConstraintParts(tp)| == 0 <==> r == ""
    ensures r != "" ==> r == "where " + tp.name + " : " + Join(ConstraintParts(tp), ", ")
  {
    var parts := ConstraintParts(tp);
    if |parts| == 0 then "" else "where " + tp.name + " : " + Join(parts, ", ")
  }

  /** The constraints can be read back from a clause: after `where T : `,
      splitting at ", " gives the parts in their written order, provided
      no constraint type's name holds a comma. */
  lemma ParameterConstraintsReadBack(tp: TypeParameter)
    requires |ConstraintParts(tp)| > 0
    requires forall j :: 0 <= j < |tp.constraintTypes| ==> ',' !in tp.constraintTypes[j].fullyQualifiedName
    ensures var r := ParameterConstraints(tp);
            var head := "where " + tp.name + " : ";
            |head| <= |r| && r[..|head|] == head && SplitOn(r[|head|..], ", ") == ConstraintParts(tp)
  {
    PartsAvoidComma(tp);
    JoinSplit(ConstraintParts(tp), ", ");
    var head := "where " + tp.name + " : ";
    var r := ParameterConstraints(tp);
    assert r == head + Join(ConstraintParts(tp), ", ");
    assert r[|head|..] == Join(ConstraintParts(tp), ", ");
  }

  function IsNonEmpty(s: string): bool
  {
    s != ""
  }

  /** The clause of every type parameter, "" for an unconstrained one. */
  function Clauses(ps: seq<TypeParameter>): (r: seq<string>)
    ensures |r| == |ps| && forall i :: 0 <= i < |ps| ==> r[i] == ParameterConstraints(ps[i])
  {
    seq(|ps|, i requires 0 <= i < |ps| => ParameterConstraints(ps[i]))
  }

  /** The non-empty clauses, in parameter order: exactly the parameters'
      clauses with the empty ones dropped. */
  function NonEmptyClauses(ps: seq<TypeParameter>): (r: seq<string>)
    ensures |r| <= |ps|
    ensures forall i :: 0 <= i < |r| ==> r[i] != ""
    ensures |r| == 0 <==> forall i :: 0 <= i < |ps| ==> ParameterConstraints(ps[i]) == ""
  {
    DropEmpty(Clauses(ps))
  }

  /** The strings that are not empty, in order. */
  function DropEmpty(xs: seq<string>): (r: seq<string>)
    ensures |r| <= |xs|
    ensures forall i :: 0 <= i < |r| ==> r[i] != ""
    ensures |r| == 0 <==> forall i :: 0 <= i < |xs| ==> xs[i] == ""
    decreases |xs|
  {
    if |xs| == 0 then []
    else
      var rest := DropEmpty(xs[1..]);
      assert forall i :: 1 <= i < |xs| ==> xs[i] == xs[1..][i - 1];
      if xs[0] != "" then [xs[0]] + rest else rest
  }

  /** The non-empty clauses are exactly the parameters' clauses with the
      empty ones dropped, in parameter order. */
  lemma NonEmptyClausesAreWhere(ps: seq<TypeParameter>)
    ensures NonEmptyClauses(ps) == Filter(Clauses(ps), IsNonEmpty)
  {
    DropEmptyIsWhere(Clauses(ps));
  }

  lemma {:induction false} DropEmptyIsWhere(xs: seq<string>)
    ensures DropEmpty(xs) == Filter(xs, IsNonEmpty)
    decreases |xs|
  {
    if |xs| > 0 {
      DropEmptyIsWhere(xs[1..]);
      FilterCons(xs, IsNonEmpty);
    }
  }

  /** `GetConstraints`: the non-empty clauses joined by one space, "" when
      there are none. */
  function GetConstraints(t: NamedTypeSymbol): (r: string)
    ensures r == "" <==> forall i :: 0 <= i < |t.typeParameters| ==> ParameterConstraints(t.typeParameters[i]) == ""
    ensures r != "" ==> r == Join(NonEmptyClauses(t.typeParameters), " ")
  {
    if |t.typeParameters| == 0 then ""
    else
      var clauses := NonEmptyClauses(t.typeParameters);
      if |clauses| > 0 then
        JoinNonEmpty(clauses, " ");
        Join(clauses, " ")
      else ""
  }

  /** `string.Join(" ", typeParameters.Select(GetConstraints).Where(s => s != ""))`. */
  lemma GetConstraintsIsJoin(t: NamedTypeSymbol)
    ensures GetConstraints(t) == Join(Filter(Clauses(t.typeParameters), IsNonEmpty), " ")
  {
    NonEmptyClausesAreWhere(t.typeParameters);
  }

  /** An unconstrained parameter between two constrained ones leaves no
      trace: the text is the two clauses with one space between them. */
  lemma GetConstraintsSkipsUnconstrained(t: NamedTypeSymbol)
    requires |t.typeParameters| == 3
    requires ParameterConstraints(t.typeParameters[0]) != ""
    requires ParameterConstraints(t.typeParameters[1]) == ""
    requires ParameterConstraints(t.typeParameters[2]) != ""
    ensures GetConstraints(t) == ParameterConstraints(t.typeParameters[0]) + " " + ParameterConstraints(t.typeParameters[2])
  {
    var ps := t.typeParameters;
    var cl := Clauses(ps);
    assert cl[1..][0] == cl[1] && cl[1..][1..] == cl[2..] && cl[2..][0] == cl[2] && cl[2..][1..] == [];
    assert DropEmpty(cl[2..]) == [cl[2]];
    assert DropEmpty(cl[1..]) == [cl[2]];
    assert NonEmptyClauses(ps) == [cl[0], cl[2]];
    JoinCons(cl[0], [cl[2]], " ");
  }

  /** A join of non-empty strings is not empty. */
  lemma JoinNonEmpty(xs: seq<string>, sep: string)
    requires |xs| > 0 && xs[0] != ""
    ensures Join(xs, sep) != ""
  {
    if |xs| > 1 {
      assert Join(xs, sep) == xs[0] + sep + Join(xs[1..], sep);
    }
  }

  /** `IsPartial`: some declaration is a class declaration with `partial`.
      A partial record or struct does not count. */
  predicate IsPartial(t: NamedTypeSymbol)
  {
    exists i :: 0 <= i < |t.declarations| && t.declarations[i].isClassDeclaration && t.declarations[i].hasPartialModifier
  }

  lemma PartialRecordNotPartial(t: NamedTypeSymbol)
    requires forall i :: 0 <= i < |t.declarations| ==> !t.declarations[i].isClassDeclaration
    ensures !IsPartial(t)
  {
  }
}

=== FILE: namespaces.dfy ===
/** Namespace symbols as the generators see them: a display name, or null.
    "Containment" between namespaces is a plain substring test on display
    names, not a walk up the namespace hierarchy. */
module Namespaces {
  import opened Wrappers
  import opened Text

  /** A namespace symbol, reduced to its display name; `None` is null. */
  type Namespace = Option<string>

  /** `GetName`: the display name, or the empty string for null. */
  function GetName(ns: Namespace): (r: string)
    ensures ns.None? ==> r == ""
    ensures ns.Some? ==> r == ns.value
  {
    ns.GetOr("")
  }

  /** `Contains(other)`: the display name of `other` occurs in that of `ns`. */
  predicate Contains(ns: Namespace, other: Namespace)
  {
    IsSubstring(GetName(other), GetName(ns))
  }

  /** Every namespace contains itself. */
  lemma ContainsReflexive(ns: Namespace)
    ensures Contains(ns, ns)
  {
    var s := GetName(ns);
    assert OccursAt(s, s, 0);
  }

  /** Containment chains. */
  lemma ContainsTransitive(a: Namespace, b: Namespace, c: Namespace)
    requires Contains(a, b) && Contains(b, c)
    ensures Contains(a, c)
  {
    var sa, sb, sc := GetName(a), GetName(b), GetName(c);
    var i :| 0 <= i <= |sa| - |sb| && OccursAt(sb, sa, i);
    var j :| 0 <= j <= |sb| - |sc| && OccursAt(sc, sb, j);
    assert sb == sa[i..i + |sb|];
    assert sa[i..i + |sb|][j..j + |sc|] == sa[i + j..i + j + |sc|];
    assert OccursAt(sc, sa, i + j);
  }

  /** Every namespace, null included, contains the null namespace. */
  lemma ContainsNull(ns: Namespace)
    ensures Contains(ns, None)
  {
    assert OccursAt("", GetName(ns), 0);
  }

  /** Not hierarchical: `FooBar` contains `Bar`, though `Bar` is no part of
      its namespace path. */
  lemma ContainsIsTextual()
    ensures Contains(Some("FooBar"), Some("Bar"))
    ensures !Contains(Some("Foo"), Some("Foo.Bar"))
  {
    assert OccursAt("Bar", "FooBar", 3);
  }
}

=== FILE: naming_context.dfy ===
/** The allocator of unique local-variable names used by the emitters: a
    requested name is returned as it is unless it clashes with a parameter
    name or with a name requested before, in which case the suffixes 1, 2, 3,
    ... are tried in turn. Each answer is remembered for the requested name. */
module NamingContext {
  import Numbers

  datatype Context = Context(parameterNames: seq<string>, variables: map<string, string>)

  /** A fresh context over the given parameter names. */
  function Create(parameterNames: seq<string>): (ctx: Context)
    ensures ctx.parameterNames == parameterNames && ctx.variables == map[]
  {
    Context(parameterNames, map[])
  }

  /** The collision test of the probing loop: a parameter name or an earlier
      requested name (a key, not the unique name stored under it). */
  predicate Collides(ctx: Context, name: string)
  {
    name in ctx.parameterNames || name in ctx.variables
  }

  /** The names that collide. */
  function Blocked(ctx: Context): set<string>
  {
    (set p | p in ctx.parameterNames) + ctx.variables.Keys
  }

  /** The `k`-th name tried for `name`: the name itself, then `name1`, `name2`, ... */
  function Candidate(name: string, k: nat): (r: string)
    ensures k == 0 ==> r == name
    ensures k > 0 ==> r == name + Numbers.IntToString(k)
  {
    if k == 0 then name else name + Numbers.IntToString(k)
  }

  /** Different attempts give different names. */
  lemma CandidateInjective(name: string, j: nat, k: nat)
    requires Candidate(name, j) == Candidate(name, k)
    ensures j == k
  {
    if j > 0 && k > 0 {
      var a := Candidate(name, j);
      assert a[|name|..] == Numbers.IntToString(j);
      assert Candidate(name, k)[|name|..] == Numbers.IntToString(k);
      Numbers.IntToStringInjective(j, k);
    }
  }

  /** The attempts made before attempt `k`. */
  function Tried(name: string, k: nat): set<string>
  {
    set j | 0 <= j < k :: Candidate(name, j)
  }

  lemma TriedStep(name: string, k: nat)
    ensures Tried(name, k + 1) == Tried(name, k) + {Candidate(name, k)}
    ensures Candidate(name, k) !in Tried(name, k)
  {
    if Candidate(name, k) in Tried(name, k) {
      var j :| 0 <= j < k && Candidate(name, j) == Candidate(name, k);
      CandidateInjective(name, j, k);
    }
  }

  /** How many colliding names have not been tried before attempt `k`. */
  function Untried(ctx: Context, name: string, k: nat): nat
  {
    |Blocked(ctx) - Tried(name, k)|
  }

  /** An attempt that collides leaves fewer colliding names untried. */
  lemma TryingShrinks(ctx: Context, name: string, k: nat)
    requires Collides(ctx, Candidate(name, k))
    ensures Untried(ctx, name, k + 1) < Untried(ctx, name, k)
  {
    var c := Candidate(name, k);
    TriedStep(name, k);
    assert c in Blocked(ctx) - Tried(name, k);
    assert Blocked(ctx) - Tried(name, k + 1) == (Blocked(ctx) - Tried(name, k)) - {c};
  }

  /** The first attempt from `k` on that does not collide. It always exists:
      only finitely many names collide and the attempts are all different. */
  function FreeIndex(ctx: Context, name: string, k: nat): (i: nat)
    ensures i >= k && !Collides(ctx, Candidate(name, i))
    ensures AllCollide(ctx, name, k, i)
    decreases Untried(ctx, name, k)
  {
    if !Collides(ctx, Candidate(name, k)) then k
    else
      TryingShrinks(ctx, name, k);
      var i := FreeIndex(ctx, name, k + 1);
      AllCollideCons(ctx, name, k, i);
      i
  }

  /** Every attempt from `k` up to `i` collides. */
  predicate AllCollide(ctx: Context, name: string, k: nat, i: nat)
  {
    forall j :: k <= j < i ==> Collides(ctx, Candidate(name, j))
  }

  lemma AllCollideSnoc(ctx: Context, name: string, k: nat)
    requires AllCollide(ctx, name, 0, k) && Collides(ctx, Candidate(name, k))
    ensures AllCollide(ctx, name, 0, k + 1)
  {
  }

  lemma AllCollideCons(ctx: Context, name: string, k: nat, i: nat)
    requires Collides(ctx, Candidate(name, k)) && AllCollide(ctx, name, k + 1, i)
    ensures AllCollide(ctx, name, k, i)
  {
  }

  /** Every unique name handed out so far differs from every parameter name. */
  predicate Valid(ctx: Context)
  {
    forall key :: key in ctx.variables ==> ctx.variables[key] !in ctx.parameterNames
  }

  /** The indexer `ctx[name]`: the remembered answer if there is one; otherwise
      the first candidate that collides with nothing, remembered under `name`. */
  function Lookup(ctx: Context, name: string): (res: (Context, string))
    ensures res.0.parameterNames == ctx.parameterNames
    ensures name in ctx.variables ==> res == (ctx, ctx.variables[name])
    ensures name !in ctx.variables ==>
      && !Collides(ctx, res.1)
      && res.0.variables == ctx.variables[name := res.1]
      && (exists k: nat :: res.1 == Candidate(name, k) && forall j :: 0 <= j < k ==> Collides(ctx, Candidate(name, j)))
    ensures name !in ctx.variables && !Collides(ctx, name) ==> res.1 == name
    ensures Valid(ctx) ==> Valid(res.0) && res.1 !in ctx.parameterNames
  {
    if name in ctx.variables then (ctx, ctx.variables[name])
    else
      var k := FreeIndex(ctx, name, 0);
      var unique := Candidate(name, k);
      (ctx.(variables := ctx.variables[name := unique]), unique)
  }

  /** The same lookup as a loop over the attempts, in the shape of the source. */
  method Get(ctx: Context, name: string) returns (ctx': Context, unique: string)
    ensures (ctx', unique) == Lookup(ctx, name)
  {
    if name in ctx.variables {
      return ctx, ctx.variables[name];
    }
    unique := name;
    var id: nat := 1;
    while unique in ctx.parameterNames || unique in ctx.variables
      invariant id >= 1 && unique == Candidate(name, id - 1)
      invariant AllCollide(ctx, name, 0, id - 1)
      decreases Untried(ctx, name, id - 1)
    {
      TryingShrinks(ctx, name, id - 1);
      AllCollideSnoc(ctx, name, id - 1);
      unique := name + Numbers.IntToString(id);
      id := id + 1;
    }
    FirstFreeIsFreeIndex(ctx, name, id - 1);
    ctx' := ctx.(variables := ctx.variables[name := unique]);
  }

  /** The first attempt that collides with nothing is the one `FreeIndex` finds. */
  lemma FirstFreeIsFreeIndex(ctx: Context, name: string, k: nat)
    requires !Collides(ctx, Candidate(name, k))
    requires AllCollide(ctx, name, 0, k)
    ensures FreeIndex(ctx, name, 0) == k
  {
  }

  /** Asking again for the same name gives the same answer and changes nothing. */
  lemma LookupMemoised(ctx: Context, name: string)
    ensures var (ctx1, first) := Lookup(ctx, name);
            Lookup(ctx1, name) == (ctx1, first)
  {
  }

  /** Starting from a fresh context, no sequence of lookups ever hands out a
      parameter name. */
  function LookupAll(ctx: Context, names: seq<string>): (res: (Context, seq<string>))
    ensures |res.1| == |names| && res.0.parameterNames == ctx.parameterNames
    ensures Valid(ctx) ==> Valid(res.0) && forall i :: 0 <= i < |res.1| ==> res.1[i] !in ctx.parameterNames
    decreases |names|
  {
    if |names| == 0 then (ctx, [])
    else
      var (ctx1, first) := Lookup(ctx, names[0]);
      var (ctx2, rest) := LookupAll(ctx1, names[1..]);
      (ctx2, [first] + rest)
  }

  lemma FreshIsValid(parameterNames: seq<string>)
    ensures Valid(Create(parameterNames))
  {
  }

  /** The collision test looks at earlier requested names only, not at the
      unique names produced for them: with a parameter `x`, asking for `x`
      gives `x1`, and asking afterwards for `x1` gives `x1` again. */
  lemma KeysOnlyCollision()
    ensures var ctx := Create(["x"]);
            var (ctx1, a) := Lookup(ctx, "x");
            var (ctx2, b) := Lookup(ctx1, "x1");
            a == "x1" && b == "x1"
  {
    var ctx := Create(["x"]);
    assert Collides(ctx, Candidate("x", 0));
    assert Numbers.IntToString(1) == "1";
    assert !Collides(ctx, Candidate("x", 1));
    assert FreeIndex(ctx, "x", 0) == 1;
    var ctx1 := Lookup(ctx, "x").0;
    assert !Collides(ctx1, "x1");
  }
}

=== FILE: nlog_generator.dfy ===
/** The NLog generator: every type marked `PsLogger` gets the logger its
    attribute asks for, under "ArxRiver.NLogger.{Name}.g.cs", and every Json
    logger also gets the JSON extension class, under the fixed hint name
    "ArxRiver.NLogger.NLoggerExtensions.g.cs". Blank texts are not added.
    The generator reports no diagnostics.

    Because the extension's hint name is fixed, a second Json logger adds
    the same name again and `AddSource` throws: `GenerateAsWritten` is the
    loop as written, `Generate` adds the extension class once. */
module PsNLogGenerator {
  import opened Wrappers
  import opened Text
  import opened Symbols
  import opened Models
  import opened Sequences
  import opened Emission
  import opened Pipelines
  import Constants
  import PsNLogBuilder

  const NLoggerName: string := "NLogger"
  const HintPrefix: string := "ArxRiver.NLogger."
  const ExtensionsHint: string := "ArxRiver.NLogger.NLoggerExtensions.g.cs"

  /** `BuildJsonExtension.Build`: the extension class for a type. */
  type Extension = TypeSymbolModel -> Document

  /** The logger text of a type, or the exception its dispatch throws. */
  function LoggerText(t: TypeSymbolModel, emit: PsNLogBuilder.Emitter): Result<Document>
  {
    PsNLogBuilder.Document(t, t.accessibleProperties, emit)
  }

  predicate IsJson(t: TypeSymbolModel)
  {
    PsNLogBuilder.GetAttributeType(t) == Ok(PsNLogBuilder.KindValue(PsNLogBuilder.Json))
  }

  /** What the buffer holds after the Json test: the extension class for a
      Json logger, nothing otherwise. */
  function ExtensionText(t: TypeSymbolModel, extension: Extension): (r: Document)
    ensures !IsJson(t) ==> r == []
  {
    if IsJson(t) then extension(t) else []
  }

  predicate HasHint(arts: seq<Artifact>, h: string)
  {
    exists i :: 0 <= i < |arts| && arts[i].hintName == h
  }

  /** A file a type contributes: its logger text under its own hint name,
      or its extension class under the fixed one, neither blank. */
  predicate FileOf(a: Artifact, t: TypeSymbolModel, emit: PsNLogBuilder.Emitter, extension: Extension)
  {
    LoggerText(t, emit).Ok? &&
    ((a == Artifact(HintName(HintPrefix, t), LoggerText(t, emit).value) && !Blank(LoggerText(t, emit).value))
     || (a == Artifact(ExtensionsHint, ExtensionText(t, extension)) && !Blank(ExtensionText(t, extension))))
  }

  /** The body of the loop for one uncovered type. With `once`, the
      extension class is skipped when its hint name is already taken. */
  function Step(t: TypeSymbolModel, emit: PsNLogBuilder.Emitter, extension: Extension, once: bool,
                added: seq<Artifact>): (r: Result<seq<Artifact>>)
    ensures r.Ok? ==> |added| <= |r.value| && r.value[..|added|] == added
    ensures r.Ok? && UniqueHints(added) ==> UniqueHints(r.value)
    ensures r.Err? ==> (LoggerText(t, emit).Err? && r.error == LoggerText(t, emit).error) || r.error == ArgumentException
  {
    var doc := LoggerText(t, emit);
    if doc.Err? then Err(doc.error)
    else
      var first := if Blank(doc.value) then Ok(added) else AddSource(added, Artifact(HintName(HintPrefix, t), doc.value));
      if first.Err? then first
      else
        var ext := ExtensionText(t, extension);
        if Blank(ext) || (once && HasHint(first.value, ExtensionsHint)) then first
        else AddSource(first.value, Artifact(ExtensionsHint, ext))
  }

  /** What one step adds and when it fails. */
  lemma StepSpec(t: TypeSymbolModel, emit: PsNLogBuilder.Emitter, extension: Extension, once: bool, added: seq<Artifact>)
    ensures var r := Step(t, emit, extension, once, added);
            var doc := LoggerText(t, emit);
            var ext := ExtensionText(t, extension);
            && (r.Ok? ==> doc.Ok? && forall i :: |added| <= i < |r.value| ==> FileOf(r.value[i], t, emit, extension))
            && (r.Ok? && !Blank(doc.value) ==> Artifact(HintName(HintPrefix, t), doc.value) in r.value)
            && (r.Ok? && !Blank(ext) ==> HasHint(r.value, ExtensionsHint))
            && (r.Ok? && !once && !Blank(ext) ==> Artifact(ExtensionsHint, ext) in r.value)
            && (!once && doc.Ok? && !Blank(ext) && HasHint(added, ExtensionsHint) ==> r == Err(ArgumentException))
            && (once && doc.Ok? && !HasHint(added, HintName(HintPrefix, t)) ==> r.Ok?)
  {
    StepAdds(t, emit, extension, once, added);
    StepFails(t, emit, extension, once, added);
  }

  /** The files a successful step adds. */
  lemma StepAdds(t: TypeSymbolModel, emit: PsNLogBuilder.Emitter, extension: Extension, once: bool, added: seq<Artifact>)
    ensures var r := Step(t, emit, extension, once, added);
            var doc := LoggerText(t, emit);
            var ext := ExtensionText(t, extension);
            && (r.Ok? ==> doc.Ok? && forall i :: |added| <= i < |r.value| ==> FileOf(r.value[i], t, emit, extension))
            && (r.Ok? && !Blank(doc.value) ==> Artifact(HintName(HintPrefix, t), doc.value) in r.value)
            && (r.Ok? && !Blank(ext) ==> HasHint(r.value, ExtensionsHint))
            && (r.Ok? && !once && !Blank(ext) ==> Artifact(ExtensionsHint, ext) in r.value)
  {
    var r := Step(t, emit, extension, once, added);
    var doc := LoggerText(t, emit);
    if doc.Ok? {
      var ext := ExtensionText(t, extension);
      var la := Artifact(HintName(HintPrefix, t), doc.value);
      var first := if Blank(doc.value) then Ok(added) else AddSource(added, la);
      if first.Ok? {
        assert first.value == added || first.value == added + [la];
        if !(Blank(ext) || (once && HasHint(first.value, ExtensionsHint))) {
          var ea := Artifact(ExtensionsHint, ext);
          if r.Ok? {
            assert r.value == first.value + [ea];
            assert r.value[|r.value| - 1] == ea;
          }
        } else if !Blank(ext) && r.Ok? {
          assert r == first;
        }
      }
    }
  }

  /** When a step throws, and when it cannot. */
  lemma StepFails(t: TypeSymbolModel, emit: PsNLogBuilder.Emitter, extension: Extension, once: bool, added: seq<Artifact>)
    ensures var r := Step(t, emit, extension, once, added);
            var doc := LoggerText(t, emit);
            var ext := ExtensionText(t, extension);
            && (!once && doc.Ok? && !Blank(ext) && HasHint(added, ExtensionsHint) ==> r == Err(ArgumentException))
            && (once && doc.Ok? && !HasHint(added, HintName(HintPrefix, t)) ==> r.Ok?)
  {
    var doc := LoggerText(t, emit);
    if doc.Ok? {
      var ext := ExtensionText(t, extension);
      var la := Artifact(HintName(HintPrefix, t), doc.value);
      var first := if Blank(doc.value) then Ok(added) else AddSource(added, la);
      if first.Ok? && !Blank(ext) && HasHint(added, ExtensionsHint) {
        var i :| 0 <= i < |added| && added[i].hintName == ExtensionsHint;
        assert first.value[i] == added[i];
      }
    }
  }

  /** `CreateOutput`'s loop over the distinct selected types. A covered type
      writes nothing; the buffer is cleared after every type. */
  function LoggerLoop(types: seq<TypeSymbolModel>, excluded: seq<TypeSymbolModel>, emit: PsNLogBuilder.Emitter,
                      extension: Extension, once: bool, added: seq<Artifact>): (r: Result<seq<Artifact>>)
    ensures r.Ok? ==> |added| <= |r.value| && r.value[..|added|] == added
    ensures r.Ok? && UniqueHints(added) ==> UniqueHints(r.value)
    decreases |types|
  {
    if |types| == 0 then Ok(added)
    else if types[0] in excluded then LoggerLoop(types[1..], excluded, emit, extension, once, added)
    else
      var s := Step(types[0], emit, extension, once, added);
      if s.Err? then s else LoggerLoop(types[1..], excluded, emit, extension, once, s.value)
  }

  /** `a` is a file of some type of `types` that is not covered. */
  ghost predicate FileOfSome(a: Artifact, types: seq<TypeSymbolModel>, excluded: seq<TypeSymbolModel>,
                             emit: PsNLogBuilder.Emitter, extension: Extension)
  {
    exists t :: t in types && t !in excluded && FileOf(a, t, emit, extension)
  }

  lemma FileOfSomeCons(a: Artifact, types: seq<TypeSymbolModel>, excluded: seq<TypeSymbolModel>,
                       emit: PsNLogBuilder.Emitter, extension: Extension)
    requires |types| > 0
    requires FileOfSome(a, types[1..], excluded, emit, extension)
             || (types[0] !in excluded && FileOf(a, types[0], emit, extension))
    ensures FileOfSome(a, types, excluded, emit, extension)
  {
    if !(types[0] !in excluded && FileOf(a, types[0], emit, extension)) {
      var t :| t in types[1..] && t !in excluded && FileOf(a, t, emit, extension);
      assert t in types;
    }
  }

  /** Every file the loop adds belongs to an uncovered type. */
  lemma {:induction false} LoopSound(types: seq<TypeSymbolModel>, excluded: seq<TypeSymbolModel>,
                                     emit: PsNLogBuilder.Emitter, extension: Extension, once: bool, added: seq<Artifact>)
    requires LoggerLoop(types, excluded, emit, extension, once, added).Ok?
    ensures var r := LoggerLoop(types, excluded, emit, extension, once, added).value;
            forall i :: |added| <= i < |r| ==> FileOfSome(r[i], types, excluded, emit, extension)
    decreases |types|
  {
    if |types| > 0 {
      var r := LoggerLoop(types, excluded, emit, extension, once, added).value;
      if types[0] in excluded {
        LoopSound(types[1..], excluded, emit, extension, once, added);
        assert r == LoggerLoop(types[1..], excluded, emit, extension, once, added).value;
        forall i | |added| <= i < |r| ensures FileOfSome(r[i], types, excluded, emit, extension) {
          FileOfSomeCons(r[i], types, excluded, emit, extension);
        }
      } else {
        var s := Step(types[0], emit, extension, once, added);
        StepSpec(types[0], emit, extension, once, added);
        LoopSound(types[1..], excluded, emit, extension, once, s.value);
        assert r == LoggerLoop(types[1..], excluded, emit, extension, once, s.value).value;
        forall i | |added| <= i < |r| ensures FileOfSome(r[i], types, excluded, emit, extension) {
          if i < |s.value| {
            assert r[i] == s.value[i];
          }
          FileOfSomeCons(r[i], types, excluded, emit, extension);
        }
      }
    }
  }

  /** Every uncovered type was dispatched and its non-blank logger text was
      added under its own hint name; a non-blank extension class puts the
      fixed hint name in the output, with that very text when not `once`. */
  lemma {:induction false} LoopComplete(types: seq<TypeSymbolModel>, excluded: seq<TypeSymbolModel>,
                                        emit: PsNLogBuilder.Emitter, extension: Extension, once: bool, added: seq<Artifact>)
    requires LoggerLoop(types, excluded, emit, extension, once, added).Ok?
    ensures var r := LoggerLoop(types, excluded, emit, extension, once, added).value;
            forall t :: t in types && t !in excluded ==>
              && LoggerText(t, emit).Ok?
              && (!Blank(LoggerText(t, emit).value) ==> Artifact(HintName(HintPrefix, t), LoggerText(t, emit).value) in r)
              && (!Blank(ExtensionText(t, extension)) ==> HasHint(r, ExtensionsHint))
              && (!once && !Blank(ExtensionText(t, extension)) ==> Artifact(ExtensionsHint, ExtensionText(t, extension)) in r)
    decreases |types|
  {
    if |types| > 0 {
      var r := LoggerLoop(types, excluded, emit, extension, once, added).value;
      if types[0] in excluded {
        LoopComplete(types[1..], excluded, emit, extension, once, added);
      } else {
        var s := Step(types[0], emit, extension, once, added);
        StepSpec(types[0], emit, extension, once, added);
        LoopComplete(types[1..], excluded, emit, extension, once, s.value);
        forall a | a in s.value ensures a in r {
          var i :| 0 <= i < |s.value| && s.value[i] == a;
          assert r[i] == a;
        }
        if HasHint(s.value, ExtensionsHint) {
          var i :| 0 <= i < |s.value| && s.value[i].hintName == ExtensionsHint;
          assert r[i] == s.value[i];
        }
      }
      assert forall t :: t in types ==> t == types[0] || t in types[1..];
    }
  }

  /** As written: once the fixed extension name is taken, any later Json
      logger with a non-blank extension class makes the run throw. */
  lemma {:induction false} LaterJsonFails(types: seq<TypeSymbolModel>, excluded: seq<TypeSymbolModel>,
                                          emit: PsNLogBuilder.Emitter, extension: Extension, added: seq<Artifact>, j: nat)
    requires HasHint(added, ExtensionsHint)
    requires j < |types| && types[j] !in excluded && !Blank(ExtensionText(types[j], extension))
    requires forall k :: 0 <= k < |types| ==> LoggerText(types[k], emit).Ok?
    ensures LoggerLoop(types, excluded, emit, extension, false, added) == Err(ArgumentException)
    decreases |types|
  {
    var t := types[0];
    if t in excluded {
      LaterJsonFails(types[1..], excluded, emit, extension, added, j - 1);
    } else {
      var s := Step(t, emit, extension, false, added);
      StepSpec(t, emit, extension, false, added);
      if s.Ok? && j > 0 {
        var i :| 0 <= i < |added| && added[i].hintName == ExtensionsHint;
        assert s.value[i] == added[i];
        LaterJsonFails(types[1..], excluded, emit, extension, s.value, j - 1);
      }
    }
  }

  /** As written: two uncovered Json loggers with non-blank extension
      classes make the run throw, whatever else is in the list. */
  lemma {:induction false} TwoJsonLoggersFail(types: seq<TypeSymbolModel>, excluded: seq<TypeSymbolModel>,
                                              emit: PsNLogBuilder.Emitter, extension: Extension, added: seq<Artifact>,
                                              i: nat, j: nat)
    requires i < j < |types| && types[i] !in excluded && types[j] !in excluded
    requires !Blank(ExtensionText(types[i], extension)) && !Blank(ExtensionText(types[j], extension))
    requires forall k :: 0 <= k < |types| ==> LoggerText(types[k], emit).Ok?
    ensures LoggerLoop(types, excluded, emit, extension, false, added) == Err(ArgumentException)
    decreases |types|
  {
    var t := types[0];
    if t in excluded {
      TwoJsonLoggersFail(types[1..], excluded, emit, extension, added, i - 1, j - 1);
    } else {
      var s := Step(t, emit, extension, false, added);
      StepSpec(t, emit, extension, false, added);
      if s.Ok? {
        if i == 0 {
          LaterJsonFails(types[1..], excluded, emit, extension, s.value, j - 1);
        } else {
          TwoJsonLoggersFail(types[1..], excluded, emit, extension, s.value, i - 1, j - 1);
        }
      }
    }
  }

  /** The hint names a step can add: the type's own and the fixed one. */
  lemma StepHints(t: TypeSymbolModel, emit: PsNLogBuilder.Emitter, extension: Extension, once: bool,
                  added: seq<Artifact>, h: string)
    ensures Step(t, emit, extension, once, added).Ok? && HasHint(Step(t, emit, extension, once, added).value, h) ==>
              HasHint(added, h) || h == HintName(HintPrefix, t) || h == ExtensionsHint
  {
    var s := Step(t, emit, extension, once, added);
    if s.Ok? && HasHint(s.value, h) {
      var r := s.value;
      StepSpec(t, emit, extension, once, added);
      var i :| 0 <= i < |r| && r[i].hintName == h;
      if i < |added| {
        assert r[i] == added[i];
      } else {
        assert FileOf(r[i], t, emit, extension);
      }
    }
  }

  /** Corrected: with the extension class added once, the run succeeds when
      every uncovered type dispatches and the uncovered types' own hint
      names are new, pairwise different and not the fixed one. */
  lemma {:induction false} OnceSucceeds(types: seq<TypeSymbolModel>, excluded: seq<TypeSymbolModel>,
                                        emit: PsNLogBuilder.Emitter, extension: Extension, added: seq<Artifact>)
    requires forall k :: 0 <= k < |types| && types[k] !in excluded ==> LoggerText(types[k], emit).Ok?
    requires forall k :: 0 <= k < |types| && types[k] !in excluded ==>
               !HasHint(added, HintName(HintPrefix, types[k])) && HintName(HintPrefix, types[k]) != ExtensionsHint
    requires forall k, l :: 0 <= k < l < |types| && types[k] !in excluded && types[l] !in excluded ==>
               HintName(HintPrefix, types[k]) != HintName(HintPrefix, types[l])
    ensures LoggerLoop(types, excluded, emit, extension, true, added).Ok?
    decreases |types|
  {
    if |types| > 0 {
      var t := types[0];
      var rest := types[1..];
      assert forall k :: 0 <= k < |rest| ==> rest[k] == types[k + 1];
      if t in excluded {
        OnceSucceeds(rest, excluded, emit, extension, added);
      } else {
        var s := Step(t, emit, extension, true, added);
        StepSpec(t, emit, extension, true, added);
        forall k | 0 <= k < |rest| && rest[k] !in excluded
          ensures !HasHint(s.value, HintName(HintPrefix, rest[k]))
        {
          assert HintName(HintPrefix, types[0]) != HintName(HintPrefix, types[k + 1]);
          StepHints(t, emit, extension, true, added, HintName(HintPrefix, rest[k]));
        }
        OnceSucceeds(rest, excluded, emit, extension, s.value);
      }
    }
  }

  function Selector(): (f: Option<NamedTypeSymbol> -> Result<Option<TypeSymbolModel>>)
    ensures forall s :: f(s) == Ok(SelectPlain(s, Constants.PsLoggerAttributeFullPath))
  {
    s => Ok(SelectPlain(s, Constants.PsLoggerAttributeFullPath))
  }

  function Excluder(): (f: MethodDeclaration -> Result<Option<TypeSymbolModel>>)
    ensures forall m :: f(m) == SelectExcluded(m, NLoggerName)
  {
    m => SelectExcluded(m, NLoggerName)
  }

  /** Selection, exclusion and `CreateOutput`, with the extension class
      added every time (`once` false) or only the first time. */
  function Assemble(types: seq<Option<NamedTypeSymbol>>, methods: seq<MethodDeclaration>,
                    emit: PsNLogBuilder.Emitter, extension: Extension, once: bool): (r: Result<Output>)
    ensures r.Ok? ==> r.value.diagnostics == []
  {
    var selected := Collect(Map(types, Selector()));
    var excluded := Collect(Map(methods, Excluder()));
    if selected.Err? then Err(selected.error)
    else if excluded.Err? then Err(excluded.error)
    else if |selected.value| == 0 then Ok(Output([], []))
    else
      var files := LoggerLoop(Distinct(selected.value), excluded.value, emit, extension, once, []);
      if files.Err? then Err(files.error) else Ok(Output([], files.value))
  }

  /** The generator as written. */
  function GenerateAsWritten(types: seq<Option<NamedTypeSymbol>>, methods: seq<MethodDeclaration>,
                             emit: PsNLogBuilder.Emitter, extension: Extension): (r: Result<Output>)
    ensures r.Ok? ==> r.value.diagnostics == []
  {
    Assemble(types, methods, emit, extension, false)
  }

  /** The generator with the extension class written once. */
  function Generate(types: seq<Option<NamedTypeSymbol>>, methods: seq<MethodDeclaration>,
                    emit: PsNLogBuilder.Emitter, extension: Extension): (r: Result<Output>)
    ensures r.Ok? ==> r.value.diagnostics == []
  {
    Assemble(types, methods, emit, extension, true)
  }

  /** Selected models carry no properties while a covering method needs at
      least one out-parameter, so no selected model is ever covered. */
  lemma ExclusionNeverMatches(types: seq<Option<NamedTypeSymbol>>, methods: seq<MethodDeclaration>)
    requires Collect(Map(methods, Excluder())).Ok?
    ensures Collect(Map(types, Selector())).Ok?
    ensures forall t :: t in Collect(Map(types, Selector())).value ==>
              t.accessibleProperties == [] && t !in Collect(Map(methods, Excluder())).value
  {
    PlainModelsBare(types, Constants.PsLoggerAttributeFullPath, Selector());
    CoveredModelsHaveProperties(methods, NLoggerName, Excluder());
  }

  /** As written, two different Json loggers with non-blank extension
      classes make the whole run throw. */
  lemma AsWrittenTwoJsonLoggersFail(types: seq<Option<NamedTypeSymbol>>, methods: seq<MethodDeclaration>,
                                    emit: PsNLogBuilder.Emitter, extension: Extension,
                                    t1: TypeSymbolModel, t2: TypeSymbolModel)
    requires Collect(Map(methods, Excluder())).Ok?
    requires forall t :: t in Collect(Map(types, Selector())).value ==> LoggerText(t, emit).Ok?
    requires t1 in Collect(Map(types, Selector())).value && t2 in Collect(Map(types, Selector())).value && t1 != t2
    requires !Blank(ExtensionText(t1, extension)) && !Blank(ExtensionText(t2, extension))
    ensures GenerateAsWritten(types, methods, emit, extension) == Err(ArgumentException)
  {
    ExclusionNeverMatches(types, methods);
    var selected := Collect(Map(types, Selector())).value;
    var excluded := Collect(Map(methods, Excluder())).value;
    DistinctLoopFails(selected, excluded, emit, extension, t1, t2);
    assert GenerateAsWritten(types, methods, emit, extension) == Assemble(types, methods, emit, extension, false);
  }

  lemma DistinctLoopFails(selected: seq<TypeSymbolModel>, excluded: seq<TypeSymbolModel>,
                          emit: PsNLogBuilder.Emitter, extension: Extension, t1: TypeSymbolModel, t2: TypeSymbolModel)
    requires forall t :: t in selected ==> LoggerText(t, emit).Ok? && t !in excluded
    requires t1 in selected && t2 in selected && t1 != t2
    requires !Blank(ExtensionText(t1, extension)) && !Blank(ExtensionText(t2, extension))
    ensures LoggerLoop(Distinct(selected), excluded, emit, extension, false, []) == Err(ArgumentException)
  {
    var ds := Distinct(selected);
    assert forall k :: 0 <= k < |ds| ==> LoggerText(ds[k], emit).Ok?;
    var i1 :| 0 <= i1 < |selected| && selected[i1] == t1;
    var i2 :| 0 <= i2 < |selected| && selected[i2] == t2;
    assert t1 in ds && t2 in ds;
    var i :| 0 <= i < |ds| && ds[i] == t1;
    var j :| 0 <= j < |ds| && ds[j] == t2;
    if i < j {
      TwoJsonLoggersFail(ds, excluded, emit, extension, [], i, j);
    } else {
      TwoJsonLoggersFail(ds, excluded, emit, extension, [], j, i);
    }
  }

  /** Corrected, the run succeeds whenever every selected type dispatches
      and different types have different hint names, none the fixed one. */
  lemma GenerateSucceeds(types: seq<Option<NamedTypeSymbol>>, methods: seq<MethodDeclaration>,
                         emit: PsNLogBuilder.Emitter, extension: Extension)
    requires Collect(Map(methods, Excluder())).Ok?
    requires forall t :: t in Collect(Map(types, Selector())).value ==>
               LoggerText(t, emit).Ok? && HintName(HintPrefix, t) != ExtensionsHint
    requires forall t1, t2 ::
               (t1 in Collect(Map(types, Selector())).value && t2 in Collect(Map(types, Selector())).value && t1 != t2) ==>
               HintName(HintPrefix, t1) != HintName(HintPrefix, t2)
    ensures Generate(types, methods, emit, extension).Ok?
  {
    ExclusionNeverMatches(types, methods);
    var selected := Collect(Map(types, Selector())).value;
    var excluded := Collect(Map(methods, Excluder())).value;
    if |selected| > 0 {
      OnceSucceeds(Distinct(selected), excluded, emit, extension, []);
    }
  }

  /** The files of a successful run: each belongs to a selected type, every
      selected type's non-blank logger text is there under its own hint
      name, and the extension class is there for a Json logger. */
  lemma GenerateFiles(types: seq<Option<NamedTypeSymbol>>, methods: seq<MethodDeclaration>,
                      emit: PsNLogBuilder.Emitter, extension: Extension)
    requires Generate(types, methods, emit, extension).Ok?
    ensures var selected := Collect(Map(types, Selector())).value;
            var out := Generate(types, methods, emit, extension).value;
            && out.diagnostics == []
            && UniqueHints(out.artifacts)
            && (forall a :: a in out.artifacts ==> exists t :: t in selected && FileOf(a, t, emit, extension))
            && (forall t :: t in selected ==>
                  && LoggerText(t, emit).Ok?
                  && (!Blank(LoggerText(t, emit).value) ==> Artifact(HintName(HintPrefix, t), LoggerText(t, emit).value) in out.artifacts)
                  && (!Blank(ExtensionText(t, extension)) ==> HasHint(out.artifacts, ExtensionsHint)))
  {
    ExclusionNeverMatches(types, methods);
    var selected := Collect(Map(types, Selector())).value;
    var excluded := Collect(Map(methods, Excluder())).value;
    var out := Generate(types, methods, emit, extension).value;
    if |selected| > 0 {
      LoopSound(Distinct(selected), excluded, emit, extension, true, []);
      LoopComplete(Distinct(selected), excluded, emit, extension, true, []);
      forall a | a in out.artifacts ensures exists t :: t in selected && FileOf(a, t, emit, extension) {
        var i :| 0 <= i < |out.artifacts| && out.artifacts[i] == a;
      }
    }
  }
}

=== FILE: numbers.dfy ===
/** Decimal rendering and parsing of 32-bit integers: `int.ToString()` and
    `int.TryParse(string, out int)`, with the sign characters fixed to ASCII
    `-` and `+`, and the wrap-around of C#'s unchecked `int` increment. */
module Numbers {
  import opened Wrappers
  import Text

  const Int32Min: int := -0x8000_0000
  const Int32Max: int := 0x7FFF_FFFF

  predicate IsInt32(n: int)
  {
    Int32Min <= n <= Int32Max
  }

  /** Unchecked C# `int` arithmetic: the result reduced into the 32-bit range. */
  function Wrap32(n: int): (r: int)
    ensures IsInt32(r)
    ensures IsInt32(n) ==> r == n
    ensures (r - n) % 0x1_0000_0000 == 0
  {
    (n - Int32Min) % 0x1_0000_0000 + Int32Min
  }

  predicate IsDigit(c: char)
  {
    '0' <= c <= '9'
  }

  predicate AllDigits(s: string)
  {
    forall i :: 0 <= i < |s| ==> IsDigit(s[i])
  }

  function DigitChar(d: nat): (c: char)
    requires d < 10
    ensures IsDigit(c)
  {
    ('0' as int + d) as char
  }

  function DigitValue(c: char): (d: nat)
    requires IsDigit(c)
    ensures d < 10 && DigitChar(d) == c
  {
    c as int - '0' as int
  }

  /** The decimal digits of `n`, most significant first, without leading zeros. */
  function NatToString(n: nat): (r: string)
    ensures |r| >= 1 && AllDigits(r)
    ensures |r| > 1 ==> r[0] != '0'
    decreases n
  {
    if n < 10 then [DigitChar(n)] else NatToString(n / 10) + [DigitChar(n % 10)]
  }

  /** The value of a string of decimal digits (leading zeros allowed). */
  function DigitsValue(s: string): nat
    requires AllDigits(s)
    decreases |s|
  {
    if |s| == 0 then 0 else DigitsValue(s[..|s| - 1]) * 10 + DigitValue(s[|s| - 1])
  }

  /** Reading back the digits of `n` gives `n`. */
  lemma {:induction false} DigitsRoundTrip(n: nat)
    ensures DigitsValue(NatToString(n)) == n
    decreases n
  {
    if n >= 10 {
      var s := NatToString(n);
      assert s[..|s| - 1] == NatToString(n / 10);
      DigitsRoundTrip(n / 10);
    }
  }

  /** Distinct numbers have distinct decimal renderings. */
  lemma NatToStringInjective(a: nat, b: nat)
    requires NatToString(a) == NatToString(b)
    ensures a == b
  {
    DigitsRoundTrip(a);
    DigitsRoundTrip(b);
  }

  /** `int.ToString()`: a minus sign for negative values, then the digits. */
  function IntToString(n: int): (r: string)
    ensures |r| >= 1
    ensures forall i :: 0 <= i < |r| ==> IsDigit(r[i]) || (i == 0 && r[i] == '-')
  {
    if n < 0 then "-" + NatToString(-n) else NatToString(n)
  }

  /** The white space that number parsing skips: U+0009..U+000D and U+0020. */
  predicate IsNumberWhite(c: char)
  {
    c == ' ' || '\t' <= c <= '\r'
  }

  function TrimNumberWhiteStart(s: string): (r: string)
    ensures |r| <= |s|
    ensures |r| > 0 ==> !IsNumberWhite(r[0])
    decreases |s|
  {
    if |s| > 0 && IsNumberWhite(s[0]) then TrimNumberWhiteStart(s[1..]) else s
  }

  function TrimNumberWhiteEnd(s: string): (r: string)
    ensures |r| <= |s|
    ensures |r| > 0 ==> !IsNumberWhite(r[|r| - 1])
    decreases |s|
  {
    if |s| > 0 && IsNumberWhite(s[|s| - 1]) then TrimNumberWhiteEnd(s[..|s| - 1]) else s
  }

  /** The trailing `'\0'` characters .NET's integer parser accepts after
      the number and its trailing white space. */
  function TrimNulEnd(s: string): (r: string)
    ensures |r| <= |s| && r == s[..|r|]
    ensures |r| > 0 ==> r[|r| - 1] != '\0'
    ensures forall i :: |r| <= i < |s| ==> s[i] == '\0'
    decreases |s|
  {
    if |s| > 0 && s[|s| - 1] == '\0' then TrimNulEnd(s[..|s| - 1]) else s
  }

  /** `int.TryParse(s, out var n)` with `NumberStyles.Integer`: optional
      surrounding white space, an optional `+` or `-`, at least one decimal
      digit, a value that fits in 32 bits, and any run of `'\0'` at the very
      end. `None` stands for `false`. */
  function TryParseInt32(s: string): (r: Option<int>)
    ensures r.Some? ==> IsInt32(r.value)
  {
    var t := TrimNumberWhiteEnd(TrimNumberWhiteStart(TrimNulEnd(s)));
    var negative := |t| > 0 && t[0] == '-';
    var digits := if |t| > 0 && (t[0] == '-' || t[0] == '+') then t[1..] else t;
    if |digits| == 0 || !AllDigits(digits) then None
    else
      var v: int := if negative then -(DigitsValue(digits) as int) else DigitsValue(digits);
      if IsInt32(v) then Some(v) else None
  }

  /** A rendering has neither white space nor NULs to trim. */
  lemma RenderedUntrimmed(n: int)
    ensures var s := IntToString(n);
            TrimNumberWhiteEnd(TrimNumberWhiteStart(TrimNulEnd(s))) == s
  {
    var s := IntToString(n);
    assert s[|s| - 1] != '\0';
    assert TrimNulEnd(s) == s;
    assert !IsNumberWhite(s[0]);
    assert TrimNumberWhiteStart(s) == s;
    assert !IsNumberWhite(s[|s| - 1]);
  }

  /** Round trip: parsing the rendering of a 32-bit integer gives it back. */
  lemma ParseRendered(n: int)
    requires IsInt32(n)
    ensures TryParseInt32(IntToString(n)) == Some(n)
  {
    var s := IntToString(n);
    RenderedUntrimmed(n);
    if n < 0 {
      assert s[1..] == NatToString(-n);
      DigitsRoundTrip(-n);
    } else {
      DigitsRoundTrip(n);
    }
  }

  /** A `'\0'` appended to the input changes nothing: the parser reads
      trailing NULs as the end of the input. */
  lemma TrailingNulIgnored(s: string)
    ensures TryParseInt32(s + "\0") == TryParseInt32(s)
  {
    assert (s + "\0")[..|s|] == s;
  }

  /** So "5\0" parses as 5, while a NUL before the digits or between them
      fails the parse. */
  lemma NulExamples()
    ensures TryParseInt32("5\0") == Some(5)
    ensures TryParseInt32("\05") == None
  {
    TrailingNulIgnored("5");
    ParseRendered(5);
    assert IntToString(5) == "5";
  }

  /** Distinct integers render differently. */
  lemma IntToStringInjective(a: int, b: int)
    requires IntToString(a) == IntToString(b)
    ensures a == b
  {
    var s := IntToString(a);
    if a < 0 && b < 0 {
      assert s[1..] == NatToString(-a) == NatToString(-b);
      NatToStringInjective(-a, -b);
    } else if a >= 0 && b >= 0 {
      NatToStringInjective(a, b);
    } else {
      assert false;
    }
  }
}

=== FILE: objects.dfy ===
/** The objects the generated code works on, reduced to what it reads and
    writes: property values, and instances with an identity and a value per
    property name. */
module Objects {

  /** A property value: null, a number, a string, or a reference to the
      instance with the given identity. */
  datatype Value = Null | Int(i: int) | Str(s: string) | Ref(id: nat)

  type Fields = map<string, Value>

  /** An object: its identity and its property values. */
  datatype Instance = Instance(id: nat, fields: Fields)

  /** Reading a property: a property never assigned holds null. */
  function Get(fields: Fields, name: string): (r: Value)
    ensures name !in fields ==> r == Null
  {
    if name in fields then fields[name] else Null
  }
}

=== FILE: pipelines.dfy ===
/** The part the marker-driven generators share: picking the marked types,
    picking the types a hand-written extension method already covers,
    warning about non-partial types, and writing one source file per
    distinct selected type that is not covered, through one buffer cleared
    after every type. */
module Pipelines {
  import opened Wrappers
  import opened Text
  import opened Symbols
  import opened Models
  import opened Sequences
  import opened Emission
  import Constants
  import NamedTypeExtensions
  import StringExtensions

  /** A reported diagnostic: its descriptor and the argument it was given. */
  datatype Diagnostic = Diagnostic(descriptor: Constants.DiagnosticDescriptor, argument: string)

  /** An added source file: its hint name and the lines of its text. */
  datatype Artifact = Artifact(hintName: string, text: Document)

  datatype Output = Output(diagnostics: seq<Diagnostic>, artifacts: seq<Artifact>)

  /** `ContainingNamespace.ToString()`: a declared type always has a
      namespace, and the global one prints as `<global namespace>`. */
  const GlobalNamespaceText: string := "<global namespace>"

  function NamespaceText(t: TypeRef): string
  {
    t.containingNamespace.GetOr(GlobalNamespaceText)
  }

  /** The model every generator builds from a selected symbol. */
  function ToModel(t: NamedTypeSymbol, props: seq<PropertySymbolModel>): (m: TypeSymbolModel)
    ensures m.typeSymbol == t && m.name == t.self.name && m.accessibleProperties == props
    ensures m.containingNamespace.Some?
    ensures m.isPartial <==> NamedTypeExtensions.IsPartial(t)
  {
    TypeSymbolModel(t, Some(NamespaceText(t.self)), t.self.name,
                    NamedTypeExtensions.GetGenericParameters(t), t.self.fullyQualifiedName,
                    NamedTypeExtensions.GetConstraints(t), t.self.isValueType,
                    NamedTypeExtensions.IsPartial(t), props)
  }

  /** The type carries an attribute whose class displays as `fullPath`. */
  predicate HasMarker(t: NamedTypeSymbol, fullPath: string)
  {
    exists i :: 0 <= i < |t.self.attributes| && NamedTypeExtensions.DisplaysAs(t.self.attributes[i], fullPath)
  }

  /** An instance method named `name` with `count` parameters, all `out`:
      the type already deconstructs itself by hand. */
  predicate IsOutOverride(m: MethodSymbol, name: string, count: nat)
  {
    m.name == name && !m.isStatic && |m.parameterRefKinds| == count
    && forall k :: 0 <= k < count ==> m.parameterRefKinds[k] == Out
  }

  predicate HasOutOverride(t: NamedTypeSymbol, name: string, count: nat)
  {
    exists i :: 0 <= i < |t.methods| && IsOutOverride(t.methods[i], name, count)
  }

  /** The selection of the cloneable and fluent generators for one type
      declaration: a marked type with at least one accessible property and
      no hand-written override. Computing the properties can throw. */
  function SelectMarked(symbol: Option<NamedTypeSymbol>, fullPath: string, overrideName: string)
    : (r: Result<Option<TypeSymbolModel>>)
    ensures r.Err? <==> symbol.Some? && HasMarker(symbol.value, fullPath)
                        && NamedTypeExtensions.GetAccessibleProperties(symbol.value).Err?
    ensures r.Ok? && r.value.Some? <==>
              && symbol.Some? && HasMarker(symbol.value, fullPath)
              && NamedTypeExtensions.GetAccessibleProperties(symbol.value).Ok?
              && var props := NamedTypeExtensions.GetAccessibleProperties(symbol.value).value;
                 |props| > 0 && !HasOutOverride(symbol.value, overrideName, |props|)
    ensures r.Ok? && r.value.Some? ==>
              r.value.value == ToModel(symbol.value, NamedTypeExtensions.GetAccessibleProperties(symbol.value).value)
  {
    if symbol.None? || !HasMarker(symbol.value, fullPath) then Ok(None)
    else
      var t := symbol.value;
      var props := NamedTypeExtensions.GetAccessibleProperties(t);
      if props.Err? then Err(props.error)
      else if |props.value| == 0 || HasOutOverride(t, overrideName, |props.value|) then Ok(None)
      else Ok(Some(ToModel(t, props.value)))
  }

  /** The selection of the task-manager and logger generators: every marked
      type, with an empty property list. */
  function SelectPlain(symbol: Option<NamedTypeSymbol>, fullPath: string): (r: Option<TypeSymbolModel>)
    ensures r.Some? <==> symbol.Some? && HasMarker(symbol.value, fullPath)
    ensures r.Some? ==> r.value == ToModel(symbol.value, [])
  {
    if symbol.Some? && HasMarker(symbol.value, fullPath) then Some(ToModel(symbol.value, [])) else None
  }

  /** A parameter as written: whether it carries `this` and whether `out`. */
  datatype ParameterSyntax = ParameterSyntax(hasThis: bool, hasOut: bool)

  /** A method declaration: its `static` modifier, its name, its
      parameters, and the declared type of its first parameter when that is
      a named type (`None` when it is not, or the symbol is missing). */
  datatype MethodDeclaration = MethodDeclaration(
    isStatic: bool,
    identifier: string,
    parameters: seq<ParameterSyntax>,
    receiverType: Option<NamedTypeSymbol>)

  predicate IsOutParameter(p: ParameterSyntax) { p.hasOut }

  /** The syntactic filter: a static extension method named `name` whose
      parameters after the receiver are all `out`, with at least one. */
  predicate ExtensionShape(m: MethodDeclaration, name: string)
  {
    m.isStatic && m.identifier == name && |m.parameters| > 1 && m.parameters[0].hasThis
    && |Filter(m.parameters, IsOutParameter)| == |m.parameters| - 1
  }

  /** The type an extension method covers: its receiver, when it has one
      out-parameter per accessible property. */
  function SelectExcluded(m: MethodDeclaration, name: string): (r: Result<Option<TypeSymbolModel>>)
    ensures r.Err? <==> ExtensionShape(m, name) && m.receiverType.Some?
                        && NamedTypeExtensions.GetAccessibleProperties(m.receiverType.value).Err?
    ensures r.Ok? && r.value.Some? <==>
              && ExtensionShape(m, name) && m.receiverType.Some?
              && NamedTypeExtensions.GetAccessibleProperties(m.receiverType.value).Ok?
              && |NamedTypeExtensions.GetAccessibleProperties(m.receiverType.value).value| == |m.parameters| - 1
    ensures r.Ok? && r.value.Some? ==>
              && r.value.value == ToModel(m.receiverType.value, NamedTypeExtensions.GetAccessibleProperties(m.receiverType.value).value)
              && |r.value.value.accessibleProperties| == |m.parameters| - 1
  {
    if !ExtensionShape(m, name) || m.receiverType.None? then Ok(None)
    else
      var props := NamedTypeExtensions.GetAccessibleProperties(m.receiverType.value);
      if props.Err? then Err(props.error)
      else if |props.value| == |m.parameters| - 1 then Ok(Some(ToModel(m.receiverType.value, props.value)))
      else Ok(None)
  }

  /** A method that covers its receiver puts the receiver's model among
      the collected exclusions. */
  lemma CoveredIsExcluded(methods: seq<MethodDeclaration>, name: string,
                          excluder: MethodDeclaration -> Result<Option<TypeSymbolModel>>, i: nat)
    requires forall m :: excluder(m) == SelectExcluded(m, name)
    requires i < |methods| && ExtensionShape(methods[i], name) && methods[i].receiverType.Some?
    requires NamedTypeExtensions.GetAccessibleProperties(methods[i].receiverType.value).Ok?
    requires |NamedTypeExtensions.GetAccessibleProperties(methods[i].receiverType.value).value| == |methods[i].parameters| - 1
    ensures Collect(Map(methods, excluder)).Ok? ==>
              ToModel(methods[i].receiverType.value, NamedTypeExtensions.GetAccessibleProperties(methods[i].receiverType.value).value)
                in Collect(Map(methods, excluder)).value
  {
    var rs := Map(methods, excluder);
    assert rs[i] == SelectExcluded(methods[i], name);
  }

  /** Every model a plain selection collects has no properties. */
  lemma PlainModelsBare(types: seq<Option<NamedTypeSymbol>>, path: string,
                        selector: Option<NamedTypeSymbol> -> Result<Option<TypeSymbolModel>>)
    requires forall s :: selector(s) == Ok(SelectPlain(s, path))
    ensures Collect(Map(types, selector)).Ok?
    ensures forall t :: t in Collect(Map(types, selector)).value ==> t.accessibleProperties == []
  {
    var rs := Map(types, selector);
    forall t | t in Collect(rs).value ensures t.accessibleProperties == [] {
      var i :| 0 <= i < |rs| && rs[i] == Ok(Some(t));
      assert rs[i] == Ok(SelectPlain(types[i], path));
    }
  }

  /** Every model the exclusion collects has at least one property: its
      method has an out parameter per property and at least one. */
  lemma CoveredModelsHaveProperties(methods: seq<MethodDeclaration>, name: string,
                                    excluder: MethodDeclaration -> Result<Option<TypeSymbolModel>>)
    requires forall m :: excluder(m) == SelectExcluded(m, name)
    requires Collect(Map(methods, excluder)).Ok?
    ensures forall t :: t in Collect(Map(methods, excluder)).value ==> |t.accessibleProperties| > 0
  {
    var rs := Map(methods, excluder);
    forall t | t in Collect(rs).value ensures |t.accessibleProperties| > 0 {
      var i :| 0 <= i < |rs| && rs[i] == Ok(Some(t));
      assert rs[i] == SelectExcluded(methods[i], name);
    }
  }

  /** The model a transform produced, if any. */
  function Found(x: Result<Option<TypeSymbolModel>>): seq<TypeSymbolModel>
  {
    if x.Ok? && x.value.Some? then [x.value.value] else []
  }

  /** The produced models of a run of transform results, read from the
      last result backwards: every model, in the order of its result,
      duplicates kept. */
  function Somes(rs: seq<Result<Option<TypeSymbolModel>>>): seq<TypeSymbolModel>
  {
    if |rs| == 0 then [] else Somes(rs[..|rs| - 1]) + Found(rs[|rs| - 1])
  }

  /** `Somes` read from the first result forwards. */
  lemma {:induction false} SomesCons(rs: seq<Result<Option<TypeSymbolModel>>>)
    requires |rs| > 0
    ensures Somes(rs) == Found(rs[0]) + Somes(rs[1..])
    decreases |rs|
  {
    if |rs| > 1 {
      var init := rs[..|rs| - 1];
      SomesCons(init);
      assert init[1..] == rs[1..][..|rs[1..]| - 1];
      assert rs[1..][|rs[1..]| - 1] == rs[|rs| - 1];
    } else {
      assert rs[..|rs| - 1] == [] && rs[1..] == [];
    }
  }

  /** The collected models are the reference run `Somes`: every produced
      model in the order of its result, duplicates kept. */
  lemma {:induction false} CollectIsSomes(rs: seq<Result<Option<TypeSymbolModel>>>)
    ensures Collect(rs).Ok? ==> Collect(rs).value == Somes(rs)
    decreases |rs|
  {
    if |rs| > 0 {
      SomesCons(rs);
      CollectIsSomes(rs[1..]);
    }
  }

  /** `Where(m => m is not null).Collect()` over the transform results: the
      models in order, or the first exception. */
  function Collect(rs: seq<Result<Option<TypeSymbolModel>>>): (r: Result<seq<TypeSymbolModel>>)
    ensures r.Err? <==> exists i :: 0 <= i < |rs| && rs[i].Err?
    ensures r.Ok? ==> forall m :: m in r.value <==> exists i :: 0 <= i < |rs| && rs[i] == Ok(Some(m))
    ensures r.Ok? ==> |r.value| <= |rs|
    decreases |rs|
  {
    if |rs| == 0 then Ok([])
    else
      var rest := Collect(rs[1..]);
      assert forall i :: 1 <= i < |rs| ==> rs[i] == rs[1..][i - 1];
      if rs[0].Err? then Err(rs[0].error)
      else if rest.Err? then
        var i :| 0 <= i < |rs[1..]| && rs[1..][i].Err?;
        assert rs[i + 1].Err?;
        Err(rest.error)
      else
        assert forall m :: (exists i :: 0 <= i < |rs[1..]| && rs[1..][i] == Ok(Some(m))) ==>
                            exists i :: 0 <= i < |rs| && rs[i] == Ok(Some(m)) by {
          forall m | exists i :: 0 <= i < |rs[1..]| && rs[1..][i] == Ok(Some(m))
            ensures exists i :: 0 <= i < |rs| && rs[i] == Ok(Some(m))
          {
            var i :| 0 <= i < |rs[1..]| && rs[1..][i] == Ok(Some(m));
            assert rs[i + 1] == Ok(Some(m));
          }
        }
        if rs[0].value.Some? then Ok([rs[0].value.value] + rest.value) else Ok(rest.value)
  }

  predicate IsNotPartial(m: TypeSymbolModel) { !m.isPartial }

  function Warn(m: TypeSymbolModel): Diagnostic
  {
    Diagnostic(Constants.MissingPartialModifierRule, m.name)
  }

  /** One GEN001 warning per selected model that is not partial, in order,
      duplicates and covered types included. */
  function PartialWarnings(models: seq<TypeSymbolModel>): (r: seq<Diagnostic>)
    ensures |r| <= |models|
  {
    Map(Filter(models, IsNotPartial), Warn)
  }

  /** A warning names each non-partial model and no other, and its message
      is the same fixed text whatever the name. */
  lemma PartialWarningsSpec(models: seq<TypeSymbolModel>)
    ensures forall m :: m in models && !m.isPartial ==> Warn(m) in PartialWarnings(models)
    ensures forall d :: d in PartialWarnings(models) ==>
              && d.descriptor == Constants.MissingPartialModifierRule
              && (exists m :: m in models && !m.isPartial && m.name == d.argument)
              && Constants.FormatMessage(d.descriptor.messageFormat, d.argument) == d.descriptor.messageFormat
    ensures (forall m :: m in models ==> m.isPartial) ==> PartialWarnings(models) == []
  {
    var np := Filter(models, IsNotPartial);
    forall m | m in models && !m.isPartial ensures Warn(m) in PartialWarnings(models) {
      var i :| 0 <= i < |models| && models[i] == m;
      var j :| 0 <= j < |np| && np[j] == m;
      assert PartialWarnings(models)[j] == Warn(m);
    }
    forall d | d in PartialWarnings(models)
      ensures exists m :: m in models && !m.isPartial && m.name == d.argument
      ensures Constants.FormatMessage(d.descriptor.messageFormat, d.argument) == d.descriptor.messageFormat
    {
      var j :| 0 <= j < |np| && PartialWarnings(models)[j] == d;
      assert np[j] in models && !np[j].isPartial;
      Constants.MessageIgnoresName(d.argument);
    }
    FilterAllOrNothing(models, IsNotPartial);
  }

  /** The hint name of a type's file: the generator's prefix, the type name
      made safe, and ".g.cs". */
  function HintName(prefix: string, t: TypeSymbolModel): string
  {
    prefix + StringExtensions.ToSafeClassName(t.name) + ".g.cs"
  }

  /** `AddSource`: a hint name may be added once per generator; a second
      one is rejected with an ArgumentException. */
  function AddSource(added: seq<Artifact>, a: Artifact): (r: Result<seq<Artifact>>)
    ensures r.Err? <==> exists i :: 0 <= i < |added| && added[i].hintName == a.hintName
    ensures r.Err? ==> r.error == ArgumentException
    ensures r.Ok? ==> r.value == added + [a]
    ensures r.Ok? && UniqueHints(added) ==> UniqueHints(r.value)
  {
    if exists i :: 0 <= i < |added| && added[i].hintName == a.hintName then Err(ArgumentException)
    else Ok(added + [a])
  }

  /** Whether a type has no covering extension method. */
  function NotIn(excluded: seq<TypeSymbolModel>): (f: TypeSymbolModel -> bool)
    ensures forall t :: f(t) <==> t !in excluded
  {
    t => t !in excluded
  }

  /** `CreateOutput`'s loop over the distinct selected types. A covered type
      writes nothing. Any other type is built into the buffer, whose text
      becomes the file; an exception from the builder or from `AddSource`
      ends the run. The buffer is cleared after every type. */
  function EmitLoop(types: seq<TypeSymbolModel>, excluded: seq<TypeSymbolModel>, prefix: string,
                    build: TypeSymbolModel -> Result<Document>, buffer: Document, added: seq<Artifact>)
    : (r: Result<seq<Artifact>>)
    ensures r.Ok? ==> |added| <= |r.value| && r.value[..|added|] == added
    ensures r.Ok? && UniqueHints(added) ==> UniqueHints(r.value)
    decreases |types|
  {
    if |types| == 0 then Ok(added)
    else
      var t := types[0];
      if t in excluded then EmitLoop(types[1..], excluded, prefix, build, [], added)
      else
        var doc := build(t);
        if doc.Err? then Err(doc.error)
        else
          var next := AddSource(added, Artifact(HintName(prefix, t), buffer + doc.value));
          if next.Err? then Err(next.error)
          else EmitLoop(types[1..], excluded, prefix, build, [], next.value)
  }

  predicate BuildsOk(build: TypeSymbolModel -> Result<Document>, ts: seq<TypeSymbolModel>)
  {
    forall i :: 0 <= i < |ts| ==> build(ts[i]).Ok?
  }

  /** The file a type gets: its hint name and exactly its own text. */
  function ArtifactOf(prefix: string, build: TypeSymbolModel -> Result<Document>, t: TypeSymbolModel): Artifact
    requires build(t).Ok?
  {
    Artifact(HintName(prefix, t), build(t).value)
  }

  function Artifacts(prefix: string, build: TypeSymbolModel -> Result<Document>, ts: seq<TypeSymbolModel>)
    : (r: seq<Artifact>)
    requires BuildsOk(build, ts)
    ensures |r| == |ts| && forall i :: 0 <= i < |ts| ==> r[i] == ArtifactOf(prefix, build, ts[i])
  {
    seq(|ts|, i requires 0 <= i < |ts| => ArtifactOf(prefix, build, ts[i]))
  }

  predicate UniqueHints(arts: seq<Artifact>)
  {
    forall i, j :: 0 <= i < j < |arts| ==> arts[i].hintName != arts[j].hintName
  }

  /** The uncovered types of `types`, split at the first one. */
  lemma PlannedCons(types: seq<TypeSymbolModel>, excluded: seq<TypeSymbolModel>)
    requires |types| > 0
    ensures Filter(types, NotIn(excluded)) ==
              (if types[0] in excluded then [] else [types[0]]) + Filter(types[1..], NotIn(excluded))
  {
    FilterCons(types, NotIn(excluded));
    assert NotIn(excluded)(types[0]) <==> types[0] !in excluded;
  }

  lemma ArtifactsCons(prefix: string, build: TypeSymbolModel -> Result<Document>, t: TypeSymbolModel, ts: seq<TypeSymbolModel>)
    requires BuildsOk(build, [t] + ts)
    ensures build(t).Ok? && BuildsOk(build, ts)
    ensures Artifacts(prefix, build, [t] + ts) == [ArtifactOf(prefix, build, t)] + Artifacts(prefix, build, ts)
  {
    assert ([t] + ts)[0] == t;
    forall i | 0 <= i < |ts| ensures build(ts[i]).Ok? {
      assert ts[i] == ([t] + ts)[i + 1];
    }
  }

  /** A covered type is skipped. */
  lemma EmitLoopSkip(types: seq<TypeSymbolModel>, excluded: seq<TypeSymbolModel>, prefix: string,
                     build: TypeSymbolModel -> Result<Document>, added: seq<Artifact>)
    requires |types| > 0 && types[0] in excluded
    ensures EmitLoop(types, excluded, prefix, build, [], added) == EmitLoop(types[1..], excluded, prefix, build, [], added)
  {
  }

  /** An uncovered type that builds and whose hint name is new adds its file
      and the loop goes on; when the loop succeeds, that is what happened. */
  lemma EmitLoopStep(types: seq<TypeSymbolModel>, excluded: seq<TypeSymbolModel>, prefix: string,
                     build: TypeSymbolModel -> Result<Document>, added: seq<Artifact>)
    requires |types| > 0 && types[0] !in excluded
    ensures EmitLoop(types, excluded, prefix, build, [], added).Ok? ==>
              build(types[0]).Ok? && forall i :: 0 <= i < |added| ==> added[i].hintName != HintName(prefix, types[0])
    ensures build(types[0]).Ok? && (forall i :: 0 <= i < |added| ==> added[i].hintName != HintName(prefix, types[0])) ==>
              EmitLoop(types, excluded, prefix, build, [], added)
                == EmitLoop(types[1..], excluded, prefix, build, [], added + [ArtifactOf(prefix, build, types[0])])
  {
    var t := types[0];
    if build(t).Ok? {
      assert [] + build(t).value == build(t).value;
    }
  }

  /** The planned files of `types` split at the first type when it is not
      covered. */
  lemma PlannedStep(types: seq<TypeSymbolModel>, excluded: seq<TypeSymbolModel>, prefix: string,
                    build: TypeSymbolModel -> Result<Document>, added: seq<Artifact>)
    requires |types| > 0 && types[0] !in excluded
    requires BuildsOk(build, Filter(types, NotIn(excluded)))
    ensures build(types[0]).Ok? && BuildsOk(build, Filter(types[1..], NotIn(excluded)))
    ensures added + Artifacts(prefix, build, Filter(types, NotIn(excluded)))
              == (added + [ArtifactOf(prefix, build, types[0])]) + Artifacts(prefix, build, Filter(types[1..], NotIn(excluded)))
  {
    PlannedCons(types, excluded);
    var rest := Filter(types[1..], NotIn(excluded));
    assert Filter(types, NotIn(excluded)) == [types[0]] + rest;
    ArtifactsCons(prefix, build, types[0], rest);
    ConsAssoc(added, ArtifactOf(prefix, build, types[0]), Artifacts(prefix, build, rest));
  }

  lemma EmptyConcat<T>(xs: seq<T>)
    ensures [] + xs == xs
  {
  }

  lemma ConsAssoc<T>(xs: seq<T>, x: T, ys: seq<T>)
    ensures xs + ([x] + ys) == (xs + [x]) + ys
  {
  }

  /** When the loop succeeds, every uncovered type was built and got its
      file, in order, holding only its own text. */
  lemma {:induction false} EmitLoopResult(types: seq<TypeSymbolModel>, excluded: seq<TypeSymbolModel>, prefix: string,
                                           build: TypeSymbolModel -> Result<Document>, added: seq<Artifact>)
    requires EmitLoop(types, excluded, prefix, build, [], added).Ok?
    ensures BuildsOk(build, Filter(types, NotIn(excluded)))
    ensures EmitLoop(types, excluded, prefix, build, [], added).value
              == added + Artifacts(prefix, build, Filter(types, NotIn(excluded)))
    decreases |types|
  {
    if |types| == 0 {
      assert Filter(types, NotIn(excluded)) == [];
    } else {
      var t := types[0];
      PlannedCons(types, excluded);
      var rest := Filter(types[1..], NotIn(excluded));
      if t in excluded {
        EmitLoopSkip(types, excluded, prefix, build, added);
        EmitLoopResult(types[1..], excluded, prefix, build, added);
      } else {
        EmitLoopStep(types, excluded, prefix, build, added);
        var a := ArtifactOf(prefix, build, t);
        EmitLoopResult(types[1..], excluded, prefix, build, added + [a]);
        BuildsOkCons(build, t, rest);
        PlannedStep(types, excluded, prefix, build, added);
      }
    }
  }

  lemma BuildsOkCons(build: TypeSymbolModel -> Result<Document>, t: TypeSymbolModel, ts: seq<TypeSymbolModel>)
    requires build(t).Ok? && BuildsOk(build, ts)
    ensures BuildsOk(build, [t] + ts)
  {
    forall i | 0 <= i < |[t] + ts| ensures build(([t] + ts)[i]).Ok? {
      if i > 0 {
        assert ([t] + ts)[i] == ts[i - 1];
      }
    }
  }

  /** The loop succeeds when every uncovered type builds and no hint name
      repeats. */
  lemma {:induction false} EmitLoopSucceeds(types: seq<TypeSymbolModel>, excluded: seq<TypeSymbolModel>, prefix: string,
                                             build: TypeSymbolModel -> Result<Document>, added: seq<Artifact>)
    requires BuildsOk(build, Filter(types, NotIn(excluded)))
    requires UniqueHints(added + Artifacts(prefix, build, Filter(types, NotIn(excluded))))
    ensures EmitLoop(types, excluded, prefix, build, [], added).Ok?
    decreases |types|
  {
    if |types| > 0 {
      var t := types[0];
      if t in excluded {
        PlannedCons(types, excluded);
        assert Filter(types, NotIn(excluded)) == Filter(types[1..], NotIn(excluded));
        EmitLoopSkip(types, excluded, prefix, build, added);
        EmitLoopSucceeds(types[1..], excluded, prefix, build, added);
      } else {
        PlannedStep(types, excluded, prefix, build, added);
        var a := ArtifactOf(prefix, build, t);
        UniqueSplit(added, a, Artifacts(prefix, build, Filter(types[1..], NotIn(excluded))));
        EmitLoopSucceeds(types[1..], excluded, prefix, build, added + [a]);
        EmitLoopStep(types, excluded, prefix, build, added);
      }
    }
  }

  /** Unique hints over `added + [a] + rest` is `a`'s name being new to
      `added` plus unique hints over `(added + [a]) + rest`. */
  lemma UniqueSplit(added: seq<Artifact>, a: Artifact, rest: seq<Artifact>)
    ensures UniqueHints(added + [a] + rest) ==>
              (forall i :: 0 <= i < |added| ==> added[i].hintName != a.hintName)
              && UniqueHints((added + [a]) + rest)
  {
    var all := added + [a] + rest;
    if UniqueHints(all) {
      forall i | 0 <= i < |added| ensures added[i].hintName != a.hintName {
        assert all[i] == added[i] && all[|added|] == a;
      }
    }
  }

  /** `CreateOutput`: nothing when no type was selected; otherwise the loop
      over the distinct selected types. */
  function CreateOutput(selected: seq<TypeSymbolModel>, excluded: seq<TypeSymbolModel>, prefix: string,
                        build: TypeSymbolModel -> Result<Document>): Result<seq<Artifact>>
  {
    if |selected| > 0 then EmitLoop(Distinct(selected), excluded, prefix, build, [], []) else Ok([])
  }

  /** The files written: one per distinct selected type that no extension
      method covers, each under its own hint name with only its own text;
      the run fails exactly when a build throws or a hint name repeats. */
  lemma CreateOutputSpec(selected: seq<TypeSymbolModel>, excluded: seq<TypeSymbolModel>, prefix: string,
                         build: TypeSymbolModel -> Result<Document>)
    ensures var r := CreateOutput(selected, excluded, prefix, build);
            var planned := Filter(Distinct(selected), NotIn(excluded));
            && (forall t :: t in planned <==> t in selected && t !in excluded)
            && (r.Ok? <==> BuildsOk(build, planned) && UniqueHints(Artifacts(prefix, build, planned)))
            && (r.Ok? ==> r.value == Artifacts(prefix, build, planned))
  {
    var planned := Filter(Distinct(selected), NotIn(excluded));
    if |selected| == 0 {
      CreateOutputEmpty(selected, excluded, prefix, build);
    } else {
      if CreateOutput(selected, excluded, prefix, build).Ok? {
        CreateOutputOk(selected, excluded, prefix, build);
      }
      if BuildsOk(build, planned) && UniqueHints(Artifacts(prefix, build, planned)) {
        CreateOutputComplete(selected, excluded, prefix, build);
      }
    }
    PlannedMembers(selected, excluded);
  }

  lemma CreateOutputEmpty(selected: seq<TypeSymbolModel>, excluded: seq<TypeSymbolModel>, prefix: string,
                          build: TypeSymbolModel -> Result<Document>)
    requires |selected| == 0
    ensures var planned := Filter(Distinct(selected), NotIn(excluded));
            planned == [] && CreateOutput(selected, excluded, prefix, build) == Ok(Artifacts(prefix, build, planned))
  {
    assert Distinct(selected) == [];
  }

  lemma CreateOutputOk(selected: seq<TypeSymbolModel>, excluded: seq<TypeSymbolModel>, prefix: string,
                       build: TypeSymbolModel -> Result<Document>)
    requires |selected| > 0 && CreateOutput(selected, excluded, prefix, build).Ok?
    ensures var planned := Filter(Distinct(selected), NotIn(excluded));
            && BuildsOk(build, planned) && UniqueHints(Artifacts(prefix, build, planned))
            && CreateOutput(selected, excluded, prefix, build).value == Artifacts(prefix, build, planned)
  {
    var planned := Filter(Distinct(selected), NotIn(excluded));
    EmitLoopResult(Distinct(selected), excluded, prefix, build, []);
    EmptyConcat(Artifacts(prefix, build, planned));
  }

  lemma CreateOutputComplete(selected: seq<TypeSymbolModel>, excluded: seq<TypeSymbolModel>, prefix: string,
                             build: TypeSymbolModel -> Result<Document>)
    requires |selected| > 0
    requires var planned := Filter(Distinct(selected), NotIn(excluded));
             BuildsOk(build, planned) && UniqueHints(Artifacts(prefix, build, planned))
    ensures CreateOutput(selected, excluded, prefix, build).Ok?
  {
    var planned := Filter(Distinct(selected), NotIn(excluded));
    EmptyConcat(Artifacts(prefix, build, planned));
    EmitLoopSucceeds(Distinct(selected), excluded, prefix, build, []);
  }

  lemma PlannedMembers(selected: seq<TypeSymbolModel>, excluded: seq<TypeSymbolModel>)
    ensures forall t :: t in Filter(Distinct(selected), NotIn(excluded)) <==> t in selected && t !in excluded
  {
    forall t | t in selected && t !in excluded ensures t in Filter(Distinct(selected), NotIn(excluded)) {
      var i :| 0 <= i < |selected| && selected[i] == t;
    }
  }

  /** A marker generator's whole output: the warnings, then the files. */
  function Run(selected: seq<TypeSymbolModel>, excluded: seq<TypeSymbolModel>, prefix: string,
               build: TypeSymbolModel -> Result<Document>): (r: Result<Output>)
    ensures r.Ok? ==> r.value.diagnostics == PartialWarnings(selected)
    ensures r.Ok? <==> CreateOutput(selected, excluded, prefix, build).Ok?
    ensures r.Ok? ==> r.value.artifacts == CreateOutput(selected, excluded, prefix, build).value
  {
    var files := CreateOutput(selected, excluded, prefix, build);
    if files.Err? then Err(files.error) else Ok(Output(PartialWarnings(selected), files.value))
  }
}

=== FILE: property_ext.dfy ===
/** Tests on a property symbol used by the clone emitter. */
module PropertyExtensions {
  import opened Wrappers
  import opened Symbols
  import TypeExtensions

  /** `IsPropertyClonable`: the property has a setter and is not read-only.
      The setter's accessibility is not looked at. */
  predicate IsPropertyClonable(p: PropertySymbol)
  {
    p.setMethod.Some? && !p.isReadOnly
  }

  /** A get-only property is never clonable, and a private setter counts as
      much as a public one. */
  lemma ClonableIgnoresSetterAccess(p: PropertySymbol, a: Accessibility)
    ensures !IsPropertyClonable(p.(setMethod := None))
    ensures IsPropertyClonable(p.(setMethod := Some(a))) <==> !p.isReadOnly
  {
  }

  /** The property-level `IsGenericWithClassArgument`, which repeats the
      type-level test on the property's type, cast included. */
  function IsGenericWithClassArgument(p: PropertySymbol): (r: Result<bool>)
    ensures r == TypeExtensions.IsGenericWithClassArgument(p.propertyType)
  {
    var t := p.propertyType;
    if !t.isNamedType then Err(InvalidCastException)
    else Ok(t.isGenericType && |t.typeArgumentKinds| == 1 && t.typeArgumentKinds[0] == ClassKind)
  }
}

=== FILE: property_model_ext.dfy ===
/** The marker tests on a property model. Each looks for an attribute whose
    class has the marker's short name. */
module PropertyModelExtensions {
  import opened Wrappers
  import opened Symbols
  import opened Models
  import Constants
  import TypeExtensions
  import NamedTypeExtensions

  /** `PropertyHasAttribute`: some attribute of the property has the given
      short name. */
  predicate PropertyHasAttribute(p: PropertySymbol, name: string)
  {
    TypeExtensions.AnyNamed(p.attributes, name)
  }

  predicate HasCloneableAttribute(m: PropertySymbolModel) { PropertyHasAttribute(m.property, Constants.CloneableAttributeName) }
  predicate HasCloneAttribute(m: PropertySymbolModel) { PropertyHasAttribute(m.property, Constants.CloneAttributeName) }
  predicate HasDeepCloneAttribute(m: PropertySymbolModel) { PropertyHasAttribute(m.property, Constants.DeepCloneAttributeName) }
  predicate HasExcludeAttribute(m: PropertySymbolModel) { PropertyHasAttribute(m.property, Constants.ExcludeAttributeName) }
  predicate HasSkipClassBuilderAttribute(m: PropertySymbolModel) { PropertyHasAttribute(m.property, Constants.SkipClassBuilderAttributeName) }
  predicate HasSkipCloneableAttribute(m: PropertySymbolModel) { PropertyHasAttribute(m.property, Constants.SkipCloneableAttributeName) }
  predicate HasIncludeInDeconstructAttribute(m: PropertySymbolModel) { PropertyHasAttribute(m.property, Constants.IncludeInDeconstructAttributeName) }
  predicate HasSkipFluentClassBuilderAttribute(m: PropertySymbolModel) { PropertyHasAttribute(m.property, Constants.SkipFluentClassAttributeName) }

  /** A property carrying exactly one attribute, of the given short name and
      display name. */
  function Marked(p: PropertySymbol, name: string, displayName: string): PropertySymbol
  {
    p.(attributes := [AttributeData(Some(AttributeClass(name, displayName)), [])])
  }

  /** A property marked with one name answers yes for that name and no for
      every other. */
  lemma OnlyOwnMarker(p: PropertySymbol, name: string, displayName: string, other: string)
    ensures PropertyHasAttribute(Marked(p, name, displayName), other) <==> other == name
  {
    var q := Marked(p, name, displayName);
    if other == name {
      assert TypeExtensions.IsNamed(q.attributes[0], other);
    }
  }

  /** The eight property markers have pairwise different short names, so a
      marker for one strategy answers no to every other strategy's test. */
  lemma MarkersIndependent(p: PropertySymbol, displayName: string)
    ensures var q := PropertySymbolModel(Marked(p, Constants.SkipClassBuilderAttributeName, displayName), p.name, "", "");
            HasSkipClassBuilderAttribute(q) && !HasSkipCloneableAttribute(q) && !HasSkipFluentClassBuilderAttribute(q)
    ensures var q := PropertySymbolModel(Marked(p, Constants.SkipCloneableAttributeName, displayName), p.name, "", "");
            HasSkipCloneableAttribute(q) && !HasSkipClassBuilderAttribute(q) && !HasSkipFluentClassBuilderAttribute(q)
    ensures var q := PropertySymbolModel(Marked(p, Constants.SkipFluentClassAttributeName, displayName), p.name, "", "");
            HasSkipFluentClassBuilderAttribute(q) && !HasSkipClassBuilderAttribute(q) && !HasSkipCloneableAttribute(q)
    ensures var q := PropertySymbolModel(Marked(p, Constants.CloneAttributeName, displayName), p.name, "", "");
            HasCloneAttribute(q) && !HasCloneableAttribute(q) && !HasDeepCloneAttribute(q)
  {
    var skipBuilder, skipClone, skipFluent := Constants.SkipClassBuilderAttributeName, Constants.SkipCloneableAttributeName, Constants.SkipFluentClassAttributeName;
    var clone, cloneable, deep := Constants.CloneAttributeName, Constants.CloneableAttributeName, Constants.DeepCloneAttributeName;
    assert |skipBuilder| != |skipClone| && |skipBuilder| != |skipFluent| && |skipClone| != |skipFluent|;
    assert |clone| != |cloneable| && |clone| != |deep|;
    assert cloneable[0] != deep[0];
    OnlyOwnMarker(p, skipBuilder, displayName, skipClone);
    OnlyOwnMarker(p, skipBuilder, displayName, skipFluent);
    OnlyOwnMarker(p, skipClone, displayName, skipBuilder);
    OnlyOwnMarker(p, skipClone, displayName, skipFluent);
    OnlyOwnMarker(p, skipFluent, displayName, skipBuilder);
    OnlyOwnMarker(p, skipFluent, displayName, skipClone);
    OnlyOwnMarker(p, clone, displayName, cloneable);
    OnlyOwnMarker(p, clone, displayName, deep);
    OnlyOwnMarker(p, skipBuilder, displayName, skipBuilder);
    OnlyOwnMarker(p, skipClone, displayName, skipClone);
    OnlyOwnMarker(p, skipFluent, displayName, skipFluent);
    OnlyOwnMarker(p, clone, displayName, clone);
  }

  /** The exclude marker is looked up two ways that can disagree: by short
      name here and by full display path when property models are built.
      An attribute named like the marker but declared elsewhere passes the
      first and fails the second; one that displays as the marker's path
      under another short name does the opposite. */
  lemma ExcludeTestsDisagree(p: PropertySymbol)
    ensures var q := Marked(p, Constants.ExcludeAttributeName, "Other");
            PropertyHasAttribute(q, Constants.ExcludeAttributeName) && !NamedTypeExtensions.IsExcluded(q)
    ensures var q := Marked(p, "Other", Constants.ExcludeAttributeFullPath);
            !PropertyHasAttribute(q, Constants.ExcludeAttributeName) && NamedTypeExtensions.IsExcluded(q)
  {
    var exclude, full := Constants.ExcludeAttributeName, Constants.ExcludeAttributeFullPath;
    assert |exclude| != |"Other"| && |full| != |"Other"|;
    OnlyOwnMarker(p, exclude, "Other", exclude);
    OnlyOwnMarker(p, "Other", full, exclude);
    var q := Marked(p, "Other", full);
    assert NamedTypeExtensions.DisplaysAs(q.attributes[0], full);
  }
}

=== FILE: sequences.dfy ===
/** The LINQ operators the generators chain over property lists: `Where`,
    `Select` and `SelectMany`, on finite sequences. */
module Sequences {

  /** `Where`: the elements that pass, in order. */
  function Filter<T>(xs: seq<T>, keep: T -> bool): (r: seq<T>)
    ensures |r| <= |xs|
    ensures forall i :: 0 <= i < |r| ==> keep(r[i]) && r[i] in xs
    ensures forall i :: 0 <= i < |xs| && keep(xs[i]) ==> xs[i] in r
    decreases |xs|
  {
    if |xs| == 0 then []
    else (if keep(xs[0]) then [xs[0]] else []) + Filter(xs[1..], keep)
  }

  /** One step of the filter: the first element, if kept, then the filter
      of the rest. */
  lemma FilterCons<T>(xs: seq<T>, keep: T -> bool)
    requires |xs| > 0
    ensures Filter(xs, keep) == (if keep(xs[0]) then [xs[0]] else []) + Filter(xs[1..], keep)
  {
  }

  /** Filtering distributes over concatenation, so the kept elements keep
      their relative order. */
  lemma {:induction false} FilterConcat<T>(a: seq<T>, b: seq<T>, keep: T -> bool)
    ensures Filter(a + b, keep) == Filter(a, keep) + Filter(b, keep)
    decreases |a|
  {
    if |a| > 0 {
      assert (a + b)[1..] == a[1..] + b;
      FilterConcat(a[1..], b, keep);
    } else {
      assert a + b == b;
    }
  }

  /** A filter that keeps everything is the identity, and one that keeps
      nothing is empty. */
  lemma FilterAllOrNothing<T>(xs: seq<T>, keep: T -> bool)
    ensures (forall i :: 0 <= i < |xs| ==> keep(xs[i])) ==> Filter(xs, keep) == xs
    ensures (forall i :: 0 <= i < |xs| ==> !keep(xs[i])) ==> Filter(xs, keep) == []
  {
    if forall i :: 0 <= i < |xs| ==> keep(xs[i]) {
      FilterAll(xs, keep);
    }
    if forall i :: 0 <= i < |xs| ==> !keep(xs[i]) {
      FilterNothing(xs, keep);
    }
  }

  lemma {:induction false} FilterAll<T>(xs: seq<T>, keep: T -> bool)
    requires forall i :: 0 <= i < |xs| ==> keep(xs[i])
    ensures Filter(xs, keep) == xs
    decreases |xs|
  {
    if |xs| > 0 {
      assert forall i :: 0 <= i < |xs[1..]| ==> xs[1..][i] == xs[i + 1];
      FilterAll(xs[1..], keep);
      assert Filter(xs, keep) == [xs[0]] + xs[1..];
    }
  }

  lemma {:induction false} FilterNothing<T>(xs: seq<T>, keep: T -> bool)
    requires forall i :: 0 <= i < |xs| ==> !keep(xs[i])
    ensures Filter(xs, keep) == []
    decreases |xs|
  {
    if |xs| > 0 {
      assert forall i :: 0 <= i < |xs[1..]| ==> xs[1..][i] == xs[i + 1];
      FilterNothing(xs[1..], keep);
    }
  }

  /** `Select`. */
  function Map<A, B>(xs: seq<A>, f: A -> B): (r: seq<B>)
    ensures |r| == |xs| && forall i :: 0 <= i < |xs| ==> r[i] == f(xs[i])
  {
    seq(|xs|, i requires 0 <= i < |xs| => f(xs[i]))
  }

  lemma MapConcat<A, B>(a: seq<A>, b: seq<A>, f: A -> B)
    ensures Map(a + b, f) == Map(a, f) + Map(b, f)
  {
  }

  /** `SelectMany` over blocks: the blocks one after the other. */
  function Flatten<T>(xss: seq<seq<T>>): (r: seq<T>)
    decreases |xss|
  {
    if |xss| == 0 then [] else xss[0] + Flatten(xss[1..])
  }

  lemma {:induction false} FlattenConcat<T>(a: seq<seq<T>>, b: seq<seq<T>>)
    ensures Flatten(a + b) == Flatten(a) + Flatten(b)
    decreases |a|
  {
    if |a| > 0 {
      assert (a + b)[1..] == a[1..] + b;
      FlattenConcat(a[1..], b);
    } else {
      assert a + b == b;
    }
  }

  /** Block `k` appears whole in the flattening, right after the blocks
      before it. */
  lemma {:induction false} FlattenBlock<T>(xss: seq<seq<T>>, k: nat)
    requires k < |xss|
    ensures var off := |Flatten(xss[..k])|;
            off + |xss[k]| <= |Flatten(xss)| && Flatten(xss)[off..off + |xss[k]|] == xss[k]
  {
    assert xss == xss[..k] + [xss[k]] + xss[k + 1..];
    FlattenConcat(xss[..k] + [xss[k]], xss[k + 1..]);
    FlattenConcat(xss[..k], [xss[k]]);
    assert Flatten([xss[k]]) == xss[k] + Flatten([xss[k]][1..]);
  }

  /** Every element of a block is an element of the flattening. */
  lemma FlattenMember<T>(xss: seq<seq<T>>, k: nat, x: T)
    requires k < |xss| && x in xss[k]
    ensures x in Flatten(xss)
  {
    FlattenBlock(xss, k);
    var off := |Flatten(xss[..k])|;
    var j :| 0 <= j < |xss[k]| && xss[k][j] == x;
    assert Flatten(xss)[off + j] == x;
  }

  /** Filtering blocks that each keep exactly one element keeps those
      elements, one per block, in order. */
  lemma {:induction false} FilterFlattenMap<A, B>(xs: seq<A>, f: A -> seq<B>, keep: B -> bool, g: A -> B)
    requires forall a :: Filter(f(a), keep) == [g(a)]
    ensures Filter(Flatten(Map(xs, f)), keep) == Map(xs, g)
    decreases |xs|
  {
    if |xs| > 0 {
      var blocks := Map(xs, f);
      var rest := Flatten(Map(xs[1..], f));
      assert blocks[1..] == Map(xs[1..], f);
      assert Flatten(blocks) == f(xs[0]) + rest;
      calc {
        Filter(Flatten(blocks), keep);
        Filter(f(xs[0]) + rest, keep);
        { FilterConcat(f(xs[0]), rest, keep); }
        Filter(f(xs[0]), keep) + Filter(rest, keep);
        { FilterFlattenMap(xs[1..], f, keep, g); }
        [g(xs[0])] + Map(xs[1..], g);
      }
      assert Map(xs, g) == [g(xs[0])] + Map(xs[1..], g);
    }
  }

  /** An element of the flattened blocks comes from the block of some
      element, and every block's elements are in it. */
  lemma {:induction false} FlattenMapMember<A, B>(xs: seq<A>, f: A -> seq<B>, y: B)
    ensures y in Flatten(Map(xs, f)) <==> exists i :: 0 <= i < |xs| && y in f(xs[i])
    decreases |xs|
  {
    if |xs| > 0 {
      assert Map(xs, f) == [f(xs[0])] + Map(xs[1..], f);
      assert Flatten(Map(xs, f)) == f(xs[0]) + Flatten(Map(xs[1..], f));
      FlattenMapMember(xs[1..], f, y);
      if exists i :: 0 <= i < |xs[1..]| && y in f(xs[1..][i]) {
        var i :| 0 <= i < |xs[1..]| && y in f(xs[1..][i]);
        assert xs[i + 1] == xs[1..][i];
      }
      if exists i :: 0 <= i < |xs| && y in f(xs[i]) {
        var i :| 0 <= i < |xs| && y in f(xs[i]);
        if i > 0 {
          assert xs[1..][i - 1] == xs[i];
        }
      }
    }
  }
}

=== FILE: string_builder.dfy ===
/** The `StringBuilder` extension methods: appending a line indented by a
    number of spaces, appending several values joined by a postfix and a
    CR LF, and appending a value with a tab before or after it. The builder
    is its text so far; `nl` is `Environment.NewLine`, which `AppendLine`
    adds. */
module StringBuilder {
  import opened Wrappers
  import opened Text

  /** `new string(' ', spaces)`, which throws for a negative count. */
  function SpaceString(spaces: int): (r: Result<string>)
    ensures spaces < 0 <==> r.Err?
    ensures r.Err? ==> r.error == ArgumentOutOfRangeException
    ensures r.Ok? ==> |r.value| == spaces && forall i :: 0 <= i < spaces ==> r.value[i] == ' '
  {
    if spaces < 0 then Err(ArgumentOutOfRangeException) else Ok(Spaces(spaces))
  }

  /** `AppendLine(sb, spaces, value)`: the spaces, the value, then a newline.
      A negative count throws before anything is appended. */
  function AppendIndented(sb: string, spaces: int, value: string, nl: string): (r: Result<string>)
    ensures spaces < 0 <==> r.Err?
    ensures r.Ok? ==>
      && |r.value| == |sb| + spaces + |value| + |nl|
      && r.value[..|sb|] == sb
      && (forall i :: |sb| <= i < |sb| + spaces ==> r.value[i] == ' ')
      && r.value[|sb| + spaces..] == value + nl
  {
    var pad :- SpaceString(spaces);
    Ok(sb + pad + value + nl)
  }

  /** `AppendLines(sb, values, postFix)`: the values with `postFix` and a
      CR LF between neighbours (never after the last), then one newline. */
  function AppendLines(sb: string, values: seq<string>, postFix: string, nl: string): (r: string)
    ensures |values| == 0 ==> r == sb + nl
    ensures |r| >= |sb| + |nl| && r[..|sb|] == sb && r[|r| - |nl|..] == nl
  {
    sb + Join(values, postFix + "\r\n") + nl
  }

  /** The appended block splits back into the values at the postfix and
      CR LF, provided no value holds the first character of that separator. */
  lemma AppendLinesSplits(sb: string, values: seq<string>, postFix: string, nl: string)
    requires |values| > 0
    requires forall i :: 0 <= i < |values| ==> (postFix + "\r\n")[0] !in values[i]
    ensures var r := AppendLines(sb, values, postFix, nl);
            SplitOn(r[|sb|..|r| - |nl|], postFix + "\r\n") == values
  {
    var r := AppendLines(sb, values, postFix, nl);
    assert r[|sb|..|r| - |nl|] == Join(values, postFix + "\r\n");
    JoinSplit(values, postFix + "\r\n");
  }

  /** Each value behind the same number of spaces. */
  function Indented(spaces: nat, values: seq<string>): (r: seq<string>)
    ensures |r| == |values| && forall i :: 0 <= i < |values| ==> r[i] == Spaces(spaces) + values[i]
  {
    seq(|values|, i requires 0 <= i < |values| => Spaces(spaces) + values[i])
  }

  /** `AppendLines(sb, spaces, values, postFix)`: every value gets the same
      number of spaces in front before the join. The padding is built
      lazily, once per value, so a negative count throws only when there is
      a value to pad. */
  function AppendIndentedLines(sb: string, spaces: int, values: seq<string>, postFix: string, nl: string): (r: Result<string>)
    ensures r.Err? <==> spaces < 0 && |values| > 0
    ensures r.Ok? && |values| == 0 ==> r.value == sb + nl
    ensures r.Ok? && spaces >= 0 ==> r.value == AppendLines(sb, Indented(spaces, values), postFix, nl)
  {
    if |values| == 0 then Ok(AppendLines(sb, [], postFix, nl))
    else if spaces < 0 then Err(ArgumentOutOfRangeException)
    else Ok(AppendLines(sb, Indented(spaces, values), postFix, nl))
  }

  /** `AppendWithPrefixedTab(value)`: a tab, the value, a newline. */
  function AppendWithPrefixedTab(sb: string, value: string, nl: string): (r: string)
    ensures |r| == |sb| + 1 + |value| + |nl|
    ensures r[..|sb|] == sb && r[|sb|] == '\t' && r[|sb| + 1..|sb| + 1 + |value|] == value
    ensures r[|sb| + 1 + |value|..] == nl
  {
    sb + "\t" + value + nl
  }

  /** `AppendWithSuffixedTab(value)`: the value, a tab, a newline. */
  function AppendWithSuffixedTab(sb: string, value: string, nl: string): (r: string)
    ensures |r| == |sb| + |value| + 1 + |nl|
    ensures r[..|sb|] == sb && r[|sb|..|sb| + |value|] == value && r[|sb| + |value|] == '\t'
    ensures r[|sb| + |value| + 1..] == nl
  {
    sb + value + "\t" + nl
  }
}

=== FILE: string_extensions.dfy ===
/** The string helpers the emitters use for identifiers: camel-casing (the
    Humanizer regular expression `(?:^|_| +)(.)`), trimming a set of leading
    or trailing characters, and turning a generic type name into a safe
    class name. */
module StringExtensions {
  import opened Wrappers
  import opened Text

  /** Length of the run of spaces at the start of `s`. */
  function SpaceRun(s: string): (k: nat)
    ensures k <= |s|
    ensures forall i :: 0 <= i < k ==> s[i] == ' '
    ensures k < |s| ==> s[k] != ' '
    decreases |s|
  {
    if |s| > 0 && s[0] == ' ' then 1 + SpaceRun(s[1..]) else 0
  }

  /** `Regex.Replace(s, "(?:^|_| +)(.)", m => m.Groups[1].Value.ToUpper())`,
      scanning from a position that is (`atStart`) or is not the start of the
      input. At each position the alternatives are tried in order: the start
      anchor, an underscore, then a greedy run of spaces that gives one space
      back when nothing follows it. `.` matches anything but a line feed. */
  function CamelReplace(s: string, atStart: bool): (r: string)
    ensures |r| <= |s|
    decreases |s|
  {
    if |s| == 0 then ""
    else if atStart && s[0] != '\n' then [UpperChar(s[0])] + CamelReplace(s[1..], false)
    else if s[0] == '_' && |s| >= 2 && s[1] != '\n' then [UpperChar(s[1])] + CamelReplace(s[2..], false)
    else if s[0] == ' ' then
      var k := SpaceRun(s);
      if k < |s| && s[k] != '\n' then [UpperChar(s[k])] + CamelReplace(s[k + 1..], false)
      else if k >= 2 then [' '] + CamelReplace(s[k..], false)
      else [s[0]] + CamelReplace(s[1..], false)
    else [s[0]] + CamelReplace(s[1..], false)
  }

  /** `ToCamelCase`: the replacement above, then the first character lower-cased. */
  function ToCamelCase(s: string): (r: string)
    ensures |s| == 0 ==> r == ""
    ensures |r| <= |s|
  {
    var word := CamelReplace(s, true);
    if |word| > 0 then [LowerChar(word[0])] + word[1..] else word
  }

  predicate HasNoSeparator(s: string)
  {
    forall i :: 0 <= i < |s| ==> s[i] != '_' && s[i] != ' '
  }

  /** Away from the start, characters that are neither `_` nor a space are
      copied unchanged, whatever follows them. */
  lemma {:induction false} CamelCopiesPlainPrefix(x: string, t: string)
    requires HasNoSeparator(x)
    ensures CamelReplace(x + t, false) == x + CamelReplace(t, false)
    decreases |x|
  {
    if |x| > 0 {
      assert (x + t)[0] == x[0];
      assert (x + t)[1..] == x[1..] + t;
      CamelCopiesPlainPrefix(x[1..], t);
      assert [x[0]] + (x[1..] + CamelReplace(t, false)) == x + CamelReplace(t, false);
    } else {
      assert x + t == t;
    }
  }

  /** An underscore followed by a character other than a line feed is
      dropped and that character upper-cased. */
  lemma CamelUnderscore(c: char, rest: string)
    requires c != '\n'
    ensures CamelReplace(['_', c] + rest, false) == [UpperChar(c)] + CamelReplace(rest, false)
  {
    assert (['_', c] + rest)[2..] == rest;
  }

  /** A run of spaces followed by a character that is neither a space nor a
      line feed is dropped and that character upper-cased. */
  lemma CamelSpaces(k: nat, c: char, rest: string)
    requires k >= 1 && c != ' ' && c != '\n'
    ensures CamelReplace(Spaces(k) + [c] + rest, false) == [UpperChar(c)] + CamelReplace(rest, false)
  {
    var s := Spaces(k) + [c] + rest;
    assert s[k] == c;
    assert SpaceRun(s) == k;
    assert s[k + 1..] == rest;
  }

  lemma LowerOfUpper(c: char)
    ensures LowerChar(UpperChar(c)) == LowerChar(c)
  {
  }

  /** A name with no `_` and no space only has its first character
      lower-cased: "FirstName" becomes "firstName". */
  lemma CamelPlainName(s: string)
    requires |s| > 0 && HasNoSeparator(s)
    ensures ToCamelCase(s) == [LowerChar(s[0])] + s[1..]
  {
    assert s == [s[0]] + s[1..];
    CamelCopiesPlainPrefix(s[1..], "");
    assert s[1..] + "" == s[1..];
    LowerOfUpper(s[0]);
  }

  lemma CamelFirstName()
    ensures ToCamelCase("FirstName") == "firstName"
  {
    CamelPlainName("FirstName");
  }

  /** "first_name" becomes "firstName". */
  lemma CamelSnakeCase()
    ensures ToCamelCase("first_name") == "firstName"
  {
    var s := "first_name";
    assert s[1..] == "irst" + (['_', 'n'] + "ame");
    CamelCopiesPlainPrefix("irst", ['_', 'n'] + "ame");
    CamelUnderscore('n', "ame");
    CamelCopiesPlainPrefix("ame", "");
    assert "ame" + "" == "ame";
    assert CamelReplace(s, true) == "FirstName";
  }

  /** Drops the longest prefix whose characters satisfy `strip`. */
  function TrimStartBy(s: string, strip: char -> bool): (r: string)
    ensures |r| <= |s| && r == s[|s| - |r|..]
    ensures forall i :: 0 <= i < |s| - |r| ==> strip(s[i])
    ensures |r| > 0 ==> !strip(r[0])
    decreases |s|
  {
    if |s| > 0 && strip(s[0]) then TrimStartBy(s[1..], strip) else s
  }

  /** Drops the longest suffix whose characters satisfy `strip`. */
  function TrimEndBy(s: string, strip: char -> bool): (r: string)
    ensures |r| <= |s| && r == s[..|r|]
    ensures forall i :: |r| <= i < |s| ==> strip(s[i])
    ensures |r| > 0 ==> !strip(r[|r| - 1])
    decreases |s|
  {
    if |s| > 0 && strip(s[|s| - 1]) then TrimEndBy(s[..|s| - 1], strip) else s
  }

  /** `string.Trim()`: white space removed at both ends. */
  function Trim(s: string): (r: string)
  {
    TrimEndBy(TrimStartBy(s, IsWhiteSpace), IsWhiteSpace)
  }

  /** `TrimStart(chars)`; an empty character set trims white space instead. */
  function TrimStartChars(s: string, chars: seq<char>): string
  {
    if |chars| == 0 then TrimStartBy(s, IsWhiteSpace) else TrimStartBy(s, c => c in chars)
  }

  /** `TrimEnd(chars)`; an empty character set trims white space instead. */
  function TrimEndChars(s: string, chars: seq<char>): string
  {
    if |chars| == 0 then TrimEndBy(s, IsWhiteSpace) else TrimEndBy(s, c => c in chars)
  }

  /** `RemoveLeadingCharacters`: null or empty input comes back as it is;
      otherwise the input is trimmed and then the leading run of the given
      characters is stripped. */
  function RemoveLeadingCharacters(input: Option<string>, chars: seq<char>): (r: Option<string>)
    ensures input.None? || input.value == "" ==> r == input
    ensures input.Some? && input.value != "" ==>
      var t := Trim(input.value);
      && r.Some? && |r.value| <= |t| && r.value == t[|t| - |r.value|..]
      && (|chars| > 0 ==> (forall i :: 0 <= i < |t| - |r.value| ==> t[i] in chars)
                          && (|r.value| > 0 ==> r.value[0] !in chars))
  {
    if input.None? || input.value == "" then input
    else Some(TrimStartChars(Trim(input.value), chars))
  }

  /** `RemoveTrailingCharacters`: null or empty input comes back as it is;
      otherwise the input is trimmed and then the trailing run of the given
      characters is stripped, so the result ends in none of them. */
  function RemoveTrailingCharacters(input: Option<string>, chars: seq<char>): (r: Option<string>)
    ensures input.None? || input.value == "" ==> r == input
    ensures input.Some? && input.value != "" ==>
      var t := Trim(input.value);
      && r.Some? && |r.value| <= |t| && r.value == t[..|r.value|]
      && (|chars| > 0 ==> (forall i :: |r.value| <= i < |t| ==> t[i] in chars)
                          && (|r.value| > 0 ==> r.value[|r.value| - 1] !in chars))
  {
    if input.None? || input.value == "" then input
    else Some(TrimEndChars(Trim(input.value), chars))
  }

  /** A string that neither starts nor ends with white space is its own trim. */
  lemma TrimUntouched(s: string)
    requires |s| > 0 && !IsWhiteSpace(s[0]) && !IsWhiteSpace(s[|s| - 1])
    ensures Trim(s) == s
  {
  }

  /** Stripping a leading run stops exactly at the first character that is
      not stripped. */
  lemma TrimStartByStopsAt(x: string, t: string, strip: char -> bool)
    requires forall i :: 0 <= i < |x| ==> strip(x[i])
    requires |t| > 0 && !strip(t[0])
    ensures TrimStartBy(x + t, strip) == t
  {
    var s := x + t;
    var k := |s| - |TrimStartBy(s, strip)|;
    assert s[|x|] == t[0];
    assert k == |x|;
    assert s[|x|..] == t;
  }

  /** Stripping a trailing run stops exactly at the last character that is
      not stripped. */
  lemma TrimEndByStopsAt(t: string, x: string, strip: char -> bool)
    requires forall i :: 0 <= i < |x| ==> strip(x[i])
    requires |t| > 0 && !strip(t[|t| - 1])
    ensures TrimEndBy(t + x, strip) == t
  {
    var s := t + x;
    var n := |TrimEndBy(s, strip)|;
    assert s[|t| - 1] == t[|t| - 1];
    assert n == |t|;
    assert s[..|t|] == t;
  }

  /** With a non-empty character set, a run of those characters in front of
      a trimmed word is removed and the word is kept whole. */
  lemma RemoveLeadingRun(x: string, t: string, chars: seq<char>)
    requires |chars| > 0
    requires forall i :: 0 <= i < |x| ==> x[i] in chars
    requires |t| > 0 && t[0] !in chars
    requires !IsWhiteSpace((x + t)[0]) && !IsWhiteSpace(t[|t| - 1])
    ensures RemoveLeadingCharacters(Some(x + t), chars) == Some(t)
  {
    assert (x + t)[|x + t| - 1] == t[|t| - 1];
    TrimUntouched(x + t);
    LeadingRunStops(x, t, chars);
  }

  lemma LeadingRunStops(x: string, t: string, chars: seq<char>)
    requires |chars| > 0
    requires forall i :: 0 <= i < |x| ==> x[i] in chars
    requires |t| > 0 && t[0] !in chars
    ensures TrimStartChars(x + t, chars) == t
  {
    TrimStartByStopsAt(x, t, c => c in chars);
  }

  /** With a non-empty character set, a run of those characters after a
      trimmed word is removed and the word is kept whole. */
  lemma RemoveTrailingRun(t: string, x: string, chars: seq<char>)
    requires |chars| > 0
    requires forall i :: 0 <= i < |x| ==> x[i] in chars
    requires |t| > 0 && t[|t| - 1] !in chars
    requires !IsWhiteSpace(t[0]) && !IsWhiteSpace((t + x)[|t + x| - 1])
    ensures RemoveTrailingCharacters(Some(t + x), chars) == Some(t)
  {
    assert (t + x)[0] == t[0];
    TrimUntouched(t + x);
    TrailingRunStops(t, x, chars);
  }

  lemma TrailingRunStops(t: string, x: string, chars: seq<char>)
    requires |chars| > 0
    requires forall i :: 0 <= i < |x| ==> x[i] in chars
    requires |t| > 0 && t[|t| - 1] !in chars
    ensures TrimEndChars(t + x, chars) == t
  {
    TrimEndByStopsAt(t, x, c => c in chars);
  }

  /** A character that a C# class name cannot hold. */
  predicate IsGenericPunctuation(c: char)
  {
    c == ',' || c == '<' || c == '>'
  }

  /** `ToSafeClassName`: `Regex.Replace(value, "[,<>]", "_")`. */
  function ToSafeClassName(s: string): (r: string)
    ensures |r| == |s|
    ensures forall i :: 0 <= i < |s| && IsGenericPunctuation(s[i]) ==> r[i] == '_'
    ensures forall i :: 0 <= i < |s| && !IsGenericPunctuation(s[i]) ==> r[i] == s[i]
    ensures forall i :: 0 <= i < |r| ==> !IsGenericPunctuation(r[i])
  {
    seq(|s|, i requires 0 <= i < |s| => if IsGenericPunctuation(s[i]) then '_' else s[i])
  }

  /** Making a name safe twice changes nothing more. */
  lemma SafeClassNameIdempotent(s: string)
    ensures ToSafeClassName(ToSafeClassName(s)) == ToSafeClassName(s)
  {
  }
}

=== FILE: symbols.dfy ===
/** The parts of the compiler's symbol model that the generators read,
    as plain immutable values. A type symbol is described by its flags and
    names; a named type additionally by its type parameters, its chain of
    base types (each with the namespace it is declared in and its property
    members in member order), its methods and its declaring syntax. */
module Symbols {
  import opened Wrappers

  datatype TypeKind =
    | ClassKind
    | InterfaceKind
    | StructKind
    | EnumKind
    | DelegateKind
    | ArrayKind
    | TypeParameterKind
    | OtherKind

  /** `Microsoft.CodeAnalysis.Accessibility`. */
  datatype Accessibility =
    | NotApplicable
    | Private
    | ProtectedAndInternal
    | Protected
    | Internal
    | ProtectedOrInternal
    | Public

  /** The accessibility modifiers of C# that are a single word. */
  const SingleWordModifiers: set<string> := {"public", "internal", "private", "protected"}

  /** `Accessibility.ToString().ToLowerInvariant()`: the enum member's name in
      lower case. That is a C# modifier only for the four plain levels; the
      compound levels and `NotApplicable` print words C# does not have
      (`protected internal` and `private protected` are two words). */
  function AccessibilityKeyword(a: Accessibility): (r: string)
    ensures a == Public ==> r == "public"
    ensures a == Internal ==> r == "internal"
    ensures a == Private ==> r == "private"
    ensures a == Protected ==> r == "protected"
    ensures a == ProtectedAndInternal ==> r == "protectedandinternal"
    ensures a == ProtectedOrInternal ==> r == "protectedorinternal"
    ensures a == NotApplicable ==> r == "notapplicable"
    ensures r in SingleWordModifiers <==> a in {Public, Internal, Private, Protected}
  {
    match a
    case NotApplicable => "notapplicable"
    case Private => "private"
    case ProtectedAndInternal => "protectedandinternal"
    case Protected => "protected"
    case Internal => "internal"
    case ProtectedOrInternal => "protectedorinternal"
    case Public => "public"
  }

  /** `SpecialType`: `None` for every type the compiler has no special
      knowledge of, otherwise the name of the special type. */
  datatype SpecialType = NoSpecialType | Special(name: string)

  /** The class of an attribute: its short name and its full display name. */
  datatype AttributeClass = AttributeClass(name: string, displayName: string)

  /** One applied attribute. The class can be missing (an unresolved
      attribute); the constructor arguments are the integer values given. */
  datatype AttributeData = AttributeData(attributeClass: Option<AttributeClass>, constructorArguments: seq<int>)

  /** An `ITypeSymbol`. `typeArgumentKinds` are the kinds of the type
      arguments of a named generic type. A namespace is given by its display
      name; `None` means there is none. */
  datatype TypeRef = TypeRef(
    name: string,
    kind: TypeKind,
    isNamedType: bool,
    isValueType: bool,
    isReferenceType: bool,
    specialType: SpecialType,
    containingNamespace: Option<string>,
    isAbstract: bool,
    isSealed: bool,
    isRecord: bool,
    canBeReferencedByName: bool,
    isGenericType: bool,
    typeArgumentKinds: seq<TypeKind>,
    attributes: seq<AttributeData>,
    fullyQualifiedName: string,
    displayString: string)

  /** An `IPropertySymbol`: the accessors are present or not, each with its
      declared accessibility. */
  datatype PropertySymbol = PropertySymbol(
    name: string,
    propertyType: TypeRef,
    getMethod: Option<Accessibility>,
    setMethod: Option<Accessibility>,
    isReadOnly: bool,
    isIndexer: bool,
    attributes: seq<AttributeData>)

  /** A constraint type of a type parameter: its kind and fully qualified name. */
  datatype ConstraintType = ConstraintType(kind: TypeKind, fullyQualifiedName: string)

  /** An `ITypeParameterSymbol` with its constraint flags. */
  datatype TypeParameter = TypeParameter(
    name: string,
    hasUnmanagedTypeConstraint: bool,
    hasNotNullConstraint: bool,
    hasReferenceTypeConstraint: bool,
    referenceTypeConstraintAnnotated: bool,
    hasValueTypeConstraint: bool,
    constraintTypes: seq<ConstraintType>,
    hasConstructorConstraint: bool)

  /** One type of a base chain: the namespace it is declared in, as the
      sequence of its names from the outermost (empty for the global
      namespace), and its property members in member order. */
  datatype Level = Level(namespacePath: seq<string>, properties: seq<PropertySymbol>)

  /** A declaring syntax node: whether it is a class declaration (not a
      record, struct or interface declaration) and whether it carries `partial`. */
  datatype Declaration = Declaration(isClassDeclaration: bool, hasPartialModifier: bool)

  datatype RefKind = NoRef | Ref | Out | In

  /** An `IMethodSymbol` member: its name, whether it is static, and the ref
      kinds of its parameters. */
  datatype MethodSymbol = MethodSymbol(name: string, isStatic: bool, parameterRefKinds: seq<RefKind>)

  /** An `INamedTypeSymbol`. `levels[0]` is the type itself and each further
      level is the base type of the one before. */
  datatype NamedTypeSymbol = NamedTypeSymbol(
    self: TypeRef,
    typeParameters: seq<TypeParameter>,
    levels: seq<Level>,
    methods: seq<MethodSymbol>,
    declarations: seq<Declaration>,
    declaredAccessibility: Accessibility)
}

=== FILE: task_manager_generator.dfy ===
/** The task-manager generator: every type marked `AutoTaskManager` is
    selected with an empty property list; the extension-method exclusion
    is computed as in the other generators. The task-manager emitter itself
    is a parameter. */
module TaskManagerGenerator {
  import opened Wrappers
  import opened Text
  import opened Symbols
  import opened Models
  import opened Sequences
  import opened Emission
  import opened Pipelines
  import Constants

  const OverrideName: string := "TaskManager"
  const HintPrefix: string := "ArxRiver."

  function Selector(): (f: Option<NamedTypeSymbol> -> Result<Option<TypeSymbolModel>>)
    ensures forall s :: f(s) == Ok(SelectPlain(s, Constants.AutoTaskManagerAttributeFullPath))
  {
    s => Ok(SelectPlain(s, Constants.AutoTaskManagerAttributeFullPath))
  }

  function Excluder(): (f: MethodDeclaration -> Result<Option<TypeSymbolModel>>)
    ensures forall m :: f(m) == SelectExcluded(m, OverrideName)
  {
    m => SelectExcluded(m, OverrideName)
  }

  function Generate(types: seq<Option<NamedTypeSymbol>>, methods: seq<MethodDeclaration>,
                    build: TypeSymbolModel -> Result<Document>): (r: Result<Output>)
  {
    var selected := Collect(Map(types, Selector()));
    var excluded := Collect(Map(methods, Excluder()));
    if selected.Err? then Err(selected.error)
    else if excluded.Err? then Err(excluded.error)
    else Run(selected.value, excluded.value, HintPrefix, build)
  }

  /** Selected models carry no properties while a covering method needs at
      least one out-parameter, so no selected model is ever covered. */
  lemma ExclusionNeverMatches(types: seq<Option<NamedTypeSymbol>>, methods: seq<MethodDeclaration>)
    requires Collect(Map(methods, Excluder())).Ok?
    ensures Collect(Map(types, Selector())).Ok?
    ensures var selected := Collect(Map(types, Selector())).value;
            var excluded := Collect(Map(methods, Excluder())).value;
            && (forall t :: t in selected ==> t.accessibleProperties == [])
            && (forall t :: t in excluded ==> |t.accessibleProperties| > 0)
            && Filter(Distinct(selected), NotIn(excluded)) == Distinct(selected)
  {
    PlainModelsBare(types, Constants.AutoTaskManagerAttributeFullPath, Selector());
    CoveredModelsHaveProperties(methods, OverrideName, Excluder());
    var selected := Collect(Map(types, Selector())).value;
    var excluded := Collect(Map(methods, Excluder())).value;
    FilterAllOrNothing(Distinct(selected), NotIn(excluded));
  }

  /** Hence a successful run writes one file per distinct marked type, in
      order, named "ArxRiver." + its safe name + ".g.cs". */
  lemma EveryMarkedTypeWritten(types: seq<Option<NamedTypeSymbol>>, methods: seq<MethodDeclaration>,
                               build: TypeSymbolModel -> Result<Document>)
    requires Generate(types, methods, build).Ok?
    ensures var selected := Collect(Map(types, Selector())).value;
            var out := Generate(types, methods, build).value;
            && BuildsOk(build, Distinct(selected))
            && out.artifacts == Artifacts(HintPrefix, build, Distinct(selected))
            && out.diagnostics == PartialWarnings(selected)
  {
    var selected := Collect(Map(types, Selector())).value;
    var excluded := Collect(Map(methods, Excluder())).value;
    ExclusionNeverMatches(types, methods);
    CreateOutputSpec(selected, excluded, HintPrefix, build);
  }
}

=== FILE: text.dfy ===
/** Character and string primitives shared by the whole model. Each stands
    for the ordinal behaviour of a .NET string method: `string.Join`,
    `string.Split(string[], StringSplitOptions.None)`, `string.Replace`,
    `string.Contains`, `StartsWith(..., IgnoreCase)` and `char.IsWhiteSpace`.
    Casing is ASCII only. */
module Text {

  predicate IsAsciiLower(c: char)
  {
    'a' <= c <= 'z'
  }

  predicate IsAsciiUpper(c: char)
  {
    'A' <= c <= 'Z'
  }

  /** `char.ToUpper` restricted to ASCII letters; every other character is kept. */
  function UpperChar(c: char): char
  {
    if IsAsciiLower(c) then (c as int - 32) as char else c
  }

  /** `char.ToLower` restricted to ASCII letters; every other character is kept. */
  function LowerChar(c: char): char
  {
    if IsAsciiUpper(c) then (c as int + 32) as char else c
  }

  /** Two characters are equal when case is ignored. */
  predicate SameIgnoringCase(a: char, b: char)
  {
    UpperChar(a) == UpperChar(b)
  }

  /** `s` starts with `prefix` when case is ignored. */
  predicate StartsWithIgnoreCase(s: string, prefix: string)
  {
    |prefix| <= |s| && forall i :: 0 <= i < |prefix| ==> SameIgnoringCase(s[i], prefix[i])
  }

  /** `char.IsWhiteSpace`: the Unicode space separators, line and paragraph
      separators, and the control characters U+0009..U+000D, U+0085. */
  predicate IsWhiteSpace(c: char)
  {
    c == ' ' || ('\t' <= c <= '\r') || c == '\U{0085}' || c == '\U{00A0}' || c == '\U{1680}'
    || ('\U{2000}' <= c <= '\U{200A}') || c == '\U{2028}' || c == '\U{2029}' || c == '\U{202F}'
    || c == '\U{205F}' || c == '\U{3000}'
  }

  /** `string.IsNullOrWhiteSpace` for a non-null string. */
  predicate IsAllWhiteSpace(s: string)
  {
    forall i :: 0 <= i < |s| ==> IsWhiteSpace(s[i])
  }

  /** `Equals(a, b, StringComparison.InvariantCultureIgnoreCase)`. */
  predicate EqualsIgnoreCase(a: string, b: string)
  {
    |a| == |b| && StartsWithIgnoreCase(a, b)
  }

  /** A concatenation is all white space exactly when both parts are. */
  lemma WhiteSpaceConcat(a: string, b: string)
    ensures IsAllWhiteSpace(a + b) <==> IsAllWhiteSpace(a) && IsAllWhiteSpace(b)
  {
    assert forall i :: 0 <= i < |a| ==> (a + b)[i] == a[i];
    assert forall i :: 0 <= i < |b| ==> (a + b)[|a| + i] == b[i];
    if IsAllWhiteSpace(a) && IsAllWhiteSpace(b) {
      forall i | 0 <= i < |a + b| ensures IsWhiteSpace((a + b)[i]) {
        if i >= |a| { assert (a + b)[i] == b[i - |a|]; }
      }
    }
  }

  lemma {:induction false} WhiteSpaceRepeat(s: string, n: nat)
    requires IsAllWhiteSpace(s)
    ensures IsAllWhiteSpace(Repeat(s, n))
  {
    if n > 0 {
      WhiteSpaceRepeat(s, n - 1);
      WhiteSpaceConcat(s, Repeat(s, n - 1));
    }
  }

  /** `n` copies of `s` (`new string(' ', n)` when `s` is a single space). */
  function Repeat(s: string, n: nat): (r: string)
    ensures |r| == n * |s|
  {
    if n == 0 then "" else s + Repeat(s, n - 1)
  }

  /** `new string(' ', n)`. */
  function Spaces(n: nat): (r: string)
    ensures |r| == n && forall i :: 0 <= i < n ==> r[i] == ' '
  {
    seq(n, _ => ' ')
  }

  /** `string.Contains`: ordinal substring search. */
  predicate IsSubstring(needle: string, hay: string)
  {
    exists i :: 0 <= i <= |hay| - |needle| && OccursAt(needle, hay, i)
  }

  /** `needle` occurs in `hay` starting at index `i`. */
  predicate OccursAt(needle: string, hay: string, i: int)
    requires 0 <= i <= |hay| - |needle|
  {
    hay[i..i + |needle|] == needle
  }

  /** `string.Join(sep, xs)`: `sep` between neighbours, never after the last. */
  function Join(xs: seq<string>, sep: string): string
  {
    if |xs| == 0 then ""
    else if |xs| == 1 then xs[0]
    else xs[0] + sep + Join(xs[1..], sep)
  }

  lemma JoinCons(x: string, xs: seq<string>, sep: string)
    requires |xs| > 0
    ensures Join([x] + xs, sep) == x + sep + Join(xs, sep)
  {
    assert ([x] + xs)[1..] == xs;
  }

  /** `Join` of a sequence that has one more element at the end appends the
      separator and that element. */
  lemma {:induction false} JoinSnoc(xs: seq<string>, x: string, sep: string)
    requires |xs| > 0
    ensures Join(xs + [x], sep) == Join(xs, sep) + sep + x
    decreases |xs|
  {
    if |xs| == 1 {
      assert xs + [x] == [xs[0]] + [x];
      JoinCons(xs[0], [x], sep);
    } else {
      assert xs + [x] == [xs[0]] + (xs[1..] + [x]);
      JoinCons(xs[0], xs[1..] + [x], sep);
      JoinSnoc(xs[1..], x, sep);
      assert xs == [xs[0]] + xs[1..];
      JoinCons(xs[0], xs[1..], sep);
    }
  }

  /** Splitting with the piece collected so far in `cur`: the scan that
      `string.Split(new[] { sep }, StringSplitOptions.None)` performs. */
  function SplitFrom(s: string, sep: string, cur: string): (r: seq<string>)
    requires |sep| > 0
    ensures |r| >= 1
    decreases |s|
  {
    if |s| == 0 then [cur]
    else if sep <= s then [cur] + SplitFrom(s[|sep|..], sep, "")
    else SplitFrom(s[1..], sep, cur + [s[0]])
  }

  /** The pieces of `s` between the occurrences of `sep`, empty pieces
      included. There is always at least one piece. */
  function SplitOn(s: string, sep: string): (r: seq<string>)
    requires |sep| > 0
    ensures |r| >= 1
  {
    SplitFrom(s, sep, "")
  }

  lemma {:induction false} SplitFromJoin(s: string, sep: string, cur: string)
    requires |sep| > 0
    ensures Join(SplitFrom(s, sep, cur), sep) == cur + s
    decreases |s|
  {
    if |s| == 0 {
    } else if sep <= s {
      SplitFromJoin(s[|sep|..], sep, "");
      SeparatorStep(s, sep, cur);
    } else {
      SplitFromJoin(s[1..], sep, cur + [s[0]]);
      CharacterStep(s, sep, cur);
    }
  }

  lemma SeparatorStep(s: string, sep: string, cur: string)
    requires |sep| > 0 && |s| > 0 && sep <= s
    requires Join(SplitFrom(s[|sep|..], sep, ""), sep) == "" + s[|sep|..]
    ensures Join(SplitFrom(s, sep, cur), sep) == cur + s
  {
    var rest := SplitFrom(s[|sep|..], sep, "");
    assert SplitFrom(s, sep, cur) == [cur] + rest;
    JoinCons(cur, rest, sep);
    AppendPrefix(cur, sep, s);
  }

  lemma CharacterStep(s: string, sep: string, cur: string)
    requires |sep| > 0 && |s| > 0 && !(sep <= s)
    requires Join(SplitFrom(s[1..], sep, cur + [s[0]]), sep) == cur + [s[0]] + s[1..]
    ensures Join(SplitFrom(s, sep, cur), sep) == cur + s
  {
    assert SplitFrom(s, sep, cur) == SplitFrom(s[1..], sep, cur + [s[0]]);
    AppendFirst(cur, s);
  }

  lemma AppendFirst(cur: string, s: string)
    requires |s| > 0
    ensures cur + [s[0]] + s[1..] == cur + s
  {
    assert [s[0]] + s[1..] == s;
  }

  lemma AppendPrefix(cur: string, sep: string, s: string)
    requires sep <= s
    ensures cur + sep + s[|sep|..] == cur + s
  {
    assert s == sep + s[|sep|..];
  }

  /** Round trip: joining the pieces of a split with the same separator gives
      the original string back. */
  lemma SplitJoin(s: string, sep: string)
    requires |sep| > 0
    ensures Join(SplitOn(s, sep), sep) == s
  {
    SplitFromJoin(s, sep, "");
  }

  /** While no character of `x` can start the separator, the scan just
      collects `x` into the current piece. */
  lemma {:induction false} SplitFromSkip(x: string, t: string, sep: string, cur: string)
    requires |sep| > 0
    requires sep[0] !in x
    ensures SplitFrom(x + t, sep, cur) == SplitFrom(t, sep, cur + x)
    decreases |x|
  {
    if |x| == 0 {
      assert x + t == t;
      assert cur + x == cur;
    } else {
      var s := x + t;
      assert s[0] == x[0] && x[0] != sep[0];
      assert !(sep <= s);
      assert s[1..] == x[1..] + t;
      SplitFromSkip(x[1..], t, sep, cur + [x[0]]);
      assert cur + [x[0]] + x[1..] == cur + x;
    }
  }

  lemma {:induction false} JoinSplitFrom(xs: seq<string>, sep: string, cur: string)
    requires |sep| > 0 && |xs| > 0
    requires forall i :: 0 <= i < |xs| ==> sep[0] !in xs[i]
    ensures SplitFrom(Join(xs, sep), sep, cur) == [cur + xs[0]] + xs[1..]
    decreases |xs|
  {
    if |xs| == 1 {
      SplitFromSkip(xs[0], "", sep, cur);
      assert xs[0] + "" == xs[0];
    } else {
      var j := Join(xs[1..], sep);
      assert Join(xs, sep) == xs[0] + (sep + j);
      SplitFromSkip(xs[0], sep + j, sep, cur);
      assert (sep + j)[|sep|..] == j;
      JoinSplitFrom(xs[1..], sep, "");
      assert "" + xs[1..][0] == xs[1];
      assert [xs[1]] + xs[2..] == xs[1..];
    }
  }

  /** Round trip the other way: splitting a join recovers the elements,
      provided no element contains the separator's first character. */
  lemma JoinSplit(xs: seq<string>, sep: string)
    requires |sep| > 0 && |xs| > 0
    requires forall i :: 0 <= i < |xs| ==> sep[0] !in xs[i]
    ensures SplitOn(Join(xs, sep), sep) == xs
  {
    JoinSplitFrom(xs, sep, "");
    assert "" + xs[0] == xs[0];
    assert [xs[0]] + xs[1..] == xs;
  }

  lemma {:induction false} SplitFromAvoidsSep(s: string, sep: string, cur: string)
    requires |sep| == 1 && sep[0] !in cur
    ensures forall i :: 0 <= i < |SplitFrom(s, sep, cur)| ==> sep[0] !in SplitFrom(s, sep, cur)[i]
    decreases |s|
  {
    if |s| == 0 {
    } else if sep <= s {
      SplitFromAvoidsSep(s[|sep|..], sep, "");
    } else {
      assert s[0] != sep[0];
      SplitFromAvoidsSep(s[1..], sep, cur + [s[0]]);
    }
  }

  /** No piece of a split on a one-character separator contains that character. */
  lemma SplitAvoidsSep(s: string, sep: string)
    requires |sep| == 1
    ensures forall i :: 0 <= i < |SplitOn(s, sep)| ==> sep[0] !in SplitOn(s, sep)[i]
  {
    SplitFromAvoidsSep(s, sep, "");
  }

  /** `string.Replace(old, new)`: every non-overlapping occurrence of `old`,
      scanning left to right, becomes `new`. */
  function Replace(s: string, oldValue: string, newValue: string): string
    requires |oldValue| > 0
  {
    Join(SplitOn(s, oldValue), newValue)
  }

  /** The position of the first occurrence of `x` in `xs`. */
  function IndexOf<T(==)>(xs: seq<T>, x: T): (i: nat)
    requires x in xs
    ensures i < |xs| && xs[i] == x && x !in xs[..i]
    decreases |xs|
  {
    if xs[0] == x then 0
    else
      var i := 1 + IndexOf(xs[1..], x);
      assert xs[..i] == [xs[0]] + xs[1..][..i - 1];
      i
  }

  /** Appending never moves the first occurrence of an element already present. */
  lemma {:induction false} IndexOfPrefix<T>(xs: seq<T>, y: T, x: T)
    requires x in xs
    ensures IndexOf(xs + [y], x) == IndexOf(xs, x)
    decreases |xs|
  {
    if xs[0] != x {
      assert (xs + [y])[1..] == xs[1..] + [y];
      IndexOfPrefix(xs[1..], y, x);
    }
  }

  /** `Enumerable.Distinct`: the first occurrence of each element, in order.
      Every element of the input is kept once, nothing else is added, and
      the kept elements are ordered by where each first occurs. */
  function Distinct<T(==)>(xs: seq<T>): (r: seq<T>)
    ensures forall i :: 0 <= i < |xs| ==> xs[i] in r
    ensures forall i :: 0 <= i < |r| ==> r[i] in xs
    ensures forall i, j :: 0 <= i < j < |r| ==> r[i] != r[j]
    ensures forall i, j :: 0 <= i < j < |r| ==> IndexOf(xs, r[i]) < IndexOf(xs, r[j])
    decreases |xs|
  {
    if |xs| == 0 then []
    else
      var init := xs[..|xs| - 1];
      var x := xs[|xs| - 1];
      assert xs == init + [x];
      var rest := Distinct(init);
      DistinctStep(init, x, rest);
      if x in rest then rest else rest + [x]
  }

  /** One step of `Distinct`: appending an element, kept only if it is new,
      keeps every property of the result, the order by first occurrence
      included. */
  lemma DistinctStep<T>(init: seq<T>, x: T, rest: seq<T>)
    requires forall i :: 0 <= i < |init| ==> init[i] in rest
    requires forall i :: 0 <= i < |rest| ==> rest[i] in init
    requires forall i, j :: 0 <= i < j < |rest| ==> rest[i] != rest[j]
    requires forall i, j :: 0 <= i < j < |rest| ==> IndexOf(init, rest[i]) < IndexOf(init, rest[j])
    ensures var r := if x in rest then rest else rest + [x];
            var xs := init + [x];
            && (forall i :: 0 <= i < |xs| ==> xs[i] in r)
            && (forall i :: 0 <= i < |r| ==> r[i] in xs)
            && (forall i, j :: 0 <= i < j < |r| ==> r[i] != r[j])
            && (forall i, j :: 0 <= i < j < |r| ==> IndexOf(xs, r[i]) < IndexOf(xs, r[j]))
  {
    IndicesKept(init, x, rest);
    if x in rest {
      StepKeeps(init, x, rest);
    } else {
      StepAppends(init, x, rest);
      StepAppendsMembers(init, x, rest);
    }
  }

  /** An element already kept changes nothing. */
  lemma StepKeeps<T>(init: seq<T>, x: T, rest: seq<T>)
    requires x in rest
    requires forall i :: 0 <= i < |init| ==> init[i] in rest
    requires forall i :: 0 <= i < |rest| ==> rest[i] in init
    requires forall i, j :: 0 <= i < j < |rest| ==> IndexOf(init, rest[i]) < IndexOf(init, rest[j])
    requires forall i :: 0 <= i < |rest| ==> IndexOf(init + [x], rest[i]) == IndexOf(init, rest[i])
    ensures forall i :: 0 <= i < |init + [x]| ==> (init + [x])[i] in rest
    ensures forall i :: 0 <= i < |rest| ==> rest[i] in init + [x]
    ensures forall i, j :: 0 <= i < j < |rest| ==> IndexOf(init + [x], rest[i]) < IndexOf(init + [x], rest[j])
  {
    forall i | 0 <= i < |init + [x]| ensures (init + [x])[i] in rest {
      if i < |init| {
        assert (init + [x])[i] == init[i];
      }
    }
  }

  /** A new element is kept once, at the end. */
  lemma StepAppendsMembers<T>(init: seq<T>, x: T, rest: seq<T>)
    requires x !in rest
    requires forall i :: 0 <= i < |init| ==> init[i] in rest
    requires forall i :: 0 <= i < |rest| ==> rest[i] in init
    requires forall i, j :: 0 <= i < j < |rest| ==> rest[i] != rest[j]
    ensures forall i :: 0 <= i < |init + [x]| ==> (init + [x])[i] in rest + [x]
    ensures forall i :: 0 <= i < |rest + [x]| ==> (rest + [x])[i] in init + [x]
    ensures forall i, j :: 0 <= i < j < |rest + [x]| ==> (rest + [x])[i] != (rest + [x])[j]
  {
    var r := rest + [x];
    forall i | 0 <= i < |init + [x]| ensures (init + [x])[i] in r {
      if i < |init| {
        assert (init + [x])[i] == init[i];
      }
    }
    forall i | 0 <= i < |r| ensures r[i] in init + [x] {
      if i < |rest| {
        assert r[i] == rest[i];
      }
    }
    forall i, j | 0 <= i < j < |r| ensures r[i] != r[j] {
      assert r[i] == rest[i];
    }
  }

  /** Elements already present keep their first positions when one more
      element is appended. */
  lemma IndicesKept<T>(init: seq<T>, x: T, rest: seq<T>)
    requires forall i :: 0 <= i < |rest| ==> rest[i] in init
    ensures forall i :: 0 <= i < |rest| ==> IndexOf(init + [x], rest[i]) == IndexOf(init, rest[i])
  {
    forall i | 0 <= i < |rest| ensures IndexOf(init + [x], rest[i]) == IndexOf(init, rest[i]) {
      IndexOfPrefix(init, x, rest[i]);
    }
  }

  /** A new element goes last, after every earlier first occurrence. */
  lemma StepAppends<T>(init: seq<T>, x: T, rest: seq<T>)
    requires forall i :: 0 <= i < |init| ==> init[i] in rest
    requires forall i :: 0 <= i < |rest| ==> rest[i] in init
    requires forall i, j :: 0 <= i < j < |rest| ==> IndexOf(init, rest[i]) < IndexOf(init, rest[j])
    requires forall i :: 0 <= i < |rest| ==> IndexOf(init + [x], rest[i]) == IndexOf(init, rest[i])
    requires x !in rest
    ensures forall i, j :: 0 <= i < j < |rest + [x]| ==> IndexOf(init + [x], (rest + [x])[i]) < IndexOf(init + [x], (rest + [x])[j])
  {
    var xs := init + [x];
    assert x !in init;
    LastIndex(init, x);
    forall i | 0 <= i < |rest| ensures IndexOf(xs, rest[i]) < IndexOf(xs, x) {
      assert IndexOf(init, rest[i]) < |init|;
    }
    OrderAppend(xs, rest, x);
  }

  lemma LastIndex<T>(init: seq<T>, x: T)
    requires x !in init
    ensures IndexOf(init + [x], x) == |init|
  {
    assert forall k :: 0 <= k < |init| ==> (init + [x])[k] == init[k];
  }

  /** Appending an element whose first position lies after all the others'
      keeps a sequence ordered by first position. */
  lemma OrderAppend<T>(xs: seq<T>, rest: seq<T>, x: T)
    requires x in xs && forall i :: 0 <= i < |rest| ==> rest[i] in xs
    requires forall i, j :: 0 <= i < j < |rest| ==> IndexOf(xs, rest[i]) < IndexOf(xs, rest[j])
    requires forall i :: 0 <= i < |rest| ==> IndexOf(xs, rest[i]) < IndexOf(xs, x)
    ensures forall i, j :: 0 <= i < j < |rest + [x]| ==> IndexOf(xs, (rest + [x])[i]) < IndexOf(xs, (rest + [x])[j])
  {
    var r := rest + [x];
    forall i, j | 0 <= i < j < |r| ensures IndexOf(xs, r[i]) < IndexOf(xs, r[j]) {
      assert r[i] == rest[i];
      if j < |rest| {
        assert r[j] == rest[j];
      }
    }
  }
}

=== FILE: text_writer.dfy ===
/** `System.CodeDom.Compiler.IndentedTextWriter` as the emitters use it, and
    the two extension methods written on top of it: `WriteLines`, which copies
    a template line by line re-indenting it with the writer's tab string, and
    `WriteArray`, which writes one element per line separated by commas.

    The writer is the sequence of lines written so far, each with the indent
    level in force when it was written, plus the current indent level, the
    tab string and the line terminator. */
module TextWriter {
  import opened Wrappers
  import opened Text

  /** A line terminator; `Environment.NewLine` is never empty. */
  type NewLine = s: string | |s| > 0 witness "\n"

  datatype Line = Line(indent: nat, text: string)

  datatype Writer = Writer(lines: seq<Line>, indent: nat, tab: string, newLine: NewLine)

  /** A writer over an empty string writer. */
  function Create(tab: string, newLine: NewLine): (w: Writer)
    ensures w.lines == [] && w.indent == 0 && w.tab == tab && w.newLine == newLine
  {
    Writer([], 0, tab, newLine)
  }

  /** `WriteLine(text)`: one line at the current indent level. */
  function WriteLine(w: Writer, text: string): (w': Writer)
    ensures w'.lines == w.lines + [Line(w.indent, text)]
    ensures w'.indent == w.indent && w'.tab == w.tab && w'.newLine == w.newLine
  {
    w.(lines := w.lines + [Line(w.indent, text)])
  }

  /** The `Indent` setter, which turns a negative level into 0. */
  function SetIndent(w: Writer, value: int): (w': Writer)
    ensures w'.indent == if value < 0 then 0 else value
    ensures w'.lines == w.lines && w'.tab == w.tab && w'.newLine == w.newLine
  {
    w.(indent := if value < 0 then 0 else value)
  }

  /** The text of a line as it reaches the underlying writer: the tab string
      once per indent level (also on an empty line), the text, the terminator. */
  function RenderLine(l: Line, tab: string, newLine: string): (r: string)
    ensures |r| == l.indent * |tab| + |l.text| + |newLine|
  {
    Repeat(tab, l.indent) + l.text + newLine
  }

  function RenderLines(ls: seq<Line>, tab: string, newLine: string): string
  {
    if |ls| == 0 then "" else RenderLines(ls[..|ls| - 1], tab, newLine) + RenderLine(ls[|ls| - 1], tab, newLine)
  }

  /** `ToString()` of the string writer underneath. */
  function Render(w: Writer): string
  {
    RenderLines(w.lines, w.tab, w.newLine)
  }

  /** The texts of a sequence of lines. */
  function Texts(ls: seq<Line>): (r: seq<string>)
    ensures |r| == |ls| && forall i :: 0 <= i < |ls| ==> r[i] == ls[i].text
  {
    seq(|ls|, i requires 0 <= i < |ls| => ls[i].text)
  }

  /** The given texts as lines at one indent level. */
  function LinesAt(indent: nat, texts: seq<string>): (r: seq<Line>)
    ensures |r| == |texts| && forall i :: 0 <= i < |texts| ==> r[i] == Line(indent, texts[i])
  {
    seq(|texts|, i requires 0 <= i < |texts| => Line(indent, texts[i]))
  }

  /** One `WriteLine` per text, in order. */
  function WriteAll(w: Writer, texts: seq<string>): (w': Writer)
    ensures w'.indent == w.indent && w'.tab == w.tab && w'.newLine == w.newLine
    ensures w'.lines == w.lines + LinesAt(w.indent, texts)
    decreases |texts|
  {
    if |texts| == 0 then w
    else
      var w' := WriteAll(WriteLine(w, texts[0]), texts[1..]);
      LinesAtCons(w.lines, w.indent, texts);
      w'
  }

  lemma LinesAtCons(prior: seq<Line>, indent: nat, texts: seq<string>)
    requires |texts| > 0
    ensures prior + LinesAt(indent, texts) == (prior + [Line(indent, texts[0])]) + LinesAt(indent, texts[1..])
  {
    assert LinesAt(indent, texts) == [Line(indent, texts[0])] + LinesAt(indent, texts[1..]);
  }

  /** Strips the leading repetitions of `tpl` from `line`, compared ignoring
      case, and counts them. */
  function StripTemplate(line: string, tpl: string): (res: (nat, string))
    requires |tpl| > 0
    ensures res.0 * |tpl| + |res.1| == |line| && res.1 == line[res.0 * |tpl|..]
    ensures !StartsWithIgnoreCase(res.1, tpl)
    decreases |line|
  {
    if StartsWithIgnoreCase(line, tpl) then
      var (n, rest) := StripTemplate(line[|tpl|..], tpl);
      assert line[|tpl|..][n * |tpl|..] == line[(n + 1) * |tpl|..];
      (n + 1, rest)
    else (0, line)
  }

  /** One template line with each leading repetition of the template
      indentation replaced by one tab string; unchanged when the template
      indentation already is the tab string. */
  function Reindent(line: string, tpl: string, tab: string): string
    requires tpl != tab ==> |tpl| > 0
  {
    if tpl == tab then line
    else
      var (n, rest) := StripTemplate(line, tpl);
      Repeat(tab, n) + rest
  }

  /** Re-indenting keeps the number of indentation steps: `n` copies of the
      template indentation in front of a rest that does not start with it
      become `n` tab strings in front of the same rest. */
  lemma {:induction false} ReindentCount(n: nat, rest: string, tpl: string, tab: string)
    requires tpl != tab && |tpl| > 0
    requires !StartsWithIgnoreCase(rest, tpl)
    ensures Reindent(Repeat(tpl, n) + rest, tpl, tab) == Repeat(tab, n) + rest
    decreases n
  {
    StripRepeat(n, rest, tpl);
  }

  lemma {:induction false} StripRepeat(n: nat, rest: string, tpl: string)
    requires |tpl| > 0 && !StartsWithIgnoreCase(rest, tpl)
    ensures StripTemplate(Repeat(tpl, n) + rest, tpl) == (n, rest)
    decreases n
  {
    var line := Repeat(tpl, n) + rest;
    if n > 0 {
      assert line == tpl + (Repeat(tpl, n - 1) + rest);
      assert StartsWithIgnoreCase(line, tpl);
      assert line[|tpl|..] == Repeat(tpl, n - 1) + rest;
      StripRepeat(n - 1, rest, tpl);
    } else {
      assert line == rest;
    }
  }

  /** Indentation written in a different case still counts: `n` leading
      pieces that each equal the template only when case is ignored strip
      to `n`, and the rest is left as it is. */
  lemma {:induction false} StripVariants(pieces: seq<string>, rest: string, tpl: string)
    requires |tpl| > 0 && !StartsWithIgnoreCase(rest, tpl)
    requires forall k :: 0 <= k < |pieces| ==> EqualsIgnoreCase(pieces[k], tpl)
    ensures StripTemplate(Concat(pieces) + rest, tpl) == (|pieces|, rest)
    decreases |pieces|
  {
    var line := Concat(pieces) + rest;
    if |pieces| > 0 {
      var p := pieces[0];
      assert line == p + (Concat(pieces[1..]) + rest);
      forall i | 0 <= i < |tpl| ensures SameIgnoringCase(line[i], tpl[i]) {
        assert line[i] == p[i];
      }
      assert line[|tpl|..] == Concat(pieces[1..]) + rest;
      StripVariants(pieces[1..], rest, tpl);
    } else {
      assert line == rest;
    }
  }

  /** The pieces run together. */
  function Concat(pieces: seq<string>): string
    decreases |pieces|
  {
    if |pieces| == 0 then "" else pieces[0] + Concat(pieces[1..])
  }

  /** Re-indenting counts the case variants of the template too: `n` of them
      in front of the rest become `n` tab strings. */
  lemma ReindentVariants(pieces: seq<string>, rest: string, tpl: string, tab: string)
    requires tpl != tab && |tpl| > 0 && !StartsWithIgnoreCase(rest, tpl)
    requires forall k :: 0 <= k < |pieces| ==> EqualsIgnoreCase(pieces[k], tpl)
    ensures Reindent(Concat(pieces) + rest, tpl, tab) == Repeat(tab, |pieces|) + rest
  {
    StripVariants(pieces, rest, tpl);
  }

  /** `WriteLines(content, templateIndentation, indentation)`: the content is
      split at the writer's line terminator, empty pieces included; every
      piece is re-indented and written as a line, `indentation` levels deeper
      when that is positive. Termination of the strip loop needs a non-empty
      template indentation whenever it differs from the tab string. */
  function WriteLines(w: Writer, content: string, tpl: string := "\t", indentation: int := 0): (w': Writer)
    requires tpl != w.tab ==> |tpl| > 0
    ensures w'.indent == w.indent && w'.tab == w.tab && w'.newLine == w.newLine
    ensures w'.lines == w.lines + LinesAt(w.indent + (if indentation > 0 then indentation else 0),
                                          ReindentAll(SplitOn(content, w.newLine), tpl, w.tab))
  {
    var texts := ReindentAll(SplitOn(content, w.newLine), tpl, w.tab);
    if indentation > 0 then
      var w1 := WriteAll(SetIndent(w, w.indent + indentation), texts);
      SetIndent(w1, w1.indent - indentation)
    else WriteAll(w, texts)
  }

  /** Every piece re-indented. */
  function ReindentAll(pieces: seq<string>, tpl: string, tab: string): (r: seq<string>)
    requires tpl != tab ==> |tpl| > 0
    ensures |r| == |pieces| && forall i :: 0 <= i < |pieces| ==> r[i] == Reindent(pieces[i], tpl, tab)
    ensures tpl == tab ==> r == pieces
  {
    seq(|pieces|, i requires 0 <= i < |pieces| => Reindent(pieces[i], tpl, tab))
  }

  /** When the template is already indented with the tab string, the lines
      written put the content back together exactly. */
  lemma WriteLinesVerbatim(w: Writer, content: string, indentation: int)
    ensures var w' := WriteLines(w, content, w.tab, indentation);
            Join(Texts(w'.lines[|w.lines|..]), w.newLine) == content
  {
    var w' := WriteLines(w, content, w.tab, indentation);
    assert Texts(w'.lines[|w.lines|..]) == SplitOn(content, w.newLine);
    SplitJoin(content, w.newLine);
  }

  /** The line `WriteArray` writes for element `i`: a comma after every
      element except the last. */
  function ArrayItem(xs: seq<string>, i: nat): (r: string)
    requires i < |xs|
    ensures i == |xs| - 1 ==> r == xs[i]
    ensures i < |xs| - 1 ==> r == xs[i] + ","
  {
    if i == |xs| - 1 then xs[i] else xs[i] + ","
  }

  /** The texts `WriteArray` writes for an array: its elements with the
      commas placed. */
  function ArrayTexts(xs: seq<string>): (r: seq<string>)
    ensures |r| == |xs| && forall i :: 0 <= i < |xs| ==> r[i] == ArrayItem(xs, i)
  {
    seq(|xs|, i requires 0 <= i < |xs| => ArrayItem(xs, i))
  }

  /** `WriteArray(array)`: nothing for a null or empty array; otherwise one
      line per element, in order. */
  method WriteArray(w: Writer, items: Option<seq<string>>) returns (w': Writer)
    ensures w'.indent == w.indent && w'.tab == w.tab && w'.newLine == w.newLine
    ensures items.None? || |items.value| == 0 ==> w' == w
    ensures items.Some? ==>
      && |w'.lines| == |w.lines| + |items.value| && w'.lines[..|w.lines|] == w.lines
      && forall i :: 0 <= i < |items.value| ==> w'.lines[|w.lines| + i] == Line(w.indent, ArrayItem(items.value, i))
    ensures items.Some? ==> w'.lines == w.lines + LinesAt(w.indent, ArrayTexts(items.value))
  {
    w' := w;
    if items.None? || |items.value| == 0 {
      return;
    }
    var xs := items.value;
    var i := 0;
    while i < |xs|
      invariant 0 <= i <= |xs|
      invariant w'.indent == w.indent && w'.tab == w.tab && w'.newLine == w.newLine
      invariant |w'.lines| == |w.lines| + i && w'.lines[..|w.lines|] == w.lines
      invariant forall j :: 0 <= j < i ==> w'.lines[|w.lines| + j] == Line(w.indent, ArrayItem(xs, j))
    {
      w' := WriteLine(w', if i == |xs| - 1 then xs[i] else xs[i] + ",");
      i := i + 1;
    }
  }

  /** The texts of the array lines, run together, are the elements joined by
      commas. */
  lemma {:induction false} ArrayItemsJoin(xs: seq<string>)
    requires |xs| > 0
    ensures Join(seq(|xs|, i requires 0 <= i < |xs| => ArrayItem(xs, i)), "") == Join(xs, ",")
    decreases |xs|
  {
    var items := seq(|xs|, i requires 0 <= i < |xs| => ArrayItem(xs, i));
    if |xs| > 1 {
      var tail := seq(|xs| - 1, i requires 0 <= i < |xs| - 1 => ArrayItem(xs[1..], i));
      assert items[1..] == tail;
      ArrayItemsJoin(xs[1..]);
      assert Join(items, "") == items[0] + "" + Join(items[1..], "");
      assert items[0] == xs[0] + ",";
    }
  }
}

=== FILE: type_ext.dfy ===
/** Tests on a type symbol: the builder class name, the "cloneable type"
    test, the single-class-argument generic test and attribute lookup by
    short name. */
module TypeExtensions {
  import opened Wrappers
  import opened Symbols
  import StringExtensions

  /** `BuilderClassName`: the type's name made safe for a class name. */
  function BuilderClassName(t: TypeRef): (r: string)
    ensures r == StringExtensions.ToSafeClassName(t.name)
    ensures |r| == |t.name|
    ensures forall i :: 0 <= i < |r| ==> !StringExtensions.IsGenericPunctuation(r[i])
  {
    StringExtensions.ToSafeClassName(t.name)
  }

  /** The class part of the cloneable test. */
  predicate IsPlainCloneableClass(t: TypeRef)
  {
    t.kind == ClassKind && t.kind != EnumKind && !t.isAbstract && !t.isSealed
    && t.specialType == NoSpecialType && t.canBeReferencedByName
  }

  /** `IsCloneableType`. `&&` binds tighter than `||` in C#, so the test is
      "a reference record" or "a plain class". */
  predicate IsCloneableType(t: TypeRef)
  {
    (t.isReferenceType && t.isRecord) || IsPlainCloneableClass(t)
  }

  /** Any reference record is cloneable, abstract, sealed or special as it
      may be. */
  lemma ReferenceRecordIsCloneable(t: TypeRef)
    requires t.isReferenceType && t.isRecord
    ensures IsCloneableType(t)
  {
  }

  /** A non-record that is abstract or sealed, or is not a class, is never
      cloneable; a non-abstract, non-sealed, nameable class with no special
      type always is. */
  lemma NonRecordCloneable(t: TypeRef)
    requires !t.isRecord
    ensures IsCloneableType(t) <==>
      t.kind == ClassKind && !t.isAbstract && !t.isSealed && t.specialType == NoSpecialType && t.canBeReferencedByName
  {
  }

  /** `IsGenericWithClassArgument`. The type is cast to a named type first,
      which throws for any other type symbol. */
  function IsGenericWithClassArgument(t: TypeRef): (r: Result<bool>)
    ensures r.Err? <==> !t.isNamedType
    ensures r.Err? ==> r.error == InvalidCastException
    ensures r.Ok? ==> (r.value <==> t.isGenericType && t.typeArgumentKinds == [ClassKind])
  {
    if !t.isNamedType then Err(InvalidCastException)
    else Ok(t.isGenericType && |t.typeArgumentKinds| == 1 && t.typeArgumentKinds[0] == ClassKind)
  }

  /** An attribute whose class has the given short name; an unresolved
      attribute (no class) never matches. */
  predicate IsNamed(a: AttributeData, name: string)
  {
    a.attributeClass.Some? && a.attributeClass.value.name == name
  }

  predicate AnyNamed(attrs: seq<AttributeData>, name: string)
  {
    exists i :: 0 <= i < |attrs| && IsNamed(attrs[i], name)
  }

  /** `HasAttribute`: some attribute of the type has the given short name. */
  predicate HasAttribute(t: TypeRef, name: string)
  {
    AnyNamed(t.attributes, name)
  }

  /** Matching looks at the short name only: an attribute with the right
      short name matches whatever namespace it comes from. */
  lemma MatchesAnyNamespace(attrs: seq<AttributeData>, name: string, displayName: string)
    ensures AnyNamed(attrs + [AttributeData(Some(AttributeClass(name, displayName)), [])], name)
  {
    var a := AttributeData(Some(AttributeClass(name, displayName)), []);
    assert (attrs + [a])[|attrs|] == a;
  }

  /** Adding an unresolved attribute never changes the answer. */
  lemma UnresolvedNeverMatches(attrs: seq<AttributeData>, name: string, args: seq<int>)
    ensures AnyNamed(attrs + [AttributeData(None, args)], name) <==> AnyNamed(attrs, name)
  {
    var xs := attrs + [AttributeData(None, args)];
    if AnyNamed(attrs, name) {
      var i :| 0 <= i < |attrs| && IsNamed(attrs[i], name);
      assert xs[i] == attrs[i];
    }
    if AnyNamed(xs, name) {
      var i :| 0 <= i < |xs| && IsNamed(xs[i], name);
      assert i < |attrs| && xs[i] == attrs[i];
    }
  }
}

=== FILE: version.dfy ===
/** The version bump of the build script: a version string "major.minor.build"
    gets its build part increased; a build part of 9999 or more rolls over
    into the minor part, and a minor part of 99 or more into the major part.
    Shorter versions are read with "1" and "0" in front; a part that is not
    a number leaves the version as it was. */
module VersionBump {
  import opened Wrappers
  import opened Text
  import opened Numbers

  const BuildLimit: int := 9999
  const MinorLimit: int := 99

  /** The parts as the method works on them: two parts get a major part
      "1" in front, one part gets "1" and "0". */
  function Normalize(parts: seq<string>): (r: seq<string>)
    requires |parts| >= 1
    ensures |r| >= 3
  {
    if |parts| == 2 then ["1"] + parts
    else if |parts| == 1 then ["1", "0"] + parts
    else parts
  }

  /** The rollover on the normalized parts. `v` is what is returned when a
      part needed is not a number. With `intended` false this is the method
      as written: a minor rollover keeps the build part, and a major
      rollover computes the new major from the minor part. With `intended`
      true the build part restarts at 0 and the major comes from the major
      part. */
  function Bump(parts: seq<string>, v: string, intended: bool): string
    requires |parts| >= 3
  {
    match TryParseInt32(parts[2])
    case None => v
    case Some(build) =>
      if build < BuildLimit then Join(parts[..2] + [IntToString(build + 1)] + parts[3..], ".")
      else
        match TryParseInt32(parts[1])
        case None => v
        case Some(minor) =>
          if minor < MinorLimit then
            if intended then Join(parts[..1] + [IntToString(minor + 1), "0"] + parts[3..], ".")
            else Join(parts[..1] + [IntToString(minor + 1)] + parts[2..], ".")
          else if !intended then IntToString(Wrap32(minor + 1)) + ".0.0"
          else
            match TryParseInt32(parts[0])
            case None => v
            case Some(major) => IntToString(Wrap32(major + 1)) + ".0.0"
  }

  /** `ValidateAndIncreaseVersionNumber` as written. */
  function Increase(v: string): string
  {
    Bump(Normalize(SplitOn(v, ".")), v, false)
  }

  /** The bump with the build part reset and the major taken from the
      major part. */
  function BumpIntended(v: string): string
  {
    Bump(Normalize(SplitOn(v, ".")), v, true)
  }

  /** Parts that a dot-joined version string is made of. */
  predicate Undotted(xs: seq<string>)
  {
    forall i :: 0 <= i < |xs| ==> '.' !in xs[i]
  }

  lemma SplitJoined(xs: seq<string>)
    requires |xs| > 0 && Undotted(xs)
    ensures SplitOn(Join(xs, "."), ".") == xs
  {
    JoinSplit(xs, ".");
  }

  /** On a version of three or more parts the method bumps those parts. */
  lemma IncreaseParts(xs: seq<string>)
    requires |xs| >= 3 && Undotted(xs)
    ensures Increase(Join(xs, ".")) == Bump(xs, Join(xs, "."), false)
    ensures BumpIntended(Join(xs, ".")) == Bump(xs, Join(xs, "."), true)
  {
    SplitJoined(xs);
    assert Normalize(SplitOn(Join(xs, "."), ".")) == xs;
  }

  lemma BuildCase(xs: seq<string>, v: string, intended: bool, build: int)
    requires |xs| >= 3 && TryParseInt32(xs[2]) == Some(build) && build < BuildLimit
    ensures Bump(xs, v, intended) == Join(xs[..2] + [IntToString(build + 1)] + xs[3..], ".")
  {
  }

  lemma MinorCase(xs: seq<string>, v: string, intended: bool, build: int, minor: int)
    requires |xs| >= 3 && TryParseInt32(xs[2]) == Some(build) && build >= BuildLimit
    requires TryParseInt32(xs[1]) == Some(minor) && minor < MinorLimit
    ensures !intended ==> Bump(xs, v, intended) == Join(xs[..1] + [IntToString(minor + 1)] + xs[2..], ".")
    ensures intended ==> Bump(xs, v, intended) == Join(xs[..1] + [IntToString(minor + 1), "0"] + xs[3..], ".")
  {
  }

  lemma MajorCase(xs: seq<string>, v: string, intended: bool, build: int, minor: int)
    requires |xs| >= 3 && TryParseInt32(xs[2]) == Some(build) && build >= BuildLimit
    requires TryParseInt32(xs[1]) == Some(minor) && minor >= MinorLimit
    ensures !intended ==> Bump(xs, v, intended) == IntToString(Wrap32(minor + 1)) + ".0.0"
    ensures intended && TryParseInt32(xs[0]).Some? ==>
              Bump(xs, v, intended) == IntToString(Wrap32(TryParseInt32(xs[0]).value + 1)) + ".0.0"
  {
  }

  lemma UnchangedCase(xs: seq<string>, v: string, intended: bool)
    requires |xs| >= 3
    requires TryParseInt32(xs[2]).None?
             || (TryParseInt32(xs[2]).Some? && TryParseInt32(xs[2]).value >= BuildLimit && TryParseInt32(xs[1]).None?)
    ensures Bump(xs, v, intended) == v
  {
  }

  /** A build part below 9999 is increased by one; every other part,
      including any after the third, is kept. */
  lemma BuildIncreased(xs: seq<string>, build: int)
    requires |xs| >= 3 && Undotted(xs)
    requires TryParseInt32(xs[2]) == Some(build) && build < BuildLimit
    ensures Increase(Join(xs, ".")) == Join(xs[..2] + [IntToString(build + 1)] + xs[3..], ".")
  {
    IncreaseParts(xs);
    BuildCase(xs, Join(xs, "."), false, build);
  }

  /** A build part of 9999 or more with a minor part below 99 increases the
      minor part and keeps the build part. */
  lemma MinorIncreasedBuildKept(xs: seq<string>, build: int, minor: int)
    requires |xs| >= 3 && Undotted(xs)
    requires TryParseInt32(xs[2]) == Some(build) && build >= BuildLimit
    requires TryParseInt32(xs[1]) == Some(minor) && minor < MinorLimit
    ensures Increase(Join(xs, ".")) == Join(xs[..1] + [IntToString(minor + 1)] + xs[2..], ".")
  {
    IncreaseParts(xs);
    MinorCase(xs, Join(xs, "."), false, build, minor);
  }

  /** When both roll over, the new version is "{minor + 1}.0.0": the major
      part is computed from the minor part, with 32-bit wrap-around. */
  lemma MajorFromMinor(xs: seq<string>, build: int, minor: int)
    requires |xs| >= 3 && Undotted(xs)
    requires TryParseInt32(xs[2]) == Some(build) && build >= BuildLimit
    requires TryParseInt32(xs[1]) == Some(minor) && minor >= MinorLimit
    ensures Increase(Join(xs, ".")) == IntToString(Wrap32(minor + 1)) + ".0.0"
  {
    IncreaseParts(xs);
    MajorCase(xs, Join(xs, "."), false, build, minor);
  }

  /** A build part that is not a number, or a minor part that is not one
      when the build part rolls over, leaves the version unchanged. */
  lemma NonNumericUnchanged(xs: seq<string>)
    requires |xs| >= 3 && Undotted(xs)
    requires TryParseInt32(xs[2]).None?
             || (TryParseInt32(xs[2]).Some? && TryParseInt32(xs[2]).value >= BuildLimit && TryParseInt32(xs[1]).None?)
    ensures Increase(Join(xs, ".")) == Join(xs, ".")
  {
    IncreaseParts(xs);
    UnchangedCase(xs, Join(xs, "."), false);
  }

  /** "x.y" is bumped as "1.x.y" and "x" as "1.0.x", except that a version
      left alone is returned as given. */
  lemma ShortVersionsPrefixed(xs: seq<string>)
    requires 1 <= |xs| <= 2 && Undotted(xs)
    ensures |xs| == 2 ==> Increase(Join(xs, ".")) == Bump(["1"] + xs, Join(xs, "."), false)
    ensures |xs| == 1 ==> Increase(Join(xs, ".")) == Bump(["1", "0"] + xs, Join(xs, "."), false)
  {
    SplitJoined(xs);
  }

  /** The dot-joined rendering of three numbers. */
  function Render(major: int, minor: int, build: int): string
  {
    Join([IntToString(major), IntToString(minor), IntToString(build)], ".")
  }

  /** The parts of a rendered version are the three renderings. */
  lemma RenderParts(major: int, minor: int, build: int)
    ensures var xs := [IntToString(major), IntToString(minor), IntToString(build)];
            Undotted(xs) && Render(major, minor, build) == Join(xs, ".")
  {
    var xs := [IntToString(major), IntToString(minor), IntToString(build)];
    forall i | 0 <= i < |xs| ensures '.' !in xs[i] {
      if '.' in xs[i] {
        var k :| 0 <= k < |xs[i]| && xs[i][k] == '.';
      }
    }
  }

  lemma RenderZeros(major: int)
    ensures Render(major, 0, 0) == IntToString(major) + ".0.0"
  {
    assert IntToString(0) == "0";
    JoinCons(IntToString(major), ["0", "0"], ".");
    JoinCons("0", ["0"], ".");
  }

  /** The method as written on a rendered 32-bit version. */
  lemma IncreaseRendered(major: int, minor: int, build: int)
    requires IsInt32(major) && IsInt32(minor) && IsInt32(build)
    ensures Increase(Render(major, minor, build)) ==
              if build < BuildLimit then Render(major, minor, build + 1)
              else if minor < MinorLimit then Render(major, minor + 1, build)
              else Render(Wrap32(minor + 1), 0, 0)
  {
    if build < BuildLimit {
      IncreaseRenderedBuild(major, minor, build);
    } else if minor < MinorLimit {
      IncreaseRenderedMinor(major, minor, build);
    } else {
      IncreaseRenderedMajor(major, minor, build);
    }
  }

  /** The build branch of `IncreaseRendered`. */
  lemma IncreaseRenderedBuild(major: int, minor: int, build: int)
    requires IsInt32(major) && IsInt32(minor) && IsInt32(build) && build < BuildLimit
    ensures Increase(Render(major, minor, build)) == Render(major, minor, build + 1)
  {
    var xs := [IntToString(major), IntToString(minor), IntToString(build)];
    RenderParts(major, minor, build);
    IncreaseParts(xs);
    ParseRendered(build);
    BuildCase(xs, Join(xs, "."), false, build);
    assert xs[..2] + [IntToString(build + 1)] + xs[3..] == [IntToString(major), IntToString(minor), IntToString(build + 1)];
  }

  /** The minor branch of `IncreaseRendered`. */
  lemma IncreaseRenderedMinor(major: int, minor: int, build: int)
    requires IsInt32(major) && IsInt32(minor) && IsInt32(build) && build >= BuildLimit && minor < MinorLimit
    ensures Increase(Render(major, minor, build)) == Render(major, minor + 1, build)
  {
    var xs := [IntToString(major), IntToString(minor), IntToString(build)];
    RenderParts(major, minor, build);
    IncreaseParts(xs);
    ParseRendered(build);
    ParseRendered(minor);
    MinorCase(xs, Join(xs, "."), false, build, minor);
    assert xs[..1] + [IntToString(minor + 1)] + xs[2..] == [IntToString(major), IntToString(minor + 1), IntToString(build)];
  }

  /** The major branch of `IncreaseRendered`. */
  lemma IncreaseRenderedMajor(major: int, minor: int, build: int)
    requires IsInt32(major) && IsInt32(minor) && IsInt32(build) && build >= BuildLimit && minor >= MinorLimit
    ensures Increase(Render(major, minor, build)) == Render(Wrap32(minor + 1), 0, 0)
  {
    var xs := [IntToString(major), IntToString(minor), IntToString(build)];
    RenderParts(major, minor, build);
    IncreaseParts(xs);
    ParseRendered(build);
    ParseRendered(minor);
    MajorCase(xs, Join(xs, "."), false, build, minor);
    RenderZeros(Wrap32(minor + 1));
  }

  /** The intended bump on a rendered 32-bit version. */
  lemma IntendedRendered(major: int, minor: int, build: int)
    requires IsInt32(major) && IsInt32(minor) && IsInt32(build)
    ensures BumpIntended(Render(major, minor, build)) ==
              if build < BuildLimit then Render(major, minor, build + 1)
              else if minor < MinorLimit then Render(major, minor + 1, 0)
              else Render(Wrap32(major + 1), 0, 0)
  {
    var xs := [IntToString(major), IntToString(minor), IntToString(build)];
    RenderParts(major, minor, build);
    IncreaseParts(xs);
    ParseRendered(build);
    ParseRendered(minor);
    if build < BuildLimit {
      IntendedBuild(xs, major, minor, build);
    } else if minor < MinorLimit {
      IntendedMinor(xs, major, minor, build);
    } else {
      ParseRendered(major);
      MajorCase(xs, Join(xs, "."), true, build, minor);
      RenderZeros(Wrap32(major + 1));
    }
  }

  lemma IntendedBuild(xs: seq<string>, major: int, minor: int, build: int)
    requires IsInt32(build) && build < BuildLimit
    requires xs == [IntToString(major), IntToString(minor), IntToString(build)]
    requires Undotted(xs) && TryParseInt32(xs[2]) == Some(build)
    ensures Bump(xs, Join(xs, "."), true) == Render(major, minor, build + 1)
  {
    BuildCase(xs, Join(xs, "."), true, build);
    assert xs[..2] + [IntToString(build + 1)] + xs[3..] == [IntToString(major), IntToString(minor), IntToString(build + 1)];
  }

  lemma IntendedMinor(xs: seq<string>, major: int, minor: int, build: int)
    requires IsInt32(build) && build >= BuildLimit && IsInt32(minor) && minor < MinorLimit
    requires xs == [IntToString(major), IntToString(minor), IntToString(build)]
    requires Undotted(xs) && TryParseInt32(xs[2]) == Some(build) && TryParseInt32(xs[1]) == Some(minor)
    ensures Bump(xs, Join(xs, "."), true) == Render(major, minor + 1, 0)
  {
    MinorCase(xs, Join(xs, "."), true, build, minor);
    assert IntToString(0) == "0";
    assert xs[..1] + [IntToString(minor + 1), "0"] + xs[3..] == [IntToString(major), IntToString(minor + 1), IntToString(0)];
  }

  /** A version in canonical form: minor at most 99, build at most 9999,
      major below the 32-bit limit, none negative. */
  predicate Canonical(major: int, minor: int, build: int)
  {
    0 <= major < Int32Max && 0 <= minor <= MinorLimit && 0 <= build <= BuildLimit
  }

  /** A canonical version's position in the order of versions. */
  function Rank(major: int, minor: int, build: int): int
  {
    (major * (MinorLimit + 1) + minor) * (BuildLimit + 1) + build
  }

  /** The intended bump on a canonical version gives the next canonical
      version: its rank is one higher. */
  lemma IntendedIsSuccessor(major: int, minor: int, build: int)
    requires Canonical(major, minor, build)
    ensures exists a, b, c :: BumpIntended(Render(major, minor, build)) == Render(a, b, c)
                              && 0 <= a && 0 <= b <= MinorLimit && 0 <= c <= BuildLimit
                              && Rank(a, b, c) == Rank(major, minor, build) + 1
  {
    IntendedRendered(major, minor, build);
    if build < BuildLimit {
      assert Rank(major, minor, build + 1) == Rank(major, minor, build) + 1;
    } else if minor < MinorLimit {
      assert Rank(major, minor + 1, 0) == Rank(major, minor, build) + 1;
    } else {
      assert Wrap32(major + 1) == major + 1;
      assert Rank(major + 1, 0, 0) == Rank(major, minor, build) + 1;
    }
  }

  /** As written, the bump is not the successor: "1.5.9999" becomes
      "1.6.9999", ten thousand versions later, and "1.99.9999" becomes
      "100.0.0"; the intended bump gives "1.6.0" and "2.0.0". */
  lemma AsWrittenSkipsVersions()
    ensures Increase(Render(1, 5, 9999)) == Render(1, 6, 9999)
    ensures Rank(1, 6, 9999) - Rank(1, 5, 9999) == 10000
    ensures Increase(Render(1, 99, 9999)) == Render(100, 0, 0)
    ensures BumpIntended(Render(1, 5, 9999)) == Render(1, 6, 0)
    ensures BumpIntended(Render(1, 99, 9999)) == Render(2, 0, 0)
  {
    IncreaseRendered(1, 5, 9999);
    IncreaseRendered(1, 99, 9999);
    IntendedRendered(1, 5, 9999);
    IntendedRendered(1, 99, 9999);
  }
}

=== FILE: wrappers.dfy ===
/** Failure-carrying wrappers and the exceptions the modelled C# code can
    throw. A C# `null` is modelled as `None`; a thrown exception as `Err`. */
module Wrappers {

  datatype Option<+T> = None | Some(value: T) {

    /** The value, or `default` when there is none (C#'s `??`). */
    function GetOr(default: T): T
    {
      match this
      case Some(v) => v
      case None => default
    }
  }

  /** The .NET exception types that the modelled code can raise. */
  datatype Exception =
    | ArgumentException
    | ArgumentNullException
    | ArgumentOutOfRangeException
    | InvalidCastException
    | NullReferenceException
    | IndexOutOfRangeException

  datatype Result<+T> = Ok(value: T) | Err(error: Exception) {

    predicate IsFailure()
    {
      Err?
    }

    function PropagateFailure<U>(): Result<U>
      requires Err?
    {
      Err(error)
    }

    function Extract(): T
      requires Ok?
    {
      value
    }
  }
}
